=== FILE: README.md ===
# Typed Blockly core in Dafny

A model of the core of a Blockly fork that adds typed, OCaml-like blocks. Each part below is a set of immutable datatypes and pure functions with contracts, plus lemmas relating the operations to each other or to independent reference definitions.

- **Type expressions** (`core/type_expr.js`). The TypeExpr variants and the type-variable store: `deref`, `deepDeref`, `clear`, `equals`, `disconnect`, the occurs check, destructive `unify`, `ableToUnify`, `createFunType`/`functionToArray`, and the spreadsheet-column type-variable names.
  - Modules `TypeExpr`, `TypeSubst`, `TypeUnify` and `TypeVarNames`.
  - A TVAR's `val` link is an entry in a map from variable name to type, so each mutation is a store update.
  - A CONSTRUCT's shared id is a cell in a second map.
  - Unification failures (the source's assertion throws) are `Failure` results.
- **Typing rules of the typed blocks** (`blocks/typed_blocks.js`, `blocks/datatypes.js`).
  - `TypedBlocks`: every `infer` function is a case of one checker over an expression tree, reusing the unifier.
  - `TypedBlocksSound`: an independent typing judgement, with the proof that inference is sound for it.
  - `Scopes` models `getVisibleVariables`; `DataTypes` models the datatype blocks.
- **Rendered type notches** (`core/rendered_type_expr.js`, module `RenderedTypes`): heights, child offsets, type-variable highlights and the drawing steps.
- **Block helpers** (`core/block.js`, module `Blocks`): input moves, `interpolate_` validation, inline inputs, colours, pair patterns, block trees, reference resolution and orphan rules.
- **Connections** (`core/connection.js`, `core/connection_db.js`): the ordered connection check, type checks and connection state (`Connections`), and the y-sorted connection database with its binary search and radius walk (`ConnectionDb`).
- **Workspaces**:
  - top blocks, undo/redo stacks, options and databases (`core/workspace.js`, `Workspaces`);
  - the workspace tree (`core/workspace_tree.js`, `WorkspaceTree`);
  - the pattern and type workbenches (`Workbenches`).
- **Bound variables** (`core/bound_variables.js`, `core/bound_variable_value.js`, `core/bound_variable_reference.js`, `core/typed_variable_value.js`, module `BoundVariables`): the id-keyed databases of values and references and their reference lists, as one state record.
- **TypedLang code generators** (`generators/typedlang.js` and `generators/typedlang/*.js`):
  - modules `TypedLang`, `TypedLangBlocks`, `TypedLangLogic`, `TypedLangText` and `TypedLangLists`;
  - each child's generated code is an opaque string, and `""` stands for a missing child.
- **Documentation updater** (`update_docs.py`, module `UpdateDocs`): the `verify_sourcepath` normalisation of the source map.

`edit_copied_files` (update_docs.py:31-36) has an empty body; its comment lists three edits it does not yet make (load compressed files, change the page title, drop the path and media options), so the model has no editing step.

`Wrappers` (Option and Result) and `Lists` (sequence helpers) support the other modules.

## Model

| member | source | states |
|---|---|---|
| Lists.IndexOf | core/bound_variables.js:57-65 | the index found holds the value and no earlier position does |
| Lists.RemoveFirst | core/bound_variables.js:57-65 | `splice(indexOf(x), 1)` removes exactly the first occurrence: one element fewer, the multiset loses one copy of `x`, everything else keeps its order |
| Lists.RemoveAppended | core/bound_variables.js:41-65 | removing a value that was just pushed (and was absent before) restores the list |
| Lists.RemoveFirstDistinct | core/bound_variables.js:57-65 | removal keeps a repetition-free list repetition-free and the removed value is gone |
| TypeExpr.DerefFrom | core/type_expr.js:193-199 | `deref` returns anything other than a bound variable unchanged and only ever steps through bound variables |
| TypeExpr.DeepDerefFrom | core/type_expr.js:204-206 | `deepDeref` keeps the shape of LIST, PAIR and FUN and returns every other non-variable expression as it is |
| TypeExpr.Clear | core/type_expr.js:178-180 | `clear` unbinds exactly the given variable; every other binding and every constructor id stays |
| TypeExpr.DisconnectFrom | core/type_expr.js:914-931 | one direction of `disconnect` removes at most one binding, and only one that pointed at the child variable |
| TypeExpr.Disconnect | core/type_expr.js:914-931 | `disconnect` only removes bindings, and only ones that point at one of the two expressions |
| TypeExpr.CreateFunType | core/type_expr.js:992-1002 | the result is a function type whose argument is the first type |
| TypeExpr.FunctionToArray | core/type_expr.js:1004-1016 | the array is empty exactly when the expression does not dereference to a function, and otherwise holds at least two types |
| TypeExpr.FunctionToArrayCreate | core/type_expr.js:992-1016 | `functionToArray` inverts `createFunType`: arguments back in order, then the dereferenced result |
| TypeExpr.CreateFunTypeLoop | core/type_expr.js:992-1002 | the loop from the end builds the right-nested function type |
| TypeExpr.Equals | core/type_expr.js:954-984 | two expressions are `equals` only with the same label, never when they are type constructors, and two CONSTRUCTs only when both ids are known and equal |
| TypeSubst.DerefUnfold | core/type_expr.js:193-199 | `deref` of a bound variable is `deref` of its value |
| TypeSubst.DerefNotBound | core/type_expr.js:193-199 | on an acyclic store `deref` never returns a bound variable |
| TypeSubst.DerefResolve | core/type_expr.js:193-199 | `deref` preserves the type an expression denotes and is idempotent |
| TypeSubst.DerefMono | core/type_expr.js:193-199 | once an expression dereferences to a function, further bindings do not change it |
| TypeSubst.DeepDerefUnfold | core/type_expr.js:675-680 | `deepDeref` of a bound variable is `deepDeref` of its value |
| TypeSubst.DeepDerefNoBound | core/type_expr.js:204-206 | no bound variable survives in the rebuilt part of a `deepDeref` result |
| TypeSubst.DeepDerefFixed | core/type_expr.js:204-206 | an expression without bound variables is its own `deepDeref` |
| TypeSubst.DeepDerefIdempotent | core/type_expr.js:204-206 | `deepDeref` twice is `deepDeref` once |
| TypeSubst.DeepDerefResolve | core/type_expr.js:204-206 | `deepDeref` preserves the type an expression denotes |
| TypeSubst.ResolveCompose | core/type_expr.js:818-873 | substituting in a store and then in an extension of it equals substituting in the extension |
| TypeSubst.ResolveIdempotent | core/type_expr.js:818-873 | full substitution is idempotent |
| TypeSubst.AgreeMono | core/type_expr.js:818-873 | two expressions that denote the same type still do after further bindings |
| TypeSubst.AgreeResolve | core/type_expr.js:818-873 | agreement survives substitution |
| TypeSubst.UnifiedMono | core/type_expr.js:818-873 | what a store has unified stays unified when unification adds bindings |
| TypeSubst.UnifiedTrans | core/type_expr.js:818-873 | being unified is transitive |
| TypeSubst.EqualsAgree | core/type_expr.js:954-984 | expressions that are `equals` denote the same type in every store |
| TypeSubst.EqualsUnified | core/type_expr.js:954-984 | expressions that are `equals` are unified by every acyclic store |
| TypeUnify.UnifyWith | core/type_expr.js:818-873 | a successful `unify` only adds bindings and constructor ids, never changes one |
| TypeUnify.UnifyVar | core/type_expr.js:836-849 | the variable case only adds bindings |
| TypeUnify.UnifyConstruct | core/type_expr.js:850-861 | two constructor cells unify exactly when at least one id is known and known ids are equal; afterwards both cells hold the same id and no variable binding changed |
| TypeUnify.Occurs | core/type_expr.js:880-891 | with the occurs check corrected to look inside patterns, every variable written in an expression occurs in it |
| TypeUnify.OccursAsWrittenImplies | core/type_expr.js:880-891 | the source's occurs check, which skips patterns, finds an occurrence only where the corrected check finds one |
| TypeUnify.UnifyAsWritten | core/type_expr.js:818-873 | `unify` as the source writes it: a success only adds bindings and constructor ids |
| TypeUnify.Unify | core/type_expr.js:818-873 | `unify` with the corrected occurs check: a success only adds bindings and constructor ids |
| TypeUnify.AbleToUnify | core/type_expr.js:898-907 | `ableToUnify` answers with the source's `unify` and holds whenever the corrected `unify` succeeds |
| TypeUnify.AsWrittenAgrees | core/type_expr.js:818-891 | wherever the corrected `unify` succeeds, the source's `unify` gives the same store |
| TypeUnify.AsWrittenOrOccurrence | core/type_expr.js:818-891 | wherever the source's `unify` succeeds, the corrected one gives the same store or the occurrence error: the two differ only by the occurs check |
| TypeUnify.OccursResolve | core/type_expr.js:880-891 | the occurs check of an unbound variable holds exactly when the variable appears in the substituted expression |
| TypeUnify.BindRanked | core/type_expr.js:836-849 | binding an unbound variable to an expression it does not occur in keeps the store acyclic |
| TypeUnify.UnifySound | core/type_expr.js:818-873 | a successful `unify` on an acyclic store gives an acyclic extension in which both expressions denote the same type |
| TypeUnify.UnifyVarSound | core/type_expr.js:836-849 | the variable case of the soundness theorem |
| TypeUnify.UnifyChildrenSound | core/type_expr.js:862-872 | unifying the right children and then the left ones leaves both pairs unified |
| TypeUnify.AbleToUnifySound | core/type_expr.js:898-907 | `ableToUnify` holds only when some acyclic extension of the store unifies the two expressions, or when the corrected `unify` reports an occurrence the source's occurs check missed under a pattern |
| TypeUnify.UnifySameName | core/type_expr.js:836-844 | two variables of the same name unify without any change |
| TypeUnify.UnifyTwoUnbound | core/type_expr.js:836-849 | of two unbound variables the second is bound to the first |
| TypeUnify.UnifyUnbound | core/type_expr.js:836-849 | an unbound variable against a structured type is bound to it unless it occurs in it (then the occurrence error), from either side |
| TypeUnify.UnifyRejects | core/type_expr.js:818-873 | the store-independent errors: mismatched labels, type constructors or patterns against a different label, two unknown constructors, two known constructors with different ids |
| TypeUnify.EqualsUnifyNoOp | core/type_expr.js:954-984 | `unify` of two `equals` expressions leaves the store untouched |
| TypeUnify.ClearUndoesBind | core/type_expr.js:178-180 | `clear` undoes the binding that `unify` gives an unbound variable |
| TypeUnify.DisconnectUndoesUnify | core/type_expr.js:914-931 | `disconnect` undoes the link `unify` makes between two unbound variables |
| TypeUnify.RankedNoSelf | core/type_expr.js:880-891 | an acyclic store never binds a variable to an expression that mentions it |
| TypeUnify.OccursSkipsPatterns | core/type_expr.js:880-891 | with the occurs check as written, `A` unifies with LIST(PATTERN(A)) and the store becomes cyclic; the corrected check refuses it |
| TypeVarNames.ExcelColumn | core/type_expr.js:698-714 | the name is a column name (capital letters, no leading zero digit) and is empty exactly for 0 |
| TypeVarNames.ColumnValueOfExcelColumn | core/type_expr.js:698-714 | reading a column name back gives its counter |
| TypeVarNames.ExcelColumnOfColumnValue | core/type_expr.js:698-714 | every column name is the name of its value |
| TypeVarNames.ExcelColumnInjective | core/type_expr.js:698-714 | different counters give different names |
| TypeVarNames.ExcelColumnLoop | core/type_expr.js:698-714 | the digit loop with its final reversal computes the column name |
| TypeVarNames.GenerateTypeVar | core/type_expr.js:719-729 | a fresh unbound variable named after the counter, and the counter advanced by one |
| TypeVarNames.GeneratedNamesDistinct | core/type_expr.js:719-729 | names drawn from the counter are pairwise distinct and non-empty |
| TypeVarNames.ExcelColumnExamples | core/type_expr.js:698-714 | (worked examples, not a general property) 1 is A, 26 is Z, 27 is AA, 52 is AZ, 703 is AAA |
| TypedBlocks.ParamTypes | blocks/typed_blocks.js:1698-1761 | the argument types of a `let`, one per argument, in order |
| TypedBlocks.InferOpt | core/block.js:2022-2035 | an empty input yields no type; a connected block yields its output type, and the store only gains bindings |
| TypedBlocks.Infer | blocks/typed_blocks.js:66-1761 | a successful `infer` returns the output type the block created in `init` and only adds bindings to the store |
| TypedBlocks.InferBinOp | blocks/typed_blocks.js:66-75 | logic, int, float and concatenation operators return their fixed operand type and only add bindings |
| TypedBlocks.InferUnary | blocks/typed_blocks.js:98-104 | `not` and `string_of_int` return bool and string and only add bindings |
| TypedBlocks.InferCompare | blocks/typed_blocks.js:161-170 | comparison returns bool and only adds bindings |
| TypedBlocks.InferTernary | blocks/typed_blocks.js:203-216 | the ternary returns its shared branch type and only adds bindings |
| TypedBlocks.InferItems | blocks/typed_blocks.js:592-600 | the item loop of the list constructor only adds bindings |
| TypedBlocks.InferCons | blocks/typed_blocks.js:641-653 | cons returns the list of its element type and only adds bindings |
| TypedBlocks.InferPairCreate | blocks/typed_blocks.js:684-693 | pair creation returns the pair of its two component types and only adds bindings |
| TypedBlocks.InferProjection | blocks/typed_blocks.js:718-759 | `fst` and `snd` return the selected component type and only add bindings |
| TypedBlocks.InferLambda | blocks/typed_blocks.js:973-983 | a lambda returns FUN(argument, result) and only adds bindings |
| TypedBlocks.InferApp | blocks/typed_blocks.js:1010-1020 | application returns the function's result type and only adds bindings |
| TypedBlocks.InferArms | blocks/typed_blocks.js:1235-1255 | the arm loop of `match` only adds bindings |
| TypedBlocks.InferMatch | blocks/typed_blocks.js:1235-1255 | `match` returns its output type and only adds bindings |
| TypedBlocks.InferVar | blocks/typed_blocks.js:1302-1321 | a variable reference returns its own type and only adds bindings |
| TypedBlocks.InferLet | blocks/typed_blocks.js:1698-1761 | `let` returns EXP2's type (nothing for the statement form) and only adds bindings |
| TypedBlocksSound.TypedMono | blocks/typed_blocks.js:66-1761 | a well-typed tree stays well-typed as later inference adds bindings |
| TypedBlocksSound.UnifyOptSound | blocks/typed_blocks.js:66-75 | `if (t) t.unify(expected)` leaves an acyclic store in which the present type is unified with the expected one |
| TypedBlocksSound.ExpectOptSound | blocks/typed_blocks.js:1235-1255 | `if (t) expected.unify(t)` leaves an acyclic store in which the present type is unified with the expected one |
| TypedBlocksSound.InferOptSound | core/block.js:2022-2035 | inferring an input that holds a block leaves that block well-typed |
| TypedBlocksSound.InferSound | blocks/typed_blocks.js:66-1761 | a successful inference on an acyclic store leaves an acyclic store in which every block of the tree meets its typing rule |
| TypedBlocksSound.InferBinOpSound | blocks/typed_blocks.js:66-75 | both operands of a binary operator are unified with its operand type |
| TypedBlocksSound.InferUnarySound | blocks/typed_blocks.js:98-104 | the operand of `not` is bool and that of `string_of_int` is int |
| TypedBlocksSound.InferCompareSound | blocks/typed_blocks.js:161-170 | both sides of a comparison share the element type |
| TypedBlocksSound.InferTernarySound | blocks/typed_blocks.js:203-216 | the condition is bool and both branches have the output type |
| TypedBlocksSound.InferItemsSound | blocks/typed_blocks.js:592-600 | every item of the list constructor has the element type |
| TypedBlocksSound.InferConsSound | blocks/typed_blocks.js:641-653 | the head has the element type and the tail the list type |
| TypedBlocksSound.InferPairCreateSound | blocks/typed_blocks.js:684-693 | each component has its declared type |
| TypedBlocksSound.InferProjectionSound | blocks/typed_blocks.js:718-759 | the argument of `fst`/`snd` is a pair of the two component types |
| TypedBlocksSound.InferLambdaSound | blocks/typed_blocks.js:973-983 | the body is typed with the result type in an environment that binds the parameter monomorphically |
| TypedBlocksSound.InferAppSound | blocks/typed_blocks.js:1010-1020 | the function input is FUN(argument, result) and the argument input has the argument type |
| TypedBlocksSound.InferArmsSound | blocks/typed_blocks.js:1235-1255 | every pattern is PATTERN(input type) and every arm output has the output type |
| TypedBlocksSound.InferMatchSound | blocks/typed_blocks.js:1235-1255 | the whole `match` block meets its typing rule |
| TypedBlocksSound.InferVarSound | blocks/typed_blocks.js:1302-1321 | a reference's type is unified with its scheme from the environment, or with the orphan scheme when orphans may be unified |
| TypedBlocksSound.InferLetSound | blocks/typed_blocks.js:1698-1761 | the bound value, the arguments and the body are typed in the environments the `let` gives them, generalising only function types |
| Scopes.LambdaVisible | blocks/typed_blocks.js:942-962 | a lambda's argument is visible through RETURN and nowhere else |
| Scopes.ArgBinders | blocks/typed_blocks.js:1406-1411 | writing the arguments keeps every name already there and adds every argument name |
| Scopes.LetVisible | blocks/typed_blocks.js:1391-1414 | the statement form throws exactly for EXP2 and any other connection besides EXP1 and next; outside EXP1 only the bound name can be visible, and it is exactly when its field is in scope there |
| Scopes.ArgBindersKeys | blocks/typed_blocks.js:1391-1414 | writing the `let` arguments into the map adds exactly their names |
| Scopes.ArgBindersLast | blocks/typed_blocks.js:1391-1414 | an argument name repeated among the arguments is bound to its last position |
| Scopes.LetScope | blocks/typed_blocks.js:1391-1414 | nothing is visible without a connection; the statement form fails for any connection other than EXP1 and next; the bound name is visible in EXP2 or next, and in EXP1 only when recursive; the arguments are visible exactly in EXP1 |
| Scopes.MatchVisible | blocks/typed_blocks.js:1047-1066 | the names visible in OUTPUTi are what the block in PATTERNi declares; without a connection nothing is visible; without such a pattern block the result is undefined |
| DataTypes.DigitRun | blocks/datatypes.js:50-61 | the digit run of `parseInt` ends exactly at the first character that is not a digit of the radix |
| DataTypes.SkipSpaces | blocks/datatypes.js:50-61 | `parseInt` skips a leading run of white space and stops at the first other character |
| DataTypes.SkipSpacesExact | blocks/datatypes.js:50-61 | what `parseInt` skips is all white space and what it keeps does not start with white space: exactly the leading white space is removed |
| DataTypes.ParseInt | blocks/datatypes.js:50-61 | `parseInt` reads nothing from blank text, and a negative result comes from a leading minus after the space |
| DataTypes.ParseIntDecimal | blocks/datatypes.js:50-61 | `parseInt` of decimal digits not starting with 0x reads their value |
| DataTypes.ParseIntSpace | blocks/datatypes.js:50-61 | a leading space does not change what `parseInt` reads |
| DataTypes.ParseIntMinus | blocks/datatypes.js:50-61 | a leading minus negates a decimal number |
| DataTypes.MinusOfUnsigned | blocks/datatypes.js:50-61 | a minus sign before any unsigned numeral `parseInt` reads gives the negated value |
| DataTypes.DefineDatatype | blocks/datatypes.js:14-43 | the declaration makes two constructor cells carrying the same fresh id, two items, and is not transferable; no variable binding changes |
| DataTypes.DatatypeScheme | blocks/datatypes.js:50-61 | a scheme is always the type of one of the two constructors; only a "CTR" name that `parseInt` reads can fail; any other name gives no scheme |
| DataTypes.DatatypeConstructorsAgree | blocks/datatypes.js:14-43 | the two constructor types of one declaration are `equals` and unifying them changes nothing |
| DataTypes.DatatypeSchemeSpec | blocks/datatypes.js:50-61 | a field name yields a scheme exactly when it is "CTR" followed by text `parseInt` reads as 0 or 1, and then the scheme is that constructor's type; a negative number is an error; anything else yields nothing |
| DataTypes.DatatypeSchemeDigit | blocks/datatypes.js:50-61 | "CTR0" and "CTR1" give their constructors and "CTR2".."CTR9" nothing |
| DataTypes.DatatypeSchemeNegative | blocks/datatypes.js:50-61 | "CTR-1".."CTR-9" pass the `x < itemCount_` test and name no field, which is an error |
| DataTypes.TypeExprReplaced | blocks/datatypes.js:45-47 | replacing a constructor's type is always refused |
| DataTypes.CreateConstruct | blocks/datatypes.js:64-75 | a constructor reference starts as a CONSTRUCT with no known id |
| DataTypes.ConstructorReferenceTakesId | blocks/datatypes.js:14-75 | a constructor reference unified with a declared constructor takes over the declaration's id |
| DataTypes.TypeBlocksOutput | blocks/datatypes.js:77-97 | the `int` and `float` type blocks output a type constructor, which unifies only with another type constructor |
| RenderedTypes.OffsetsY | core/rendered_type_expr.js:102-104 | one vertical offset per child of the shape |
| RenderedTypes.TypeExprHeight | core/rendered_type_expr.js:305-309 | `getTypeExprHeight` is never lower than the lowest leaf notch |
| RenderedTypes.Highlights | core/rendered_type_expr.js:283-303 | `typeVarHighlights_` gives one highlight per type-variable leaf |
| RenderedTypes.HeightAtLeastLeaf | core/rendered_type_expr.js:78-255 | every notch is at least as high as the lowest leaf notch (20, or the plain tab when lower), and a composite notch is higher than each child's |
| RenderedTypes.ChildrenInside | core/rendered_type_expr.js:98-185 | each child's notch lies wholly within its parent's notch |
| RenderedTypes.DeepDerefOfDeref | core/rendered_type_expr.js:305-309 | dereferencing before the deep dereference of the drawing changes nothing |
| RenderedTypes.TypeExprHeightUnfold | core/rendered_type_expr.js:305-309 | `getTypeExprHeight` dereferences, then takes the height of the shape found: 20 for primitives, 25 for a variable, the children's heights plus the frame for LIST, PAIR and FUN |
| RenderedTypes.HighlightsSpec | core/rendered_type_expr.js:277-303 | one highlight per type-variable leaf, in left-to-right order, each inside the notch and below the previous one |
| RenderedTypes.Steps | core/rendered_type_expr.js:315-328 | the drawing pushes exactly one step per node of the dereferenced tree |
| RenderedTypes.StepsAsWritten | core/rendered_type_expr.js:64-76 | when the drawing as written succeeds it pushes one step per node of the tree |
| RenderedTypes.StepsAsWrittenSpec | core/rendered_type_expr.js:64-76 | the shape as written draws like the corrected one, except that drawing up through a plain tab fails on the undefined `steps` |
| RenderedTypes.StringUpFails | core/rendered_type_expr.js:72-76 | a string type drawn upwards stops the drawing as written, while drawing it down works |
| RenderedTypes.PairStepsOrder | core/rendered_type_expr.js:107-132 | a pair drawn down visits its first child right after the opening step; drawn up, its second child |
| RenderedTypes.FunStepsOrder | core/rendered_type_expr.js:161-186 | a function type drawn down visits its argument right after the opening step; drawn up, its result |
| RenderedTypes.GetPath | core/rendered_type_expr.js:330-334 | `getPath` fails with the direction error exactly when the direction is neither 'up' nor 'down', and with the undefined-`steps` error exactly when a plain tab is drawn upwards |
| RenderedTypes.GetPathJoinsSteps | core/rendered_type_expr.js:330-334 | a successful `getPath` is the corrected steps joined by spaces, one per node; drawing down always succeeds |
| Workbenches.AcceptBlock | core/pattern_workbench.js:85-95 | a block enters exactly when its output type is a pattern (type constructor for the type workbench); a refusal is recorded once, and only when a collector is given |
| Workbenches.AcceptedKindSurvivesDeref | core/type_workbench.js:87-96 | an accepted type is already of the workbench's kind; dereferencing does not change it |
| Workbenches.BoundVariableRefused | core/pattern_workbench.js:85-95 | a type variable bound to a pattern is refused although it dereferences to a pattern, because acceptance looks at the type as it is |
| Workbenches.BenchContext | core/type_workbench.js:65-77 | neither workbench offers any variable to the blocks inside it |
| Workbenches.ContentsMap | core/pattern_workbench.js:140-188 | the flyout offers the list and pair pattern blocks, and a record category with one record pattern per visible record value only when the block is connected and such records exist |
| Workbenches.ContentsArePatterns | core/pattern_workbench.js:140-157 | every block type offered by the pattern workbench ends in "pattern_typed" |
| Workbenches.InitAll | core/type_workbench.js:110-116 | each created block is initialised exactly when it defines `initSvg` |
| Workbenches.InitAllAppend | core/type_workbench.js:110-116 | for all lists of block types, initialising a concatenation is initialising each part in turn, so each block is set up on its own |
| Workbenches.TypeFlyout | core/type_workbench.js:105-118 | the type workbench offers int, float, bool, string and the pair constructor in this order, each initialised when it can be |
| Blocks.Insert | core/block.js:1632-1633 | `splice(k, 0, x)` puts `x` at `k`, shifts the rest, and is undone by removing position `k` |
| Blocks.WithoutMultiset | core/block.js:1626-1627 | `splice(i, 1)` removes exactly one copy of the element at `i` |
| Blocks.MoveNumberedInputBefore | core/block.js:1618-1634 | the move fails exactly on equal indices or out-of-range ones; otherwise the list is a permutation of the old one in which the moved input lands just before the input that was at `refIndex` (at the end when that is the length) and the others keep their order |
| Blocks.FindInputs | core/block.js:1593-1605 | the search finds the input named `name` and the reference input, each index being -1 exactly when no such input exists |
| Blocks.MoveInputBefore | core/block.js:1587-1611 | equal names change nothing; otherwise the move fails exactly when the input or a non-empty reference name is missing, and a success permutes the inputs, putting an input named `name` immediately before an input named `refName` (last when `refName` is empty) while every other input keeps its order |
| Blocks.ScanAdjacent | core/block.js:1122-1143 | the scan finds the given two kinds of input side by side exactly when they occur so |
| Blocks.GetInputsInline | core/block.js:1122-1143 | an explicit setting wins; otherwise inline exactly when no two dummy inputs are adjacent and a value input is followed by a dummy one |
| Blocks.Trim | core/block.js:1476-1477 | `trim` keeps a contiguous piece of the text with only white space before and after it, and the piece neither starts nor ends with white space |
| Blocks.TrimEnd | core/block.js:1476-1477 | the kept text is a prefix that does not end with white space, and everything dropped after it is white space |
| Blocks.TrimIdempotent | core/block.js:1476-1477 | trimming trimmed text changes nothing |
| Blocks.CheckTokens | core/block.js:1459-1473 | the argument checks succeed exactly when every `%n` is in range and named once; then the indices seen are those named |
| Blocks.Elements | core/block.js:1459-1480 | the element list holds every referenced argument, only given arguments, no dummy input, and at most one element per token |
| Blocks.ElementsTexts | core/block.js:1475-1479 | the text elements are exactly the non-blank text tokens, trimmed: none is dropped and none is invented |
| Blocks.ElementsAppend | core/block.js:1460-1480 | the elements of concatenated tokens are the elements of each part in turn |
| Blocks.ElementsSnoc | core/block.js:1460-1480 | one more token appends exactly its own elements after the ones so far: its argument for `%n`, its trimmed text when that is not blank, otherwise nothing |
| Blocks.Interpolate | core/block.js:1454-1494 | interpolation succeeds exactly when every `%n` is in 1..|args|, none is repeated and all arguments are named; a dummy input is added exactly when the last element is text or a field, aligned as asked when the alignment is non-empty; the result is exactly the element list, in order, followed by that dummy when it is added |
| Blocks.WithDummy | core/block.js:1484-1493 | a dummy input follows the elements exactly when the last one is text or a field, with the alignment only when one is given |
| Blocks.ReferencedAll | core/block.js:1486-1489 | in-range tokens naming as many indices as there are arguments name all of them |
| Blocks.EveryArgOnce | core/block.js:1454-1489 | after the checks every argument is named by exactly one token |
| Blocks.InterpolateUsesEveryArg | core/block.js:1454-1494 | on success every argument reaches the element list |
| Blocks.ValueIsNoPattern | core/block.js:2047-2066 | a type ending in "pattern_value_typed" does not end in "pattern_typed" |
| Blocks.PairPatternOfPrefix | core/block.js:2047-2066 | `p`+"pattern_typed" and `p`+"pattern_value_typed" pair, in either order |
| Blocks.PrefixOfPairPattern | core/block.js:2047-2066 | a pattern pair always consists of one prefix with the two suffixes |
| Blocks.IsPairPatternSpec | core/block.js:2047-2066 | two block types pair exactly when they share a prefix and carry the two suffixes, in either order |
| Blocks.IsPairPattern | core/block.js:2047-2066 | a pair always has one type ending in the pattern suffix and the other in the pattern-value suffix |
| Blocks.SetColour | core/block.js:744-764 | a hue in range sets the hue and the colour derived from it; a '#RRGGBB' string sets the colour and clears the hue; anything else fails |
| Blocks.SetColourIdempotent | core/block.js:744-764 | the new colour does not depend on the old state, so setting twice equals setting once; a hue is kept exactly when the colour came from a hue |
| Blocks.NumberOfString | core/block.js:744-764 | `Number` as `setColour` applies it: a blank string is 0; otherwise a number is read exactly when the trimmed text is an optional sign followed by at least one decimal digit, so a sign alone is `NaN`; a number read is negative only after a minus sign |
| Blocks.BareSignIsNotANumber | core/block.js:748-762 | `Number("-")` and `Number("+")` are `NaN`, so `setColour` of either string throws whatever the block had before |
| Blocks.BareSignFails | core/block.js:748-762 | a one-character sign string is its own trim, reads as no number, and is rejected by `setColour` |
| Blocks.NotANumberFails | core/block.js:748-762 | text that reads as no number and is not a '#RRGGBB' string makes `setColour` throw |
| Blocks.NumberOfDigits | core/block.js:744-764 | for every non-empty run of decimal digits, the run reads as its value, with a leading minus as the negation and with a leading plus as the value |
| Blocks.BlankColourIsHueZero | core/block.js:744-764 | any empty or all-white-space colour string reads as the number 0 and sets hue 0, whatever the block's colour was |
| Blocks.IsTransferable | core/block.js:1198-1205 | in a typed workspace a block is transferable unless `disableTransfer_` is exactly true; elsewhere its own flag decides |
| Blocks.DatatypeNotTransferable | core/block.js:1198-1205 | a datatype declaration cannot leave a typed workspace |
| Blocks.Descendants | core/block.js:591-598 | the block first, then every block below it, each exactly once |
| Blocks.ChildDescendantsContiguous | core/block.js:591-598 | each child's descendants form one contiguous run after those of the earlier children |
| Blocks.RootFrom | core/block.js:508-516 | the walk ends at the start block or one of the parents |
| Blocks.RootBlock | core/block.js:508-516 | a top-level block is its own root; otherwise the root is the block itself or some block's parent |
| Blocks.RootBlockSpec | core/block.js:508-516 | on acyclic parent links the root is an ancestor without a parent, and the root of the root is itself |
| Blocks.ResolveFrom | core/block.js:2308-2335 | all references resolve exactly when each one does; binding fills only unbound references whose name is in the context; binding throws exactly when such a name's value has a different name |
| Blocks.BindResolves | core/block.js:2308-2335 | in a context keyed by names binding never throws, names are kept, and every reference with its name in the context resolves |
| Blocks.BindIdempotent | core/block.js:2308-2335 | binding a second time changes nothing |
| Blocks.NothingResolvesInBench | core/block.js:2308-2335 | inside a workbench no reference resolves, because the workbench offers no variables |
| Blocks.ResolveReferenceWithEnv | core/block.js:2308-2335 | each reference comes back once, the answer is true exactly when every reference names a variable of the context and is unbound or bound to that variable, and without binding nothing throws |
| Blocks.AllowedToBeOrphan | core/block.js:2089-2119 | a block may stand alone exactly when the owning workbench accepts it and a pattern or type-constructor output stands only in its own workbench; a refusal is reported only when asked for |
| Blocks.OrphanInBench | core/block.js:2089-2119 | in the pattern workbench exactly pattern blocks may stand alone, in the type workbench exactly type constructors |
| Blocks.OrphanOutsideBench | core/block.js:2089-2119 | outside every workbench a block may stand alone exactly when its type is neither a pattern nor a type constructor |
| Connections.Opposite | core/connection.js:329-335 | no connection kind is its own opposite |
| Connections.OppositeSuperior | core/connection.js:294-297 | opposite kinds come in pairs and exactly one side of each pair is superior |
| Connections.ReasonCode | core/connection.js:62-68 | the reason codes lie in 0..6 and only `CAN_CONNECT` is 0 |
| Connections.ReasonOfCode | core/connection.js:62-68 | exactly the numbers 0..6 name a reason, and 0 is `CAN_CONNECT` |
| Connections.ReasonCodeRoundTrip | core/connection.js:62-68 | the constants and the reasons correspond one to one: a reason reads back from its number and a number in range from its reason, so no two reasons share a constant |
| Connections.IntersectFrom | core/connection.js:705-712 | the loop finds a check name of one side in the other's list exactly when there is one |
| Connections.CheckType | core/connection.js:688-714 | with types enabled the check throws exactly when the target has no type (`ableToUnify(null)`, type_expr.js:898-900), and otherwise holds exactly when the two types can unify and the bound variables resolve; without, it never throws and holds exactly when both or neither side has a type and either has no check list or the lists share a name |
| Connections.CheckTypeOneSided | core/connection.js:688-698 | a typed connection asked about an untyped one throws, while the untyped one asked about the typed one answers no |
| Connections.UntypedCheckSymmetric | core/connection.js:688-714 | the untyped check gives the same answer from either side |
| Connections.CanConnectWithReason | core/connection.js:317-344 | the reason is the first failing check in the source's order: no target, same block, wrong kind, different workspaces (when final or not both transferable), failed type check, shadow parent; it throws exactly when the type check is reached and throws |
| Connections.CanConnectSymmetric | core/connection.js:317-344 | without types, asking from either side of a pair gives the same reason |
| Connections.CheckConnection | core/connection.js:355-377 | returns normally exactly when the reason is `CAN_CONNECT`, and otherwise throws that reason, or passes on the type check's exception |
| Connections.ConnectReciprocally | core/connection.js:466-470 | each connection targets the other and nothing else changes |
| Connections.DisableTypeCheck | core/connection.js:803-805 | both connections get the flag and nothing else changes |
| Connections.Connect | core/connection.js:435-457 | already joined is a no-op; otherwise success leaves the two joined; with the flag set both type checks are disabled during the connection and re-enabled only if no check throws; a thrown reason is never `CAN_CONNECT` |
| Connections.ConnectChangesOnlyLinks | core/connection.js:435-457 | without the flag, connecting changes only the links, no kind, block, check list, type or flag |
| Connections.NormaliseCheck | core/connection.js:735-747 | a falsy check becomes null, a single name a one-element list, a list is kept |
| Connections.SetCheck | core/connection.js:720-747 | the normalised check is stored and only `c` and its target change; a null check touches no link; a throwing type check keeps the link; otherwise a remaining link passes the type check (the child was unplugged) |
| Connections.SetCheckTwice | core/connection.js:720-747 | setting the same check again after a call that did not throw changes nothing |
| Connections.OverwriteTypeExpr | core/connection.js:757-769 | overwriting always stores the new type, changes nothing else, and throws exactly when a type was there and the block's `typeExprReplaced` throws |
| Connections.OverwriteRestores | core/connection.js:757-769 | overwriting a type and putting the old one back restores the graph; the second call throws exactly when a type was stored on a block whose hook throws |
| Connections.ReplaceTypeExprWith | core/connection.js:779-788 | nothing happens unless both connections have a type; then this one takes the old one's type, the old one loses its type unless asked not to or the first hook threw, no other connection changes, and it throws exactly when one of the two hooks it calls throws |
| Connections.ReplaceMovesOnce | core/connection.js:779-788 | after a removing replacement that did not throw, replacing again does nothing |
| ConnectionDb.DeleteInserted | core/connection_db.js:54-65 | removing the entry just inserted at a position gives the array back |
| ConnectionDb.DeletedSorted | core/connection_db.js:140-150 | removing an entry keeps the array sorted by height |
| ConnectionDb.PositionFromSplits | core/connection_db.js:114-133 | the binary search keeps its bracket and ends at a position with lower entries before and higher entries after |
| ConnectionDb.FindPosition | core/connection_db.js:114-133 | the position is within the array, and in a sorted array every entry before it is at most the height and every entry from it on is above it |
| ConnectionDb.InsertKeepsSorted | core/connection_db.js:54-65 | inserting at the position found keeps the array sorted |
| ConnectionDb.WalkBack | core/connection_db.js:86-93 | the backward walk only reports an index holding the connection, at or below its start |
| ConnectionDb.WalkForward | core/connection_db.js:95-102 | the forward walk only reports an index holding the connection, at or above its start |
| ConnectionDb.FindConnection | core/connection_db.js:75-104 | the result is -1 or an index holding the connection |
| ConnectionDb.FindConnectionComplete | core/connection_db.js:75-104 | in a sorted array the search answers -1 exactly when the connection is absent |
| ConnectionDb.AddConnection | core/connection_db.js:54-65 | adding fails exactly when the connection is already marked as stored; in a flyout nothing changes; otherwise it is marked and one copy is added, keeping the array sorted |
| ConnectionDb.RemoveConnection | core/connection_db.js:140-150 | removing fails when the connection is not marked, and in a sorted array exactly when it is also not found; success removes one copy and clears the mark |
| ConnectionDb.AddKeepsValid | core/connection_db.js:54-65 | adding keeps the array sorted and the marks equal to the stored ids, each stored once |
| ConnectionDb.RemoveKeepsValid | core/connection_db.js:140-150 | removing keeps the database valid |
| ConnectionDb.AddThenRemove | core/connection_db.js:54-150 | adding a connection outside a flyout and removing it again gives the database back |
| ConnectionDb.Visited | core/connection_db.js:306-318 | the walks of `searchForClosest` visit only entries within the vertical radius |
| ConnectionDb.VisitedExactly | core/connection_db.js:306-318 | in a sorted database the walks visit exactly the entries within the vertical radius |
| ConnectionDb.UpdateAll | core/connection_db.js:296-305 | the best candidate is the starting one or one of the visited entries with its distance |
| ConnectionDb.SearchForClosest | core/connection_db.js:271-336 | an empty database gives nothing at the full radius; a found connection is stored, lies within the vertical radius of the dragged height and comes with its distance; no reason is ever recorded |
| ConnectionDb.Init | core/connection_db.js:342-350 | one empty database for each of the four connection kinds |
| ConnectionDb.InitLifecycle | core/connection_db.js:342-350 | every database `init` creates is valid and empty: removing from it throws "not in database", and a connection added outside a flyout is its only entry until removing it gives the empty database back |
| Workspaces.AddTopBlock | core/workspace.js:171-173 | the block is appended after the existing top blocks |
| Workspaces.RemoveTopBlock | core/workspace.js:179-183 | removal throws exactly when the block is not a top block, and otherwise removes its first occurrence only |
| Workspaces.AddThenRemoveTopBlock | core/workspace.js:171-183 | adding a new top block and removing it gives the list back |
| Workspaces.PopRun | core/workspace.js:580-584 | the loop pops a run of events of one non-empty group off the top, stopping at a different group; the stack is what stays followed by the run in reverse |
| Workspaces.Move | core/workspace.js:574-588 | one undo step pops the top event and its group-mates, pushes them in popping order onto the other stack, and loses no event |
| Workspaces.Undo | core/workspace.js:574-590 | undo moves events from the undo stack to the redo stack, redo the other way; an empty stack changes nothing; no event is lost |
| Workspaces.PopRunOfPushed | core/workspace.js:580-584 | a run of one group pushed on a stack whose top has another group is popped exactly |
| Workspaces.PopsSplit | core/workspace.js:574-588 | the stack moved from is what stays followed by the moved events in reverse |
| Workspaces.MoveBack | core/workspace.js:574-588 | moving a run over and straight back restores both stacks, unless the other stack's top already had the run's group |
| Workspaces.UndoThenRedo | core/workspace.js:574-590 | undo followed by redo restores both stacks, unless the redo stack's top already had the undone group |
| Workspaces.FireAsWritten | core/workspace.js:635-641 | as written, a recorded event is pushed and clears the redo stack, and the overflow branch removes nothing |
| Workspaces.FireAsWrittenOverflows | core/workspace.js:635-641 | as written the undo stack grows past `MAX_UNDO` (1024) |
| Workspaces.Fire | core/workspace.js:635-641 | corrected: a recorded event is pushed last and clears the redo stack, the oldest event is dropped on overflow, and the stack never exceeds `MAX_UNDO` |
| Workspaces.FireBounded | core/workspace.js:635-641 | with the oldest event dropped the undo stack stays within `MAX_UNDO` over any sequence of events |
| Workspaces.RemoveLatestEvents | core/workspace.js:652-662 | what stays is a prefix of the stack, everything cut has the given non-empty group, and the new top does not |
| Workspaces.RemoveLatestEventsIsPopRun | core/workspace.js:574-662 | `removeLatestEvents` leaves exactly what undo's group loop leaves |
| Workspaces.ClearUndo | core/workspace.js:605-610 | both stacks are empty afterwards |
| Workspaces.ClearUndoStops | core/workspace.js:574-610 | after `clearUndo` neither undo nor redo does anything |
| Workspaces.MainWorkspace | core/workspace.js:731-737 | on acyclic parent links the main workspace is an ancestor without a parent, and a workspace without a parent is its own |
| Workspaces.ScannedKeys | core/workspace.js:745-750 | the loop looks at the option names up to the first empty one |
| Workspaces.UpdateOptions | core/workspace.js:744-754 | throws exactly when a scanned name is not a known option; otherwise sets `RTL` and `horizontalLayout` to the truthiness of the new values and `toolboxPosition` to the new value |
| Workspaces.UpdateOptionsKnown | core/workspace.js:744-754 | all names known is enough to succeed, and an unknown name before any empty one throws |
| Workspaces.GetDb | core/workspace.js:316-334 | the lookup throws exactly when the label has no database, and otherwise returns it |
| Workspaces.GetDbAfterStore | core/workspace.js:316-334 | for every map of databases, label and database: a stored database is found under its label and every other label's answer, found or thrown, is unaffected |
| WorkspaceTree.KeyIndex | core/workspace_tree.js:36-37 | the `in` test finds the first child entry with the key, and fails exactly when there is none |
| WorkspaceTree.VisibleCount | core/workspace_tree.js:39-42 | the push loop stops at the first empty, hence falsy, key |
| WorkspaceTree.Frames | core/workspace_tree.js:39-42 | the children are pushed in key order |
| WorkspaceTree.FindInSound | core/workspace_tree.js:32-45 | whatever the search answers is a node stored under the key |
| WorkspaceTree.FindInComplete | core/workspace_tree.js:32-45 | without empty keys the search finds a key occurring below any node on its stack |
| WorkspaceTree.FindLoc | core/workspace_tree.js:32-45 | the location found holds the key, and without empty keys a location is found exactly when the key occurs |
| WorkspaceTree.Find | core/workspace_tree.js:32-45 | the node found is stored under the key somewhere below the root; without empty keys the search answers exactly when the key occurs |
| WorkspaceTree.Put | core/workspace_tree.js:23-24 | the key gets a fresh node, keeping its place when present and going last when new; other entries are unchanged |
| WorkspaceTree.Add | core/workspace_tree.js:16-25 | without a parent the workspace is put under the root; with one, under the node found for the parent, failing exactly when none is found |
| WorkspaceTree.AddThenFind | core/workspace_tree.js:16-45 | a workspace added without a parent is found at once as a fresh node |
| WorkspaceTree.RemoveEntries | core/workspace_tree.js:56-62 | no child entry is left under the removed key |
| WorkspaceTree.RemoveFromRemoves | core/workspace_tree.js:51-64 | without empty keys no node under the key remains anywhere |
| WorkspaceTree.RemoveAbsent | core/workspace_tree.js:51-64 | removing a key that occurs nowhere changes nothing |
| WorkspaceTree.AddThenRemove | core/workspace_tree.js:16-64 | adding a new workspace under the root and removing it gives the tree back |
| BoundVariables.AddEntry | core/bound_variables.js:41-49 | adding throws exactly when the id is stored already; otherwise the object is stored under its id and every other entry stays |
| BoundVariables.RemoveEntry | core/bound_variables.js:57-65 | removing throws exactly when the id is absent; otherwise exactly that entry goes |
| BoundVariables.GetById | core/bound_variables.js:144-147 | the lookup answers exactly for stored ids, with the stored object |
| BoundVariables.AddThenGet | core/bound_variables.js:110-147 | a stored reference is found under its id |
| BoundVariables.AddThenRemoveEntry | core/bound_variables.js:41-65 | storing an object and removing it gives the database back, and the id is no longer found |
| BoundVariables.GetOrCreateReference | core/bound_variables.js:96-103 | a reference stored under the id is returned as it is; otherwise a new one is created and registered, which throws exactly when its own id is taken |
| BoundVariables.GetOrCreateThenGet | core/bound_variables.js:96-103 | the reference returned (found or created) is found again, with the database unchanged and nothing created, under the id it is stored by |
| BoundVariables.StoreReference | core/bound_variable_value.js:133-141 | a reference already listed throws first, then a value scheduled for deletion throws; otherwise the reference is appended and nothing else changes |
| BoundVariables.Dispose | core/bound_variable_value.js:115-126 | a value with references is only scheduled for deletion; one without leaves its workspace's database (throwing, with nothing changed, when it is not there) and loses its type, block and workspace |
| BoundVariables.RemoveReference | core/bound_variable_value.js:148-159 | removing an unlisted reference throws; otherwise exactly that entry goes, and a value scheduled for deletion that lost its last reference is disposed |
| BoundVariables.ReplaceRefs | core/bound_variable_value.js:153-158 | after the splice only the value's list changes, unless the value is scheduled for deletion and now unreferenced, in which case it is disposed |
| BoundVariables.SetVariableName | core/bound_variable_value.js:100-109 | the same name changes nothing; otherwise the value and every reference it lists take the new name, and nothing else changes |
| BoundVariables.SetVariableNameSpec | core/bound_variable_value.js:100-109 | after a rename every reference bound to the value reports the new name, and renaming again changes nothing |
| BoundVariables.TransferValuesBlock | core/bound_variable_value.js:166-188 | with a block that is not transferring, or of another type, the move throws and nothing changes; otherwise the value leaves its old database, loses its type, is scheduled for deletion and enters the new block's workspace database |
| BoundVariables.TransferAgainNoOp | core/bound_variable_value.js:166-188 | into a block whose transfer is under way, a successful move followed by a second move to the same block leaves the world as the first left it |
| BoundVariables.Enter | core/bound_variable_value.js:184-187 | the value takes its new state and is added to the new database, which throws exactly when it is there already |
| BoundVariables.GetVariableName | core/bound_variable_reference.js:54-56 | a bound reference reports its value's name, an unbound one its own display name |
| BoundVariables.SetBoundValue | core/bound_variable_reference.js:129-149 | binding to the value already bound is a no-op and to another value a throw; a name mismatch throws before any change; otherwise the reference is bound and stored in the value's list |
| BoundVariables.RemoveBoundValue | core/bound_variable_reference.js:154-163 | an unbound reference is left alone; otherwise the value drops the reference and the binding is cleared |
| BoundVariables.GetAllBoundVariables | core/bound_variable_reference.js:85-91 | an unbound reference answers itself alone, a bound one what its value answers |
| BoundVariables.BoundVariablesFollowBinding | core/bound_variable_reference.js:85-91 | a reference answers itself alone while unbound, the value's answer once bound, and itself alone again after unbinding |
| BoundVariables.IsCyclicReferenceSpec | core/bound_variable_reference.js:101-114 | on acyclic parent links a reference is cyclic exactly when it is bound and the root block is an ancestor of its value's block |
| BoundVariables.IsCyclicReference | core/bound_variable_reference.js:101-114 | an unbound reference is never cyclic; a cyclic one has a bound value in a block from which the parent links reach the root block |
| BoundVariables.BindThenUnbind | core/bound_variable_reference.js:129-163 | binding a reference to a value of its name and unbinding it again gives everything back, and while bound it shows the value's name |
| BoundVariables.DeferredDispose | core/bound_variable_value.js:115-159 | a value disposed while it has one reference is only scheduled; when that reference is unbound the value leaves its database |
| BoundVariables.TypedStoreReference | core/typed_variable_value.js:94-99 | storing throws exactly on a duplicate, and otherwise appends |
| BoundVariables.TypedRemoveReference | core/typed_variable_value.js:106-112 | removing throws exactly when the reference is absent, and otherwise removes one copy and changes nothing else |
| BoundVariables.TypedStoreThenRemove | core/typed_variable_value.js:94-112 | the list never holds a reference twice, and storing then removing gives the value back |
| BoundVariables.NewTypedValueStore | core/typed_variable_value.js:21-60 | a new typed value has no references and after one store holds exactly that one |
| BoundVariables.NewTypedValue | core/typed_variable_value.js:21-60 | a new typed value holds no reference twice: removing any reference throws, and storing any succeeds |
| BoundVariables.StoreRemoveDistinct | core/bound_variable_value.js:133-159 | storing and removing keep a value's reference list free of repetitions |
| TypedLang.OrElse | generators/typedlang/logic.js:37-38 | `code \|\| fallback` keeps non-empty code and replaces empty code by the fallback |
| TypedLang.Quote | generators/typedlang.js:217-224 | the literal starts and ends with a single quote and holds the escaped text |
| TypedLang.ReplacedIsEscape | generators/typedlang.js:220-222 | doubling backslashes first and then escaping newlines and quotes escapes every character exactly once: inserted backslashes are never doubled again |
| TypedLang.UnescapeEscape | generators/typedlang.js:220-222 | the escaping can be undone |
| TypedLang.QuoteRoundTrip | generators/typedlang.js:217-224 | a quoted string reads back as the original text |
| TypedLang.ScrubNakedValue | generators/typedlang.js:206-208 | the line is followed by exactly one line break |
| TypedLang.ScrubAddsOneLine | generators/typedlang.js:206-208 | scrubbing adds exactly one line to the code |
| TypedLang.Defaulted | generators/typedlang/lists.js:39-42 | one entry per child, a missing child's code replaced by the default |
| TypedLang.Finish | generators/typedlang.js:187-198 | the output is the definitions joined by blank lines, then two more blank lines, then the code; definitions and function names are cleared |
| TypedLang.FinishClears | generators/typedlang.js:187-198 | after `finish` no definitions remain, so finishing again writes only the three line breaks before the code |
| TypedLang.OuterOrder | generators/typedlang.js:283 | an absent order and ORDER_ATOMIC, which is 0 and so falsy, both become ORDER_NONE |
| TypedLang.GetAdjusted | generators/typedlang.js:280-329 | the workspace's one-based flag lowers `delta` by one; a number literal is returned with that delta and negation, the default "0" or "1" when the child is missing; any other code is the adjusted code of the child's non-empty code |
| TypedLang.AdjustCode | generators/typedlang.js:308-329 | with no offset and no negation the child's code is returned unchanged; otherwise it is kept whole at the position after the optional parenthesis and minus sign |
| TypedLang.OffsetTreeMeaning | generators/typedlang.js:309-316 | the offset code renders a term that adds `delta` to the child's index |
| TypedLang.SignedTreeMeaning | generators/typedlang.js:317-324 | the minus sign renders a term that negates the offset index |
| TypedLang.AdjustCodeMeaning | generators/typedlang.js:305-329 | the index code is the rendering of an expression that computes the child's index plus `delta`, negated when asked |
| TypedLang.AdjustCodeParens | generators/typedlang.js:305-329 | with no offset and no negation the child's code is kept as it is; otherwise it is parenthesised exactly when the floored outer order is at least that of the last operator written (4 for negation, 6 for an offset) |
| TypedLang.OneBasedShifts | generators/typedlang.js:280-304 | a one-based workspace behaves as a zero-based one with `delta` one lower, whenever the child gives code |
| TypedLangBlocks.BooleanCode | generators/typedlang/blocks.js:11-15 | "true" exactly when the field is 'TRUE', "false" otherwise, at ATOMIC order |
| TypedLangBlocks.BooleanCodeInverse | generators/typedlang/blocks.js:11-15 | the field reads back from the code: "true" gives TRUE and "false" gives FALSE |
| TypedLangBlocks.CompareCode | generators/typedlang/blocks.js:17-34 | the operands around the OCaml operator with spaces, in parentheses, at ATOMIC order |
| TypedLangBlocks.CompareCodeInjective | generators/typedlang/blocks.js:19-26 | different comparison operators give different code for the same operands |
| TypedLangBlocks.TernaryCode | generators/typedlang/blocks.js:36-47 | "if ", the condition, " then ", the then-branch, " else ", the else-branch, at ATOMIC order |
| TypedLangBlocks.TernaryCodeInjective | generators/typedlang/blocks.js:36-47 | the condition, then-branch and else-branch read back from the code when the first two lengths are known |
| TypedLangBlocks.IntArithmeticCode | generators/typedlang/blocks.js:55-70 | the operands around the int operator in parentheses, reported as ATOMIC |
| TypedLangBlocks.FloatArithmeticCode | generators/typedlang/blocks.js:78-94 | the operands around the float operator in parentheses, reported at the operator's own (non-atomic) order |
| TypedLangBlocks.FloatSymbolIsDotted | generators/typedlang/blocks.js:57-85 | each float operator is the int operator followed by a dot, and the int operators are distinct |
| TypedLangBlocks.ListCode | generators/typedlang/blocks.js:96-105 | the items joined by ", " between square brackets, a missing item left empty |
| TypedLangBlocks.ListCodeSnoc | generators/typedlang/blocks.js:96-105 | one more item adds ", " and its code before the closing bracket |
| TypedLangBlocks.PairCode | generators/typedlang/blocks.js:107-114 | the two components joined by ", " in parentheses |
| TypedLangBlocks.PairCodeIsTwoElementList | generators/typedlang/blocks.js:96-114 | a pair is written as the two-element list with parentheses instead of brackets |
| TypedLangBlocks.PairFirstCode | generators/typedlang/blocks.js:116-121 | "fst (" then the argument then ")" |
| TypedLangBlocks.PairSecondCode | generators/typedlang/blocks.js:123-128 | "snd (" then the argument then ")" |
| TypedLangBlocks.PairProjections | generators/typedlang/blocks.js:116-128 | the two projections differ only in the function name |
| TypedLangBlocks.LambdaCode | generators/typedlang/blocks.js:130-136 | "fun ", the variable, " -> ", the body |
| TypedLangBlocks.LambdaCodeInjective | generators/typedlang/blocks.js:130-136 | the variable and the body read back from the code when the variable's length is known |
| TypedLangBlocks.AppCode | generators/typedlang/blocks.js:138-145 | function and argument separated by a space, in parentheses |
| TypedLangBlocks.AppCodeInjective | generators/typedlang/blocks.js:138-145 | the function and the argument read back from the code when the function's length is known |
| TypedLangBlocks.MatchHeader | generators/typedlang/blocks.js:158 | "match ", the input, " with" and a line break |
| TypedLangBlocks.MatchArm | generators/typedlang/blocks.js:159-160 | "  \| ", the pattern, " -> ", the output and a line break |
| TypedLangBlocks.MatchCode | generators/typedlang/blocks.js:147-162 | the header for the input, then the arm for PATTERN1 and OUTPUT1, then the arm for PATTERN2 and OUTPUT2, and nothing else |
| TypedLangBlocks.MatchHasTwoArms | generators/typedlang/blocks.js:147-162 | with children free of line breaks the match has exactly three lines: the header and two arms, whatever the number of pattern inputs |
| TypedLangBlocks.LetHead | generators/typedlang/blocks.js:183-184 | "let rec " exactly for a recursive binding, "let " otherwise |
| TypedLangBlocks.LetArgs | generators/typedlang/blocks.js:170-177 | empty exactly without arguments; otherwise a space and the argument names joined by spaces |
| TypedLangBlocks.LetBody | generators/typedlang/blocks.js:178-185 | " = ", EXP1, " in ", EXP2 |
| TypedLangBlocks.LetRest | generators/typedlang/blocks.js:170-185 | the arguments followed by the body |
| TypedLangBlocks.LetCode | generators/typedlang/blocks.js:169-191 | "let ", or "let rec " for a recursive binding, then the name, the arguments, " = ", EXP1, " in ", EXP2, at ATOMIC order |
| TypedLangBlocks.LetRecIffRecursive | generators/typedlang/blocks.js:183-185 | for a name without spaces other than "rec", the keyword "rec " follows "let " exactly when the binding is recursive |
| TypedLangBlocks.LetNameEnds | generators/typedlang/blocks.js:176-185 | the name is followed by a space, and without arguments directly by " = " |
| TypedLangLogic.IfCode | generators/typedlang/logic.js:32-51 | the clauses, then either the final `else` block or a line break; the code starts with "if (" and ends with a line break |
| TypedLangLogic.ElseTail | generators/typedlang/logic.js:46-50 | " else {", a line break, the else block, "}" and a line break |
| TypedLangLogic.IfClause | generators/typedlang/logic.js:37-41 | "if (", the condition or `false` when missing, ") {", a line break, the branch, "}" |
| TypedLangLogic.IfClauses | generators/typedlang/logic.js:36-44 | the clauses open with the first condition's clause |
| TypedLangLogic.IfElseIsTail | generators/typedlang/logic.js:46-50 | a final `else` block replaces the closing line break by the else tail |
| TypedLangLogic.IfCodeSnoc | generators/typedlang/logic.js:32-51 | one more condition adds " else " and its clause before the final line break |
| TypedLangLogic.IfMissingCondition | generators/typedlang/logic.js:37-38 | a missing condition is written `false` |
| TypedLangLogic.CompareCode | generators/typedlang/logic.js:53-70 | equality and inequality at EQUALITY order, the others at RELATIONAL order; missing operands become 0 |
| TypedLangLogic.CompareTablesAgree | generators/typedlang/logic.js:55-62 | the JavaScript and OCaml comparison tables agree exactly on the orderings and differ on equality and inequality |
| TypedLangLogic.OperationCode | generators/typedlang/logic.js:72-95 | AND at LOGICAL_AND order and OR at LOGICAL_OR order; both operands missing gives "false op false" |
| TypedLangLogic.OperationMissingIsNeutral | generators/typedlang/logic.js:80-91 | one missing operand is replaced by the operator's neutral element: true for &&, false for \|\| |
| TypedLangLogic.NegateCode | generators/typedlang/logic.js:97-104 | "!" before the operand, `true` when it is missing, at LOGICAL_NOT order |
| TypedLangLogic.NegateCodeInverse | generators/typedlang/logic.js:97-104 | for all operands, two negations are the same code exactly when the operand codes are, a missing operand counting as `true`; so the negation of a missing operand is "!true" |
| TypedLangLogic.TernaryCode | generators/typedlang/logic.js:117-127 | the condition, " ? ", the then-branch, " : ", the else-branch, at CONDITIONAL order, with missing parts false, null and null |
| TypedLangLogic.TernaryMissingIsLiteral | generators/typedlang/logic.js:117-127 | each missing part gives the same code as its default literal, and an empty block is "false ? null : null" |
| TypedLangText.TextCode | generators/typedlang/text.js:32-36 | the literal reads back as the field's text |
| TypedLangText.StringCall | generators/typedlang/text.js:44-53 | "String(", the code, ")" |
| TypedLangText.TextJoinCode | generators/typedlang/text.js:38-64 | no input gives '', one gives String(a), two give String(a) + String(b), more give the elements in order in an array joined with ''; a missing input is '' |
| TypedLangText.TextJoinSnoc | generators/typedlang/text.js:52-62 | from three inputs on, one more input adds a comma and its code inside the array |
| TypedLangText.TextJoinElements | generators/typedlang/text.js:52-62 | no element of a long join is empty |
| TypedLangText.GetIndex | generators/typedlang/text.js:151-161 | the code is the rendering of the index term for `where` |
| TypedLangText.GetIndexMeaning | generators/typedlang/text.js:151-161 | the term computes the zero-based position: 0 for FIRST, the offset from the start, the offset before the last character from the end, length minus one for LAST |
| TypedLangText.WholeSubstringCode | generators/typedlang/text.js:169-170 | from the first to the last character the text is returned as it is, '' when missing |
| TypedLangText.WholeSubstringInverse | generators/typedlang/text.js:163-170 | for all texts, two whole substrings are the same code exactly when the texts are, a missing text counting as the empty literal '' |
| TypedLangText.ChangeCaseCode | generators/typedlang/text.js:236-264 | upper and lower case write the text then the built-in method; title case writes the helper's name with the text in parentheses; a missing text is '' |
| TypedLangText.ChangeCaseDistinct | generators/typedlang/text.js:236-264 | upper and lower case give different code, and a missing text gives the code of the empty literal |
| TypedLangText.ChangeCaseTextOrder | generators/typedlang/text.js:236-264 | the text is generated at MEMBER order exactly for the built-in methods |
| TypedLangText.TrimCode | generators/typedlang/text.js:266-277 | the text followed by the mode's fixed suffix |
| TypedLangText.TrimSuffixInjective | generators/typedlang/text.js:268-272 | the three trim modes have distinct suffixes |
| TypedLangText.ReverseCode | generators/typedlang/text.js:347-352 | the text ('' when missing) followed by the split, reverse and join chain, at MEMBER order |
| TypedLangText.ReverseCodeInverse | generators/typedlang/text.js:347-352 | the text's code reads back from the code, so two texts give the same code exactly when their codes are the same |
| TypedLangLists.ListsCreateWithCode | generators/typedlang/lists.js:37-46 | one element per input in order, a missing one written null, between square brackets |
| TypedLangLists.ListGeneratorsAgree | generators/typedlang/lists.js:37-46 | the two list generators agree whenever every input is connected and differ on a missing one |
| UpdateDocs.BasenameIsLastSegment | update_docs.py:21-25 | the base name is the slash-free suffix after the last slash |
| UpdateDocs.BasenameEmpty | update_docs.py:21-25 | the base name is empty exactly when the path is empty or ends in a slash |
| UpdateDocs.Basename | update_docs.py:21-25 | the base name is no longer than the path and holds no slash |
| UpdateDocs.VerifySourcePath | update_docs.py:21-25 | the names are kept; an entry whose path has an empty base name gets its own name appended, the others stay |
| UpdateDocs.VerifySourcePathIdempotent | update_docs.py:21-25 | with plain file names every path has a base name after one pass, so a second pass changes nothing |
| UpdateDocs.DirectoryEntry | update_docs.py:21-25 | a directory entry becomes the file of that name in the directory |
| UpdateDocs.SourceMapNormalised | update_docs.py:7-25 | the updater's own map: directory entries gain their file name, the others stay |

## Left out

- I/O, the DOM, SVG drawing, events, timers, drag state and the re-inference trigger are not modelled. The model is about state and typing rules, not their presentation.
- Floating point and randomness are not modelled: `getNeighbours`, the `distanceFrom` radius arithmetic, the ordered (sine-based) `getTopBlocks`, `generateColor`, and the numeric-literal `parseFloat` branch of `getAdjusted`.
- `TypeUnify.UnifyWith` takes a fuel bound, and running out of fuel is its own error. The source recurses without a bound; the model proves nothing about how much fuel a given unification needs.
- `TypeUnify.UnifyWith`: a failing unification may already have changed some TVARs in the source. The model returns the failure and drops those partial changes.
- `TypeUnify.AbleToUnifySound`: `ableToUnify` clones each argument separately. With a store keyed by variable name, the clones cannot be told apart, so the model runs `unify` on the same store and discards the result.
- TypeUnify.AbleToUnifySound does not promise an acyclic unifier for every `ableToUnify`: the source's occurs check skips patterns, so `ableToUnify` may accept a cyclic binding, and the lemma says only that the corrected `unify` then reports the occurrence.
- TypedBlocks.Infer and its rules (InferBinOp through InferLet) call the corrected `unify`, whose occurs check looks inside patterns. `TypeUnify.AsWrittenAgrees` and `TypeUnify.AsWrittenOrOccurrence` are the bridge to the source's `unify`: the two differ only when a variable occurs under a PATTERN nested inside LIST, PAIR or FUN. No block's type has that shape, because blocks/typed_blocks.js:1073 wraps PATTERN only around a connection's whole type.
- TypedBlocksSound.InferSound is proved for that corrected `infer`; on a type with a PATTERN nested inside another type the source's `infer` could succeed with a cyclic binding that the lemma does not cover.
- TypeUnify.UnifyUnbound states the corrected `unify`, whose occurs check looks inside patterns. `TypeUnify.AsWrittenAgrees` and `TypeUnify.AsWrittenOrOccurrence` give the source's `unify` the same answers except for a variable hidden under a pattern.
- Type schemes (`Blockly.Scheme`) are not part of this model. A monomorphic scheme is "unify against the type"; a polymorphic one is instantiated by the caller.
- The internals of `function_app_typed` are not modelled.
- `getTvarList`, `instantiate` and `flatten` are not modelled.
- TypeExpr.STRING is used by the typed blocks but not defined in `core/type_expr.js`. It is modelled as one more primitive leaf.
- TypeExpr.SUM is referenced by the rendered shapes but not defined. Its shape is left out.
- Rendered types: the SVG path text and the tab constants are not modelled. Each drawing step is an abstract token.
- `DataTypes.DatatypeSchemeSpec`: `parseInt`'s whitespace is limited to the ASCII spaces and the few Unicode spaces `DataTypes.IsJsSpace` lists.
- `Blocks.Trim` and `DataTypes.SkipSpaces`: the white space that `trim` and `parseInt` remove is limited to the characters `DataTypes.IsJsSpace` lists.
- `Blocks.SetColour`: numeric strings are limited to signed decimal integers, not every string JavaScript's `Number` accepts, and a numeric hue is an integer (`HueArg` holds an `int`), so fractional hues such as 12.5, which the source accepts, are not modelled. The `Blockly.utils.replaceMessageReferences` step that a string colour first goes through (core/block.js:745-746) is not modelled: the colour is taken as already dereferenced, and the error message's "(from …)" part is not modelled either.
- `Blocks.Interpolate`: it takes the token list as given. `tokenizeInterpolation` is not part of this model.
- `Blocks.MoveNumberedInputBefore`: indices are natural numbers, so the negative-index assertions have no counterpart.
- `Blocks.ResolveFrom`: when it throws partway through binding, the bindings already made are dropped.
- `Blocks.AllowedToBeOrphan`: the owning workbench's `acceptBlock` is a parameter.
- `Blocks.RootBlockSpec`: the root block follows an explicit parent map rather than block objects.
- `Connections.CanConnectWithReason`: `checkBoundVariables` is a parameter.
- Bumping, orphan reattachment and events in `connect_` are left out; `disconnect` is not modelled on its own.
- `Connections.SetCheck`: `unplug` of the child is modelled as cutting that one link; healing the stack and moving the block are not modelled.
- `ConnectionDb`: coordinates are integers. `distanceFrom` and `isConnectionAllowed` are parameters.
- `ConnectionDb.SearchForClosest`: the error radius of the search is left out.
- `getTopBlocks(false)` returns a copy of the list. In an immutable model every list is already a value, so there is nothing to copy.
- Undo and redo do not model `Events.filter` or the events being replayed. Only the stacks are modelled.
- `WorkspaceTree`: children keep insertion order. JavaScript's ordering of integer-like property keys is not modelled.
- `WorkspaceTree.FindInComplete` needs workspace ids to be non-empty.
- BoundVariables.AddEntry, RemoveEntry, GetById and GetOrCreateReference use one value database and one reference database per workspace. The source calls `getValueDB()` and `getReferenceDB()` with no label (core/bound_variables.js:43-145), and those throw unless the label names a database that `initValueReferenceDBList` created from `Blockly.BoundVariableAbstract._LABEL_LIST` (core/workspace.js:302-334). No source file defines `_LABEL_LIST`, so the labelled lookup is not modelled and the single database is taken as the intended one.
- Bound variables: `variableNameValidator` is not part of this model.
- Bound variables: unifying the value's type and disconnecting TypeExprs are left out. Whether a value is typed is a flag.
- `BoundVariables.Dispose` does not model deleting the block's `typedValue` entry.
- The reference's own `dispose` and its `setVariableName` entry point are left out.
- A value's `getAllBoundVariables` is a parameter, and so is `genUid`'s freshness.
- The typed value's `getName` (the text of a field) is not modelled.
- `TypedLang.OneBasedShifts`: `isNumber` is a parameter, and a numeric index is a symbolic token. `opt_delta` is an integer.
- `TypedLangText`: `text_getSubstring` is modelled only for FIRST..LAST.
- `TypedLangText.ChangeCaseCode`: the name `provideFunction_` returns is a parameter. The title-case helper's body is not modelled.
- `TypedLangText.GetIndex`: `opt_at` is always supplied.
- `TypedLangLogic.IfCode`: branches are opaque strings, as `statementToCode` returns them.
- Generators without a contract worth stating are left out: `defined_datatype_typed`, `create_construct_typed`, the int/float type blocks, the patterns, `variables_get_typed`, and `procedures.js` and `variables.js`.
- Operator fields take only their dropdown values; an unknown value, which gives `undefined` in the source, cannot occur.
- The list generators that `generators/typedlang/lists.js` comments out are not modelled.
- The file generators/typedlang/logic.js registers `logic_boolean` and `logic_null` a second time. Where two files register the same key, each file is modelled separately, because the one loaded last wins.
- `copy_files` (file copying) is left out.

## Findings

| source | as written | input that shows it | evidently intended | confidence | as-written member | corrected member |
|---|---|---|---|---|---|---|
| core/type_expr.js:880-891 | `occur` does not look inside a PATTERN, so the occurs check in `unify` misses a variable under a pattern | unify `A` with LIST(PATTERN(A)): `A` is bound to a type that contains it, so the store is cyclic; `deref` still stops at the LIST, but `clone` (which `ableToUnify` calls) and `toString` of `A` recurse without end | the occurs check looks inside patterns too, and `unify` keeps the store acyclic | not executed | TypeUnify.OccursSkipsPatterns | TypeUnify.UnifySound |
| core/workspace.js:635-641 | past `MAX_UNDO` the listener calls `undoStack_.unshift()` with no argument, which removes nothing | 1025 undoable events in a row leave 1025 events on the undo stack | drop the oldest event (`shift()`), so the stack never exceeds `MAX_UNDO` | not executed | Workspaces.FireAsWrittenOverflows | Workspaces.FireBounded |
| core/rendered_type_expr.js:72-76 | the default shape's `up` names its parameter `stesp` but pushes onto `steps`, a name that is not bound there | drawing a STRING type (plain tab) upwards throws a ReferenceError | name the parameter `steps`, as `down` does, so the tab is pushed onto the caller's list | not executed | RenderedTypes.StringUpFails | RenderedTypes.Steps |

=== FILE: blocks.dfy ===
/** Block-level helpers of core/block.js: reordering inputs, validating the
    interpolation tokens of a JSON message, recognising pattern pairs, the
    inline layout rule, colours, the block tree, resolving variable
    references against an environment, and where a block may stand on its
    own. */
module Blocks {
  import opened Wrappers
  import opened TypeExpr
  import opened Workbenches
  import DataTypes

  // ---------------------------------------------------------------------
  // Inputs.
  // ---------------------------------------------------------------------

  /** `Blockly.INPUT_VALUE`, `Blockly.NEXT_STATEMENT`, `Blockly.DUMMY_INPUT`. */
  datatype InputKind = ValueInput | StatementInput | DummyInput

  /** An input of a block: its kind and its name. */
  datatype Input = Input(kind: InputKind, name: string)

  /** The assertions of `moveInputBefore` and `moveNumberedInputBefore`. */
  datatype MoveError = MoveToItself | InputOutOfBounds | RefOutOfBounds | InputNotFound | RefNotFound

  /** `xs` without its element at `i`. */
  function Without<T>(xs: seq<T>, i: nat): (r: seq<T>)
    requires i < |xs|
    ensures |r| == |xs| - 1
    ensures forall j :: 0 <= j < |r| ==> r[j] == (if j < i then xs[j] else xs[j + 1])
  {
    xs[..i] + xs[i + 1..]
  }

  /** Where the moved input lands: the reference index, less one when the
      input was taken out from before the reference. */
  function Landing(inputIndex: nat, refIndex: nat): nat {
    if inputIndex < refIndex then refIndex - 1 else refIndex
  }

  /** `xs` with `x` put in at position `k`. */
  function Insert<T>(xs: seq<T>, k: nat, x: T): (r: seq<T>)
    requires k <= |xs|
    ensures |r| == |xs| + 1 && r[k] == x
    ensures forall j :: 0 <= j < |r| && j != k ==> r[j] == (if j < k then xs[j] else xs[j - 1])
    ensures Without(r, k) == xs
    ensures multiset(r) == multiset(xs) + multiset{x}
  {
    var r := xs[..k] + [x] + xs[k..];
    assert xs == xs[..k] + xs[k..];
    r
  }

  /** Taking an element out leaves the rest of the multiset. */
  lemma WithoutMultiset<T>(xs: seq<T>, i: nat)
    requires i < |xs|
    ensures multiset(xs) == multiset(Without(xs, i)) + multiset{xs[i]}
  {
    assert xs == xs[..i] + [xs[i]] + xs[i + 1..];
  }

  /** `moveNumberedInputBefore(inputIndex, refIndex)` on the input list
      `xs`: take the input out and put it back just before the input that was
      at `refIndex` (at the end when `refIndex` is the length).  The result
      is a permutation of the list, the moved input sits right before the
      old reference input, and every other input keeps its relative
      order. */
  function MoveNumberedInputBefore<T>(xs: seq<T>, inputIndex: nat, refIndex: nat): (r: Result<seq<T>, MoveError>)
    ensures r.Failure? <==> inputIndex == refIndex || inputIndex >= |xs| || refIndex > |xs|
    ensures r.Success? ==> |r.value| == |xs| && multiset(r.value) == multiset(xs)
    ensures r.Success? ==>
      var k := Landing(inputIndex, refIndex);
      k < |r.value| && r.value[k] == xs[inputIndex] &&
      Without(r.value, k) == Without(xs, inputIndex) &&
      (refIndex < |xs| ==> k + 1 < |r.value| && r.value[k + 1] == xs[refIndex]) &&
      (refIndex == |xs| ==> k == |xs| - 1)
  {
    if inputIndex == refIndex then Failure(MoveToItself)
    else if inputIndex >= |xs| then Failure(InputOutOfBounds)
    else if refIndex > |xs| then Failure(RefOutOfBounds)
    else
      WithoutMultiset(xs, inputIndex);
      Success(Insert(Without(xs, inputIndex), Landing(inputIndex, refIndex), xs[inputIndex]))
  }

  /** Whether some input of `xs` is named `name`. */
  predicate HasInput(xs: seq<Input>, name: string) {
    exists i :: 0 <= i < |xs| && xs[i].name == name
  }

  /** The search loop of `moveInputBefore`, from position `i`: an input
      named `name` sets `inputIndex` (a later one overrides an earlier one
      while the reference is still missing); otherwise an input named `ref`
      sets `refIndex` (`ref` is empty when there is no reference name); the
      loop stops once both are set.  -1 stands for "not found". */
  function FindInputs(xs: seq<Input>, name: string, ref: string, i: nat, inputIndex: int, refIndex: int): (r: (int, int))
    requires i <= |xs|
    requires -1 <= inputIndex < i && -1 <= refIndex <= |xs|
    requires inputIndex >= 0 ==> xs[inputIndex].name == name
    requires 0 <= refIndex < |xs| ==> ref != "" && xs[refIndex].name == ref
    requires inputIndex == -1 ==> forall j :: 0 <= j < i ==> xs[j].name != name
    requires refIndex == -1 ==> ref != "" && forall j :: 0 <= j < i ==> xs[j].name == name || xs[j].name != ref
    ensures -1 <= r.0 < |xs| && -1 <= r.1 <= |xs|
    ensures ref == "" ==> r.1 == refIndex
    ensures r.0 >= 0 ==> xs[r.0].name == name
    ensures 0 <= r.1 < |xs| ==> ref != "" && xs[r.1].name == ref
    ensures r.1 == |xs| ==> refIndex == |xs|
    ensures r.0 == -1 <==> inputIndex == -1 && forall j :: i <= j < |xs| ==> xs[j].name != name
    ensures r.1 == -1 <==> refIndex == -1 && forall j :: i <= j < |xs| ==> xs[j].name == name || xs[j].name != ref
    decreases |xs| - i
  {
    if i == |xs| then (inputIndex, refIndex)
    else if xs[i].name == name then
      if refIndex != -1 then (i, refIndex)
      else FindInputs(xs, name, ref, i + 1, i, refIndex)
    else if ref != "" && xs[i].name == ref then
      if inputIndex != -1 then (inputIndex, i)
      else FindInputs(xs, name, ref, i + 1, inputIndex, i)
    else FindInputs(xs, name, ref, i + 1, inputIndex, refIndex)
  }

  /** `ys` is `xs` with an input named `name` taken out and put back just
      before an input named `ref`, or last when `ref` is empty; the other
      inputs keep their order. */
  predicate MovedBefore(xs: seq<Input>, ys: seq<Input>, name: string, ref: string) {
    exists i, k :: 0 <= i < |xs| && 0 <= k < |ys| && xs[i].name == name && ys[k] == xs[i] &&
      Without(ys, k) == Without(xs, i) &&
      (ref == "" ==> k == |ys| - 1) &&
      (ref != "" ==> k + 1 < |ys| && ys[k + 1].name == ref)
  }

  /** `MovedBefore` from its witnesses. */
  lemma MovedBeforeAt(xs: seq<Input>, ys: seq<Input>, name: string, ref: string, i: nat, k: nat)
    requires i < |xs| && k < |ys| && xs[i].name == name && ys[k] == xs[i]
    requires Without(ys, k) == Without(xs, i)
    requires ref == "" ==> k == |ys| - 1
    requires ref != "" ==> k + 1 < |ys| && ys[k + 1].name == ref
    ensures MovedBefore(xs, ys, name, ref)
  {
  }

  /** `moveInputBefore(name, refName)`: the same name is a no-op; a missing
      or empty `refName` means the end of the list; otherwise both names
      must be found, and the input named `name` is moved before the one
      named `refName`. */
  function MoveInputBefore(xs: seq<Input>, name: string, refName: Option<string>): (r: Result<seq<Input>, MoveError>)
    ensures refName == Some(name) ==> r == Success(xs)
    ensures refName != Some(name) ==>
      (r.Failure? <==> !HasInput(xs, name) || (refName.Some? && refName.value != "" && !HasInput(xs, refName.value)))
    ensures r.Success? ==> |r.value| == |xs| && multiset(r.value) == multiset(xs)
    ensures r.Success? && refName != Some(name) ==> MovedBefore(xs, r.value, name, refName.GetOr(""))
  {
    if refName == Some(name) then Success(xs)
    else
      var ref := refName.GetOr("");
      var found := FindInputs(xs, name, ref, 0, -1, if ref != "" then -1 else |xs|);
      if found.0 == -1 then Failure(InputNotFound)
      else if found.1 == -1 then Failure(RefNotFound)
      else
        var r := MoveNumberedInputBefore(xs, found.0, found.1);
        assert r.Success?;
        MovedBeforeAt(xs, r.value, name, ref, found.0, Landing(found.0, found.1));
        r
  }

  /** Two adjacent inputs of kinds `a` and then `b`. */
  predicate HasAdjacent(kinds: seq<InputKind>, a: InputKind, b: InputKind) {
    exists i :: 1 <= i < |kinds| && kinds[i - 1] == a && kinds[i] == b
  }

  /** The first loop of `getInputsInline`, from position `i`. */
  function ScanAdjacent(kinds: seq<InputKind>, a: InputKind, b: InputKind, i: nat): (found: bool)
    requires 1 <= i
    ensures found <==> exists j :: i <= j < |kinds| && kinds[j - 1] == a && kinds[j] == b
    decreases |kinds| - i
  {
    if i >= |kinds| then false
    else if kinds[i - 1] == a && kinds[i] == b then true
    else ScanAdjacent(kinds, a, b, i + 1)
  }

  /** `getInputsInline()`: an explicit setting wins; otherwise two dummy
      inputs in a row give false, else a value input followed by a dummy
      gives true, else false. */
  function GetInputsInline(explicit: Option<bool>, kinds: seq<InputKind>): (r: bool)
    ensures explicit.Some? ==> r == explicit.value
    ensures explicit.None? ==>
      (r <==> !HasAdjacent(kinds, DummyInput, DummyInput) && HasAdjacent(kinds, ValueInput, DummyInput))
  {
    if explicit.Some? then explicit.value
    else if ScanAdjacent(kinds, DummyInput, DummyInput, 1) then false
    else ScanAdjacent(kinds, ValueInput, DummyInput, 1)
  }

  // ---------------------------------------------------------------------
  // `interpolate_`: the tokens of a JSON message.
  // ---------------------------------------------------------------------

  /** A token of `tokenizeInterpolation`: a `%n` reference or a text. */
  datatype Token = NumToken(n: int) | TextToken(text: string)

  /** An argument of the JSON message: its `type` and its `name`. */
  datatype Arg = Arg(argType: string, name: string)

  /** An element to turn into fields and inputs. */
  datatype Element = TextElem(text: string) | ArgElem(arg: Arg) | DummyElem(align: Option<string>)

  /** The errors `interpolate_` throws. */
  datatype InterpolateError = IndexOutOfRange(index: int) | IndexDuplicated(index: int) | NotAllReferenced

  /** `s.trim()`. */
  function Trim(s: string): (t: string)
    ensures |t| <= |s|
    ensures |t| > 0 ==> !DataTypes.IsJsSpace(t[0]) && !DataTypes.IsJsSpace(t[|t| - 1])
    ensures exists k :: TrimmedAt(s, t, k)
  {
    var u := DataTypes.SkipSpaces(s);
    var t := TrimEnd(u);
    DataTypes.SkipSpacesExact(s);
    TrimmedAtSkip(s, u, t);
    t
  }

  /** `t` is `s` with white space only removed around it: it starts at
      position `k` of `s`, and everything before and after it is white space. */
  predicate TrimmedAt(s: string, t: string, k: int) {
    0 <= k <= |s| - |t| && t == s[k..k + |t|] &&
    DataTypes.AllSpaces(s[..k]) && DataTypes.AllSpaces(s[k + |t|..])
  }

  /** A suffix of `s` after white space, less trailing white space, is `s`
      trimmed at the suffix's start. */
  lemma TrimmedAtSkip(s: string, u: string, t: string)
    requires |u| <= |s| && u == s[|s| - |u|..] && DataTypes.AllSpaces(s[..|s| - |u|])
    requires |t| <= |u| && t == u[..|t|] && DataTypes.AllSpaces(u[|t|..])
    ensures TrimmedAt(s, t, |s| - |u|)
  {
    var k := |s| - |u|;
    assert s[k + |t|..] == u[|t|..];
  }

  /** Trimming twice is trimming once. */
  lemma TrimIdempotent(s: string)
    ensures Trim(Trim(s)) == Trim(s)
  {
    if Trim(s) != "" {
      TrimKeeps(Trim(s));
    }
  }

  /** `s` without its trailing white space. */
  function TrimEnd(s: string): (t: string)
    ensures |t| <= |s| && t == s[..|t|]
    ensures |t| > 0 ==> !DataTypes.IsJsSpace(t[|t| - 1])
    ensures DataTypes.AllSpaces(s[|t|..])
  {
    if |s| == 0 || !DataTypes.IsJsSpace(s[|s| - 1]) then s
    else
      var t := TrimEnd(s[..|s| - 1]);
      TrailingSpaces(s, t);
      t
  }

  /** A white-space character after a run of white space extends it. */
  lemma TrailingSpaces(s: string, t: string)
    requires 0 < |s| && DataTypes.IsJsSpace(s[|s| - 1])
    requires |t| <= |s| - 1 && t == s[..|s| - 1][..|t|] && DataTypes.AllSpaces(s[..|s| - 1][|t|..])
    ensures |t| <= |s| && t == s[..|t|] && DataTypes.AllSpaces(s[|t|..])
  {
    DataTypes.AllSpacesAt(s[..|s| - 1][|t|..]);
    DataTypes.AllSpacesAt(s[|t|..]);
    assert forall i :: |t| <= i < |s| - 1 ==> s[i] == s[..|s| - 1][|t|..][i - |t|];
  }

  /** Every `%n` lies in 1..`count`. */
  predicate InRange(tokens: seq<Token>, count: nat) {
    forall j :: 0 <= j < |tokens| && tokens[j].NumToken? ==> 1 <= tokens[j].n <= count
  }

  /** No `%n` is repeated. */
  predicate NoRepeat(tokens: seq<Token>) {
    forall j, k :: 0 <= j < k < |tokens| && tokens[j].NumToken? && tokens[k].NumToken? ==> tokens[j].n != tokens[k].n
  }

  /** The set of the `%n` of `tokens`. */
  function Referenced(tokens: seq<Token>): set<int> {
    set j | 0 <= j < |tokens| && tokens[j].NumToken? :: tokens[j].n
  }

  /** The argument-reading loop of `interpolate_` from token `i`, with the
      indices seen so far: the first bad token decides the error. */
  function CheckTokens(tokens: seq<Token>, count: nat, i: nat, seen: set<int>): (r: Result<set<int>, InterpolateError>)
    requires i <= |tokens|
    ensures r.Success? <==>
      (forall j :: i <= j < |tokens| && tokens[j].NumToken? ==> 1 <= tokens[j].n <= count && tokens[j].n !in seen) &&
      (forall j, k :: i <= j < k < |tokens| && tokens[j].NumToken? && tokens[k].NumToken? ==> tokens[j].n != tokens[k].n)
    ensures r.Success? ==> r.value == seen + (set j | i <= j < |tokens| && tokens[j].NumToken? :: tokens[j].n)
    decreases |tokens| - i
  {
    if i == |tokens| then Success(seen)
    else match tokens[i]
      case TextToken(_) => CheckTokens(tokens, count, i + 1, seen)
      case NumToken(n) =>
        if n <= 0 || n > count then Failure(IndexOutOfRange(n))
        else if n in seen then Failure(IndexDuplicated(n))
        else
          var r := CheckTokens(tokens, count, i + 1, seen + {n});
          assert (set j | i <= j < |tokens| && tokens[j].NumToken? :: tokens[j].n) ==
            {n} + (set j | i + 1 <= j < |tokens| && tokens[j].NumToken? :: tokens[j].n);
          r
  }

  /** The elements of the tokens: each `%n` gives its argument and each
      text that is not blank once trimmed gives itself, trimmed. */
  function Elements(tokens: seq<Token>, args: seq<Arg>): (els: seq<Element>)
    requires InRange(tokens, |args|)
    ensures forall e :: e in els ==> !e.DummyElem?
    ensures forall e :: e in els && e.ArgElem? ==> e.arg in args
    ensures forall j :: 0 <= j < |tokens| && tokens[j].NumToken? ==> ArgElem(args[tokens[j].n - 1]) in els
    ensures |els| <= |tokens|
  {
    if |tokens| == 0 then []
    else
      var head := TokenElements(tokens[0], args);
      InRangeTail(tokens, |args|);
      var tail := Elements(tokens[1..], args);
      ElementsJoin(tokens, args, head, tail);
      head + tail
  }

  /** The text elements are exactly the trimmed non-blank text tokens: none
      is dropped and none is invented. */
  lemma {:induction false} ElementsTexts(tokens: seq<Token>, args: seq<Arg>)
    requires InRange(tokens, |args|)
    ensures forall j :: 0 <= j < |tokens| && tokens[j].TextToken? && Trim(tokens[j].text) != "" ==>
      TextElem(Trim(tokens[j].text)) in Elements(tokens, args)
    ensures forall e :: e in Elements(tokens, args) && e.TextElem? ==> e.text != "" && TextOfSome(tokens, e.text)
  {
    if |tokens| > 0 {
      InRangeTail(tokens, |args|);
      ElementsTexts(tokens[1..], args);
      ElementsCons(tokens, args);
      TextsKept(tokens, TokenElements(tokens[0], args), Elements(tokens[1..], args));
      TextsFound(tokens, TokenElements(tokens[0], args), Elements(tokens[1..], args));
    }
  }

  /** Some text token of `tokens` trims to `text`. */
  predicate TextOfSome(tokens: seq<Token>, text: string) {
    exists j :: 0 <= j < |tokens| && tokens[j].TextToken? && Trim(tokens[j].text) == text
  }

  /** No non-blank text token of `tokens` is dropped from `head + tail`. */
  lemma TextsKept(tokens: seq<Token>, head: seq<Element>, tail: seq<Element>)
    requires |tokens| > 0
    requires tokens[0].TextToken? && Trim(tokens[0].text) != "" ==> TextElem(Trim(tokens[0].text)) in head
    requires forall j :: 0 <= j < |tokens[1..]| && tokens[1..][j].TextToken? && Trim(tokens[1..][j].text) != "" ==>
      TextElem(Trim(tokens[1..][j].text)) in tail
    ensures forall j :: 0 <= j < |tokens| && tokens[j].TextToken? && Trim(tokens[j].text) != "" ==>
      TextElem(Trim(tokens[j].text)) in head + tail
  {
    forall j | 0 <= j < |tokens| && tokens[j].TextToken? && Trim(tokens[j].text) != ""
      ensures TextElem(Trim(tokens[j].text)) in head + tail
    {
      if j > 0 {
        assert tokens[j] == tokens[1..][j - 1];
      }
    }
  }

  /** Every text element of `head + tail` comes from a text token. */
  lemma TextsFound(tokens: seq<Token>, head: seq<Element>, tail: seq<Element>)
    requires |tokens| > 0
    requires forall e :: e in head && e.TextElem? ==> tokens[0].TextToken? && e.text == Trim(tokens[0].text) != ""
    requires forall e :: e in tail && e.TextElem? ==> e.text != "" && TextOfSome(tokens[1..], e.text)
    ensures forall e :: e in head + tail && e.TextElem? ==> e.text != "" && TextOfSome(tokens, e.text)
  {
    forall e | e in head + tail && e.TextElem?
      ensures e.text != "" && TextOfSome(tokens, e.text)
    {
      if e in head {
        assert 0 < |tokens| && tokens[0].TextToken? && Trim(tokens[0].text) == e.text;
      } else {
        var j :| 0 <= j < |tokens[1..]| && tokens[1..][j].TextToken? && Trim(tokens[1..][j].text) == e.text;
        assert tokens[j + 1] == tokens[1..][j];
      }
    }
  }

  /** The elements of a concatenation of tokens are the elements of each
      part, in turn. */
  lemma {:induction false} ElementsAppend(a: seq<Token>, b: seq<Token>, args: seq<Arg>)
    requires InRange(a + b, |args|)
    ensures InRange(a, |args|) && InRange(b, |args|)
    ensures Elements(a + b, args) == Elements(a, args) + Elements(b, args)
    decreases |a|
  {
    InRangeParts(a, b, |args|);
    if |a| == 0 {
      assert a + b == b;
    } else {
      ConsOfAppend(a, b);
      ElementsCons(a + b, args);
      ElementsCons(a, args);
      ElementsAppend(a[1..], b, args);
      JoinParts(Elements(a + b, args), Elements(a, args), TokenElements(a[0], args),
        Elements(a[1..] + b, args), Elements(a[1..], args), Elements(b, args));
    }
  }

  /** The head and tail of a concatenation with a non-empty left part. */
  lemma ConsOfAppend<T>(a: seq<T>, b: seq<T>)
    requires |a| > 0
    ensures (a + b)[0] == a[0] && (a + b)[1..] == a[1..] + b
  {
  }

  /** `h + (x + y)` regrouped. */
  lemma JoinParts<T>(whole: seq<T>, left: seq<T>, h: seq<T>, rest: seq<T>, x: seq<T>, y: seq<T>)
    requires whole == h + rest && rest == x + y && left == h + x
    ensures whole == left + y
  {
  }

  /** `Elements` of a non-empty token list: the first token's elements, then
      the rest's. */
  lemma ElementsCons(tokens: seq<Token>, args: seq<Arg>)
    requires |tokens| > 0 && InRange(tokens, |args|)
    ensures InRange(tokens[1..], |args|) && (tokens[0].NumToken? ==> 1 <= tokens[0].n <= |args|)
    ensures Elements(tokens, args) == TokenElements(tokens[0], args) + Elements(tokens[1..], args)
  {
    InRangeTail(tokens, |args|);
  }

  /** Both parts of an in-range concatenation are in range. */
  lemma InRangeParts(a: seq<Token>, b: seq<Token>, count: nat)
    requires InRange(a + b, count)
    ensures InRange(a, count) && InRange(b, count)
  {
    assert forall j :: 0 <= j < |a| ==> a[j] == (a + b)[j];
    assert forall j :: 0 <= j < |b| ==> b[j] == (a + b)[|a| + j];
  }

  /** One more token appends its own elements, and only those, after the
      elements so far: the elements follow the tokens' order. */
  lemma ElementsSnoc(tokens: seq<Token>, t: Token, args: seq<Arg>)
    requires InRange(tokens + [t], |args|)
    ensures InRange(tokens, |args|) && (t.NumToken? ==> 1 <= t.n <= |args|)
    ensures Elements(tokens + [t], args) == Elements(tokens, args) + TokenElements(t, args)
  {
    ElementsAppend(tokens, [t], args);
    ElementsOne(t, args);
  }

  /** One token's elements. */
  lemma ElementsOne(t: Token, args: seq<Arg>)
    requires InRange([t], |args|)
    ensures t.NumToken? ==> 1 <= t.n <= |args|
    ensures Elements([t], args) == TokenElements(t, args)
  {
    assert [t][0] == t && [t][1..] == [];
    assert Elements([t][1..], args) == [];
  }

  /** The elements of one token. */
  function TokenElements(token: Token, args: seq<Arg>): (els: seq<Element>)
    requires token.NumToken? ==> 1 <= token.n <= |args|
    ensures forall e :: e in els ==> !e.DummyElem? && (e.ArgElem? ==> e.arg in args)
    ensures token.NumToken? ==> els == [ArgElem(args[token.n - 1])]
    ensures token.TextToken? ==> (els == [] <==> Trim(token.text) == "")
    ensures token.TextToken? && Trim(token.text) != "" ==> els == [TextElem(Trim(token.text))]
    ensures |els| <= 1
    ensures forall e :: e in els && e.TextElem? ==> token.TextToken? && e.text == Trim(token.text) != ""
  {
    match token
    case NumToken(n) => [ArgElem(args[n - 1])]
    case TextToken(t) => if Trim(t) != "" then [TextElem(Trim(t))] else []
  }

  /** The tokens after the first are in range as well. */
  lemma InRangeTail(tokens: seq<Token>, count: nat)
    requires |tokens| > 0 && InRange(tokens, count)
    ensures InRange(tokens[1..], count) && (tokens[0].NumToken? ==> 1 <= tokens[0].n <= count)
  {
    assert forall j :: 0 <= j < |tokens[1..]| ==> tokens[1..][j] == tokens[j + 1];
  }

  /** The facts `Elements` states, from the first token's elements and the
      rest's. */
  lemma ElementsJoin(tokens: seq<Token>, args: seq<Arg>, head: seq<Element>, tail: seq<Element>)
    requires |tokens| > 0 && InRange(tokens, |args|)
    requires forall e :: e in head ==> !e.DummyElem? && (e.ArgElem? ==> e.arg in args)
    requires tokens[0].NumToken? ==> ArgElem(args[tokens[0].n - 1]) in head
    requires forall e :: e in tail ==> !e.DummyElem? && (e.ArgElem? ==> e.arg in args)
    requires forall j :: 0 <= j < |tokens[1..]| && tokens[1..][j].NumToken? ==> ArgElem(args[tokens[1..][j].n - 1]) in tail
    requires |head| <= 1 && |tail| <= |tokens| - 1
    ensures |head + tail| <= |tokens|
    ensures forall e :: e in head + tail ==> !e.DummyElem? && (e.ArgElem? ==> e.arg in args)
    ensures forall j :: 0 <= j < |tokens| && tokens[j].NumToken? ==> ArgElem(args[tokens[j].n - 1]) in head + tail
  {
    forall j | 0 <= j < |tokens| && tokens[j].NumToken?
      ensures ArgElem(args[tokens[j].n - 1]) in head + tail
    {
      if j > 0 {
        assert tokens[j] == tokens[1..][j - 1];
      }
    }
  }

  /** The last element becomes a label or a field, so a dummy input is
      needed to hold it. */
  predicate NeedsDummy(els: seq<Element>) {
    |els| > 0 && (els[|els| - 1].TextElem? ||
      (els[|els| - 1].ArgElem? && |els[|els| - 1].arg.argType| >= 6 && els[|els| - 1].arg.argType[..6] == "field_"))
  }

  /** `interpolate_(message, args, lastDummyAlign)` up to the element list,
      given the message's tokens. */
  function Interpolate(tokens: seq<Token>, args: seq<Arg>, lastDummyAlign: Option<string>): (r: Result<seq<Element>, InterpolateError>)
    ensures r.Success? <==> InRange(tokens, |args|) && NoRepeat(tokens) && |Referenced(tokens)| == |args|
    ensures r.Success? ==> (|r.value| > 0 && r.value[|r.value| - 1].DummyElem? <==> NeedsDummy(Elements(tokens, args)))
    ensures r.Success? ==> forall e :: e in Elements(tokens, args) ==> e in r.value
    ensures r.Success? ==> (|r.value| == |Elements(tokens, args)| + (if NeedsDummy(Elements(tokens, args)) then 1 else 0) &&
      r.value[..|Elements(tokens, args)|] == Elements(tokens, args))
    ensures r.Success? && NeedsDummy(Elements(tokens, args)) ==>
      r.value[|r.value| - 1].align == (if lastDummyAlign.Some? && lastDummyAlign.value != "" then lastDummyAlign else None)
  {
    var seen :- CheckTokens(tokens, |args|, 0, {});
    if |seen| != |args| then Failure(NotAllReferenced)
    else Success(WithDummy(Elements(tokens, args), lastDummyAlign))
  }

  /** The elements, followed by a dummy input exactly when the last one needs
      it; an empty alignment counts as none. */
  function WithDummy(els: seq<Element>, lastDummyAlign: Option<string>): (r: seq<Element>)
    requires forall e :: e in els ==> !e.DummyElem?
    ensures |r| == |els| + (if NeedsDummy(els) then 1 else 0) && r[..|els|] == els
    ensures |r| > 0 && r[|r| - 1].DummyElem? <==> NeedsDummy(els)
    ensures NeedsDummy(els) ==>
      r[|r| - 1].align == (if lastDummyAlign.Some? && lastDummyAlign.value != "" then lastDummyAlign else None)
  {
    if NeedsDummy(els) then
      els + [DummyElem(if lastDummyAlign.Some? && lastDummyAlign.value != "" then lastDummyAlign else None)]
    else
      assert |els| > 0 ==> els[|els| - 1] in els;
      els
  }

  /** The numbers 1..n. */
  function Upto(n: nat): (r: set<int>)
    ensures |r| == n
    ensures forall k :: k in r <==> 1 <= k <= n
  {
    if n == 0 then {} else
      var r := Upto(n - 1) + {n};
      assert n !in Upto(n - 1);
      r
  }

  /** A subset as large as the whole set is the whole set. */
  lemma SubsetSameSize(a: set<int>, b: set<int>)
    requires a <= b && |a| == |b|
    ensures a == b
  {
    assert b == a + (b - a);
    assert |b - a| == 0;
  }

  /** In-range `%n` tokens naming as many indices as there are arguments
      name every one of them. */
  lemma ReferencedAll(tokens: seq<Token>, count: nat)
    requires InRange(tokens, count) && |Referenced(tokens)| == count
    ensures Referenced(tokens) == Upto(count)
  {
    assert Referenced(tokens) <= Upto(count);
    SubsetSameSize(Referenced(tokens), Upto(count));
  }

  /** When the checks pass, every argument is referenced exactly once:
      each of 1..`count` occurs as a `%n` token, at exactly one position. */
  lemma EveryArgOnce(tokens: seq<Token>, count: nat, n: int) returns (j: nat)
    requires InRange(tokens, count) && NoRepeat(tokens) && |Referenced(tokens)| == count
    requires 1 <= n <= count
    ensures j < |tokens| && tokens[j] == NumToken(n)
    ensures forall k :: 0 <= k < |tokens| && tokens[k] == NumToken(n) ==> j == k
  {
    ReferencedAll(tokens, count);
    assert n in Referenced(tokens);
    j :| 0 <= j < |tokens| && tokens[j].NumToken? && tokens[j].n == n;
  }

  /** When the checks pass, every argument has its element. */
  lemma ArgInElements(tokens: seq<Token>, args: seq<Arg>, n: int)
    requires InRange(tokens, |args|) && NoRepeat(tokens) && |Referenced(tokens)| == |args|
    requires 1 <= n <= |args|
    ensures ArgElem(args[n - 1]) in Elements(tokens, args)
  {
    var j := EveryArgOnce(tokens, |args|, n);
    var els := Elements(tokens, args);
    assert tokens[j].NumToken? && tokens[j].n == n;
    assert ArgElem(args[tokens[j].n - 1]) in els;
  }

  /** On success every argument reaches the element list, referenced by
      exactly one token. */
  lemma InterpolateUsesEveryArg(tokens: seq<Token>, args: seq<Arg>, lastDummyAlign: Option<string>, n: int)
    requires Interpolate(tokens, args, lastDummyAlign).Success?
    requires 1 <= n <= |args|
    ensures ArgElem(args[n - 1]) in Interpolate(tokens, args, lastDummyAlign).value
  {
    ArgInElements(tokens, args, n);
  }

  // ---------------------------------------------------------------------
  // Pattern pairs, colours and transfer.
  // ---------------------------------------------------------------------

  /** `s.endsWith(suffix)`. */
  predicate EndsWith(s: string, suffix: string) {
    |s| >= |suffix| && s[|s| - |suffix|..] == suffix
  }

  const PatternSuffix: string := "pattern_typed"
  const PatternValueSuffix: string := "pattern_value_typed"

  /** `isPairPattern(otherBlock)` on the two block types: one of them
      ends in the pattern suffix and the other in the pattern-value
      suffix. */
  function IsPairPattern(mine: string, other: string): (r: bool)
    ensures r ==> (EndsWith(mine, PatternSuffix) && EndsWith(other, PatternValueSuffix)) ||
                  (EndsWith(other, PatternSuffix) && EndsWith(mine, PatternValueSuffix))
  {
    var pattern := if EndsWith(mine, PatternSuffix) then Some(mine)
      else if EndsWith(other, PatternSuffix) then Some(other) else None;
    if pattern.None? then false
    else
      var value := if pattern == Some(mine) then other else mine;
      if !EndsWith(value, PatternValueSuffix) then false
      else pattern.value[..|pattern.value| - |PatternSuffix|] == value[..|value| - |PatternValueSuffix|]
  }

  /** A type ending in the pattern-value suffix does not end in the
      pattern suffix. */
  lemma ValueIsNoPattern(s: string)
    requires EndsWith(s, PatternValueSuffix)
    ensures !EndsWith(s, PatternSuffix)
  {
    assert s[|s| - 13] == PatternValueSuffix[6];
  }

  /** A prefix followed by a suffix ends in that suffix and gives the
      prefix back when the suffix is cut off. */
  lemma Affix(p: string, suffix: string)
    ensures EndsWith(p + suffix, suffix)
    ensures (p + suffix)[..|p + suffix| - |suffix|] == p
  {
    assert (p + suffix)[|p|..] == suffix;
  }

  /** `p` + "pattern_typed" and `p` + "pattern_value_typed" make a pattern
      pair, in either order. */
  lemma PairPatternOfPrefix(p: string)
    ensures IsPairPattern(p + PatternSuffix, p + PatternValueSuffix)
    ensures IsPairPattern(p + PatternValueSuffix, p + PatternSuffix)
  {
    Affix(p, PatternSuffix);
    Affix(p, PatternValueSuffix);
    ValueIsNoPattern(p + PatternValueSuffix);
  }

  /** A pattern pair is made of one prefix and the two suffixes. */
  lemma PrefixOfPairPattern(mine: string, other: string)
    requires IsPairPattern(mine, other)
    ensures exists p: string :: (mine == p + PatternSuffix && other == p + PatternValueSuffix) ||
                                (other == p + PatternSuffix && mine == p + PatternValueSuffix)
  {
    PairPatternParts(mine, other);
    if EndsWith(mine, PatternSuffix) {
      var p := PairPatternSplit(mine, other);
      PairPatternWitness(mine, other, p);
    } else {
      var p := PairPatternSplit(other, mine);
      PairPatternWitness(mine, other, p);
    }
  }

  /** Which of the two is the pattern type, and that the two agree before
      their suffixes. */
  lemma PairPatternParts(mine: string, other: string)
    requires IsPairPattern(mine, other)
    ensures EndsWith(mine, PatternSuffix) ==>
      EndsWith(other, PatternValueSuffix) &&
      mine[..|mine| - |PatternSuffix|] == other[..|other| - |PatternValueSuffix|]
    ensures !EndsWith(mine, PatternSuffix) ==>
      EndsWith(other, PatternSuffix) && EndsWith(mine, PatternValueSuffix) &&
      other[..|other| - |PatternSuffix|] == mine[..|mine| - |PatternValueSuffix|]
  {
    if !EndsWith(mine, PatternSuffix) {
      assert other != mine;
    }
  }

  /** One prefix shared in either order is a witness. */
  lemma PairPatternWitness(mine: string, other: string, p: string)
    requires (mine == p + PatternSuffix && other == p + PatternValueSuffix) ||
             (other == p + PatternSuffix && mine == p + PatternValueSuffix)
    ensures exists q: string :: (mine == q + PatternSuffix && other == q + PatternValueSuffix) ||
                                (other == q + PatternSuffix && mine == q + PatternValueSuffix)
  {
  }

  /** The shared prefix of a pattern type and its value type. */
  lemma PairPatternSplit(pat: string, value: string) returns (p: string)
    requires EndsWith(pat, PatternSuffix) && EndsWith(value, PatternValueSuffix)
    requires pat[..|pat| - |PatternSuffix|] == value[..|value| - |PatternValueSuffix|]
    ensures pat == p + PatternSuffix && value == p + PatternValueSuffix
  {
    p := pat[..|pat| - |PatternSuffix|];
    assert pat == p + pat[|pat| - |PatternSuffix|..];
    assert value == p + value[|value| - |PatternValueSuffix|..];
  }

  /** Two types make a pattern pair exactly when one is `p` +
      "pattern_typed" and the other `p` + "pattern_value_typed" for one
      prefix `p`, in either order. */
  lemma IsPairPatternSpec(mine: string, other: string)
    ensures IsPairPattern(mine, other) <==>
      exists p: string :: (mine == p + PatternSuffix && other == p + PatternValueSuffix) ||
                          (other == p + PatternSuffix && mine == p + PatternValueSuffix)
  {
    if IsPairPattern(mine, other) {
      PrefixOfPairPattern(mine, other);
    } else if p: string :| (mine == p + PatternSuffix && other == p + PatternValueSuffix) ||
                           (other == p + PatternSuffix && mine == p + PatternValueSuffix) {
      PairPatternOfPrefix(p);
    }
  }

  /** The argument of `setColour`: a number (integers only) or a string. */
  datatype ColourArg = HueArg(hue: int) | TextArg(text: string)

  /** The colour a block is drawn with: computed from a hue, or given as
      '#RRGGBB'. */
  datatype Colour = FromHue(hue: int) | HexColour(text: string)

  /** `hue_` and `colour_` of a block. */
  datatype ColourState = ColourState(hue: Option<int>, colour: Colour)

  datatype ColourError = InvalidColour

  /** `Number(s)` for strings that are blank or an optionally signed run of
      decimal digits around white space; `None` for everything read here as
      `NaN`.  A negative number is written with a minus sign, and whatever
      follows the first character of a number read is a digit.  A sign
      with no digit after it is `NaN`. */
  function NumberOfString(s: string): (r: Option<int>)
    ensures Trim(s) == "" ==> r == Some(0)
    ensures r.Some? && r.value < 0 ==> Trim(s)[0] == '-'
    ensures r.Some? && Trim(s) != "" ==> DataTypes.IsDecimal(Trim(s)[1..])
    ensures r.Some? <==> Trim(s) == "" || SignedDecimal(Trim(s))
  {
    NumberOfTrimmed(Trim(s))
  }

  /** An optional sign followed by at least one decimal digit: the integer
      literals `Number` accepts here.  A sign on its own is not a number. */
  predicate SignedDecimal(t: string) {
    |t| > 0 &&
    if t[0] == '-' || t[0] == '+' then |t| > 1 && DataTypes.IsDecimal(t[1..])
    else DataTypes.IsDecimal(t)
  }

  /** `Number` of a string already trimmed. */
  function NumberOfTrimmed(t: string): (r: Option<int>)
    ensures t == "" ==> r == Some(0)
    ensures r.Some? && r.value < 0 ==> t[0] == '-'
    ensures r.Some? && t != "" ==> DataTypes.IsDecimal(t[1..])
    ensures r.Some? <==> t == "" || SignedDecimal(t)
  {
    if t == "" then Some(0)
    else if t[0] == '-' && |t| > 1 && DataTypes.IsDecimal(t[1..]) then Some(0 - DataTypes.DigitsValue(t[1..], DataTypes.Decimal))
    else if t[0] == '+' && |t| > 1 && DataTypes.IsDecimal(t[1..]) then Some(DataTypes.DigitsValue(t[1..], DataTypes.Decimal))
    else if DataTypes.IsDecimal(t) then Some(DataTypes.DigitsValue(t, DataTypes.Decimal))
    else None
  }

  /** A run of decimal digits reads as its value, with a minus sign as its
      negation and with a plus sign as itself. */
  lemma NumberOfDigits(d: string)
    requires |d| > 0 && DataTypes.IsDecimal(d)
    ensures NumberOfString(d) == Some(DataTypes.DigitsValue(d, DataTypes.Decimal))
    ensures NumberOfString("-" + d) == Some(0 - DataTypes.DigitsValue(d, DataTypes.Decimal))
    ensures NumberOfString("+" + d) == Some(DataTypes.DigitsValue(d, DataTypes.Decimal))
  {
    NumberOfUnsigned(d);
    NumberOfSigned(d, '-');
    NumberOfSigned(d, '+');
  }

  /** The unsigned case of `NumberOfDigits`. */
  lemma NumberOfUnsigned(d: string)
    requires |d| > 0 && DataTypes.IsDecimal(d)
    ensures NumberOfString(d) == Some(DataTypes.DigitsValue(d, DataTypes.Decimal))
  {
    DigitsNotSpace(d);
    TrimKeeps(d);
    NumberOfTrimmedDigits(d);
  }

  /** The signed cases of `NumberOfDigits`. */
  lemma NumberOfSigned(d: string, sign: char)
    requires |d| > 0 && DataTypes.IsDecimal(d) && (sign == '-' || sign == '+')
    ensures NumberOfString([sign] + d) ==
      Some(if sign == '-' then 0 - DataTypes.DigitsValue(d, DataTypes.Decimal) else DataTypes.DigitsValue(d, DataTypes.Decimal))
  {
    SignedKeepsTrim(d, sign);
    NumberOfTrimmedSigned(d, sign);
  }

  /** A sign and a digit run are their own trim. */
  lemma SignedKeepsTrim(d: string, sign: char)
    requires |d| > 0 && DataTypes.IsDecimal(d) && (sign == '-' || sign == '+')
    ensures Trim([sign] + d) == [sign] + d
  {
    var t := [sign] + d;
    DigitsNotSpace(d);
    assert t[|t| - 1] == d[|d| - 1];
    TrimKeeps(t);
  }

  /** Digits are not white space. */
  lemma DigitsNotSpace(d: string)
    requires |d| > 0 && DataTypes.IsDecimal(d)
    ensures !DataTypes.IsJsSpace(d[0]) && !DataTypes.IsJsSpace(d[|d| - 1]) && d[0] != '-' && d[0] != '+'
  {
    assert '0' <= d[0] <= '9' && '0' <= d[|d| - 1] <= '9';
  }

  /** `NumberOfTrimmed` of a digit run. */
  lemma NumberOfTrimmedDigits(d: string)
    requires |d| > 0 && DataTypes.IsDecimal(d) && d[0] != '-' && d[0] != '+'
    ensures NumberOfTrimmed(d) == Some(DataTypes.DigitsValue(d, DataTypes.Decimal))
  {
  }

  /** `NumberOfTrimmed` of a sign and a digit run. */
  lemma NumberOfTrimmedSigned(d: string, sign: char)
    requires |d| > 0 && DataTypes.IsDecimal(d) && (sign == '-' || sign == '+')
    ensures NumberOfTrimmed([sign] + d) ==
      Some(if sign == '-' then 0 - DataTypes.DigitsValue(d, DataTypes.Decimal) else DataTypes.DigitsValue(d, DataTypes.Decimal))
  {
    var t := [sign] + d;
    assert t[0] == sign && t[1..] == d;
  }

  /** A string that neither starts nor ends with white space is its own
      trim. */
  lemma TrimKeeps(t: string)
    requires |t| > 0 && !DataTypes.IsJsSpace(t[0]) && !DataTypes.IsJsSpace(t[|t| - 1])
    ensures Trim(t) == t
  {
    assert DataTypes.SkipSpaces(t) == t;
    assert TrimEnd(t) == t;
  }

  predicate IsHexDigit(c: char) {
    '0' <= c <= '9' || 'a' <= c <= 'f' || 'A' <= c <= 'F'
  }

  /** `/^#[0-9a-fA-F]{6}$/`. */
  predicate IsHexColour(s: string) {
    |s| == 7 && s[0] == '#' && forall i :: 1 <= i < 7 ==> IsHexDigit(s[i])
  }

  /** The hue the argument stands for, if it is a number in 0..360. */
  function HueOf(c: ColourArg): Option<int> {
    var n := match c
      case HueArg(h) => Some(h)
      case TextArg(t) => NumberOfString(t);
    if n.Some? && 0 <= n.value <= 360 then n else None
  }

  /** `setColour(colour)`: a hue in 0..360 sets the hue and the colour
      computed from it; a '#RRGGBB' string sets the colour and clears the
      hue; anything else throws and changes nothing. */
  function SetColour(st: ColourState, c: ColourArg): (r: Result<ColourState, ColourError>)
    ensures r.Failure? <==> HueOf(c).None? && !(c.TextArg? && IsHexColour(c.text))
    ensures HueOf(c).Some? ==> r == Success(ColourState(HueOf(c), FromHue(HueOf(c).value)))
    ensures HueOf(c).None? && r.Success? ==> r.value == ColourState(None, HexColour(c.text))
  {
    var hue := HueOf(c);
    if hue.Some? then Success(ColourState(hue, FromHue(hue.value)))
    else if c.TextArg? && IsHexColour(c.text) then Success(ColourState(None, HexColour(c.text)))
    else Failure(InvalidColour)
  }

  /** The new state does not depend on the old one, so setting a colour
      twice is the same as setting it once; and a hue survives only when
      it was set as a hue. */
  lemma SetColourIdempotent(st: ColourState, st': ColourState, c: ColourArg)
    requires SetColour(st, c).Success?
    ensures SetColour(st', c) == SetColour(st, c)
    ensures SetColour(SetColour(st, c).value, c) == SetColour(st, c)
    ensures SetColour(st, c).value.hue.Some? <==> SetColour(st, c).value.colour.FromHue?
  {
  }

  /** A blank string (empty, or white space only) is `Number(s) == 0`, so
      it sets hue 0 whatever the block had before. */
  lemma BlankColourIsHueZero(st: ColourState, text: string)
    requires Trim(text) == ""
    ensures SetColour(st, TextArg(text)) == Success(ColourState(Some(0), FromHue(0)))
  {
  }

  /** A sign with no digit after it is `NaN`, so `setColour` of it throws
      whatever the block had before. */
  lemma BareSignIsNotANumber(st: ColourState)
    ensures NumberOfString("-") == None && NumberOfString("+") == None
    ensures SetColour(st, TextArg("-")).Failure? && SetColour(st, TextArg("+")).Failure?
  {
    BareSignFails(st, "-");
    BareSignFails(st, "+");
  }

  /** One sign of `BareSignIsNotANumber`: a sign on its own is its own
      trim, does not read as a number and is not a colour. */
  lemma BareSignFails(st: ColourState, t: string)
    requires |t| == 1 && (t[0] == '-' || t[0] == '+')
    ensures NumberOfString(t) == None && SetColour(st, TextArg(t)).Failure?
  {
    TrimKeeps(t);
    assert !SignedDecimal(t);
    NotANumberFails(st, t);
  }

  /** Text that is neither a number nor a '#RRGGBB' colour is rejected. */
  lemma NotANumberFails(st: ColourState, t: string)
    requires NumberOfString(t) == None && !IsHexColour(t)
    ensures SetColour(st, TextArg(t)).Failure?
  {
    var c := TextArg(t);
    assert HueOf(c) == None;
  }

  /** A sign on its own is its own trim and does not read as a number. */
  lemma BareSignTrimmed(sign: char)
    requires sign == '-' || sign == '+'
    ensures Trim([sign]) == [sign] && NumberOfString([sign]) == None
  {
    TrimKeeps([sign]);
    assert !SignedDecimal([sign]);
  }

  /** `isTransferable()`: in a typed workspace a block is transferable
      unless `disableTransfer_` is exactly `true`; otherwise its own
      `transferable_` flag decides. */
  function IsTransferable(typedVersion: bool, disableTransfer: Option<bool>, transferable: bool): (r: bool)
    ensures typedVersion ==> (r <==> disableTransfer != Some(true))
    ensures !typedVersion ==> r == transferable
  {
    if typedVersion then disableTransfer != Some(true) else transferable
  }

  /** A declared datatype cannot leave a typed workspace. */
  lemma DatatypeNotTransferable(s: Store, c0: nat, c1: nat, ctrId: string, transferable: bool)
    requires c0 != c1 && c0 !in s.ids && c1 !in s.ids && ctrId != ""
    ensures !IsTransferable(true, Some(DataTypes.DefineDatatype(s, c0, c1, ctrId).1.disableTransfer), transferable)
  {
  }

  // ---------------------------------------------------------------------
  // The block tree.
  // ---------------------------------------------------------------------

  /** A block and the blocks nested in it (`childBlocks_`), by id. */
  datatype BlockTree = Node(id: nat, children: seq<BlockTree>)

  /** The ids of a tree. */
  function Ids(t: BlockTree): set<nat>
    decreases t, 1
  {
    {t.id} + IdsOf(t.children)
  }

  function IdsOf(ts: seq<BlockTree>): set<nat>
    decreases ts, 0
  {
    if |ts| == 0 then {} else Ids(ts[0]) + IdsOf(ts[1..])
  }

  /** The number of blocks of a tree. */
  function Size(t: BlockTree): nat
    decreases t, 1
  {
    1 + SizeOf(t.children)
  }

  function SizeOf(ts: seq<BlockTree>): nat
    decreases ts, 0
  {
    if |ts| == 0 then 0 else Size(ts[0]) + SizeOf(ts[1..])
  }

  /** `getDescendants()`: the block itself, then the descendants of each
      child in turn. */
  function Descendants(t: BlockTree): (r: seq<nat>)
    ensures |r| == Size(t) && r[0] == t.id
    ensures forall x :: x in r <==> x in Ids(t)
    decreases t, 1
  {
    [t.id] + DescendantsOf(t.children)
  }

  function DescendantsOf(ts: seq<BlockTree>): (r: seq<nat>)
    ensures |r| == SizeOf(ts)
    ensures forall x :: x in r <==> x in IdsOf(ts)
    decreases ts, 0
  {
    if |ts| == 0 then [] else Descendants(ts[0]) + DescendantsOf(ts[1..])
  }

  /** The descendants of a child form one contiguous block right after the
      earlier children's. */
  lemma {:induction false} ChildDescendantsContiguous(t: BlockTree, i: nat)
    requires i < |t.children|
    ensures var start := 1 + SizeOf(t.children[..i]);
      start + Size(t.children[i]) <= |Descendants(t)| &&
      Descendants(t)[start..start + Size(t.children[i])] == Descendants(t.children[i])
  {
    DescendantsOfSplit(t.children, i);
  }

  lemma {:induction false} DescendantsOfSplit(ts: seq<BlockTree>, i: nat)
    requires i < |ts|
    ensures DescendantsOf(ts) == DescendantsOf(ts[..i]) + Descendants(ts[i]) + DescendantsOf(ts[i + 1..])
    decreases i
  {
    if i == 0 {
      assert ts[..0] == [];
      assert ts[1..] == ts[i + 1..];
    } else {
      DescendantsOfSplit(ts[1..], i - 1);
      assert ts[1..][..i - 1] == ts[..i][1..];
      assert ts[1..][i - 1] == ts[i];
      assert ts[1..][i..] == ts[i + 1..];
    }
  }

  /** `getRootBlock()` on the `parentBlock_` links, from `b`, having passed
      `vis`. */
  function RootFrom(parent: map<nat, nat>, b: nat, vis: set<nat>): (r: nat)
    ensures r == b || r in parent.Values
    decreases parent.Keys - vis
  {
    if b in parent && b !in vis then RootFrom(parent, parent[b], vis + {b}) else b
  }

  /** `getRootBlock()`: a block without a parent is its own root; any
      other block's root is some block's parent. */
  function RootBlock(parent: map<nat, nat>, b: nat): (r: nat)
    ensures b !in parent ==> r == b
    ensures r == b || r in parent.Values
  {
    RootFrom(parent, b, {})
  }

  /** The parent links go strictly up a rank, so they have no cycle. */
  predicate Acyclic(parent: map<nat, nat>, rank: map<nat, nat>) {
    forall b :: b in parent ==> b in rank && parent[b] in rank && rank[parent[b]] > rank[b]
  }

  /** `b` reaches `a` by following `n` parent links. */
  predicate AncestorIn(parent: map<nat, nat>, b: nat, a: nat, n: nat)
    decreases n
  {
    if n == 0 then a == b else b in parent && AncestorIn(parent, parent[b], a, n - 1)
  }

  /** On acyclic links the walk never meets a block twice: the root is an
      ancestor of `b` that has no parent. */
  lemma {:induction false} RootFromSpec(parent: map<nat, nat>, rank: map<nat, nat>, b: nat, vis: set<nat>)
    requires Acyclic(parent, rank)
    requires forall v :: v in vis ==> v in rank && (b in rank ==> rank[v] < rank[b]) && b in rank
    ensures RootFrom(parent, b, vis) !in parent
    ensures exists n: nat :: AncestorIn(parent, b, RootFrom(parent, b, vis), n)
    decreases parent.Keys - vis
  {
    if b in parent {
      assert b !in vis;
      RootFromSpec(parent, rank, parent[b], vis + {b});
      var n: nat :| AncestorIn(parent, parent[b], RootFrom(parent, b, vis), n);
      assert AncestorIn(parent, b, RootFrom(parent, b, vis), n + 1);
    } else {
      assert AncestorIn(parent, b, b, 0);
    }
  }

  /** `getRootBlock` gives a block without a parent reached from `b`, and
      the root's root is itself. */
  lemma RootBlockSpec(parent: map<nat, nat>, rank: map<nat, nat>, b: nat)
    requires Acyclic(parent, rank)
    ensures RootBlock(parent, b) !in parent
    ensures exists n: nat :: AncestorIn(parent, b, RootBlock(parent, b), n)
    ensures RootBlock(parent, RootBlock(parent, b)) == RootBlock(parent, b)
  {
    if b in parent {
      RootFromSpec(parent, rank, b, {});
    } else {
      assert AncestorIn(parent, b, b, 0);
    }
  }

  // ---------------------------------------------------------------------
  // Resolving references.
  // ---------------------------------------------------------------------

  /** A variable value: its identity and its current name. */
  datatype Value = Value(id: nat, name: string)

  /** A reference: its temporary display name and the value it is bound
      to, if any. */
  datatype Reference = Reference(tempName: string, bound: Option<Value>)

  /** `getVariableName()` of a reference: the bound value's name, or the
      temporary display name. */
  function RefName(r: Reference): string {
    if r.bound.Some? then r.bound.value.name else r.tempName
  }

  /** The reference resolves in `ctx`: its name is there, and an existing
      binding is that very value. */
  predicate ResolvesIn(ctx: map<string, Value>, r: Reference) {
    RefName(r) in ctx && (r.bound.None? || r.bound.value == ctx[RefName(r)])
  }

  /** What is reported to the collector for an unresolved reference: the
      value found in the context, if any. */
  datatype Unbound = Unbound(index: nat, found: Option<Value>)

  /** `setBoundValue` throws when the names differ. */
  datatype ResolveError = NamesNotIdentical

  /** `resolveReferenceWithEnv_(ctx, opt_bind, opt_collector)` from the
      `i`th reference: whether all resolve, the references after binding,
      and the reports. */
  function ResolveFrom(ctx: map<string, Value>, refs: seq<Reference>, bind: bool, i: nat): (r: Result<(bool, seq<Reference>, seq<Unbound>), ResolveError>)
    requires i <= |refs|
    ensures r.Success? ==> |r.value.1| == |refs| - i
    ensures r.Success? ==> (r.value.0 <==> forall j :: i <= j < |refs| ==> ResolvesIn(ctx, refs[j]))
    ensures r.Success? ==> forall j :: i <= j < |refs| ==> (r.value.1[j - i] ==
      if bind && RefName(refs[j]) in ctx && refs[j].bound.None? then refs[j].(bound := Some(ctx[RefName(refs[j])])) else refs[j])
    ensures r.Failure? <==> bind && exists j :: (i <= j < |refs| && RefName(refs[j]) in ctx && refs[j].bound.None? &&
      ctx[RefName(refs[j])].name != refs[j].tempName)
    decreases |refs| - i
  {
    if i == |refs| then Success((true, [], []))
    else
      var v := refs[i];
      var name := RefName(v);
      var report := if name !in ctx then [Unbound(i, None)]
        else if v.bound.Some? && v.bound.value != ctx[name] then [Unbound(i, Some(ctx[name]))]
        else [];
      var bound :- if bind && name in ctx && v.bound.None? then
          (if ctx[name].name != v.tempName then Failure(NamesNotIdentical) else Success(v.(bound := Some(ctx[name]))))
        else Success(v);
      var rest :- ResolveFrom(ctx, refs, bind, i + 1);
      Success((report == [] && rest.0, [bound] + rest.1, report + rest.2))
  }

  /** `resolveReferenceWithEnv_` over all the references: one reference
      back for each given, and the answer is whether every one resolves. */
  function ResolveReferenceWithEnv(ctx: map<string, Value>, refs: seq<Reference>, bind: bool): (r: Result<(bool, seq<Reference>, seq<Unbound>), ResolveError>)
    ensures r.Success? ==> |r.value.1| == |refs|
    ensures r.Success? ==> (r.value.0 <==> forall j :: 0 <= j < |refs| ==> ResolvesIn(ctx, refs[j]))
    ensures !bind ==> r.Success?
  {
    ResolveFrom(ctx, refs, bind, 0)
  }

  /** A context whose entries are keyed by their own names. */
  predicate NamedByKey(ctx: map<string, Value>) {
    forall n :: n in ctx ==> ctx[n].name == n
  }

  /** In a context keyed by names, binding never throws; afterwards every
      reference keeps its name, and one whose name is in the context
      resolves. */
  lemma BindResolves(ctx: map<string, Value>, refs: seq<Reference>)
    requires NamedByKey(ctx)
    ensures ResolveReferenceWithEnv(ctx, refs, true).Success?
    ensures var refs' := ResolveReferenceWithEnv(ctx, refs, true).value.1;
      (forall j :: 0 <= j < |refs| ==> RefName(refs'[j]) == RefName(refs[j])) &&
      (forall j :: 0 <= j < |refs| && RefName(refs[j]) in ctx ==> refs'[j].bound.Some? && ResolvesIn(ctx, refs'[j]) == ResolvesIn(ctx, refs[j]))
  {
  }

  /** Binding twice binds nothing more. */
  lemma BindIdempotent(ctx: map<string, Value>, refs: seq<Reference>)
    requires NamedByKey(ctx)
    ensures ResolveReferenceWithEnv(ctx, refs, true).Success?
    ensures var refs' := ResolveReferenceWithEnv(ctx, refs, true).value.1;
      ResolveReferenceWithEnv(ctx, refs', true).Success? &&
      ResolveReferenceWithEnv(ctx, refs', true).value.1 == refs'
  {
    BindResolves(ctx, refs);
    var refs' := ResolveReferenceWithEnv(ctx, refs, true).value.1;
    BindResolves(ctx, refs');
    var again := ResolveReferenceWithEnv(ctx, refs', true).value.1;
    assert |again| == |refs'|;
    forall j | 0 <= j < |refs'| ensures again[j] == refs'[j] {
      assert RefName(refs'[j]) == RefName(refs[j]);
    }
  }

  /** Inside a workbench, no reference resolves: its context is empty. */
  lemma NothingResolvesInBench(bench: Bench, refs: seq<Reference>)
    requires |refs| > 0
    ensures ResolveReferenceWithEnv(BenchContext<Value>(bench), refs, false) == Success((false, refs, ResolveFrom(BenchContext<Value>(bench), refs, false, 0).value.2))
  {
    var r := ResolveReferenceWithEnv(BenchContext<Value>(bench), refs, false);
    assert !ResolvesIn(BenchContext<Value>(bench), refs[0]);
    assert r.value.1 == refs;
  }

  // ---------------------------------------------------------------------
  // Orphan blocks.
  // ---------------------------------------------------------------------

  /** The mutator that owns the target workspace: none, one that is no
      workbench, the pattern or type workbench, or another workbench whose
      `acceptBlock` answer is `accepts`. */
  datatype Owner = NoOwner | PlainMutator | SpecialBench(bench: Bench) | OtherBench(accepts: bool)

  /** What `allowedToBeOrphan` reports to the collector. */
  datatype OrphanReport = BenchRefused(refusal: Refusal) | OrphanPattern | OrphanTypeCtor

  /** The owning workbench takes the block. */
  predicate OwnerAccepts(owner: Owner, out: Option<Type>) {
    match owner
    case SpecialBench(bench) => AcceptBlock(bench, out, false).0
    case OtherBench(accepts) => accepts
    case _ => true
  }

  /** `allowedToBeOrphan(opt_collector, opt_workspace)` of a block whose
      output type is `out`, in a workspace owned by `owner`: the workbench
      must accept the block; a block whose type dereferences to a pattern
      may stand alone only in the pattern workbench, a type constructor only
      in the type workbench, and any other block anywhere. */
  function AllowedToBeOrphan(s: Store, owner: Owner, out: Option<Type>, collect: bool): (r: (bool, seq<OrphanReport>))
    ensures r.0 <==> (OwnerAccepts(owner, out) &&
      (out.Some? && Deref(s, out.value).Pattern? ==> owner == SpecialBench(PatternBench)) &&
      (out.Some? && Deref(s, out.value).TypeCtor? ==> owner == SpecialBench(TypeBench)))
    ensures !collect ==> r.1 == []
    ensures r.0 ==> r.1 == []
  {
    var refused := match owner
      case SpecialBench(bench) =>
        var a := AcceptBlock(bench, out, collect);
        if a.0 then None else Some(seq(|a.1|, i requires 0 <= i < |a.1| => BenchRefused(a.1[i])))
      case OtherBench(accepts) => if accepts then None else Some([])
      case _ => None;
    if refused.Some? then (false, refused.value)
    else if out.None? then (true, [])
    else
      var t := Deref(s, out.value);
      if t.Pattern? then
        if owner == SpecialBench(PatternBench) then (true, []) else (false, if collect then [OrphanPattern] else [])
      else if t.TypeCtor? then
        if owner == SpecialBench(TypeBench) then (true, []) else (false, if collect then [OrphanTypeCtor] else [])
      else (true, [])
  }

  /** In the pattern workbench exactly pattern blocks may stand alone, and
      in the type workbench exactly type constructors. */
  lemma OrphanInBench(s: Store, bench: Bench, out: Option<Type>, collect: bool)
    ensures AllowedToBeOrphan(s, SpecialBench(bench), out, collect).0 <==> out.Some? && HoldsKind(bench, out.value)
  {
    if out.Some? && HoldsKind(bench, out.value) {
      AcceptedKindSurvivesDeref(s, bench, out.value, false);
    }
  }

  /** Outside every workbench, a block may stand alone exactly when its
      type dereferences to neither a pattern nor a type constructor. */
  lemma OrphanOutsideBench(s: Store, out: Option<Type>, collect: bool)
    ensures AllowedToBeOrphan(s, NoOwner, out, collect).0 <==>
      out.None? || (!Deref(s, out.value).Pattern? && !Deref(s, out.value).TypeCtor?)
  {
  }
}

=== FILE: bound_variables.dfy ===
/** Variable binding (core/bound_variables.js, core/bound_variable_value.js,
    core/bound_variable_reference.js, core/typed_variable_value.js).

    A value is a variable a block declares; a reference is a use of a
    variable that may be bound to a value.  Every object is named by its
    generated id, and the world holds them in maps: each value with its
    reference list and deferred-deletion flag, each reference with its
    binding, the per-workspace value databases (id to object, the object
    written as its id), and the block facts the operations read.  The
    per-workspace databases themselves are the generic `AddEntry`,
    `RemoveEntry` and `GetById` on an id-keyed map. */
module BoundVariables {
  import opened Wrappers
  import Lists
  import Blocks

  type Id = string

  /** What the operations throw.  `NoWorkspace` is the TypeError of asking
      a disposed value (whose workspace is null) for its database. */
  datatype VarError =
    | AlreadyInDb
    | NotInDb
    | DuplicatedReference
    | BeingDeleted
    | ReferenceNotFound
    | NotTransferring
    | BlockTypeDiffers
    | AlreadyResolved
    | NamesDiffer
    | NoTypeExpr
    | NoWorkspace

  // ---------------------------------------------------------------------
  // The id-keyed databases (core/bound_variables.js).
  // ---------------------------------------------------------------------

  /** `addValue` / `addReference`: throws when the id is stored already,
      otherwise stores the object under its id. */
  function AddEntry<V>(db: map<Id, V>, id: Id, v: V): (r: Result<map<Id, V>, VarError>)
    ensures r.Failure? <==> id in db
    ensures r.Failure? ==> r.error == AlreadyInDb
    ensures r.Success? ==> r.value.Keys == db.Keys + {id} && r.value[id] == v
    ensures r.Success? ==> forall k :: k in db ==> r.value[k] == db[k]
  {
    if id in db then Failure(AlreadyInDb) else Success(db[id := v])
  }

  /** `removeValue` / `removeReference`: throws when the id is absent,
      otherwise deletes exactly that entry. */
  function RemoveEntry<V>(db: map<Id, V>, id: Id): (r: Result<map<Id, V>, VarError>)
    ensures r.Failure? <==> id !in db
    ensures r.Failure? ==> r.error == NotInDb
    ensures r.Success? ==> r.value.Keys == db.Keys - {id}
    ensures r.Success? ==> forall k :: k in r.value ==> r.value[k] == db[k]
  {
    if id !in db then Failure(NotInDb) else Success(db - {id})
  }

  /** `getValueById` / `getReferenceById`: the stored object or null. */
  function GetById<V>(db: map<Id, V>, id: Id): (r: Option<V>)
    ensures r.Some? <==> id in db
    ensures r.Some? ==> r.value == db[id]
  {
    if id in db then Some(db[id]) else None
  }

  lemma AddThenGet<V>(db: map<Id, V>, id: Id, v: V)
    requires id !in db
    ensures AddEntry(db, id, v).Success? && GetById(AddEntry(db, id, v).value, id) == Some(v)
  {
  }

  /** Storing an object and removing it again gives the database back;
      afterwards the id is not found. */
  lemma AddThenRemoveEntry<V>(db: map<Id, V>, id: Id, v: V)
    requires id !in db
    ensures AddEntry(db, id, v).Success? && RemoveEntry(AddEntry(db, id, v).value, id) == Success(db)
    ensures GetById(RemoveEntry(AddEntry(db, id, v).value, id).value, id) == None
  {
    assert db[id := v] - {id} == db;
  }

  /** The key a missing optional id is looked up under: JavaScript turns
      `undefined` into the property name "undefined". */
  const UndefinedKey: Id := "undefined"

  /** `getOrCreateReference(block, name, opt_id)`: the reference stored
      under the id when there is one; otherwise a new reference, which its
      constructor registers under its own created id (and that throws if the
      id were taken). */
  function GetOrCreateReference<R>(db: map<Id, R>, optId: Option<Id>, freshId: Id, created: R): (r: Result<(R, map<Id, R>), VarError>)
    ensures var key := optId.GetOr(UndefinedKey);
      && (GetById(db, key).Some? ==> r == Success((db[key], db)))
      && (GetById(db, key).None? ==>
            (r.Failure? <==> freshId in db) &&
            (r.Success? ==> r.value.0 == created && GetById(r.value.1, freshId) == Some(created) && r.value.1.Keys == db.Keys + {freshId}))
  {
    var key := optId.GetOr(UndefinedKey);
    match GetById(db, key)
    case Some(existing) => Success((existing, db))
    case None =>
      match AddEntry(db, freshId, created)
      case Failure(e) => Failure(e)
      case Success(db') => Success((created, db'))
  }

  // ---------------------------------------------------------------------
  // The world of values and references.
  // ---------------------------------------------------------------------

  /** A `BoundVariableValue`: its name, reference list, `deleteLater_`
      flag, whether its type expression is set, its block and workspace
      (both null once disposed). */
  datatype Value = Value(name: string, refs: seq<Id>, deleteLater: bool, typed: bool, block: Option<nat>, workspace: Option<nat>)

  /** A `BoundVariableValueReference`: its temporary display name, the
      value it is bound to, and its block. */
  datatype Reference = Reference(displayName: string, bound: Option<Id>, block: nat)

  /** What the operations read of a block: its type name, whether it is
      being transferred, and its workspace. */
  datatype BlockInfo = BlockInfo(kind: string, transferring: bool, workspace: nat)

  datatype World = World(
    values: map<Id, Value>,
    references: map<Id, Reference>,
    valueDbs: map<nat, map<Id, Id>>,
    blocks: map<nat, BlockInfo>,
    parent: map<nat, nat>)

  /** The state after an operation and what it threw, if anything: several
      operations throw after changing state, and the change stays. */
  datatype Outcome = Outcome(w: World, thrown: Option<VarError>)

  /** A workspace's value database (empty for a workspace not yet seen). */
  function ValueDb(w: World, ws: nat): map<Id, Id> {
    if ws in w.valueDbs then w.valueDbs[ws] else map[]
  }

  /** A list without repetitions, as `storeReference` keeps it. */
  predicate Distinct(xs: seq<Id>) {
    forall i, j :: 0 <= i < j < |xs| ==> xs[i] != xs[j]
  }

  // ---------------------------------------------------------------------
  // Values (core/bound_variable_value.js).
  // ---------------------------------------------------------------------

  /** `storeReference`: throws on a reference already listed, then on a
      value scheduled for deletion; otherwise appends. */
  function StoreReference(val: Value, r: Id): (res: Result<Value, VarError>)
    ensures res.Failure? <==> r in val.refs || val.deleteLater
    ensures r in val.refs ==> res == Failure(DuplicatedReference)
    ensures r !in val.refs && val.deleteLater ==> res == Failure(BeingDeleted)
    ensures res.Success? ==> res.value.refs == val.refs + [r]
    ensures res.Success? ==> res.value.(refs := val.refs) == val
  {
    if r in val.refs then Failure(DuplicatedReference)
    else if val.deleteLater then Failure(BeingDeleted)
    else Success(val.(refs := val.refs + [r]))
  }

  /** `dispose` of value `v`: with no references it leaves its workspace's
      database and loses its type, block and workspace; with references it
      is only scheduled for deletion. */
  function Dispose(w: World, v: Id): (o: Outcome)
    requires v in w.values
    ensures o.w.references == w.references && o.w.blocks == w.blocks && o.w.parent == w.parent
    ensures o.w.values.Keys == w.values.Keys
    ensures forall u :: u in w.values && u != v ==> o.w.values[u] == w.values[u]
    ensures o.w.values[v].refs == w.values[v].refs && o.w.values[v].name == w.values[v].name
    ensures |w.values[v].refs| > 0 ==> o == Outcome(w.(values := w.values[v := w.values[v].(deleteLater := true)]), None)
    ensures |w.values[v].refs| == 0 ==>
      (o.thrown.Some? <==> w.values[v].workspace.None? || v !in ValueDb(w, w.values[v].workspace.value))
    ensures o.thrown.Some? ==> o.w == w
    ensures |w.values[v].refs| == 0 && o.thrown.None? ==>
      var ws := w.values[v].workspace.value;
      && ValueDb(o.w, ws).Keys == ValueDb(w, ws).Keys - {v}
      && (forall x :: x != ws ==> ValueDb(o.w, x) == ValueDb(w, x))
      && o.w.values[v] == w.values[v].(typed := false, block := None, workspace := None)
  {
    var val := w.values[v];
    if |val.refs| == 0 then
      match val.workspace
      case None => Outcome(w, Some(NoWorkspace))
      case Some(ws) =>
        match RemoveEntry(ValueDb(w, ws), v)
        case Failure(e) => Outcome(w, Some(e))
        case Success(db) =>
          Outcome(w.(values := w.values[v := val.(typed := false, block := None, workspace := None)],
                     valueDbs := w.valueDbs[ws := db]), None)
    else
      Outcome(w.(values := w.values[v := val.(deleteLater := true)]), None)
  }

  /** `removeReference` on value `v`: throws when `r` is not listed;
      otherwise removes exactly that entry, and a value scheduled for
      deletion that has lost its last reference is disposed. */
  function RemoveReference(w: World, v: Id, r: Id): (o: Outcome)
    requires v in w.values
    ensures o.w.references == w.references
    ensures o.w.values.Keys == w.values.Keys
    ensures forall u :: u in w.values && u != v ==> o.w.values[u] == w.values[u]
    ensures r !in w.values[v].refs ==> o == Outcome(w, Some(ReferenceNotFound))
    ensures r in w.values[v].refs && o.thrown.None? ==>
      multiset(o.w.values[v].refs) == multiset(w.values[v].refs) - multiset{r}
    ensures r in w.values[v].refs && !(w.values[v].deleteLater && |w.values[v].refs| == 1) ==>
      && o.thrown.None? && o.w.valueDbs == w.valueDbs
      && o.w.values[v] == w.values[v].(refs := Lists.RemoveFirst(w.values[v].refs, r))
  {
    var val := w.values[v];
    if r !in val.refs then Outcome(w, Some(ReferenceNotFound))
    else ReplaceRefs(w, v, Lists.RemoveFirst(val.refs, r))
  }

  /** The second half of `removeReference`: `v` now lists `refs`, and is
      disposed when it is scheduled for deletion and `refs` is empty. */
  function ReplaceRefs(w: World, v: Id, refs: seq<Id>): (o: Outcome)
    requires v in w.values
    ensures o.w.references == w.references
    ensures o.w.values.Keys == w.values.Keys
    ensures forall u :: u in w.values && u != v ==> o.w.values[u] == w.values[u]
    ensures o.thrown.None? ==> o.w.values[v].refs == refs
    ensures !(w.values[v].deleteLater && |refs| == 0) ==>
      o == Outcome(w.(values := w.values[v := w.values[v].(refs := refs)]), None)
  {
    var val := w.values[v];
    var w1 := w.(values := w.values[v := val.(refs := refs)]);
    if val.deleteLater && |refs| == 0 then Dispose(w1, v)
    else Outcome(w1, None)
  }

  /** Renames every listed reference's display name. */
  function RenameRefs(refs: map<Id, Reference>, ids: seq<Id>, newName: string): (r: map<Id, Reference>)
    ensures r.Keys == refs.Keys
    ensures forall x :: x in refs ==> r[x] == (if x in ids then refs[x].(displayName := newName) else refs[x])
  {
    if |ids| == 0 then refs
    else
      var rest := RenameRefs(refs, ids[1..], newName);
      var x := ids[0];
      if x in rest then rest[x := rest[x].(displayName := newName)] else rest
  }

  /** Every reference `v` lists is bound to `v`: `storeReference` is only
      called by the reference that has just bound itself. */
  predicate ListedAreBound(w: World, v: Id)
    requires v in w.values
  {
    forall x :: x in w.values[v].refs ==> x in w.references && w.references[x].bound == Some(v)
  }

  /** `setVariableName` on value `v`: nothing for the same name; otherwise
      the value takes the name and so does every reference it lists. */
  function SetVariableName(w: World, v: Id, newName: string): (r: World)
    requires v in w.values && ListedAreBound(w, v)
    ensures r.values.Keys == w.values.Keys && r.references.Keys == w.references.Keys
    ensures w.values[v].name == newName ==> r == w
    ensures r.values[v] == w.values[v].(name := newName)
    ensures forall u :: u in w.values && u != v ==> r.values[u] == w.values[u]
    ensures w.values[v].name != newName ==> forall x :: x in w.references ==>
      r.references[x] == (if x in w.values[v].refs then w.references[x].(displayName := newName) else w.references[x])
    ensures r.valueDbs == w.valueDbs && r.blocks == w.blocks && r.parent == w.parent
  {
    var val := w.values[v];
    if val.name == newName then
      w
    else
      w.(values := w.values[v := val.(name := newName)],
         references := RenameRefs(w.references, val.refs, newName))
  }

  /** After a rename every reference bound to the value reports the new
      name, and renaming twice is renaming once. */
  lemma SetVariableNameSpec(w: World, v: Id, newName: string)
    requires v in w.values && ListedAreBound(w, v)
    requires forall x :: x in w.references && w.references[x].bound.Some? ==> w.references[x].bound.value in w.values
    ensures var r := SetVariableName(w, v, newName);
      forall x :: x in r.references && r.references[x].bound == Some(v) ==> GetVariableName(r, x) == newName
    ensures var r := SetVariableName(w, v, newName);
      ListedAreBound(r, v) && SetVariableName(r, v, newName) == r
  {
  }

  /** `transferValuesBlock(newBlock)`: when the value has a block, that
      block must be transferring and of the new block's type, and the value
      leaves its workspace's database; then it loses its type, is
      scheduled for deletion, moves to the new block and its workspace, and
      enters that workspace's database. */
  function TransferValuesBlock(w: World, v: Id, newBlock: nat): (o: Outcome)
    requires v in w.values && newBlock in w.blocks
    requires w.values[v].block.Some? ==> w.values[v].block.value in w.blocks
    ensures o.w.values.Keys == w.values.Keys
    ensures var val := w.values[v];
      val.block.Some? && !w.blocks[val.block.value].transferring ==> o == Outcome(w, Some(NotTransferring))
    ensures var val := w.values[v];
      val.block.Some? && w.blocks[val.block.value].transferring && w.blocks[val.block.value].kind != w.blocks[newBlock].kind ==>
        o == Outcome(w, Some(BlockTypeDiffers))
    ensures o.thrown.None? ==>
      var ws := w.blocks[newBlock].workspace;
      && v in ValueDb(o.w, ws) && ValueDb(o.w, ws)[v] == v
      && o.w.values[v] == w.values[v].(typed := false, deleteLater := true, block := Some(newBlock), workspace := Some(ws))
      && (w.values[v].block.Some? && w.values[v].workspace.Some? && w.values[v].workspace.value != ws ==>
            v !in ValueDb(o.w, w.values[v].workspace.value))
    ensures o.thrown.None? ==> o.w.references == w.references
  {
    var val := w.values[v];
    var ws := w.blocks[newBlock].workspace;
    var moved := val.(typed := false, deleteLater := true, block := Some(newBlock), workspace := Some(ws));
    if val.block.Some? then
      var oldInfo := w.blocks[val.block.value];
      if !oldInfo.transferring then Outcome(w, Some(NotTransferring))
      else if oldInfo.kind != w.blocks[newBlock].kind then Outcome(w, Some(BlockTypeDiffers))
      else
        match val.workspace
        case None => Outcome(w, Some(NoWorkspace))
        case Some(from) =>
          match RemoveEntry(ValueDb(w, from), v)
          case Failure(e) => Outcome(w, Some(e))
          case Success(db) => Enter(w.(valueDbs := w.valueDbs[from := db]), v, moved, ws)
    else
      Enter(w, v, moved, ws)
  }

  /** The second half of `transferValuesBlock`: the value's new state is
      stored, then it is added to the new workspace's database (which
      throws if it is there already, the new state staying). */
  function Enter(w: World, v: Id, moved: Value, ws: nat): (o: Outcome)
    ensures o.w.values == w.values[v := moved] && o.w.references == w.references
    ensures o.thrown.Some? <==> v in ValueDb(w, ws)
    ensures o.thrown.None? ==>
      ValueDb(o.w, ws) == ValueDb(w, ws)[v := v] &&
      forall x :: x != ws && x in w.valueDbs ==> ValueDb(o.w, x) == ValueDb(w, x)
  {
    var w1 := w.(values := w.values[v := moved]);
    match AddEntry(ValueDb(w, ws), v, v)
    case Failure(e) => Outcome(w1, Some(e))
    case Success(db) => Outcome(w1.(valueDbs := w1.valueDbs[ws := db]), None)
  }

  // ---------------------------------------------------------------------
  // References (core/bound_variable_reference.js).
  // ---------------------------------------------------------------------

  /** A reference bound to a value that exists. */
  predicate BoundExists(w: World, r: Id)
    requires r in w.references
  {
    w.references[r].bound.Some? ==> w.references[r].bound.value in w.values
  }

  /** `getVariableName`: the bound value's name, or the display name while
      unbound. */
  function GetVariableName(w: World, r: Id): (name: string)
    requires r in w.references && BoundExists(w, r)
    ensures w.references[r].bound.None? ==> name == w.references[r].displayName
    ensures w.references[r].bound.Some? ==> name == w.values[w.references[r].bound.value].name
  {
    match w.references[r].bound
    case None => w.references[r].displayName
    case Some(v) => w.values[v].name
  }

  /** `setBoundValue(value)`: nothing when already bound to it, a throw
      when bound to another; a name mismatch throws before any change.
      Otherwise the reference binds itself and is stored in the value's
      list (whose throw leaves the binding), and a value without a type
      throws after both. */
  function SetBoundValue(w: World, r: Id, v: Id): (o: Outcome)
    requires r in w.references && v in w.values
    ensures o.w.values.Keys == w.values.Keys
    ensures var ref := w.references[r];
      ref.bound.Some? ==> o == Outcome(w, if ref.bound.value == v then None else Some(AlreadyResolved))
    ensures var ref := w.references[r];
      ref.bound.None? && w.values[v].name != ref.displayName ==> o == Outcome(w, Some(NamesDiffer))
    ensures var ref := w.references[r];
      ref.bound.None? && w.values[v].name == ref.displayName ==>
        && o.w.references == w.references[r := ref.(bound := Some(v))]
        && (o.thrown == Some(DuplicatedReference) <==> r in w.values[v].refs)
        && (o.thrown.None? <==> r !in w.values[v].refs && !w.values[v].deleteLater && w.values[v].typed)
        && (r !in w.values[v].refs && !w.values[v].deleteLater ==> o.w.values[v].refs == w.values[v].refs + [r])
    ensures o.w.valueDbs == w.valueDbs && o.w.blocks == w.blocks && o.w.parent == w.parent
    ensures forall u :: u in w.values && u != v ==> o.w.values[u] == w.values[u]
  {
    var ref := w.references[r];
    if ref.bound.Some? then
      if ref.bound.value == v then Outcome(w, None) else Outcome(w, Some(AlreadyResolved))
    else if w.values[v].name != ref.displayName then Outcome(w, Some(NamesDiffer))
    else
      var w1 := w.(references := w.references[r := ref.(bound := Some(v))]);
      match StoreReference(w.values[v], r)
      case Failure(e) => Outcome(w1, Some(e))
      case Success(val) =>
        var w2 := w1.(values := w.values[v := val]);
        if !val.typed then Outcome(w2, Some(NoTypeExpr)) else Outcome(w2, None)
  }

  /** `removeBoundValue`: nothing while unbound; otherwise the value drops
      the reference (a throw there propagates with the binding kept) and
      the binding is cleared. */
  function RemoveBoundValue(w: World, r: Id): (o: Outcome)
    requires r in w.references && BoundExists(w, r)
    ensures o.w.values.Keys == w.values.Keys
    ensures w.references[r].bound.None? ==> o == Outcome(w, None)
    ensures o.thrown.None? ==> o.w.references == w.references[r := w.references[r].(bound := None)]
    ensures var ref := w.references[r];
      ref.bound.Some? ==>
        && (r !in w.values[ref.bound.value].refs ==> o == Outcome(w, Some(ReferenceNotFound)))
        && (o.thrown.None? ==> multiset(o.w.values[ref.bound.value].refs) == multiset(w.values[ref.bound.value].refs) - multiset{r})
  {
    var ref := w.references[r];
    match ref.bound
    case None => Outcome(w, None)
    case Some(v) =>
      var o := RemoveReference(w, v, r);
      if o.thrown.Some? then o
      else Outcome(o.w.(references := o.w.references[r := ref.(bound := None)]), None)
  }

  /** An entry of `getAllBoundVariables`. */
  datatype Variable = ValueVariable(id: Id) | ReferenceVariable(id: Id)

  /** `getAllBoundVariables`: just this reference while unbound; once bound,
      what the value answers (`valueVariables`), which is not part of this
      model. */
  function GetAllBoundVariables(w: World, r: Id, valueVariables: seq<Variable>): (vs: seq<Variable>)
    requires r in w.references
    ensures w.references[r].bound.None? ==> vs == [ReferenceVariable(r)]
    ensures w.references[r].bound.Some? ==> vs == valueVariables
  {
    if w.references[r].bound.Some? then valueVariables else [ReferenceVariable(r)]
  }

  /** The loop of `isCyclicReference`: from block `b` up the parent links,
      whether `root` is met. */
  function Reaches(parent: map<nat, nat>, b: nat, root: nat, vis: set<nat>): bool
    decreases parent.Keys - vis
  {
    if b == root then true
    else if b in parent && b !in vis then Reaches(parent, parent[b], root, vis + {b})
    else false
  }

  /** The block `isCyclicReference` looks for: the given one, or else the
      root block of the reference's block. */
  function CycleRoot(w: World, r: Id, optRoot: Option<nat>): nat
    requires r in w.references
  {
    if optRoot.Some? then optRoot.value else Blocks.RootBlock(w.parent, w.references[r].block)
  }

  /** `isCyclicReference(opt_block)`: whether the bound value's block lies
      on a parent chain reaching the given block, or the root block of the
      reference's block when none is given; false while unbound. */
  function IsCyclicReference(w: World, r: Id, optRoot: Option<nat>): (cyc: bool)
    requires r in w.references && BoundExists(w, r)
    ensures w.references[r].bound.None? ==> !cyc
    ensures cyc ==> var v := w.references[r].bound.value;
      w.values[v].block.Some? &&
      exists n: nat :: Blocks.AncestorIn(w.parent, w.values[v].block.value, CycleRoot(w, r, optRoot), n)
  {
    match w.references[r].bound
    case None => false
    case Some(v) =>
      match w.values[v].block
      case None => false
      case Some(b) =>
        var root := CycleRoot(w, r, optRoot);
        if Reaches(w.parent, b, root, {}) then ReachesSound(w.parent, b, root, {}); true else false
  }

  lemma {:induction false} ReachesSound(parent: map<nat, nat>, b: nat, root: nat, vis: set<nat>)
    requires Reaches(parent, b, root, vis)
    ensures exists n: nat :: Blocks.AncestorIn(parent, b, root, n)
    decreases parent.Keys - vis
  {
    if b == root {
      assert Blocks.AncestorIn(parent, b, root, 0);
    } else {
      ReachesSound(parent, parent[b], root, vis + {b});
      var n: nat :| Blocks.AncestorIn(parent, parent[b], root, n);
      assert Blocks.AncestorIn(parent, b, root, n + 1);
    }
  }

  lemma {:induction false} ReachesComplete(parent: map<nat, nat>, rank: map<nat, nat>, b: nat, root: nat, vis: set<nat>, n: nat)
    requires Blocks.Acyclic(parent, rank)
    requires Blocks.AncestorIn(parent, b, root, n)
    requires forall x :: x in vis ==> x in rank && b in rank && rank[x] < rank[b]
    ensures Reaches(parent, b, root, vis)
    decreases n
  {
    if b != root {
      assert b in parent && b !in vis;
      ReachesComplete(parent, rank, parent[b], root, vis + {b}, n - 1);
    }
  }

  /** On acyclic parent links a reference is cyclic exactly when it is bound
      and its value's block has the root as an ancestor. */
  lemma IsCyclicReferenceSpec(w: World, r: Id, optRoot: Option<nat>, rank: map<nat, nat>)
    requires r in w.references && BoundExists(w, r)
    requires Blocks.Acyclic(w.parent, rank)
    ensures IsCyclicReference(w, r, optRoot) <==>
      var ref := w.references[r];
      && ref.bound.Some?
      && w.values[ref.bound.value].block.Some?
      && exists n: nat :: Blocks.AncestorIn(w.parent, w.values[ref.bound.value].block.value, CycleRoot(w, r, optRoot), n)
  {
    var ref := w.references[r];
    if ref.bound.Some? && w.values[ref.bound.value].block.Some? {
      var b := w.values[ref.bound.value].block.value;
      var root := CycleRoot(w, r, optRoot);
      if Reaches(w.parent, b, root, {}) {
        ReachesSound(w.parent, b, root, {});
      }
      if exists n: nat :: Blocks.AncestorIn(w.parent, b, root, n) {
        var n: nat :| Blocks.AncestorIn(w.parent, b, root, n);
        ReachesComplete(w.parent, rank, b, root, {}, n);
      }
    }
  }

  // ---------------------------------------------------------------------
  // Binding and unbinding together.
  // ---------------------------------------------------------------------

  /** Binding a reference to a typed value of its name and unbinding it
      again gives the world back; while bound it shows the value's name. */
  lemma BindThenUnbind(w: World, r: Id, v: Id)
    requires r in w.references && v in w.values
    requires w.references[r].bound.None? && w.values[v].name == w.references[r].displayName
    requires r !in w.values[v].refs && !w.values[v].deleteLater && w.values[v].typed
    ensures var o := SetBoundValue(w, r, v);
      && o.thrown.None?
      && GetVariableName(o.w, r) == w.references[r].displayName
      && RemoveBoundValue(o.w, r) == Outcome(w, None)
  {
    var o := SetBoundValue(w, r, v);
    var val := w.values[v];
    assert o.w.values[v] == val.(refs := val.refs + [r]);
    Lists.RemoveAppended(val.refs, r);
    var o2 := RemoveBoundValue(o.w, r);
    assert o2.w.values == w.values;
    assert o2.w.references == w.references;
  }

  /** A value disposed while it has one reference is only scheduled; when
      that reference is unbound the value leaves its database. */
  lemma DeferredDispose(w: World, v: Id, r: Id)
    requires v in w.values && r in w.references
    requires w.values[v].refs == [r] && w.references[r].bound == Some(v)
    requires w.values[v].workspace.Some? && v in ValueDb(w, w.values[v].workspace.value)
    ensures var d := Dispose(w, v);
      && d.thrown.None? && d.w.values[v].deleteLater
      && ValueDb(d.w, w.values[v].workspace.value) == ValueDb(w, w.values[v].workspace.value)
    ensures var d := Dispose(w, v);
      var o := RemoveBoundValue(d.w, r);
      && o.thrown.None?
      && v !in ValueDb(o.w, w.values[v].workspace.value)
      && o.w.values[v].workspace.None?
  {
    var d := Dispose(w, v);
    assert Lists.RemoveFirst([r], r) == [];
  }

  // ---------------------------------------------------------------------
  // Typed values (core/typed_variable_value.js).
  // ---------------------------------------------------------------------

  /** A `TypedVariableValue`: its id, block, field and scope input names,
      and reference list. */
  datatype TypedValue = TypedValue(id: Id, block: nat, fieldName: string, scopeInputName: string, refs: seq<Id>)

  /** The constructor, with the generated id given. */
  function NewTypedValue(block: nat, fieldName: string, scopeInputName: string, freshId: Id): (tv: TypedValue)
    ensures Distinct(tv.refs)
    ensures forall x :: TypedRemoveReference(tv, x).Failure? && TypedStoreReference(tv, x).Success?
  {
    TypedValue(freshId, block, fieldName, scopeInputName, [])
  }

  /** `storeReference`: throws on a duplicate, otherwise appends. */
  function TypedStoreReference(tv: TypedValue, r: Id): (res: Result<TypedValue, VarError>)
    ensures res.Failure? <==> r in tv.refs
    ensures res.Success? ==> res.value == tv.(refs := tv.refs + [r])
  {
    if r in tv.refs then Failure(DuplicatedReference) else Success(tv.(refs := tv.refs + [r]))
  }

  /** `removeReference`: throws when absent, otherwise removes exactly
      that one. */
  function TypedRemoveReference(tv: TypedValue, r: Id): (res: Result<TypedValue, VarError>)
    ensures res.Failure? <==> r !in tv.refs
    ensures res.Success? ==> multiset(res.value.refs) == multiset(tv.refs) - multiset{r}
    ensures res.Success? ==> res.value.(refs := tv.refs) == tv
  {
    if r !in tv.refs then Failure(ReferenceNotFound) else Success(tv.(refs := Lists.RemoveFirst(tv.refs, r)))
  }

  /** The reference list never holds a reference twice, and storing then
      removing a reference gives the value back. */
  lemma TypedStoreThenRemove(tv: TypedValue, r: Id)
    requires Distinct(tv.refs)
    ensures TypedStoreReference(tv, r).Success? <==> r !in tv.refs
    ensures TypedStoreReference(tv, r).Success? ==>
      var s := TypedStoreReference(tv, r).value;
      Distinct(s.refs) && TypedRemoveReference(s, r) == Success(tv) && Distinct(TypedRemoveReference(s, r).value.refs)
  {
    if r !in tv.refs {
      Lists.RemoveAppended(tv.refs, r);
    }
  }

  /** A new typed value has no references, and after a reference is
      stored it holds just that one. */
  lemma NewTypedValueStore(block: nat, fieldName: string, scopeInputName: string, freshId: Id, r: Id)
    ensures var tv := NewTypedValue(block, fieldName, scopeInputName, freshId);
      tv.refs == [] && tv.id == freshId && TypedStoreReference(tv, r) == Success(tv.(refs := [r]))
  {
    assert [] + [r] == [r];
  }

  /** Removing keeps a bound value's reference list free of repetitions,
      as storing does. */
  lemma StoreRemoveDistinct(val: Value, r: Id)
    requires Distinct(val.refs)
    ensures StoreReference(val, r).Success? ==> Distinct(StoreReference(val, r).value.refs)
    ensures r in val.refs ==> Distinct(Lists.RemoveFirst(val.refs, r)) && r !in Lists.RemoveFirst(val.refs, r)
  {
    if r in val.refs {
      Lists.RemoveFirstDistinct(val.refs, r);
    }
  }

  // ---------------------------------------------------------------------
  // Partners of the lookups and the transfer.
  // ---------------------------------------------------------------------

  /** What `getOrCreateReference` hands back is found again, unchanged and
      without creating anything, by the id it is now stored under. */
  lemma GetOrCreateThenGet<R>(db: map<Id, R>, optId: Option<Id>, freshId: Id, created: R, freshId2: Id, created2: R)
    requires GetOrCreateReference(db, optId, freshId, created).Success?
    ensures var (ref, db') := GetOrCreateReference(db, optId, freshId, created).value;
      var key := if GetById(db, optId.GetOr(UndefinedKey)).Some? then optId.GetOr(UndefinedKey) else freshId;
      GetOrCreateReference(db', Some(key), freshId2, created2) == Success((ref, db'))
  {
    var key := optId.GetOr(UndefinedKey);
    if GetById(db, key).None? {
      var db' := GetOrCreateReference(db, optId, freshId, created).value.1;
      assert GetById(db', freshId) == Some(created);
    }
  }

  /** Moving a value into a block whose own transfer is under way, and
      then moving it there again, changes nothing the second time: the
      value already has the new state and sits in the new workspace's
      database. */
  lemma TransferAgainNoOp(w: World, v: Id, newBlock: nat)
    requires v in w.values && newBlock in w.blocks
    requires w.values[v].block.Some? ==> w.values[v].block.value in w.blocks
    requires w.blocks[newBlock].transferring
    ensures var o := TransferValuesBlock(w, v, newBlock);
      o.thrown.None? ==> o.w.blocks == w.blocks && TransferValuesBlock(o.w, v, newBlock) == o
  {
    var o := TransferValuesBlock(w, v, newBlock);
    if o.thrown.None? {
      assert o.w.blocks == w.blocks;
      TransferInPlace(o.w, v, newBlock);
    }
  }

  /** A value that already has the state a transfer to `newBlock` gives it,
      and is in that workspace's database, is transferred there without
      change. */
  lemma TransferInPlace(w: World, v: Id, newBlock: nat)
    requires v in w.values && newBlock in w.blocks && w.blocks[newBlock].transferring
    requires var ws := w.blocks[newBlock].workspace;
      && w.values[v] == w.values[v].(typed := false, deleteLater := true, block := Some(newBlock), workspace := Some(ws))
      && v in ValueDb(w, ws) && ValueDb(w, ws)[v] == v
    ensures TransferValuesBlock(w, v, newBlock) == Outcome(w, None)
  {
    var ws := w.blocks[newBlock].workspace;
    var val := w.values[v];
    var db := ValueDb(w, ws) - {v};
    assert RemoveEntry(ValueDb(w, ws), v) == Success(db);
    var w1 := w.(valueDbs := w.valueDbs[ws := db]);
    assert db[v := v] == ValueDb(w, ws);
    assert w1.valueDbs[ws := db[v := v]] == w.valueDbs;
    assert w1.values[v := val] == w.values;
    assert Enter(w1, v, val, ws) == Outcome(w, None);
  }

  /** `getAllBoundVariables` follows the binding: a reference answers
      itself alone, what its value answers once bound, and itself alone
      again once unbound. */
  lemma BoundVariablesFollowBinding(w: World, r: Id, v: Id, valueVariables: seq<Variable>)
    requires r in w.references && v in w.values
    requires w.references[r].bound.None? && w.values[v].name == w.references[r].displayName
    requires r !in w.values[v].refs && !w.values[v].deleteLater && w.values[v].typed
    ensures GetAllBoundVariables(w, r, valueVariables) == [ReferenceVariable(r)]
    ensures var o := SetBoundValue(w, r, v);
      && GetAllBoundVariables(o.w, r, valueVariables) == valueVariables
      && GetAllBoundVariables(RemoveBoundValue(o.w, r).w, r, valueVariables) == [ReferenceVariable(r)]
  {
    BindThenUnbind(w, r, v);
  }
}

=== FILE: code_text.dfy ===
/** Number of occurrences of a character in generated code. */
module CodeText {
  function Count(s: string, c: char): nat {
    if |s| == 0 then 0 else (if s[0] == c then 1 else 0) + Count(s[1..], c)
  }

  lemma {:induction false} CountAppend(a: string, b: string, c: char)
    ensures Count(a + b, c) == Count(a, c) + Count(b, c)
    decreases |a|
  {
    if |a| > 0 {
      assert (a + b)[1..] == a[1..] + b;
      CountAppend(a[1..], b, c);
    } else {
      assert a + b == b;
    }
  }
}

=== FILE: connection.dfy ===
/** Connections between blocks (core/connection.js): whether two
    connections may be joined and why not, the untyped and typed
    compatibility checks, joining and type-expression hand-over.

    All connections and their blocks live in a `Graph`; a connection's
    `targetConnection` is an id in the same graph.  The outcome of
    bound-variable resolution (`checkBoundVariables`) is an input, and
    unification gets a fuel bound. */
module Connections {
  import opened Wrappers
  import opened TypeExpr
  import opened TypeUnify

  /** `Blockly.INPUT_VALUE`, `OUTPUT_VALUE`, `NEXT_STATEMENT`,
      `PREVIOUS_STATEMENT`. */
  datatype ConnKind = InputValue | OutputValue | NextStatement | PreviousStatement

  /** `Blockly.OPPOSITE_TYPE`. */
  function Opposite(k: ConnKind): (o: ConnKind)
    ensures o != k
  {
    match k
    case InputValue => OutputValue
    case OutputValue => InputValue
    case NextStatement => PreviousStatement
    case PreviousStatement => NextStatement
  }

  /** `isSuperior()`: the connection faces down or right. */
  predicate IsSuperior(k: ConnKind) {
    k == InputValue || k == NextStatement
  }

  /** Opposite kinds come in pairs, and exactly one side of a pair is
      superior. */
  lemma OppositeSuperior(k: ConnKind)
    ensures Opposite(Opposite(k)) == k
    ensures IsSuperior(k) != IsSuperior(Opposite(k))
  {
  }

  /** The results of `canConnectWithReason_`. */
  datatype Reason = CanConnect | SelfConnection | WrongType | TargetNull | ChecksFailed | DifferentWorkspaces | ShadowParent

  /** `Blockly.Connection.CAN_CONNECT` and the `REASON_*` constants. */
  function ReasonCode(r: Reason): (n: nat)
    ensures n <= 6 && (n == 0 <==> r == CanConnect)
  {
    match r
    case CanConnect => 0
    case SelfConnection => 1
    case WrongType => 2
    case TargetNull => 3
    case ChecksFailed => 4
    case DifferentWorkspaces => 5
    case ShadowParent => 6
  }

  /** Reading a reason back from its number, as a caller comparing the
      result with the constants does. */
  function ReasonOfCode(n: nat): (r: Option<Reason>)
    ensures r.None? <==> n > 6
    ensures r == Some(CanConnect) <==> n == 0
  {
    if n == 0 then Some(CanConnect)
    else if n == 1 then Some(SelfConnection)
    else if n == 2 then Some(WrongType)
    else if n == 3 then Some(TargetNull)
    else if n == 4 then Some(ChecksFailed)
    else if n == 5 then Some(DifferentWorkspaces)
    else if n == 6 then Some(ShadowParent)
    else None
  }

  /** The constants name the reasons one to one: every reason reads back
      from its number, and every number 0..6 is some reason's. */
  lemma ReasonCodeRoundTrip(r: Reason, n: nat)
    ensures ReasonOfCode(ReasonCode(r)) == Some(r)
    ensures ReasonOfCode(n).Some? ==> ReasonCode(ReasonOfCode(n).value) == n
  {
  }

  /** What `typeExprReplaced` of a block does when `setTypeExpr`
      overwrites a type: the block has none, has one that returns, or has
      one that throws. */
  datatype Hook = NoHook | HookReturns | HookThrows

  /** What a connection needs to know about its block: its workspace,
      whether it is a shadow, whether it is transferable
      (`isTransferable()`), and its `typeExprReplaced`. */
  datatype BlockInfo = BlockInfo(workspace: nat, shadow: bool, transferable: bool, hook: Hook)

  /** A connection: its kind, its block, its `targetConnection`, its
      `check_`, its `typeExpr` and its `typeCheckDisabled_` flag. */
  datatype Conn = Conn(kind: ConnKind, block: nat, target: Option<nat>, check: Option<seq<string>>,
                       typeExpr: Option<Type>, typeCheckDisabled: bool)

  /** Every connection and every block by id. */
  datatype Graph = Graph(conns: map<nat, Conn>, blocks: map<nat, BlockInfo>)

  /** Every connection's block is known. */
  predicate Valid(g: Graph) {
    forall c :: c in g.conns ==> g.conns[c].block in g.blocks
  }

  /** `typeExprEnabled()`: the connection has a type and checking is not
      disabled. */
  predicate TypeExprEnabled(c: Conn) {
    c.typeExpr.Some? && !c.typeCheckDisabled
  }

  /** Some entry of `a` at or after `i` is also in `b`: the loop of the
      untyped `checkType_`. */
  function IntersectFrom(a: seq<string>, b: seq<string>, i: nat): (r: bool)
    requires i <= |a|
    ensures r <==> exists j :: i <= j < |a| && a[j] in b
    decreases |a| - i
  {
    if i == |a| then false else if a[i] in b then true else IntersectFrom(a, b, i + 1)
  }

  /** The two check lists share an entry. */
  predicate Intersect(a: seq<string>, b: seq<string>) {
    exists x :: x in a && x in b
  }

  /** What `checkType_` throws: with types enabled on this side and no type
      on the other, `ableToUnify(null)` calls `clone` on null outside its
      `try`. */
  datatype CheckTypeError = NullOtherType

  /** `checkType_(other)`.  The typed path asks `ableToUnify` and then the
      bound-variable check, whose outcome is `varsResolve`.  The untyped
      path refuses when exactly one side has a type, accepts when either
      side has no check list, and otherwise asks for a common entry. */
  function CheckType(s: Store, a: Conn, b: Conn, varsResolve: bool, fuel: nat): (r: Result<bool, CheckTypeError>)
    ensures r.Failure? <==> TypeExprEnabled(a) && b.typeExpr.None?
    ensures TypeExprEnabled(a) && r.Success? ==>
      (r.value <==> AbleToUnify(s, a.typeExpr.value, b.typeExpr.value, fuel) && varsResolve)
    ensures !TypeExprEnabled(a) && r.Success? ==>
      (r.value <==> a.typeExpr.Some? == b.typeExpr.Some? &&
                    (a.check.None? || b.check.None? || Intersect(a.check.value, b.check.value)))
  {
    if TypeExprEnabled(a) then
      if b.typeExpr.None? then Failure(NullOtherType)
      else Success(AbleToUnify(s, a.typeExpr.value, b.typeExpr.value, fuel) && varsResolve)
    else if a.typeExpr.None? && b.typeExpr.Some? then Success(false)
    else if a.typeExpr.Some? && b.typeExpr.None? then Success(false)
    else if a.check.None? || b.check.None? then Success(true)
    else
      var r := IntersectFrom(a.check.value, b.check.value, 0);
      assert r ==> Intersect(a.check.value, b.check.value);
      assert Intersect(a.check.value, b.check.value) ==> r by {
        if Intersect(a.check.value, b.check.value) {
          var x :| x in a.check.value && x in b.check.value;
          var j :| 0 <= j < |a.check.value| && a.check.value[j] == x;
        }
      }
      Success(r)
  }

  /** The untyped check does not depend on which side asks. */
  lemma UntypedCheckSymmetric(s: Store, a: Conn, b: Conn, varsResolve: bool, fuel: nat)
    requires !TypeExprEnabled(a) && !TypeExprEnabled(b)
    ensures CheckType(s, a, b, varsResolve, fuel) == CheckType(s, b, a, varsResolve, fuel)
  {
  }

  /** A typed connection asked about an untyped one throws, while the
      untyped one asked about the typed one answers no: the typed check is
      one-sided. */
  lemma CheckTypeOneSided(s: Store, a: Conn, b: Conn, varsResolve: bool, fuel: nat)
    requires TypeExprEnabled(a) && b.typeExpr.None?
    ensures CheckType(s, a, b, varsResolve, fuel).Failure?
    ensures CheckType(s, b, a, varsResolve, fuel) == Success(false)
  {
  }

  /** `canConnectWithReason_(target, opt_final)` from connection `a`: the
      first failing check in the order null target, same block, wrong
      opposite kind, different workspaces (only when final or not both
      blocks are transferable), failed type checks, and a shadow superior
      block over a non-shadow one.  An exception from `checkType_` passes
      through. */
  function CanConnectWithReason(s: Store, g: Graph, a: nat, target: Option<nat>, final: bool, varsResolve: bool, fuel: nat): (r: Result<Reason, CheckTypeError>)
    requires Valid(g) && a in g.conns && (target.Some? ==> target.value in g.conns)
    ensures r == Success(TargetNull) <==> target.None?
    ensures target.Some? ==>
      var ca := g.conns[a];
      var cb := g.conns[target.value];
      var (superior, inferior) := if IsSuperior(ca.kind) then (ca.block, cb.block) else (cb.block, ca.block);
      var blockA := g.blocks[superior];
      var blockB := g.blocks[inferior];
      var transferable := blockA.transferable && blockB.transferable;
      var reached := superior != inferior && cb.kind == Opposite(ca.kind) &&
        (blockA.workspace == blockB.workspace || (!final && transferable));
      (r == Success(SelfConnection) <==> superior == inferior) &&
      (r == Success(WrongType) <==> superior != inferior && cb.kind != Opposite(ca.kind)) &&
      (r.Failure? <==> reached && CheckType(s, ca, cb, varsResolve, fuel).Failure?) &&
      (r == Success(CanConnect) <==>
        reached && CheckType(s, ca, cb, varsResolve, fuel) == Success(true) &&
        !(blockA.shadow && !blockB.shadow))
  {
    if target.None? then Success(TargetNull)
    else
      var ca := g.conns[a];
      var cb := g.conns[target.value];
      var (superior, inferior) := if IsSuperior(ca.kind) then (ca.block, cb.block) else (cb.block, ca.block);
      var blockA := g.blocks[superior];
      var blockB := g.blocks[inferior];
      var transferable := blockA.transferable && blockB.transferable;
      if superior == inferior then Success(SelfConnection)
      else if cb.kind != Opposite(ca.kind) then Success(WrongType)
      else if blockA.workspace != blockB.workspace && (final || !transferable) then Success(DifferentWorkspaces)
      else
        var ok :- CheckType(s, ca, cb, varsResolve, fuel);
        if !ok then Success(ChecksFailed)
        else if blockA.shadow && !blockB.shadow then Success(ShadowParent)
        else Success(CanConnect)
  }

  /** Without types, asking from either side gives the same reason. */
  lemma CanConnectSymmetric(s: Store, g: Graph, a: nat, b: nat, final: bool, varsResolve: bool, fuel: nat)
    requires Valid(g) && a in g.conns && b in g.conns
    requires !TypeExprEnabled(g.conns[a]) && !TypeExprEnabled(g.conns[b])
    ensures CanConnectWithReason(s, g, a, Some(b), final, varsResolve, fuel) ==
            CanConnectWithReason(s, g, b, Some(a), final, varsResolve, fuel)
  {
    var ca, cb := g.conns[a], g.conns[b];
    UntypedCheckSymmetric(s, ca, cb, varsResolve, fuel);
    if cb.kind == Opposite(ca.kind) {
      OppositeSuperior(ca.kind);
      assert Opposite(cb.kind) == ca.kind;
    } else {
      assert ca.kind != Opposite(cb.kind);
    }
  }

  /** What `checkConnection_` and the calls above it throw: a refusal
      reason, or the exception of `checkType_`. */
  datatype Thrown = Refused(reason: Reason) | CheckTypeThrew(error: CheckTypeError)

  /** `checkConnection_(target, opt_final)`: returns normally only for
      `CAN_CONNECT` and throws the reason otherwise. */
  function CheckConnection(s: Store, g: Graph, a: nat, target: Option<nat>, final: bool, varsResolve: bool, fuel: nat): (r: Result<(), Thrown>)
    requires Valid(g) && a in g.conns && (target.Some? ==> target.value in g.conns)
    ensures r.Success? <==> CanConnectWithReason(s, g, a, target, final, varsResolve, fuel) == Success(CanConnect)
    ensures r.Failure? && r.error.Refused? ==>
      r.error.reason != CanConnect && CanConnectWithReason(s, g, a, target, final, varsResolve, fuel) == Success(r.error.reason)
    ensures r.Failure? && r.error.CheckTypeThrew? ==>
      CanConnectWithReason(s, g, a, target, final, varsResolve, fuel) == Failure(r.error.error)
  {
    match CanConnectWithReason(s, g, a, target, final, varsResolve, fuel)
    case Failure(e) => Failure(CheckTypeThrew(e))
    case Success(reason) => if reason == CanConnect then Success(()) else Failure(Refused(reason))
  }

  // ---------------------------------------------------------------------
  // Joining.
  // ---------------------------------------------------------------------

  /** `connectReciprocally_(first, second)`: each targets the other;
      nothing else changes. */
  function ConnectReciprocally(g: Graph, first: nat, second: nat): (g': Graph)
    requires first in g.conns && second in g.conns
    ensures g'.blocks == g.blocks && g'.conns.Keys == g.conns.Keys
    ensures g'.conns[first].target == Some(second) && g'.conns[second].target == Some(first)
    ensures forall c :: c in g.conns && c != first && c != second ==> g'.conns[c] == g.conns[c]
    ensures forall c :: c in g.conns ==> g'.conns[c].(target := g.conns[c].target) == g.conns[c]
  {
    var g1 := g.(conns := g.conns[first := g.conns[first].(target := Some(second))]);
    g1.(conns := g1.conns[second := g1.conns[second].(target := Some(first))])
  }

  /** Cut the link of `c`, on both sides, if it has one whose other end is
      in the graph. */
  function Unlink(g: Graph, c: nat): (g': Graph)
    requires c in g.conns
    ensures g'.blocks == g.blocks && g'.conns.Keys == g.conns.Keys
    ensures g.conns[c].target.Some? && g.conns[c].target.value in g.conns ==>
      g'.conns[c].target.None? && g'.conns[g.conns[c].target.value].target.None?
    ensures forall k :: k in g.conns && k != c && Some(k) != g.conns[c].target ==> g'.conns[k] == g.conns[k]
    ensures forall k :: k in g.conns ==> g'.conns[k].(target := g.conns[k].target) == g.conns[k]
  {
    match g.conns[c].target
    case None => g
    case Some(d) =>
      if d !in g.conns then g
      else
        var g1 := g.(conns := g.conns[c := g.conns[c].(target := None)]);
        g1.(conns := g1.conns[d := g1.conns[d].(target := None)])
  }

  /** Set `typeCheckDisabled_` on both connections. */
  function DisableTypeCheck(g: Graph, a: nat, b: nat, disable: bool): (g': Graph)
    requires a in g.conns && b in g.conns
    ensures g'.blocks == g.blocks && g'.conns.Keys == g.conns.Keys
    ensures g'.conns[a].typeCheckDisabled == disable && g'.conns[b].typeCheckDisabled == disable
    ensures forall c :: c in g.conns ==> g'.conns[c].(typeCheckDisabled := g.conns[c].typeCheckDisabled) == g.conns[c]
  {
    var g1 := g.(conns := g.conns[a := g.conns[a].(typeCheckDisabled := disable)]);
    g1.(conns := g1.conns[b := g1.conns[b].(typeCheckDisabled := disable)])
  }

  /** The state after `connect`, and what it threw, if anything. */
  datatype Outcome = Outcome(g: Graph, thrown: Option<Thrown>)

  /** `connect(other, opt_disableTypeCheck)` from `a`: a no-op when the two
      are already joined; otherwise, with the flag, both connections'
      type checks are disabled first; the connection is checked as final;
      the superior side cuts the old links of both and joins them; and the
      flags are cleared again.  The clearing is not in a `finally`, so a
      refused connection leaves both checks disabled. */
  function Connect(s: Store, g: Graph, a: nat, b: nat, disable: Option<bool>, varsResolve: bool, fuel: nat): (o: Outcome)
    requires Valid(g) && a in g.conns && b in g.conns
    ensures g.conns[a].target == Some(b) ==> o == Outcome(g, None)
    ensures o.g.blocks == g.blocks && o.g.conns.Keys == g.conns.Keys
    ensures o.thrown.None? && g.conns[a].target != Some(b) ==>
      o.g.conns[a].target == Some(b) && o.g.conns[b].target == Some(a)
    ensures disable == Some(true) && g.conns[a].target != Some(b) ==>
      (o.g.conns[a].typeCheckDisabled <==> o.thrown.Some?) && (o.g.conns[b].typeCheckDisabled <==> o.thrown.Some?)
    ensures o.thrown.Some? ==> o.thrown.value != Refused(CanConnect)
  {
    if g.conns[a].target == Some(b) then Outcome(g, None)
    else
      var g1 := if disable == Some(true) then DisableTypeCheck(g, a, b, true) else g;
      assert Valid(g1);
      var checked := CheckConnection(s, g1, a, Some(b), true, varsResolve, fuel);
      if checked.Failure? then Outcome(g1, Some(checked.error))
      else
        var (parent, child) := if IsSuperior(g1.conns[a].kind) then (a, b) else (b, a);
        var g2 := Unlink(Unlink(g1, child), parent);
        var g3 := ConnectReciprocally(g2, parent, child);
        var g4 := if disable == Some(true) then DisableTypeCheck(g3, a, b, false) else g3;
        Outcome(g4, None)
  }

  /** Without the flag, `connect` changes only links: every connection
      keeps its kind, block, check list, type and flag. */
  lemma ConnectChangesOnlyLinks(s: Store, g: Graph, a: nat, b: nat, varsResolve: bool, fuel: nat)
    requires Valid(g) && a in g.conns && b in g.conns
    ensures var o := Connect(s, g, a, b, None, varsResolve, fuel);
      forall c :: c in g.conns ==> o.g.conns[c].(target := g.conns[c].target) == g.conns[c]
  {
    var o := Connect(s, g, a, b, None, varsResolve, fuel);
    if g.conns[a].target != Some(b) && CheckConnection(s, g, a, Some(b), true, varsResolve, fuel).Success? {
      var (parent, child) := if IsSuperior(g.conns[a].kind) then (a, b) else (b, a);
      var g2 := Unlink(g, child);
      var g3 := Unlink(g2, parent);
      var g4 := ConnectReciprocally(g3, parent, child);
      assert o.g == g4;
      forall c | c in g.conns
        ensures o.g.conns[c].(target := g.conns[c].target) == g.conns[c]
      {
        assert g2.conns[c].(target := g.conns[c].target) == g.conns[c];
        assert g3.conns[c].(target := g.conns[c].target) == g.conns[c];
      }
    }
  }

  // ---------------------------------------------------------------------
  // Check lists and type expressions.
  // ---------------------------------------------------------------------

  /** The argument of `setCheck`: null, one type name, or a list. */
  datatype CheckArg = NoCheck | OneCheck(name: string) | CheckList(names: seq<string>)

  /** `check` as `setCheck` stores it: a falsy value (null or the empty
      string) becomes null, a single name becomes a one-element list, a
      list is kept. */
  function NormaliseCheck(check: CheckArg): (r: Option<seq<string>>)
    ensures check.NoCheck? || check == OneCheck("") <==> r.None?
    ensures check.OneCheck? && check.name != "" ==> r == Some([check.name])
    ensures check.CheckList? ==> r == Some(check.names)
  {
    match check
    case NoCheck => None
    case OneCheck(n) => if n == "" then None else Some([n])
    case CheckList(ns) => Some(ns)
  }

  /** `setCheck(check)` of connection `c`: store the normalised list, and
      for a truthy check run `onCheckChanged_`, which unplugs the child
      when the joined connections no longer pass `checkType_`.  When
      `checkType_` throws, the new list stays stored and the link stays. */
  function SetCheck(s: Store, g: Graph, c: nat, check: CheckArg, varsResolve: bool, fuel: nat): (o: Outcome)
    requires Valid(g) && c in g.conns
    ensures Valid(o.g) && o.g.blocks == g.blocks && o.g.conns.Keys == g.conns.Keys
    ensures o.g.conns[c].check == NormaliseCheck(check)
    ensures forall k :: k in g.conns && k != c && Some(k) != g.conns[c].target ==> o.g.conns[k] == g.conns[k]
    ensures forall k :: k in g.conns && k != c ==> o.g.conns[k].(target := g.conns[k].target) == g.conns[k]
    ensures o.g.conns[c].(target := g.conns[c].target, check := g.conns[c].check) == g.conns[c]
    ensures NormaliseCheck(check).None? ==> o.thrown.None? && o.g.conns[c].target == g.conns[c].target
    ensures o.thrown.Some? ==> o.thrown.value.CheckTypeThrew? && o.g.conns[c].target == g.conns[c].target
    ensures o.thrown.None? && NormaliseCheck(check).Some? && o.g.conns[c].target.Some? && o.g.conns[c].target.value in o.g.conns ==>
      CheckType(s, o.g.conns[c], o.g.conns[o.g.conns[c].target.value], varsResolve, fuel) == Success(true)
  {
    var g1 := g.(conns := g.conns[c := g.conns[c].(check := NormaliseCheck(check))]);
    var cc := g1.conns[c];
    if NormaliseCheck(check).None? || cc.target.None? || cc.target.value !in g1.conns then Outcome(g1, None)
    else
      match CheckType(s, cc, g1.conns[cc.target.value], varsResolve, fuel)
      case Failure(e) => Outcome(g1, Some(CheckTypeThrew(e)))
      case Success(ok) => if ok then Outcome(g1, None) else Outcome(Unlink(g1, c), None)
  }

  /** Setting the same check a second time changes nothing more: the
      first call already cut every link that fails it. */
  lemma {:induction false} SetCheckTwice(s: Store, g: Graph, c: nat, check: CheckArg, varsResolve: bool, fuel: nat)
    requires Valid(g) && c in g.conns
    requires SetCheck(s, g, c, check, varsResolve, fuel).thrown.None?
    ensures var o := SetCheck(s, g, c, check, varsResolve, fuel);
      SetCheck(s, o.g, c, check, varsResolve, fuel) == o
  {
    var o := SetCheck(s, g, c, check, varsResolve, fuel);
    var cc := o.g.conns[c];
    assert o.g.conns[c := cc.(check := NormaliseCheck(check))] == o.g.conns;
    if NormaliseCheck(check).Some? && cc.target.Some? && cc.target.value in o.g.conns {
      assert CheckType(s, cc, o.g.conns[cc.target.value], varsResolve, fuel) == Success(true);
    }
  }

  /** The error `typeExprReplaced` throws. */
  datatype ReplaceError = ReplacedHookThrew

  /** The graph after a `setTypeExpr`, and what `typeExprReplaced` threw, if
      anything. */
  datatype Replaced = Replaced(g: Graph, thrown: Option<ReplaceError>)

  /** `setTypeExpr(t, true)` of connection `c`: store `t`; when a type was
      there before, then call the block's `typeExprReplaced`, which may
      throw after the new type is stored. */
  function OverwriteTypeExpr(g: Graph, c: nat, t: Option<Type>): (o: Replaced)
    requires Valid(g) && c in g.conns
    ensures Valid(o.g) && o.g.blocks == g.blocks && o.g.conns.Keys == g.conns.Keys
    ensures o.g.conns[c].typeExpr == t && o.g.conns[c].(typeExpr := g.conns[c].typeExpr) == g.conns[c]
    ensures forall k :: k in g.conns && k != c ==> o.g.conns[k] == g.conns[k]
    ensures o.thrown.Some? <==> g.conns[c].typeExpr.Some? && g.blocks[g.conns[c].block].hook == HookThrows
  {
    var g' := g.(conns := g.conns[c := g.conns[c].(typeExpr := t)]);
    if g.conns[c].typeExpr.Some? && g.blocks[g.conns[c].block].hook == HookThrows then Replaced(g', Some(ReplacedHookThrew))
    else Replaced(g', None)
  }

  /** Overwriting a type and then putting the old one back restores the
      graph; the second call throws exactly when the first stored a type on
      a block whose hook throws. */
  lemma {:induction false} OverwriteRestores(g: Graph, c: nat, t: Option<Type>)
    requires Valid(g) && c in g.conns
    ensures var o := OverwriteTypeExpr(g, c, t);
      var back := OverwriteTypeExpr(o.g, c, g.conns[c].typeExpr);
      back.g == g &&
      (back.thrown.Some? <==> t.Some? && g.blocks[g.conns[c].block].hook == HookThrows)
  {
    var o := OverwriteTypeExpr(g, c, t);
    var back := OverwriteTypeExpr(o.g, c, g.conns[c].typeExpr);
    assert back.g.conns == g.conns;
  }

  /** `replaceTypeExprWith(oldConnection, opt_removeTypeExpr)`: acts only
      when both connections have a type; then this connection takes the
      prev one's type, and the prev one loses its type unless
      `opt_removeTypeExpr` is exactly false.  A throwing `typeExprReplaced`
      of this connection's block stops it before the prev one is touched. */
  function ReplaceTypeExprWith(g: Graph, c: nat, prev: nat, removeTypeExpr: Option<bool>): (o: Replaced)
    requires Valid(g) && c in g.conns && prev in g.conns && c != prev
    ensures g.conns[c].typeExpr.None? || g.conns[prev].typeExpr.None? ==> o == Replaced(g, None)
    ensures Valid(o.g) && o.g.blocks == g.blocks && o.g.conns.Keys == g.conns.Keys
    ensures forall k :: k in g.conns && k != c && k != prev ==> o.g.conns[k] == g.conns[k]
    ensures g.conns[c].typeExpr.Some? && g.conns[prev].typeExpr.Some? ==>
      var throwsC := g.blocks[g.conns[c].block].hook == HookThrows;
      var cleared := removeTypeExpr != Some(false) && !throwsC;
      o.g.conns[c] == g.conns[c].(typeExpr := g.conns[prev].typeExpr) &&
      o.g.conns[prev] == (if cleared then g.conns[prev].(typeExpr := None) else g.conns[prev]) &&
      (o.thrown.Some? <==> throwsC || (cleared && g.blocks[g.conns[prev].block].hook == HookThrows))
  {
    if g.conns[c].typeExpr.Some? && g.conns[prev].typeExpr.Some? then
      var o1 := OverwriteTypeExpr(g, c, g.conns[prev].typeExpr);
      if o1.thrown.Some? then o1
      else if removeTypeExpr != Some(false) then OverwriteTypeExpr(o1.g, prev, None)
      else o1
    else Replaced(g, None)
  }

  /** A type moves only once: after a replacement that cleared the prev
      connection, replacing again does nothing. */
  lemma {:induction false} ReplaceMovesOnce(g: Graph, c: nat, prev: nat, removeTypeExpr: Option<bool>)
    requires Valid(g) && c in g.conns && prev in g.conns && c != prev
    requires removeTypeExpr != Some(false)
    ensures var o := ReplaceTypeExprWith(g, c, prev, removeTypeExpr);
      o.thrown.None? ==> ReplaceTypeExprWith(o.g, c, prev, removeTypeExpr) == Replaced(o.g, None)
  {
    var o := ReplaceTypeExprWith(g, c, prev, removeTypeExpr);
    if o.thrown.None? && g.conns[c].typeExpr.Some? && g.conns[prev].typeExpr.Some? {
      assert o.g.conns[prev].typeExpr.None?;
    }
  }
}

=== FILE: connection_db.dfy ===
/** The connection database (core/connection_db.js): an array of
    connections kept sorted by vertical position, with binary-search
    insertion, lookup, removal and the y-range walk that finds the closest
    compatible connection.

    A connection in the database is `DbConn(id, y)`; its `inDB_` flag is
    membership of its id in `Db.inDB`.  Coordinates are integers, and the
    distance and compatibility tests of `searchForClosest` are parameters. */
module ConnectionDb {
  import opened Wrappers
  import Connections

  /** A connection as the database sees it: its identity and its `y_`. */
  datatype DbConn = DbConn(id: nat, y: int)

  /** The array and the ids whose `inDB_` flag is set. */
  datatype Db = Db(entries: seq<DbConn>, inDB: set<nat>)

  /** What the database throws. */
  datatype DbError = AlreadyInDatabase | NotInDatabase | UnableToFind

  /** Non-decreasing in `y_`. */
  predicate Sorted(xs: seq<DbConn>) {
    forall i, j :: 0 <= i < j < |xs| ==> xs[i].y <= xs[j].y
  }

  /** No connection is stored twice. */
  predicate UniqueIds(xs: seq<DbConn>) {
    forall i, j :: 0 <= i < j < |xs| ==> xs[i].id != xs[j].id
  }

  /** The ids stored in the array. */
  function Ids(xs: seq<DbConn>): set<nat> {
    set i | 0 <= i < |xs| :: xs[i].id
  }

  /** The database as `addConnection` and `removeConnection_` keep it:
      sorted, each connection once, and flagged exactly when stored. */
  predicate Valid(db: Db) {
    Sorted(db.entries) && UniqueIds(db.entries) && db.inDB == Ids(db.entries)
  }

  /** `xs` with `c` inserted at `p`, and with the entry at `i` removed. */
  function Inserted(xs: seq<DbConn>, p: nat, c: DbConn): (ys: seq<DbConn>)
    requires p <= |xs|
    ensures |ys| == |xs| + 1
  {
    xs[..p] + [c] + xs[p..]
  }

  function Deleted(xs: seq<DbConn>, i: nat): (ys: seq<DbConn>)
    requires i < |xs|
    ensures |ys| == |xs| - 1
  {
    xs[..i] + xs[i + 1..]
  }

  lemma InsertedAt(xs: seq<DbConn>, p: nat, c: DbConn, i: nat)
    requires p <= |xs| && i <= |xs|
    ensures Inserted(xs, p, c)[i] == if i < p then xs[i] else if i == p then c else xs[i - 1]
  {
  }

  lemma DeletedAt(xs: seq<DbConn>, i: nat, j: nat)
    requires i < |xs| && j < |xs| - 1
    ensures Deleted(xs, i)[j] == if j < i then xs[j] else xs[j + 1]
  {
  }

  /** Removing what was inserted gives the array back. */
  lemma DeleteInserted(xs: seq<DbConn>, p: nat, c: DbConn)
    requires p <= |xs|
    ensures Deleted(Inserted(xs, p, c), p) == xs
  {
    var ys := Inserted(xs, p, c);
    assert ys[..p] == xs[..p];
    assert ys[p + 1..] == xs[p..];
  }

  lemma InsertedIds(xs: seq<DbConn>, p: nat, c: DbConn)
    requires p <= |xs|
    ensures Ids(Inserted(xs, p, c)) == Ids(xs) + {c.id}
  {
    var ys := Inserted(xs, p, c);
    forall id | id in Ids(ys) ensures id in Ids(xs) + {c.id} {
      var i :| 0 <= i < |ys| && ys[i].id == id;
      InsertedAt(xs, p, c, i);
      if i < p {
        assert xs[i].id in Ids(xs);
      } else if i > p {
        assert xs[i - 1].id in Ids(xs);
      }
    }
    forall id | id in Ids(xs) + {c.id} ensures id in Ids(ys) {
      if id == c.id {
        InsertedAt(xs, p, c, p);
        assert ys[p].id in Ids(ys);
      } else {
        var i :| 0 <= i < |xs| && xs[i].id == id;
        if i < p {
          InsertedAt(xs, p, c, i);
          assert ys[i].id in Ids(ys);
        } else {
          InsertedAt(xs, p, c, i + 1);
          assert ys[i + 1].id in Ids(ys);
        }
      }
    }
  }

  lemma DeletedIds(xs: seq<DbConn>, i: nat)
    requires i < |xs| && UniqueIds(xs)
    ensures Ids(Deleted(xs, i)) == Ids(xs) - {xs[i].id}
  {
    var ys := Deleted(xs, i);
    forall id | id in Ids(ys) ensures id in Ids(xs) - {xs[i].id} {
      var j :| 0 <= j < |ys| && ys[j].id == id;
      DeletedAt(xs, i, j);
      var j' := if j < i then j else j + 1;
      assert xs[j'].id in Ids(xs);
    }
    forall id | id in Ids(xs) - {xs[i].id} ensures id in Ids(ys) {
      var j :| 0 <= j < |xs| && xs[j].id == id;
      var j' := if j < i then j else j - 1;
      DeletedAt(xs, i, j');
      assert ys[j'].id in Ids(ys);
    }
  }

  lemma InsertedUnique(xs: seq<DbConn>, p: nat, c: DbConn)
    requires p <= |xs| && UniqueIds(xs) && c.id !in Ids(xs)
    ensures UniqueIds(Inserted(xs, p, c))
  {
    var ys := Inserted(xs, p, c);
    forall a, b | 0 <= a < b < |ys| ensures ys[a].id != ys[b].id {
      InsertedAt(xs, p, c, a);
      InsertedAt(xs, p, c, b);
      if a == p {
        assert xs[b - 1].id in Ids(xs);
      } else if b == p {
        assert xs[a].id in Ids(xs);
      }
    }
  }

  lemma DeletedUnique(xs: seq<DbConn>, i: nat)
    requires i < |xs| && UniqueIds(xs)
    ensures UniqueIds(Deleted(xs, i))
  {
    var ys := Deleted(xs, i);
    forall a, b | 0 <= a < b < |ys| ensures ys[a].id != ys[b].id {
      DeletedAt(xs, i, a);
      DeletedAt(xs, i, b);
    }
  }

  /** Removing an entry of a sorted array leaves it sorted. */
  lemma DeletedSorted(xs: seq<DbConn>, i: nat)
    requires Sorted(xs) && i < |xs|
    ensures Sorted(Deleted(xs, i))
  {
    var ys := Deleted(xs, i);
    forall a, b | 0 <= a < b < |ys| ensures ys[a].y <= ys[b].y {
      DeletedAt(xs, i, a);
      DeletedAt(xs, i, b);
    }
  }

  // ---------------------------------------------------------------------
  // Binary search.
  // ---------------------------------------------------------------------

  /** Every entry before `lo` is lower than `y` and every entry from `hi` on
      is higher: the loop invariant of the binary search. */
  predicate Brackets(xs: seq<DbConn>, y: int, lo: nat, hi: nat) {
    (forall i :: 0 <= i < lo && i < |xs| ==> xs[i].y < y) && (forall i :: hi <= i < |xs| ==> xs[i].y > y)
  }

  /** `p` splits the array into entries at most `y` and entries at least
      `y`, and lands on an entry at height `y` whenever there is one. */
  predicate Splits(xs: seq<DbConn>, y: int, p: nat) {
    && (forall i :: 0 <= i < p && i < |xs| ==> xs[i].y <= y)
    && (forall i :: p <= i < |xs| ==> xs[i].y >= y)
    && ((exists k :: 0 <= k < |xs| && xs[k].y == y) ==> p < |xs| && xs[p].y == y)
  }

  /** The loop of `findPositionForConnection_` on `[lo, hi)`. */
  function PositionFrom(xs: seq<DbConn>, y: int, lo: nat, hi: nat): (p: nat)
    requires lo <= hi <= |xs|
    ensures lo <= p <= hi
    decreases hi - lo
  {
    if lo >= hi then lo
    else
      var mid := (lo + hi) / 2;
      if xs[mid].y < y then PositionFrom(xs, y, mid + 1, hi)
      else if xs[mid].y > y then PositionFrom(xs, y, lo, mid)
      else mid
  }

  /** An entry at height `y` in a sorted array is a split. */
  lemma MidSplits(xs: seq<DbConn>, y: int, mid: nat)
    requires Sorted(xs) && mid < |xs| && xs[mid].y == y
    ensures Splits(xs, y, mid)
  {
    forall i | 0 <= i < mid ensures xs[i].y <= y {
      assert xs[i].y <= xs[mid].y;
    }
    forall i | mid <= i < |xs| ensures xs[i].y >= y {
      assert xs[mid].y <= xs[i].y;
    }
  }

  /** When the bracket closes, no entry is at height `y` and its place is
      a split. */
  lemma ClosedSplits(xs: seq<DbConn>, y: int, lo: nat)
    requires lo <= |xs| && Brackets(xs, y, lo, lo)
    ensures Splits(xs, y, lo)
  {
    forall k | 0 <= k < |xs| ensures xs[k].y != y {
      if k < lo {
        assert xs[k].y < y;
      } else {
        assert xs[k].y > y;
      }
    }
  }

  /** The binary search keeps its invariant and ends at a split. */
  lemma {:induction false} PositionFromSplits(xs: seq<DbConn>, y: int, lo: nat, hi: nat)
    requires lo <= hi <= |xs| && Sorted(xs) && Brackets(xs, y, lo, hi)
    ensures Splits(xs, y, PositionFrom(xs, y, lo, hi))
    decreases hi - lo
  {
    if lo < hi {
      var mid := (lo + hi) / 2;
      if xs[mid].y < y {
        assert Brackets(xs, y, mid + 1, hi) by {
          forall i | 0 <= i < mid + 1 ensures xs[i].y < y {
            assert xs[i].y <= xs[mid].y;
          }
        }
        PositionFromSplits(xs, y, mid + 1, hi);
      } else if xs[mid].y > y {
        assert Brackets(xs, y, lo, mid) by {
          forall i | mid <= i < |xs| ensures xs[i].y > y {
            assert xs[mid].y <= xs[i].y;
          }
        }
        PositionFromSplits(xs, y, lo, mid);
      } else {
        MidSplits(xs, y, mid);
      }
    } else {
      ClosedSplits(xs, y, lo);
    }
  }

  /** `findPositionForConnection_`: a place to insert a connection at
      height `y`; in a sorted array it is a split. */
  function FindPosition(xs: seq<DbConn>, y: int): (p: nat)
    ensures p <= |xs|
    ensures Sorted(xs) ==> Splits(xs, y, p)
  {
    if |xs| == 0 then 0
    else
      var p := PositionFrom(xs, y, 0, |xs|);
      assert Sorted(xs) ==> Splits(xs, y, p) by {
        if Sorted(xs) {
          PositionFromSplits(xs, y, 0, |xs|);
        }
      }
      p
  }

  /** Inserting at the position found keeps the array sorted. */
  lemma InsertKeepsSorted(xs: seq<DbConn>, c: DbConn)
    requires Sorted(xs)
    ensures Sorted(Inserted(xs, FindPosition(xs, c.y), c))
  {
    var p := FindPosition(xs, c.y);
    var ys := Inserted(xs, p, c);
    forall i, j | 0 <= i < j < |ys| ensures ys[i].y <= ys[j].y {
      InsertedAt(xs, p, c, i);
      InsertedAt(xs, p, c, j);
    }
  }

  // ---------------------------------------------------------------------
  // Lookup.
  // ---------------------------------------------------------------------

  /** The backward walk of `findConnection` from `i`, over entries at the
      connection's height. */
  function WalkBack(xs: seq<DbConn>, c: DbConn, i: int): (r: Option<nat>)
    requires i < |xs|
    ensures r.Some? ==> r.value <= i && xs[r.value] == c
    decreases i + 1
  {
    if i < 0 || xs[i].y != c.y then None
    else if xs[i] == c then Some(i)
    else WalkBack(xs, c, i - 1)
  }

  /** The forward walk of `findConnection` from `i`. */
  function WalkForward(xs: seq<DbConn>, c: DbConn, i: nat): (r: Option<nat>)
    requires i <= |xs|
    ensures r.Some? ==> i <= r.value < |xs| && xs[r.value] == c
    decreases |xs| - i
  {
    if i >= |xs| || xs[i].y != c.y then None
    else if xs[i] == c then Some(i)
    else WalkForward(xs, c, i + 1)
  }

  /** `findConnection(conn)`: an index holding the connection, or -1. */
  function FindConnection(xs: seq<DbConn>, c: DbConn): (r: int)
    ensures r == -1 || (0 <= r < |xs| && xs[r] == c)
  {
    if |xs| == 0 then -1
    else
      var guess := FindPosition(xs, c.y);
      if guess >= |xs| then -1
      else match WalkBack(xs, c, guess)
        case Some(i) => i
        case None =>
          match WalkForward(xs, c, guess)
          case Some(i) => i
          case None => -1
  }

  /** The backward walk reaches a copy at or below its start when every
      entry in between is at the same height, which sortedness gives. */
  lemma {:induction false} WalkBackFinds(xs: seq<DbConn>, c: DbConn, i: int, k: nat)
    requires Sorted(xs) && k <= i < |xs| && xs[k] == c && xs[i].y == c.y
    ensures WalkBack(xs, c, i).Some?
    decreases i
  {
    if xs[i] != c {
      assert xs[k].y <= xs[i - 1].y <= xs[i].y;
      WalkBackFinds(xs, c, i - 1, k);
    }
  }

  /** The forward walk reaches a copy at or above its start. */
  lemma {:induction false} WalkForwardFinds(xs: seq<DbConn>, c: DbConn, i: nat, k: nat)
    requires Sorted(xs) && i <= k < |xs| && xs[k] == c && xs[i].y == c.y
    ensures WalkForward(xs, c, i).Some?
    decreases k - i
  {
    if xs[i] != c {
      assert xs[i].y <= xs[i + 1].y <= xs[k].y;
      WalkForwardFinds(xs, c, i + 1, k);
    }
  }

  /** In a sorted array `findConnection` answers -1 exactly when the
      connection is absent. */
  lemma FindConnectionComplete(xs: seq<DbConn>, c: DbConn)
    requires Sorted(xs)
    ensures FindConnection(xs, c) == -1 <==> c !in xs
  {
    if c in xs {
      var k :| 0 <= k < |xs| && xs[k] == c;
      var guess := FindPosition(xs, c.y);
      if k <= guess {
        WalkBackFinds(xs, c, guess, k);
      } else {
        WalkForwardFinds(xs, c, guess, k);
      }
    }
  }

  // ---------------------------------------------------------------------
  // Adding and removing.
  // ---------------------------------------------------------------------

  /** `addConnection(connection)`; `inFlyout` says whether its block is in a
      flyout, where nothing is stored and the flag stays clear. */
  function AddConnection(db: Db, c: DbConn, inFlyout: bool): (r: Result<Db, DbError>)
    ensures r.Failure? <==> c.id in db.inDB
    ensures r.Success? && inFlyout ==> r.value == db
    ensures r.Success? && !inFlyout ==>
      && r.value.inDB == db.inDB + {c.id}
      && multiset(r.value.entries) == multiset(db.entries) + multiset{c}
      && (Sorted(db.entries) ==> Sorted(r.value.entries))
  {
    if c.id in db.inDB then Failure(AlreadyInDatabase)
    else if inFlyout then Success(db)
    else
      var p := FindPosition(db.entries, c.y);
      var entries := Inserted(db.entries, p, c);
      assert db.entries == db.entries[..p] + db.entries[p..];
      assert Sorted(db.entries) ==> Sorted(entries) by {
        if Sorted(db.entries) {
          InsertKeepsSorted(db.entries, c);
        }
      }
      Success(Db(entries, db.inDB + {c.id}))
  }

  /** `removeConnection_(connection)`: throws when the flag is clear or
      the connection cannot be found; otherwise removes that one entry and
      clears the flag. */
  function RemoveConnection(db: Db, c: DbConn): (r: Result<Db, DbError>)
    ensures c.id !in db.inDB ==> r == Failure(NotInDatabase)
    ensures Sorted(db.entries) && c.id in db.inDB ==> (r.Failure? <==> c !in db.entries)
    ensures r.Success? ==>
      && r.value.inDB == db.inDB - {c.id}
      && multiset(r.value.entries) == multiset(db.entries) - multiset{c}
      && c in db.entries
  {
    if c.id !in db.inDB then Failure(NotInDatabase)
    else
      var i := FindConnection(db.entries, c);
      assert Sorted(db.entries) ==> (i == -1 <==> c !in db.entries) by {
        if Sorted(db.entries) {
          FindConnectionComplete(db.entries, c);
        }
      }
      if i == -1 then Failure(UnableToFind)
      else
        var xs := db.entries;
        assert xs == xs[..i] + [xs[i]] + xs[i + 1..];
        Success(Db(Deleted(xs, i), db.inDB - {c.id}))
  }

  /** Adding keeps the database valid. */
  lemma AddKeepsValid(db: Db, c: DbConn, inFlyout: bool)
    requires Valid(db)
    ensures AddConnection(db, c, inFlyout).Success? ==> Valid(AddConnection(db, c, inFlyout).value)
  {
    if c.id !in db.inDB && !inFlyout {
      var p := FindPosition(db.entries, c.y);
      InsertKeepsSorted(db.entries, c);
      InsertedUnique(db.entries, p, c);
      InsertedIds(db.entries, p, c);
    }
  }

  /** Removing keeps the database valid. */
  lemma RemoveKeepsValid(db: Db, c: DbConn)
    requires Valid(db)
    ensures RemoveConnection(db, c).Success? ==> Valid(RemoveConnection(db, c).value)
  {
    if c.id in db.inDB {
      var i := FindConnection(db.entries, c);
      if i != -1 {
        DeletedSorted(db.entries, i);
        DeletedUnique(db.entries, i);
        DeletedIds(db.entries, i);
      }
    }
  }

  /** A connection whose id was not stored sits only where it was
      inserted. */
  lemma InsertedOnlyAt(xs: seq<DbConn>, p: nat, c: DbConn, i: nat)
    requires p <= |xs| && c.id !in Ids(xs) && i < |xs| + 1 && Inserted(xs, p, c)[i] == c
    ensures i == p
  {
    InsertedAt(xs, p, c, i);
  }

  /** Adding a connection outside a flyout and removing it again gives the
      database back. */
  lemma AddThenRemove(db: Db, c: DbConn)
    requires Valid(db) && c.id !in db.inDB
    ensures AddConnection(db, c, false).Success?
    ensures RemoveConnection(AddConnection(db, c, false).value, c) == Success(db)
  {
    var xs := db.entries;
    var p := FindPosition(xs, c.y);
    var ys := Inserted(xs, p, c);
    var db' := Db(ys, db.inDB + {c.id});
    assert AddConnection(db, c, false) == Success(db');
    InsertKeepsSorted(xs, c);
    InsertedAt(xs, p, c, p);
    FindConnectionComplete(ys, c);
    var i := FindConnection(ys, c);
    InsertedOnlyAt(xs, p, c, i);
    DeleteInserted(xs, p, c);
    assert db.inDB + {c.id} - {c.id} == db.inDB;
    assert RemoveConnection(db', c) == Success(Db(Deleted(ys, i), db'.inDB - {c.id}));
  }

  // ---------------------------------------------------------------------
  // The y-range walk of `searchForClosest`.
  // ---------------------------------------------------------------------

  /** Within `maxRadius` of `y` vertically (`isInYRange_`). */
  predicate InYRange(e: DbConn, y: int, maxRadius: int) {
    -maxRadius <= e.y - y <= maxRadius
  }

  /** The indices the downward walk visits, starting at `i`. */
  function VisitDown(xs: seq<DbConn>, y: int, maxRadius: int, i: int): (vs: seq<nat>)
    requires i < |xs|
    ensures forall k :: 0 <= k < |vs| ==> vs[k] <= i && InYRange(xs[vs[k]], y, maxRadius)
    decreases i + 1
  {
    if i < 0 || !InYRange(xs[i], y, maxRadius) then [] else [i as nat] + VisitDown(xs, y, maxRadius, i - 1)
  }

  /** The indices the upward walk visits, starting at `i`. */
  function VisitUp(xs: seq<DbConn>, y: int, maxRadius: int, i: nat): (vs: seq<nat>)
    requires i <= |xs|
    ensures forall k :: 0 <= k < |vs| ==> i <= vs[k] < |xs| && InYRange(xs[vs[k]], y, maxRadius)
    decreases |xs| - i
  {
    if i >= |xs| || !InYRange(xs[i], y, maxRadius) then [] else [i] + VisitUp(xs, y, maxRadius, i + 1)
  }

  /** Every index visited by `searchForClosest` for a connection dragged
      to height `y`, in visiting order. */
  function Visited(xs: seq<DbConn>, y: int, maxRadius: int): (vs: seq<nat>)
    ensures forall k :: 0 <= k < |vs| ==> vs[k] < |xs| && InYRange(xs[vs[k]], y, maxRadius)
  {
    if |xs| == 0 then []
    else
      var p := FindPosition(xs, y);
      VisitDown(xs, y, maxRadius, p - 1) + VisitUp(xs, y, maxRadius, p)
  }

  /** The downward walk takes in every in-range index at or below its
      start, when everything from there down is at most `y`. */
  lemma {:induction false} VisitDownComplete(xs: seq<DbConn>, y: int, maxRadius: int, i: int, k: nat)
    requires Sorted(xs) && k <= i < |xs| && xs[i].y <= y && InYRange(xs[k], y, maxRadius)
    ensures k in VisitDown(xs, y, maxRadius, i)
    decreases i
  {
    assert xs[k].y <= xs[i].y;
    if k < i {
      VisitDownComplete(xs, y, maxRadius, i - 1, k);
    }
  }

  /** The upward walk takes in every in-range index at or above its start,
      when everything from there up is at least `y`. */
  lemma {:induction false} VisitUpComplete(xs: seq<DbConn>, y: int, maxRadius: int, i: nat, k: nat)
    requires Sorted(xs) && i <= k < |xs| && xs[i].y >= y && InYRange(xs[k], y, maxRadius)
    ensures k in VisitUp(xs, y, maxRadius, i)
    decreases k - i
  {
    assert xs[i].y <= xs[k].y;
    if i < k {
      VisitUpComplete(xs, y, maxRadius, i + 1, k);
    }
  }

  /** In a sorted database the walk visits exactly the entries within
      `maxRadius` vertically. */
  lemma VisitedExactly(xs: seq<DbConn>, y: int, maxRadius: int, k: nat)
    requires Sorted(xs) && k < |xs|
    ensures k in Visited(xs, y, maxRadius) <==> InYRange(xs[k], y, maxRadius)
  {
    if InYRange(xs[k], y, maxRadius) {
      var p := FindPosition(xs, y);
      if k < p {
        VisitDownComplete(xs, y, maxRadius, p - 1, k);
      } else {
        VisitUpComplete(xs, y, maxRadius, p, k);
      }
    }
  }

  /** The result of `searchForClosest`. */
  datatype Closest = Closest(connection: Option<DbConn>, radius: int, reason: Option<DbConn>)

  /** The `update` calls over the visited indices.  `allowed(target, r)` is
      `isConnectionAllowed` with the best radius so far, and `distance` is
      `distanceFrom`. */
  function UpdateAll(xs: seq<DbConn>, vs: seq<nat>, allowed: (DbConn, int) -> bool, distance: DbConn -> int,
                     best: Option<DbConn>, bestRadius: int): (r: (Option<DbConn>, int))
    requires forall k :: 0 <= k < |vs| ==> vs[k] < |xs|
    ensures r == (best, bestRadius) ||
      exists k :: 0 <= k < |vs| && r == (Some(xs[vs[k]]), distance(xs[vs[k]]))
  {
    if |vs| == 0 then (best, bestRadius)
    else
      var target := xs[vs[0]];
      var (b, rad) := if allowed(target, bestRadius) then (Some(target), distance(target)) else (best, bestRadius);
      var r := UpdateAll(xs, vs[1..], allowed, distance, b, rad);
      assert r == (b, rad) || exists k :: 1 <= k < |vs| && r == (Some(xs[vs[k]]), distance(xs[vs[k]]));
      r
  }

  /** `searchForClosest(conn, maxRadius, dxy)` for a connection at height
      `y` dragged by `dy`.  Because `canConnectWithError_` only ever
      answers true or false, no incompatibility reason is ever recorded,
      and `reason` is always null. */
  function SearchForClosest(xs: seq<DbConn>, y: int, dy: int, maxRadius: int,
                            allowed: (DbConn, int) -> bool, distance: DbConn -> int): (r: Closest)
    ensures |xs| == 0 ==> r == Closest(None, maxRadius, None)
    ensures r.reason.None?
    ensures r.connection.None? ==> r.radius == maxRadius
    ensures r.connection.Some? ==>
      r.connection.value in xs && InYRange(r.connection.value, y + dy, maxRadius) &&
      r.radius == distance(r.connection.value)
  {
    if |xs| == 0 then Closest(None, maxRadius, None)
    else
      var vs := Visited(xs, y + dy, maxRadius);
      var (best, radius) := UpdateAll(xs, vs, allowed, distance, None, maxRadius);
      Closest(best, radius, None)
  }

  /** `ConnectionDB.init`: one empty database per connection kind. */
  function Init(): (dbs: map<Connections.ConnKind, Db>)
    ensures dbs.Keys == {Connections.InputValue, Connections.OutputValue, Connections.NextStatement, Connections.PreviousStatement}
    ensures forall k :: k in dbs ==> dbs[k] == Db([], {})
  {
    map[Connections.InputValue := Db([], {}), Connections.OutputValue := Db([], {}),
        Connections.NextStatement := Db([], {}), Connections.PreviousStatement := Db([], {})]
  }

  /** Each database `init` creates is valid and empty: removing throws that
      the connection is not there, and a connection added outside a flyout
      is its only entry until it is removed again. */
  lemma InitLifecycle(k: Connections.ConnKind, c: DbConn)
    requires k in Init()
    ensures Valid(Init()[k])
    ensures RemoveConnection(Init()[k], c) == Failure(NotInDatabase)
    ensures AddConnection(Init()[k], c, false) == Success(Db([c], {c.id}))
    ensures RemoveConnection(AddConnection(Init()[k], c, false).value, c) == Success(Init()[k])
  {
    var db := Init()[k];
    assert db == Db([], {});
    assert FindPosition([], c.y) == 0;
    assert Inserted([], 0, c) == [c];
    assert {} + {c.id} == {c.id};
    AddThenRemove(db, c);
  }
}

=== FILE: datatypes.dfy ===
/** The datatype blocks of blocks/datatypes.js: `defined_datatype_typed`
    declares two constructors that share one CONSTRUCT id,
    `create_construct_typed` refers to a constructor whose id is not known
    yet, and `int_type_typed` / `float_type_typed` are type constructors. */
module DataTypes {
  import opened Wrappers
  import opened TypeExpr
  import opened TypeSubst
  import opened TypeUnify
  import opened TypedBlocks

  // ---------------------------------------------------------------------
  // `parseInt(s)` with no radix, as `getTypeScheme` uses it.
  // ---------------------------------------------------------------------

  /** The white space and line terminators `parseInt` skips. */
  predicate IsJsSpace(c: char) {
    var n := c as int;
    n == 0x09 || n == 0x0A || n == 0x0B || n == 0x0C || n == 0x0D || n == 0x20 ||
    n == 0xA0 || n == 0x1680 || (0x2000 <= n <= 0x200A) || n == 0x2028 || n == 0x2029 ||
    n == 0x202F || n == 0x205F || n == 0x3000 || n == 0xFEFF
  }

  /** Every character of `s` is white space. */
  predicate AllSpaces(s: string) {
    |s| == 0 || (IsJsSpace(s[0]) && AllSpaces(s[1..]))
  }

  /** `AllSpaces` character by character. */
  lemma {:induction false} AllSpacesAt(s: string)
    ensures AllSpaces(s) <==> forall i :: 0 <= i < |s| ==> IsJsSpace(s[i])
  {
    if |s| > 0 {
      AllSpacesAt(s[1..]);
      assert forall i :: 0 < i < |s| ==> s[i] == s[1..][i - 1];
    }
  }

  /** The two bases `parseInt` reads without a radix argument. */
  datatype Radix = Decimal | Hex

  /** The value of a digit in base `radix`, if it is one. */
  function DigitValue(c: char, radix: Radix): Option<nat> {
    if '0' <= c <= '9' then Some(c as int - '0' as int)
    else if radix == Hex && 'a' <= c <= 'f' then Some(c as int - 'a' as int + 10)
    else if radix == Hex && 'A' <= c <= 'F' then Some(c as int - 'A' as int + 10)
    else None
  }

  /** The length of the longest prefix of `s` made of digits. */
  function DigitRun(s: string, radix: Radix): (n: nat)
    ensures n <= |s|
    ensures forall i :: 0 <= i < n ==> DigitValue(s[i], radix).Some?
    ensures n < |s| ==> DigitValue(s[n], radix).None?
  {
    if |s| == 0 || DigitValue(s[0], radix).None? then 0 else 1 + DigitRun(s[1..], radix)
  }

  /** The number written by a run of digits, most significant first. */
  function DigitsValue(s: string, radix: Radix): nat
    requires forall i :: 0 <= i < |s| ==> DigitValue(s[i], radix).Some?
  {
    if |s| == 0 then 0
    else
      var d := DigitValue(s[|s| - 1], radix).value;
      match radix
      case Decimal => DigitsValue(s[..|s| - 1], radix) * 10 + d
      case Hex => DigitsValue(s[..|s| - 1], radix) * 16 + d
  }

  function SkipSpaces(s: string): (t: string)
    ensures |t| <= |s| && t == s[|s| - |t|..]
    ensures |t| > 0 ==> !IsJsSpace(t[0])
  {
    if |s| > 0 && IsJsSpace(s[0]) then SkipSpaces(s[1..]) else s
  }

  /** `SkipSpaces` removes exactly the leading white space: what it skips is
      all white space, and what it keeps does not start with white space. */
  lemma {:induction false} SkipSpacesExact(s: string)
    ensures |SkipSpaces(s)| <= |s| && SkipSpaces(s) == s[|s| - |SkipSpaces(s)|..]
    ensures AllSpaces(s[..|s| - |SkipSpaces(s)|])
    ensures |SkipSpaces(s)| > 0 ==> !IsJsSpace(SkipSpaces(s)[0])
  {
    if |s| > 0 && IsJsSpace(s[0]) {
      SkipSpacesExact(s[1..]);
      SkippedSpaces(s, SkipSpaces(s[1..]));
    } else {
      assert s[..0] == [];
    }
  }

  /** A white-space character before a run of white space extends it. */
  lemma SkippedSpaces(s: string, t: string)
    requires 0 < |s| && IsJsSpace(s[0])
    requires |t| <= |s| - 1 && t == s[1..][|s| - 1 - |t|..] && AllSpaces(s[1..][..|s| - 1 - |t|])
    ensures |t| <= |s| && t == s[|s| - |t|..] && AllSpaces(s[..|s| - |t|])
  {
    var k := |s| - 1 - |t|;
    assert s[1..][k..] == s[k + 1..];
    assert s[..k + 1][1..] == s[1..][..k];
  }

  /** The number a run of digits at the start of `v` writes, if any. */
  function LeadingNumber(v: string, radix: Radix): Option<nat> {
    var n := DigitRun(v, radix);
    if n == 0 then None else Some(DigitsValue(v[..n], radix))
  }

  /** An unsigned number: "0x" or "0X" switches to base 16. */
  function ParseUnsigned(u: string): Option<nat> {
    if |u| >= 2 && u[0] == '0' && (u[1] == 'x' || u[1] == 'X') then LeadingNumber(u[2..], Hex)
    else LeadingNumber(u, Decimal)
  }

  function AsInt(n: Option<nat>, negate: bool): Option<int> {
    match n
    case None => None
    case Some(v) => Some(if negate then 0 - v else v)
  }

  /** A number after the leading space: an optional sign, then digits. */
  function ParseSigned(t: string): Option<int> {
    if |t| > 0 && (t[0] == '-' || t[0] == '+') then AsInt(ParseUnsigned(t[1..]), t[0] == '-')
    else AsInt(ParseUnsigned(t), false)
  }

  /** `parseInt(s)`: skip leading space, read an optional sign, then an
      unsigned number; `None` is NaN. */
  function ParseInt(s: string): (r: Option<int>)
    ensures r.Some? ==> |SkipSpaces(s)| > 0
    ensures r.Some? && r.value < 0 ==> SkipSpaces(s)[0] == '-'
  {
    ParseSigned(SkipSpaces(s))
  }

  predicate IsDecimal(s: string) {
    forall i :: 0 <= i < |s| ==> '0' <= s[i] <= '9'
  }

  lemma {:induction false} DigitRunAll(s: string, radix: Radix)
    requires forall i :: 0 <= i < |s| ==> DigitValue(s[i], radix).Some?
    ensures DigitRun(s, radix) == |s|
  {
    if |s| > 0 {
      DigitRunAll(s[1..], radix);
    }
  }

  /** A non-empty run of decimal digits that does not start "0x" reads as
      its value. */
  lemma LeadingDecimal(s: string)
    requires |s| > 0 && IsDecimal(s) && !(|s| >= 2 && s[0] == '0' && (s[1] == 'x' || s[1] == 'X'))
    ensures forall i :: 0 <= i < |s| ==> DigitValue(s[i], Decimal).Some?
    ensures ParseUnsigned(s) == Some(DigitsValue(s, Decimal))
  {
    assert forall i :: 0 <= i < |s| ==> DigitValue(s[i], Decimal).Some?;
    DigitRunAll(s, Decimal);
    assert s[..|s|] == s;
  }

  /** `parseInt` of such a run is its value. */
  lemma ParseIntDecimal(s: string)
    requires |s| > 0 && IsDecimal(s) && !(|s| >= 2 && s[0] == '0' && (s[1] == 'x' || s[1] == 'X'))
    ensures forall i :: 0 <= i < |s| ==> DigitValue(s[i], Decimal).Some?
    ensures ParseInt(s) == Some(DigitsValue(s, Decimal))
    ensures ParseInt(s) == AsInt(ParseUnsigned(s), false)
  {
    LeadingDecimal(s);
    assert !IsJsSpace(s[0]);
    assert SkipSpaces(s) == s;
  }

  /** Leading space is skipped. */
  lemma ParseIntSpace(s: string)
    ensures ParseInt([' '] + s) == ParseInt(s)
  {
    assert ([' '] + s)[1..] == s;
    assert SkipSpaces([' '] + s) == SkipSpaces(s);
  }

  /** A minus sign negates the unsigned number after it. */
  lemma ParseIntMinusSign(u: string)
    ensures ParseInt(['-'] + u) == AsInt(ParseUnsigned(u), true)
  {
    var t := ['-'] + u;
    assert t[0] == '-' && t[1..] == u;
    assert SkipSpaces(t) == t by { assert !IsJsSpace(t[0]); }
  }

  /** A minus sign negates a number read without a sign. */
  lemma MinusOfUnsigned(s: string)
    requires ParseUnsigned(s).Some?
    requires ParseInt(s) == AsInt(ParseUnsigned(s), false)
    ensures ParseInt(s).Some?
    ensures ParseInt(['-'] + s) == Some(0 - ParseInt(s).value)
  {
    var n: int := ParseUnsigned(s).value;
    assert ParseInt(s) == Some(n);
    ParseIntMinusSign(s);
    assert ParseInt(['-'] + s) == Some(0 - n);
  }

  /** A minus sign negates a number written in decimal. */
  lemma ParseIntMinus(s: string)
    requires |s| > 0 && IsDecimal(s) && !(|s| >= 2 && s[0] == '0' && (s[1] == 'x' || s[1] == 'X'))
    ensures ParseInt(s).Some? && ParseInt(s).value >= 0
    ensures ParseInt(['-'] + s) == Some(0 - ParseInt(s).value)
  {
    ParseIntDecimal(s);
    MinusOfUnsigned(s);
  }

  /** One decimal digit reads as its value. */
  lemma ParseIntDigit(d: char)
    requires '0' <= d <= '9'
    ensures ParseInt([d]) == Some(d as int - '0' as int)
  {
    ParseIntDecimal([d]);
    assert [d][..0] == [];
    assert DigitValue(d, Decimal) == Some(d as int - '0' as int);
    assert DigitsValue([d], Decimal) == d as int - '0' as int;
  }

  // ---------------------------------------------------------------------
  // The blocks.
  // ---------------------------------------------------------------------

  /** `defined_datatype_typed` after `init`: the CONSTRUCT types of CTR0
      and CTR1, the shared id `constructId_`, `itemCount_` and
      `disableTransfer_`. */
  datatype DefinedDatatype = DefinedDatatype(ctr0: Type, ctr1: Type, constructId: string, itemCount: nat, disableTransfer: bool)

  /** `init` of `defined_datatype_typed`: two fresh CONSTRUCT cells `c0` and
      `c1` that both carry the generated id. */
  function DefineDatatype(s: Store, c0: nat, c1: nat, ctrId: string): (res: (Store, DefinedDatatype))
    requires c0 != c1 && c0 !in s.ids && c1 !in s.ids && ctrId != ""
    ensures res.1.ctr0 == Construct(c0) && res.1.ctr1 == Construct(c1)
    ensures Known(res.0, c0) && Known(res.0, c1)
    ensures res.0.ids[c0] == ctrId && res.0.ids[c1] == ctrId && res.1.constructId == ctrId
    ensures res.1.itemCount == 2 && res.1.disableTransfer
    ensures Extends(s, res.0) && res.0.vars == s.vars
  {
    (s.(ids := s.ids[c0 := ctrId][c1 := ctrId]), DefinedDatatype(Construct(c0), Construct(c1), ctrId, 2, true))
  }

  /** The two constructor types of one datatype are equal, and unifying
      them changes nothing. */
  lemma DatatypeConstructorsAgree(s: Store, r: map<string, nat>, c0: nat, c1: nat, ctrId: string)
    requires c0 != c1 && c0 !in s.ids && c1 !in s.ids && ctrId != ""
    ensures var (s', b) := DefineDatatype(s, c0, c1, ctrId);
      Equals(s', b.ctr0, b.ctr1) && Unify(s', b.ctr0, b.ctr1, 1) == Success(s')
  {
    var (s', b) := DefineDatatype(s, c0, c1, ctrId);
    assert Unify(s', b.ctr0, b.ctr1, 1) == UnifyConstruct(s', c0, c1);
  }

  datatype SchemeError = NoSuchField

  /** `getTypeScheme(fieldName)` of `defined_datatype_typed`.  A name "CTR"
      followed by a number below `itemCount_` names the field "CTR" + that
      number; a negative number names no field, and reading it fails. */
  function DatatypeScheme(b: DefinedDatatype, fieldName: string): (r: Result<Option<Scheme>, SchemeError>)
    ensures r.Success? && r.value.Some? ==> r.value.value == Mono(b.ctr0) || r.value.value == Mono(b.ctr1)
    ensures r.Failure? ==> |fieldName| >= 3 && fieldName[..3] == "CTR" && ParseInt(fieldName[3..]).Some?
    ensures !(|fieldName| >= 3 && fieldName[..3] == "CTR") ==> r == Success(None)
  {
    if |fieldName| >= 3 && fieldName[..3] == "CTR" then
      var x := ParseInt(fieldName[3..]);
      if x.Some? && x.value < b.itemCount then
        if x.value == 0 then Success(Some(Mono(b.ctr0)))
        else if x.value == 1 then Success(Some(Mono(b.ctr1)))
        else Failure(NoSuchField)
      else Success(None)
    else Success(None)
  }

  /** On a freshly declared datatype, a field name gives a scheme exactly
      when it is "CTR" and a number `parseInt` reads as 0 or 1, and that
      scheme is the monomorphic type of the constructor; a negative number
      fails; anything else gives no scheme. */
  lemma DatatypeSchemeSpec(s: Store, c0: nat, c1: nat, ctrId: string, fieldName: string)
    requires c0 != c1 && c0 !in s.ids && c1 !in s.ids && ctrId != ""
    ensures var b := DefineDatatype(s, c0, c1, ctrId).1;
      var x := if |fieldName| >= 3 && fieldName[..3] == "CTR" then ParseInt(fieldName[3..]) else None;
      (DatatypeScheme(b, fieldName) == Success(Some(Mono(Construct(c0)))) <==> x == Some(0)) &&
      (DatatypeScheme(b, fieldName) == Success(Some(Mono(Construct(c1)))) <==> x == Some(1)) &&
      (DatatypeScheme(b, fieldName).Failure? <==> x.Some? && x.value < 0) &&
      (DatatypeScheme(b, fieldName) == Success(None) <==> x.None? || x.value >= 2)
  {
  }

  /** The field names "CTR0" .. "CTR9": the first two give their
      constructor, the others nothing. */
  lemma DatatypeSchemeDigit(b: DefinedDatatype, d: char)
    requires b.itemCount == 2 && '0' <= d <= '9'
    ensures DatatypeScheme(b, "CTR" + [d]) ==
      if d == '0' then Success(Some(Mono(b.ctr0)))
      else if d == '1' then Success(Some(Mono(b.ctr1)))
      else Success(None)
  {
    var f := "CTR" + [d];
    assert f[..3] == "CTR" && f[3..] == [d];
    ParseIntDigit(d);
  }

  /** A minus sign and one digit read as the negated digit. */
  lemma ParseIntNegativeDigit(d: char)
    requires '0' <= d <= '9'
    ensures ParseInt(['-', d]) == Some(0 - (d as int - '0' as int))
  {
    var s := [d];
    LeadingDecimal(s);
    assert DigitsValue(s, Decimal) == d as int - '0' as int by {
      assert s[..0] == [];
      assert DigitValue(d, Decimal) == Some(d as int - '0' as int);
    }
    var t := ['-', d];
    assert t[1..] == s;
    assert SkipSpaces(t) == t by { assert !IsJsSpace(t[0]); }
    assert ParseSigned(t) == AsInt(ParseUnsigned(s), true);
  }

  /** "CTR-1" .. "CTR-9" read as a negative number, which names no field. */
  lemma DatatypeSchemeNegative(b: DefinedDatatype, d: char)
    requires b.itemCount == 2 && '1' <= d <= '9'
    ensures DatatypeScheme(b, "CTR-" + [d]).Failure?
  {
    var f := "CTR-" + [d];
    assert |f| >= 3 && f[..3] == "CTR";
    assert f[3..] == ['-', d];
    ParseIntNegativeDigit(d);
    var x := ParseInt(f[3..]);
    assert x.Some? && x.value < 0;
  }

  /** `typeExprReplaced`: replacing the type of a constructor is refused. */
  function TypeExprReplaced(b: DefinedDatatype): (r: Result<DefinedDatatype, string>)
    ensures r.Failure?
  {
    Failure("Not allowed to replace type expression for value construct.")
  }

  /** `init` of `create_construct_typed`: a CONSTRUCT whose id is not known. */
  function CreateConstruct(s: Store, c: nat): (t: Type)
    requires c !in s.ids
    ensures t.Construct? && !Known(s, t.cell)
  {
    Construct(c)
  }

  /** A constructor reference unifies with a declared constructor and then
      carries its id. */
  lemma ConstructorReferenceTakesId(s: Store, c0: nat, c1: nat, ctrId: string, c: nat)
    requires c0 != c1 && c0 !in s.ids && c1 !in s.ids && ctrId != "" && c != c0 && c != c1 && c !in s.ids
    ensures var (s', b) := DefineDatatype(s, c0, c1, ctrId);
      var t := CreateConstruct(s', c);
      Unify(s', t, b.ctr0, 1).Success? &&
      Known(Unify(s', t, b.ctr0, 1).value, c) && Unify(s', t, b.ctr0, 1).value.ids[c] == ctrId
  {
    var (s', b) := DefineDatatype(s, c0, c1, ctrId);
    assert Unify(s', Construct(c), b.ctr0, 1) == UnifyConstruct(s', c, c0);
  }

  /** `int_type_typed` and `float_type_typed` output a type constructor,
      which unifies only with another type constructor. */
  lemma TypeBlocksOutput(s: Store, t: Type, fuel: nat)
    requires fuel > 0
    ensures Unify(s, TypeCtor, TypeCtor, fuel) == Success(s)
    ensures !t.TypeCtor? ==> Unify(s, TypeCtor, t, fuel).Failure?
  {
  }
}

=== FILE: lists.dfy ===
/** Sequence operations the source takes from `goog.array` and from
    `Array.prototype.indexOf` with `splice`: finding and removing the first
    occurrence of an element. */
module Lists {

  /** The first index holding `x`, as `indexOf` finds it. */
  function IndexOf<T(==)>(xs: seq<T>, x: T): (i: nat)
    requires x in xs
    ensures i < |xs| && xs[i] == x && x !in xs[..i]
  {
    if xs[0] == x then 0
    else
      var i := 1 + IndexOf(xs[1..], x);
      assert xs[..i] == [xs[0]] + xs[1..][..i - 1];
      i
  }

  /** `splice(indexOf(x), 1)`: removes exactly the first occurrence. */
  function RemoveFirst<T(==)>(xs: seq<T>, x: T): (r: seq<T>)
    requires x in xs
    ensures exists i :: 0 <= i < |xs| && xs[i] == x && x !in xs[..i] && r == xs[..i] + xs[i + 1..]
    ensures |r| == |xs| - 1
    ensures multiset(r) == multiset(xs) - multiset{x}
  {
    var i := IndexOf(xs, x);
    assert xs == xs[..i] + [x] + xs[i + 1..];
    xs[..i] + xs[i + 1..]
  }

  /** Removing what was just appended, when it was not there before, gives
      the sequence back. */
  lemma RemoveAppended<T>(xs: seq<T>, x: T)
    requires x !in xs
    ensures RemoveFirst(xs + [x], x) == xs
  {
    var ys := xs + [x];
    assert IndexOf(ys, x) == |xs| by {
      assert ys[..|xs|] == xs;
    }
    assert ys[..|xs|] + ys[|xs| + 1..] == xs;
  }

  /** Removing keeps a sequence free of repetitions. */
  lemma RemoveFirstDistinct<T>(xs: seq<T>, x: T)
    requires x in xs
    requires forall i, j :: 0 <= i < j < |xs| ==> xs[i] != xs[j]
    ensures var r := RemoveFirst(xs, x);
      (forall i, j :: 0 <= i < j < |r| ==> r[i] != r[j]) && x !in r
  {
    var i := IndexOf(xs, x);
    var r := RemoveFirst(xs, x);
    assert r == xs[..i] + xs[i + 1..];
    forall a, b | 0 <= a < b < |r| ensures r[a] != r[b] {
      var a' := if a < i then a else a + 1;
      var b' := if b < i then b else b + 1;
      assert r[a] == xs[a'] && r[b] == xs[b'];
    }
    forall k | 0 <= k < |r| ensures r[k] != x {
      var k' := if k < i then k else k + 1;
      assert r[k] == xs[k'];
    }
  }
}

=== FILE: rendered_types.dfy ===
/** The drawn shape of a type (core/rendered_type_expr.js): the height of
    the notch a type cuts into a block's edge, where each child sits, the
    highlights of the type variables in it, and the outline path.

    Every method of the source dereferences the expression it is called
    on before looking at its shape, and again at every child, so on an
    acyclic store it works on the `deepDeref` of the expression; the
    functions below take that tree, and `TypeExprHeightUnfold` shows the
    level-by-level reading is the same. */
module RenderedTypes {
  import opened Wrappers
  import opened TypeExpr
  import opened TypeSubst

  /** `Blockly.BlockSvg.TAB_HEIGHT` and the text of
      `Blockly.BlockSvg.TAB_WIDTH`, which are defined outside this file. */
  datatype Metrics = Metrics(tabHeight: nat, tabWidth: string)

  /** The shapes with a `shape` of their own; every other expression
      (a string, a constructor, a type constructor, a pattern) falls back to
      the prototype's shape, the plain tab. */
  predicate OwnShape(t: Type) {
    t.Int? || t.Float? || t.Bool? || t.List? || t.Pair? || t.Fun? || t.TVar?
  }

  /** `shape.height` of a dereferenced tree. */
  function ShapeHeight(m: Metrics, t: Type): nat {
    match t
    case Int => 20
    case Float => 20
    case Bool => 20
    case TVar(_) => 25
    case List(e) => ShapeHeight(m, e) + 10
    case Pair(a, b) => ShapeHeight(m, a) + ShapeHeight(m, b) + 18
    case Fun(a, b) => ShapeHeight(m, a) + ShapeHeight(m, b) + 18
    case _ => m.tabHeight
  }

  /** `getChildren()` of a dereferenced expression: a pattern has none. */
  function Children(t: Type): seq<Type> {
    match t
    case List(e) => [e]
    case Pair(a, b) => [a, b]
    case Fun(a, b) => [a, b]
    case _ => []
  }

  /** `shape.offsetsY`: where each child starts below the top of its
      parent. */
  function OffsetsY(m: Metrics, t: Type): (o: seq<nat>)
    ensures |o| == |Children(t)|
  {
    match t
    case List(_) => [0]
    case Pair(a, _) => [6, ShapeHeight(m, a) + 12]
    case Fun(a, _) => [6, ShapeHeight(m, a) + 12]
    case _ => []
  }

  /** The lowest leaf notch: 20 for the primitives, or the plain tab when
      it is lower. */
  function LowestLeaf(m: Metrics): nat {
    if m.tabHeight < 20 then m.tabHeight else 20
  }

  /** `getTypeExprHeight()` of an expression on a store: never lower than
      the lowest leaf notch. */
  function TypeExprHeight(s: Store, m: Metrics, t: Type): (h: nat)
    ensures h >= LowestLeaf(m)
  {
    HeightAtLeastLeaf(m, DeepDeref(s, t));
    ShapeHeight(m, DeepDeref(s, t))
  }

  /** Every notch is at least as high as the lowest leaf notch, and a
      composite notch is higher than each of its children's: nothing shrinks
      on the way up. */
  lemma {:induction false} HeightAtLeastLeaf(m: Metrics, t: Type)
    ensures ShapeHeight(m, t) >= LowestLeaf(m)
    ensures forall c :: c in Children(t) ==> ShapeHeight(m, c) < ShapeHeight(m, t)
  {
    match t
    case List(e) => HeightAtLeastLeaf(m, e);
    case Pair(a, b) => HeightAtLeastLeaf(m, a); HeightAtLeastLeaf(m, b);
    case Fun(a, b) => HeightAtLeastLeaf(m, a); HeightAtLeastLeaf(m, b);
    case _ =>
  }

  /** A child sits wholly inside its parent. */
  lemma {:induction false} ChildrenInside(m: Metrics, t: Type, i: nat)
    requires i < |Children(t)|
    ensures OffsetsY(m, t)[i] + ShapeHeight(m, Children(t)[i]) <= ShapeHeight(m, t)
  {
  }

  /** `deepDeref` after `deref` is `deepDeref`. */
  lemma {:induction false} DeepDerefOfDeref(s: Store, r: map<string, nat>, t: Type)
    requires Ranked(s, r)
    ensures DeepDeref(s, Deref(s, t)) == DeepDeref(s, t)
    decreases Height(r, t)
  {
    if t.TVar? && t.name in s.vars {
      DerefUnfold(s, r, t.name);
      DeepDerefUnfold(s, r, t.name);
      BoundHeight(s, r, t.name);
      DeepDerefOfDeref(s, r, s.vars[t.name]);
    }
  }

  /** The height as the source computes it: dereference, take the shape of
      what is found, and ask each child for its own height. */
  lemma TypeExprHeightUnfold(s: Store, r: map<string, nat>, m: Metrics, t: Type)
    requires Ranked(s, r)
    ensures var d := Deref(s, t);
      TypeExprHeight(s, m, t) ==
        match d
        case Int => 20
        case Float => 20
        case Bool => 20
        case TVar(_) => 25
        case List(e) => TypeExprHeight(s, m, e) + 10
        case Pair(a, b) => TypeExprHeight(s, m, a) + TypeExprHeight(s, m, b) + 18
        case Fun(a, b) => TypeExprHeight(s, m, a) + TypeExprHeight(s, m, b) + 18
        case _ => m.tabHeight
  {
    var d := Deref(s, t);
    DeepDerefOfDeref(s, r, t);
    DerefNotBound(s, r, t);
  }

  // ---------------------------------------------------------------------
  // Type-variable highlights.
  // ---------------------------------------------------------------------

  /** One highlight: the type variable (whose colour is drawn) and the
      offset of its notch below the top of the whole type. */
  datatype Highlight = Highlight(name: string, y: nat)

  /** The path drawn for a highlight at offset `y`. */
  function HighlightPath(y: nat): string {
    "m 0," + NatToString(y) + " " + "m 0,5 l -8,0 0,15 8,0"
  }

  /** `typeVarHighlights_(y, ...)` of a dereferenced tree: one highlight
      per type-variable leaf. */
  function Highlights(m: Metrics, t: Type, y: nat): (h: seq<Highlight>)
    ensures |h| == |LeafVars(t)|
  {
    match t
    case TVar(n) => [Highlight(n, y)]
    case List(e) => Highlights(m, e, y)
    case Pair(a, b) => Highlights(m, a, y + 6) + Highlights(m, b, y + ShapeHeight(m, a) + 12)
    case Fun(a, b) => Highlights(m, a, y + 6) + Highlights(m, b, y + ShapeHeight(m, a) + 12)
    case _ => []
  }

  /** The type-variable leaves of a tree, left to right. */
  function LeafVars(t: Type): seq<string> {
    match t
    case TVar(n) => [n]
    case List(e) => LeafVars(e)
    case Pair(a, b) => LeafVars(a) + LeafVars(b)
    case Fun(a, b) => LeafVars(a) + LeafVars(b)
    case _ => []
  }

  /** `h` holds one highlight per name of `names`, in order, each notch
      (25 high) inside `lo`..`hi` and below the one before. */
  predicate Spaced(h: seq<Highlight>, names: seq<string>, lo: int, hi: int) {
    |h| == |names| &&
    (forall i :: 0 <= i < |h| ==> h[i].name == names[i]) &&
    (forall i :: 0 <= i < |h| ==> lo <= h[i].y && h[i].y + 25 <= hi) &&
    (forall i, j :: 0 <= i < j < |h| ==> h[i].y + 25 <= h[j].y)
  }

  /** Highlights spaced in two bands one above the other are spaced
      together in any band holding both. */
  lemma SpacedConcat(h1: seq<Highlight>, n1: seq<string>, lo1: int, hi1: int,
                     h2: seq<Highlight>, n2: seq<string>, lo2: int, hi2: int, lo: int, hi: int)
    requires Spaced(h1, n1, lo1, hi1) && Spaced(h2, n2, lo2, hi2)
    requires lo <= lo1 <= hi1 <= lo2 <= hi2 <= hi
    ensures Spaced(h1 + h2, n1 + n2, lo, hi)
  {
    var h := h1 + h2;
    var n := n1 + n2;
    forall i | 0 <= i < |h|
      ensures h[i].name == n[i] && lo <= h[i].y && h[i].y + 25 <= hi
    {
      if i < |h1| {
        assert h[i] == h1[i] && n[i] == n1[i];
      } else {
        assert h[i] == h2[i - |h1|] && n[i] == n2[i - |h1|];
      }
    }
    forall i, j | 0 <= i < j < |h|
      ensures h[i].y + 25 <= h[j].y
    {
      if j < |h1| {
        assert h[i] == h1[i] && h[j] == h1[j];
      } else if i < |h1| {
        assert h[i] == h1[i] && h[j] == h2[j - |h1|];
      } else {
        assert h[i] == h2[i - |h1|] && h[j] == h2[j - |h1|];
      }
    }
  }

  /** A band can always be widened. */
  lemma SpacedWiden(h: seq<Highlight>, names: seq<string>, lo: int, hi: int, lo': int, hi': int)
    requires Spaced(h, names, lo, hi) && lo' <= lo && hi <= hi'
    ensures Spaced(h, names, lo', hi')
  {
  }

  /** `typeVarHighlights()`: one entry per type-variable leaf, in order,
      each drawn inside the notch and below the previous one. */
  lemma {:induction false} HighlightsSpec(m: Metrics, t: Type, y: nat)
    ensures Spaced(Highlights(m, t, y), LeafVars(t), y, y + ShapeHeight(m, t))
    decreases t, 1
  {
    match t
    case TVar(n) =>
    case List(e) =>
      HighlightsSpec(m, e, y);
      SpacedWiden(Highlights(m, e, y), LeafVars(e), y, y + ShapeHeight(m, e), y, y + ShapeHeight(m, t));
    case Pair(a, b) => HighlightsPairSpec(m, t, a, b, y);
    case Fun(a, b) => HighlightsPairSpec(m, t, a, b, y);
    case _ =>
  }

  /** The two-child case of `HighlightsSpec`, given how the highlights,
      the leaves and the height of `t` split over its children. */
  lemma {:induction false} HighlightsPairSpec(m: Metrics, t: Type, a: Type, b: Type, y: nat)
    requires t == Pair(a, b) || t == Fun(a, b)
    ensures Spaced(Highlights(m, t, y), LeafVars(t), y, y + ShapeHeight(m, t))
    decreases t, 0
  {
    var mid := y + ShapeHeight(m, a) + 12;
    assert Highlights(m, t, y) == Highlights(m, a, y + 6) + Highlights(m, b, mid) &&
      LeafVars(t) == LeafVars(a) + LeafVars(b) &&
      ShapeHeight(m, t) == ShapeHeight(m, a) + ShapeHeight(m, b) + 18 by {
      if t.Pair? {} else {}
    }
    HighlightsSpec(m, a, y + 6);
    HighlightsSpec(m, b, mid);
    SpacedConcat(Highlights(m, a, y + 6), LeafVars(a), y + 6, y + 6 + ShapeHeight(m, a),
                 Highlights(m, b, mid), LeafVars(b), mid, mid + ShapeHeight(m, b),
                 y, y + ShapeHeight(m, t));
  }

  /** `typeVarHighlights()` of an expression on a store. */
  function TypeVarHighlights(s: Store, m: Metrics, t: Type): seq<Highlight> {
    Highlights(m, DeepDeref(s, t), 0)
  }

  function DigitChar(d: nat): char
    requires d < 10
  {
    ('0' as int + d) as char
  }

  /** The decimal text of a number. */
  function NatToString(n: nat): (w: string)
    ensures |w| > 0
  {
    if n < 10 then [DigitChar(n)] else NatToString(n / 10) + [DigitChar(n % 10)]
  }

  // ---------------------------------------------------------------------
  // Outline paths.
  // ---------------------------------------------------------------------

  /** The steps of the plain tab. */
  function TabDown(m: Metrics): string {
    "v 5 c 0,10 -" + m.tabWidth + ",-8 -" + m.tabWidth + ",7.5 s " + m.tabWidth + ",-2.5 " + m.tabWidth + ",7.5"
  }

  function TabUp(m: Metrics): string {
    "c 0,-10 -" + m.tabWidth + ",8 -" + m.tabWidth + ",-7.5 s " + m.tabWidth + ",2.5 " + m.tabWidth + ",-7.5"
  }

  /** The number of steps of a tree. */
  function StepCount(t: Type): nat {
    match t
    case List(e) => StepCount(e) + 1
    case Pair(a, b) => StepCount(a) + StepCount(b) + 3
    case Fun(a, b) => StepCount(a) + StepCount(b) + 3
    case _ => 1
  }

  /** `renderTypeExpr(steps, updown)` of a dereferenced tree: the steps
      pushed, `up` reversing the order of the children. */
  function Steps(m: Metrics, t: Type, up: bool): (r: seq<string>)
    ensures |r| == StepCount(t)
  {
    match t
    case Int => if up then ["l 0,-3 a 6,6,0,0,1,0,-12 l 0,-5"] else ["l 0,5 a 6,6,0,0,0,0,12 l 0,3"]
    case Float => if up then ["l 0,-3 -6,0 3,-6 -3,-6 6,0 0,-5"] else ["l 0,5 -6,0 3,6 -3,6 6,0 0,3"]
    case Bool => if up then ["l -8,-7.5 8,-7.5 0,-5"] else ["l 0,5 -8,7.5 8,7.5"]
    case TVar(_) => if up then ["l 0,-5 -8,0 0,-15 8,0 0,-5"] else ["l 0,5 -8,0 0,15 8,0 0,5"]
    case List(e) =>
      if up then ["l 0,-3 -8,0 0,-4, 8,0 0,-3"] + Steps(m, e, up)
      else Steps(m, e, up) + ["l 0,3 -8,0 0,4, 8,0 0,3"]
    case Pair(a, b) =>
      if up then ["l 0,-3 -12,0 0,-3 12,0"] + Steps(m, b, up) + ["l -5,-3 5,-3"] + Steps(m, a, up) + ["l -12,0 0,-3 12,0 0,-3"]
      else ["l 0,3 -12,0 0,3 12,0"] + Steps(m, a, up) + ["l -5,3 5,3"] + Steps(m, b, up) + ["l -12,0 0,3 12,0 0,3"]
    case Fun(a, b) =>
      if up then ["l 0,-3 -12,0 0,-3 12,0"] + Steps(m, b, up) + ["l 5,-3 -5,-3"] + Steps(m, a, up) + ["l -12,0 0,-3 12,0 0,-3"]
      else ["l 0,3 -12,0 0,3 12,0"] + Steps(m, a, up) + ["l 5,3 -5,3"] + Steps(m, b, up) + ["l -12,0 0,3 12,0 0,3"]
    case _ => if up then [TabUp(m)] else [TabDown(m)]
  }

  /** A tree drawn with the plain tab somewhere in it. */
  predicate HasTab(t: Type) {
    match t
    case List(e) => HasTab(e)
    case Pair(a, b) => HasTab(a) || HasTab(b)
    case Fun(a, b) => HasTab(a) || HasTab(b)
    case _ => !OwnShape(t)
  }

  datatype RenderError = BadDirection | UndefinedSteps

  /** The steps as the source draws them: the prototype's `up` names its
      parameter `stesp` and pushes onto `steps`, a name not bound there, so
      drawing a plain tab upwards stops with a reference error. */
  function StepsAsWritten(m: Metrics, t: Type, up: bool): (r: Result<seq<string>, RenderError>)
    ensures r.Success? ==> |r.value| == StepCount(t)
  {
    match t
    case List(e) =>
      var se :- StepsAsWritten(m, e, up);
      Success(if up then ["l 0,-3 -8,0 0,-4, 8,0 0,-3"] + se else se + ["l 0,3 -8,0 0,4, 8,0 0,3"])
    case Pair(a, b) =>
      if up then
        var sb :- StepsAsWritten(m, b, up);
        var sa :- StepsAsWritten(m, a, up);
        Success(["l 0,-3 -12,0 0,-3 12,0"] + sb + ["l -5,-3 5,-3"] + sa + ["l -12,0 0,-3 12,0 0,-3"])
      else
        var sa :- StepsAsWritten(m, a, up);
        var sb :- StepsAsWritten(m, b, up);
        Success(["l 0,3 -12,0 0,3 12,0"] + sa + ["l -5,3 5,3"] + sb + ["l -12,0 0,3 12,0 0,3"])
    case Fun(a, b) =>
      if up then
        var sb :- StepsAsWritten(m, b, up);
        var sa :- StepsAsWritten(m, a, up);
        Success(["l 0,-3 -12,0 0,-3 12,0"] + sb + ["l 5,-3 -5,-3"] + sa + ["l -12,0 0,-3 12,0 0,-3"])
      else
        var sa :- StepsAsWritten(m, a, up);
        var sb :- StepsAsWritten(m, b, up);
        Success(["l 0,3 -12,0 0,3 12,0"] + sa + ["l 5,3 -5,3"] + sb + ["l -12,0 0,3 12,0 0,3"])
    case _ =>
      if up && !OwnShape(t) then Failure(UndefinedSteps) else Success(Steps(m, t, up))
  }

  /** The source's drawing agrees with `Steps` except that drawing upwards
      fails exactly when a plain tab is reached. */
  lemma {:induction false} StepsAsWrittenSpec(m: Metrics, t: Type, up: bool)
    ensures StepsAsWritten(m, t, up) ==
      if up && HasTab(t) then Failure(UndefinedSteps) else Success(Steps(m, t, up))
  {
    match t
    case List(e) => StepsAsWrittenSpec(m, e, up);
    case Pair(a, b) =>
      StepsAsWrittenSpec(m, a, up);
      StepsAsWrittenSpec(m, b, up);
    case Fun(a, b) =>
      StepsAsWrittenSpec(m, a, up);
      StepsAsWrittenSpec(m, b, up);
    case _ =>
  }

  /** A string type, drawn upwards, stops the source; the corrected drawing
      gives the tab's upward step. */
  lemma StringUpFails(m: Metrics)
    ensures StepsAsWritten(m, Str, true) == Failure(UndefinedSteps)
    ensures StepsAsWritten(m, Str, false) == Success([TabDown(m)])
    ensures Steps(m, Str, true) == [TabUp(m)]
  {
  }

  /** In `[x] + s + [y] + u + [z]`, `s` follows the head. */
  lemma SliceAfterHead(x: string, s: seq<string>, y: string, u: seq<string>, z: string)
    ensures ([x] + s + [y] + u + [z])[1..1 + |s|] == s
  {
    var w := [x] + s + [y] + u + [z];
    forall i | 0 <= i < |s| ensures w[1 + i] == s[i] {
      assert w == [x] + (s + ([y] + u + [z]));
    }
  }

  /** Drawing a pair down starts with the first child; drawing it up
      starts with the second. */
  lemma PairStepsOrder(m: Metrics, a: Type, b: Type)
    ensures Steps(m, Pair(a, b), false)[1..1 + StepCount(a)] == Steps(m, a, false)
    ensures Steps(m, Pair(a, b), true)[1..1 + StepCount(b)] == Steps(m, b, true)
  {
    SliceAfterHead("l 0,3 -12,0 0,3 12,0", Steps(m, a, false), "l -5,3 5,3", Steps(m, b, false), "l -12,0 0,3 12,0 0,3");
    SliceAfterHead("l 0,-3 -12,0 0,-3 12,0", Steps(m, b, true), "l -5,-3 5,-3", Steps(m, a, true), "l -12,0 0,-3 12,0 0,-3");
  }

  /** Drawing a function type down starts with the argument; drawing it up
      starts with the result. */
  lemma FunStepsOrder(m: Metrics, a: Type, b: Type)
    ensures Steps(m, Fun(a, b), false)[1..1 + StepCount(a)] == Steps(m, a, false)
    ensures Steps(m, Fun(a, b), true)[1..1 + StepCount(b)] == Steps(m, b, true)
  {
    SliceAfterHead("l 0,3 -12,0 0,3 12,0", Steps(m, a, false), "l 5,3 -5,3", Steps(m, b, false), "l -12,0 0,3 12,0 0,3");
    SliceAfterHead("l 0,-3 -12,0 0,-3 12,0", Steps(m, b, true), "l 5,-3 -5,-3", Steps(m, a, true), "l -12,0 0,-3 12,0 0,-3");
  }

  /** `steps.join(' ')`. */
  function Join(ws: seq<string>, sep: string): string {
    if |ws| == 0 then "" else if |ws| == 1 then ws[0] else ws[0] + sep + Join(ws[1..], sep)
  }

  /** Joining one more word adds the separator and the word. */
  lemma {:induction false} JoinSnoc(ws: seq<string>, w: string, sep: string)
    requires |ws| > 0
    ensures Join(ws + [w], sep) == Join(ws, sep) + sep + w
  {
    if |ws| > 1 {
      JoinSnoc(ws[1..], w, sep);
      assert (ws + [w])[1..] == ws[1..] + [w];
    }
  }

  /** `getPath(updown)` of an expression on a store, drawn as the source
      draws it: `updown` must be 'up' or 'down', and drawing a plain tab
      upwards stops with the reference error. */
  function GetPath(s: Store, m: Metrics, t: Type, updown: string): (r: Result<string, RenderError>)
    ensures r == Failure(BadDirection) <==> updown != "up" && updown != "down"
    ensures r == Failure(UndefinedSteps) <==> updown == "up" && HasTab(DeepDeref(s, t))
  {
    if updown != "up" && updown != "down" then Failure(BadDirection)
    else
      StepsAsWrittenSpec(m, DeepDeref(s, t), updown == "up");
      var steps :- StepsAsWritten(m, DeepDeref(s, t), updown == "up");
      Success(Join(steps, " "))
  }

  /** Whenever `getPath` succeeds it joins the corrected steps, one word
      per step; drawing down always succeeds. */
  lemma GetPathJoinsSteps(s: Store, m: Metrics, t: Type, updown: string)
    ensures updown == "down" ==> GetPath(s, m, t, updown).Success?
    ensures GetPath(s, m, t, updown).Success? ==>
      var steps := Steps(m, DeepDeref(s, t), updown == "up");
      |steps| == StepCount(DeepDeref(s, t)) && GetPath(s, m, t, updown).value == Join(steps, " ")
  {
    StepsAsWrittenSpec(m, DeepDeref(s, t), updown == "up");
  }
}

=== FILE: scopes.dfy ===
/** Scope rules of the binding blocks (`getVisibleVariables` of
    `lambda_typed`, `let_typed` and `match_typed` in blocks/typed_blocks.js):
    which names a block declares to the block plugged into a given
    connection.  A name maps to the field that declares it. */
module Scopes {
  import opened Wrappers

  /** The field a name comes from: the block's VAR field, or its ARGi
      field. */
  datatype Binder = VarField | ArgField(index: nat)

  /** The connection asked about, relative to a `lambda_typed` block. */
  datatype LambdaConn = LambdaNone | LambdaReturn | LambdaOther

  /** The connection asked about, relative to a `let_typed` block: none,
      its EXP1 or EXP2 input, its next connection, or any other. */
  datatype LetConn = LetNone | LetExp1 | LetExp2 | LetNext | LetOther

  /** The connection asked about, relative to a `match_typed` block. */
  datatype MatchConn = MatchNone | MatchOutput(index: nat) | MatchOther

  /** A statement `let` has no EXP2 input, so asking about a connection
      that is neither EXP1 nor next reads a field of a missing input. */
  datatype ScopeError = MissingInput

  /** `lambda_typed`: the argument is visible in RETURN only. */
  function LambdaVisible(name: string, conn: LambdaConn): (m: map<string, Binder>)
    ensures name in m <==> conn == LambdaReturn
    ensures m.Keys <= {name} && (name in m ==> m[name] == VarField)
  {
    if conn == LambdaReturn then map[name := VarField] else map[]
  }

  /** The names ARGi.. written into `m`, one after the other, so that a
      later argument wins over an earlier one of the same name. */
  function ArgBinders(m: map<string, Binder>, args: seq<string>, i: nat): (r: map<string, Binder>)
    requires i <= |args|
    ensures m.Keys <= r.Keys
    ensures forall j :: i <= j < |args| ==> args[j] in r
    decreases |args| - i
  {
    if i == |args| then m else ArgBinders(m[args[i] := ArgField(i)], args, i + 1)
  }

  /** The VAR field is visible from `conn`. */
  predicate VarVisible(isStatement: bool, isRec: bool, conn: LetConn) {
    (isStatement && conn == LetNext) || (!isStatement && conn == LetExp2) || (conn == LetExp1 && isRec)
  }

  /** `let_typed.getVisibleVariables`. */
  function LetVisible(isStatement: bool, isRec: bool, name: string, args: seq<string>, conn: LetConn): (r: Result<map<string, Binder>, ScopeError>)
    ensures r.Failure? <==> isStatement && (conn == LetExp2 || conn == LetOther)
    ensures r.Success? && conn != LetExp1 ==>
      r.value.Keys <= {name} && (name in r.value <==> VarVisible(isStatement, isRec, conn))
  {
    if conn == LetNone then Success(map[])
    else
      var isExp1 := conn == LetExp1;
      var isNext := !isExp1 && isStatement && conn == LetNext;
      if !isExp1 && !isNext && isStatement then Failure(MissingInput)
      else
        var isExp2 := !isExp1 && !isNext && conn == LetExp2;
        var m := if isNext || isExp2 || (isExp1 && isRec) then map[name := VarField] else map[];
        Success(if isExp1 then ArgBinders(m, args, 0) else m)
  }

  /** The last position of `k` in `args`. */
  predicate IsLastIndex(args: seq<string>, j: nat, k: string) {
    j < |args| && args[j] == k && forall l :: j < l < |args| ==> args[l] != k
  }

  /** Writing the arguments from `i` on adds exactly their names. */
  lemma {:induction false} ArgBindersKeys(m: map<string, Binder>, args: seq<string>, i: nat)
    requires i <= |args|
    ensures ArgBinders(m, args, i).Keys == m.Keys + (set j | i <= j < |args| :: args[j])
    decreases |args| - i
  {
    if i < |args| {
      ArgBindersKeys(m[args[i] := ArgField(i)], args, i + 1);
      assert (set j | i <= j < |args| :: args[j]) == {args[i]} + (set j | i + 1 <= j < |args| :: args[j]);
    }
  }

  /** A name no argument from `i` on carries keeps its entry. */
  lemma {:induction false} ArgBindersOther(m: map<string, Binder>, args: seq<string>, i: nat, k: string)
    requires i <= |args| && k in m
    requires forall j :: i <= j < |args| ==> args[j] != k
    ensures k in ArgBinders(m, args, i) && ArgBinders(m, args, i)[k] == m[k]
    decreases |args| - i
  {
    if i < |args| {
      ArgBindersOther(m[args[i] := ArgField(i)], args, i + 1, k);
    }
  }

  /** Each argument name is bound to its last position. */
  lemma {:induction false} ArgBindersLast(m: map<string, Binder>, args: seq<string>, i: nat, j: nat)
    requires i <= j < |args|
    ensures args[j] in ArgBinders(m, args, i)
    ensures var b := ArgBinders(m, args, i)[args[j]];
      b.ArgField? && j <= b.index && IsLastIndex(args, b.index, args[j])
    decreases |args| - i
  {
    var m' := m[args[i] := ArgField(i)];
    if j > i {
      ArgBindersLast(m', args, i + 1, j);
    } else if l :| i < l < |args| && args[l] == args[i] {
      ArgBindersLast(m', args, i + 1, l);
    } else {
      ArgBindersOther(m', args, i + 1, args[i]);
    }
  }

  /** Let scoping: nothing is visible without a connection; a statement
      fails for any connection other than EXP1 and next; otherwise the
      bound name is visible in EXP2 or next, and in EXP1 only when the block
      is recursive, and the arguments are visible exactly in EXP1, the last
      of equal names winning. */
  lemma LetScope(isStatement: bool, isRec: bool, name: string, args: seq<string>, conn: LetConn)
    ensures conn == LetNone ==> LetVisible(isStatement, isRec, name, args, conn) == Success(map[])
    ensures LetVisible(isStatement, isRec, name, args, conn).Failure? <==>
      isStatement && conn !in {LetNone, LetExp1, LetNext}
    ensures LetVisible(isStatement, isRec, name, args, conn).Success? ==>
      var m := LetVisible(isStatement, isRec, name, args, conn).value;
      m.Keys == (if VarVisible(isStatement, isRec, conn) then {name} else {}) +
                (if conn == LetExp1 then (set j | 0 <= j < |args| :: args[j]) else {}) &&
      (VarVisible(isStatement, isRec, conn) && (conn != LetExp1 || name !in args) ==> m[name] == VarField) &&
      (forall j :: 0 <= j < |args| && conn == LetExp1 ==>
         m[args[j]].ArgField? && IsLastIndex(args, m[args[j]].index, args[j]))
  {
    if conn == LetExp1 {
      var m := if isRec then map[name := VarField] else map[];
      ArgBindersKeys(m, args, 0);
      forall j | 0 <= j < |args|
        ensures var b := ArgBinders(m, args, 0)[args[j]]; b.ArgField? && IsLastIndex(args, b.index, args[j])
      {
        ArgBindersLast(m, args, 0, j);
      }
      if isRec && forall j :: 0 <= j < |args| ==> args[j] != name {
        ArgBindersOther(m, args, 0, name);
      }
    }
  }

  /** `match_typed.getVisibleVariables`.  `patterns[i]` is the block in
      PATTERNi, if any, with the names its `updateUpperContext` declares
      (`None` when it has no such method).  `None` stands for the
      `undefined` the source returns when OUTPUTi has no pattern or the
      connection is no OUTPUTi. */
  function MatchVisible(patterns: seq<Option<Option<map<string, nat>>>>, conn: MatchConn): (r: Option<map<string, nat>>)
    ensures r.Some? <==>
      (conn == MatchNone || (conn.MatchOutput? && conn.index < |patterns| && patterns[conn.index].Some?))
    ensures conn == MatchNone ==> r == Some(map[])
    ensures r.Some? && conn.MatchOutput? ==> r.value == patterns[conn.index].value.GetOr(map[])
  {
    if conn == MatchNone then Some(map[])
    else if conn.MatchOutput? && conn.index < |patterns| && patterns[conn.index].Some? then
      Some(patterns[conn.index].value.GetOr(map[]))
    else None
  }
}

=== FILE: type_expr.dfy ===
/** Type expressions of the typed blocks (core/type_expr.js) and the
    operations that read or rewrite them one binding at a time.

    A `TVAR` object of the source is a mutable cell `{name, val}`; the model
    keeps every cell's `val` in a `Store` keyed by the variable's name (names
    come from a counter and are unique).  A `CONSTRUCT` object carries a
    mutable `id`; the model gives each CONSTRUCT object a cell number and
    keeps the ids in the same store.  Operations that follow `val` links carry
    the set of variables already passed, so that they are total even on a
    store whose links form a cycle (where the source would loop forever). */
module TypeExpr {
  import opened Wrappers

  /** The variants of `Blockly.TypeExpr`.  `Str` is the STRING type that the
      typed blocks use. */
  datatype Type =
    | Int
    | Float
    | Bool
    | Str
    | List(elem: Type)
    | Pair(first: Type, second: Type)
    | Fun(arg: Type, ret: Type)
    | Construct(cell: nat)
    | TypeCtor
    | Pattern(pattExpr: Type)
    | TVar(name: string)

  /** The mutable part of all type expressions: `val` of every bound type
      variable and `id` of every CONSTRUCT cell that has one. */
  datatype Store = Store(vars: map<string, Type>, ids: map<nat, string>)

  const EmptyStore := Store(map[], map[])

  /** A CONSTRUCT id counts only when it is a non-empty string (the source
      tests it for truthiness). */
  predicate Known(s: Store, c: nat) {
    c in s.ids && s.ids[c] != ""
  }

  predicate IsPrimitive(t: Type) {
    t.Int? || t.Float? || t.Bool?
  }

  /** The two expressions carry the same label. */
  predicate SameLabel(a: Type, b: Type) {
    (a.Int? && b.Int?) || (a.Float? && b.Float?) || (a.Bool? && b.Bool?) ||
    (a.Str? && b.Str?) || (a.List? && b.List?) || (a.Pair? && b.Pair?) ||
    (a.Fun? && b.Fun?) || (a.Construct? && b.Construct?) ||
    (a.TypeCtor? && b.TypeCtor?) || (a.Pattern? && b.Pattern?) ||
    (a.TVar? && b.TVar?)
  }

  /** Every type-variable name written anywhere in `t`, patterns included. */
  function Vars(t: Type): set<string> {
    match t
    case TVar(n) => {n}
    case List(e) => Vars(e)
    case Pair(a, b) => Vars(a) + Vars(b)
    case Fun(a, b) => Vars(a) + Vars(b)
    case Pattern(p) => Vars(p)
    case _ => {}
  }

  /** No type constructor and no CONSTRUCT cell occurs in `t`. */
  predicate Plain(t: Type) {
    match t
    case TypeCtor => false
    case Construct(_) => false
    case List(e) => Plain(e)
    case Pair(a, b) => Plain(a) && Plain(b)
    case Fun(a, b) => Plain(a) && Plain(b)
    case Pattern(p) => Plain(p)
    case _ => true
  }

  /** `deref` from the variables not yet passed. */
  function DerefFrom(s: Store, t: Type, vis: set<string>): (r: Type)
    ensures !t.TVar? ==> r == t
    ensures t.TVar? && t.name !in s.vars ==> r == t
    ensures r != t ==> t.TVar? && t.name in s.vars
    decreases s.vars.Keys - vis
  {
    if t.TVar? && t.name in s.vars && t.name !in vis then
      DerefFrom(s, s.vars[t.name], vis + {t.name})
    else
      t
  }

  /** `deref`: follow `val` links while the expression is a bound type
      variable. */
  function Deref(s: Store, t: Type): Type {
    DerefFrom(s, t, {})
  }

  /** `deepDeref` from the variables not yet passed: rebuilds LIST, PAIR and
      FUN with dereferenced children and replaces a bound variable by its
      value; every other expression (PATTERN and TYPE_CONSTRUCTOR included)
      is returned as it is. */
  function DeepDerefFrom(s: Store, t: Type, vis: set<string>): (r: Type)
    ensures t.List? ==> r.List?
    ensures t.Pair? ==> r.Pair?
    ensures t.Fun? ==> r.Fun?
    ensures !t.TVar? && !t.List? && !t.Pair? && !t.Fun? ==> r == t
    decreases s.vars.Keys - vis, t
  {
    match t
    case TVar(n) =>
      if n in s.vars && n !in vis then DeepDerefFrom(s, s.vars[n], vis + {n}) else t
    case List(e) => List(DeepDerefFrom(s, e, vis))
    case Pair(a, b) => Pair(DeepDerefFrom(s, a, vis), DeepDerefFrom(s, b, vis))
    case Fun(a, b) => Fun(DeepDerefFrom(s, a, vis), DeepDerefFrom(s, b, vis))
    // The source copies a CONSTRUCT with the same id and returns every
    // other expression itself; types here are values, so a copy equals the
    // original and object identity is not observable in this model.
    case _ => t
  }

  function DeepDeref(s: Store, t: Type): Type {
    DeepDerefFrom(s, t, {})
  }

  /** No bound type variable occurs in `t` outside PATTERN and
      TYPE_CONSTRUCTOR expressions (the parts `deepDeref` walks). */
  predicate NoBoundVar(s: Store, t: Type) {
    match t
    case TVar(n) => n !in s.vars
    case List(e) => NoBoundVar(s, e)
    case Pair(a, b) => NoBoundVar(s, a) && NoBoundVar(s, b)
    case Fun(a, b) => NoBoundVar(s, a) && NoBoundVar(s, b)
    case _ => true
  }

  /** `clear`: a type variable forgets its value; nothing else changes. */
  function Clear(s: Store, t: Type): (r: Store)
    ensures t.TVar? ==> t.name !in r.vars
    ensures forall n :: (!t.TVar? || n != t.name) ==>
      (n in r.vars <==> n in s.vars) && (n in r.vars ==> r.vars[n] == s.vars[n])
    ensures r.ids == s.ids
  {
    if t.TVar? then s.(vars := s.vars - {t.name}) else s
  }

  /** One half of `disconnect`: walk the `val` chain from `t` and cut the
      first link that points at the variable `child`. */
  function DisconnectFrom(s: Store, t: Type, child: string, vis: set<string>): (r: Store)
    ensures r.ids == s.ids
    ensures r.vars.Keys <= s.vars.Keys
    ensures forall n :: n in r.vars ==> r.vars[n] == s.vars[n]
    ensures forall n :: n in s.vars && n !in r.vars ==> s.vars[n] == TVar(child)
    ensures |s.vars.Keys - r.vars.Keys| <= 1
    decreases s.vars.Keys - vis
  {
    if t.TVar? && t.name in s.vars && t.name !in vis then
      if s.vars[t.name] == TVar(child) then
        s.(vars := s.vars - {t.name})
      else
        DisconnectFrom(s, s.vars[t.name], child, vis + {t.name})
    else
      s
  }

  /** `disconnectImpl(upstream, child)`: only a type-variable child is cut
      off. */
  function DisconnectImpl(s: Store, upstream: Type, child: Type): Store {
    if child.TVar? then DisconnectFrom(s, upstream, child.name, {}) else s
  }

  /** `disconnect`: cut the link between two expressions in both
      directions. */
  function Disconnect(s: Store, a: Type, b: Type): (r: Store)
    ensures r.ids == s.ids
    ensures r.vars.Keys <= s.vars.Keys
    ensures forall n :: n in r.vars ==> r.vars[n] == s.vars[n]
    ensures forall n :: n in s.vars && n !in r.vars ==> s.vars[n] == a || s.vars[n] == b
  {
    DisconnectImpl(DisconnectImpl(s, a, b), b, a)
  }

  /** `TypeExpr.equals`: structural comparison WITHOUT dereferencing;
      CONSTRUCTs are equal only with equal known ids, and a type
      constructor equals nothing. */
  function Equals(s: Store, a: Type, b: Type): (r: bool)
    ensures r ==> SameLabel(a, b) && !a.TypeCtor?
    ensures r && a.Construct? ==> Known(s, a.cell) && Known(s, b.cell) && s.ids[a.cell] == s.ids[b.cell]
  {
    if !SameLabel(a, b) then false
    else
      match a
      case Int => true
      case Float => true
      case Bool => true
      case Str => true
      case Construct(c) => Known(s, c) && Known(s, b.cell) && s.ids[c] == s.ids[b.cell]
      case TypeCtor => false
      case Pattern(p) => Equals(s, p, b.pattExpr)
      case TVar(n) => n == b.name
      case List(e) => Equals(s, e, b.elem)
      case Pair(x, y) => Equals(s, x, b.first) && Equals(s, y, b.second)
      case Fun(x, y) => Equals(s, x, b.arg) && Equals(s, y, b.ret)
  }

  /** `createFunType`: the right-nested function type `t0 -> t1 -> ... -> tn`
      of at least two types. */
  function CreateFunType(types: seq<Type>): (r: Type)
    requires |types| >= 2
    ensures r.Fun? && r.arg == types[0]
    decreases |types|
  {
    if |types| == 2 then Fun(types[0], types[1])
    else Fun(types[0], CreateFunType(types[1..]))
  }

  /** The spine of a function type: its arguments and then its final,
      dereferenced result. */
  function SpineFrom(s: Store, t: Type, vis: set<string>): (r: seq<Type>)
    ensures |r| >= 1
    decreases s.vars.Keys - vis, t
  {
    match t
    case TVar(n) =>
      if n in s.vars && n !in vis then SpineFrom(s, s.vars[n], vis + {n}) else [t]
    case Fun(a, b) => [a] + SpineFrom(s, b, vis)
    case _ => [t]
  }

  /** `functionToArray`: `[]` for a non-function, otherwise the arguments
      followed by the final result. */
  function FunctionToArray(s: Store, t: Type): (r: seq<Type>)
    ensures r == [] <==> !Deref(s, t).Fun?
    ensures r != [] ==> |r| >= 2
  {
    if Deref(s, t).Fun? then
      SpineFunLength(s, t, {});
      SpineFrom(s, t, {})
    else []
  }

  /** The spine of an expression that dereferences to a function has at least
      two entries. */
  lemma {:induction false} SpineFunLength(s: Store, t: Type, vis: set<string>)
    requires DerefFrom(s, t, vis).Fun?
    ensures |SpineFrom(s, t, vis)| >= 2
    decreases s.vars.Keys - vis
  {
    if t.TVar? && t.name in s.vars && t.name !in vis {
      SpineFunLength(s, s.vars[t.name], vis + {t.name});
    }
  }

  /** The spine of an expression that does not dereference to a function is
      that dereferenced expression alone. */
  lemma {:induction false} SpineLast(s: Store, t: Type, vis: set<string>)
    requires !DerefFrom(s, t, vis).Fun?
    ensures SpineFrom(s, t, vis) == [DerefFrom(s, t, vis)]
    decreases s.vars.Keys - vis
  {
    if t.TVar? && t.name in s.vars && t.name !in vis {
      SpineLast(s, s.vars[t.name], vis + {t.name});
    }
  }

  /** `functionToArray` inverts `createFunType` when the last type does not
      dereference to a function: it gives back the arguments and the
      dereferenced result. */
  lemma {:induction false} FunctionToArrayCreate(s: Store, types: seq<Type>)
    requires |types| >= 2 && !Deref(s, types[|types| - 1]).Fun?
    ensures FunctionToArray(s, CreateFunType(types)) ==
      types[..|types| - 1] + [Deref(s, types[|types| - 1])]
    decreases |types|
  {
    SpineCreate(s, types);
  }

  lemma {:induction false} SpineCreate(s: Store, types: seq<Type>)
    requires |types| >= 2 && !Deref(s, types[|types| - 1]).Fun?
    ensures SpineFrom(s, CreateFunType(types), {}) ==
      types[..|types| - 1] + [Deref(s, types[|types| - 1])]
    decreases |types|
  {
    var last := types[|types| - 1];
    if |types| == 2 {
      SpineLast(s, last, {});
    } else {
      SpineCreate(s, types[1..]);
      assert types[1..][..|types| - 2] == types[1..|types| - 1];
      assert types[..|types| - 1] == [types[0]] + types[1..|types| - 1];
    }
  }

  /** One more argument in front of a function type of at least two. */
  lemma CreateFunTypeStep(types: seq<Type>, i: nat)
    requires i + 3 <= |types|
    ensures CreateFunType(types[i..]) == Fun(types[i], CreateFunType(types[i + 1..]))
  {
    assert types[i..][1..] == types[i + 1..];
  }

  /** `createFunType` as the source writes it: a loop from the end. */
  method CreateFunTypeLoop(types: seq<Type>) returns (result: Type)
    requires |types| >= 2
    ensures result == CreateFunType(types)
  {
    var k := |types| - 2;
    result := Fun(types[k], types[k + 1]);
    while k > 0
      invariant 0 <= k <= |types| - 2
      invariant result == CreateFunType(types[k..])
      decreases k
    {
      k := k - 1;
      CreateFunTypeStep(types, k);
      result := Fun(types[k], result);
    }
    assert types[0..] == types;
  }
}

=== FILE: type_subst.dfy ===
/** What a store of bindings means: the full substitution it stands for.

    A store is acyclic when a rank map orders every binding (`Ranked`): each
    variable a bound value mentions ranks strictly below the bound variable.
    On such a store the visited set carried by the functions of `TypeExpr`
    never cuts a chain short, so each of them agrees with the plain recursive
    definition; the lemmas below prove this once per function. */
module TypeSubst {
  import opened TypeExpr

  /** A rank for every bound variable and every variable its value mentions,
      strictly decreasing along each binding. */
  ghost predicate Ranked(s: Store, r: map<string, nat>) {
    forall n :: n in s.vars ==>
      n in r && forall m :: m in Vars(s.vars[n]) ==> m in r && r[m] < r[n]
  }

  /** The bindings of the store form no cycle. */
  ghost predicate Acyclic(s: Store) {
    exists r :: Ranked(s, r)
  }

  function Rank(r: map<string, nat>, n: string): nat {
    if n in r then r[n] else 0
  }

  function Max(a: nat, b: nat): nat {
    if a < b then b else a
  }

  /** One more than the highest rank of a variable written in `t`, or 0. */
  function Height(r: map<string, nat>, t: Type): nat {
    match t
    case TVar(n) => Rank(r, n) + 1
    case List(e) => Height(r, e)
    case Pair(a, b) => Max(Height(r, a), Height(r, b))
    case Fun(a, b) => Max(Height(r, a), Height(r, b))
    case Pattern(p) => Height(r, p)
    case _ => 0
  }

  lemma HeightAbove(r: map<string, nat>, t: Type, m: string)
    requires m in Vars(t)
    ensures Rank(r, m) < Height(r, t)
  {
  }

  lemma HeightBelow(r: map<string, nat>, t: Type, k: nat)
    requires forall m :: m in Vars(t) ==> Rank(r, m) < k
    ensures Height(r, t) <= k
  {
  }

  /** A bound value is lower than its variable. */
  lemma BoundHeight(s: Store, r: map<string, nat>, n: string)
    requires Ranked(s, r) && n in s.vars
    ensures Height(r, s.vars[n]) <= Rank(r, n)
  {
    HeightBelow(r, s.vars[n], r[n]);
  }

  /** Every variable already passed ranks at least as high as anything `t`
      can reach, so none of them is met again. */
  ghost predicate Below(r: map<string, nat>, vis: set<string>, t: Type) {
    forall m :: m in vis ==> Height(r, t) <= Rank(r, m)
  }

  /** Following the binding of `n` keeps the walk below the visited set. */
  lemma BelowStep(s: Store, r: map<string, nat>, vis: set<string>, n: string)
    requires Ranked(s, r) && n in s.vars && Below(r, vis, TVar(n))
    ensures n !in vis
    ensures Below(r, vis + {n}, s.vars[n]) && Below(r, {n}, s.vars[n])
  {
    BoundHeight(s, r, n);
  }

  /** The full substitution: every bound variable, inside patterns too, is
      replaced by its resolved value. */
  function ResolveFrom(s: Store, t: Type, vis: set<string>): (u: Type)
    ensures t.List? ==> u.List?
    ensures t.Pair? ==> u.Pair?
    ensures t.Fun? ==> u.Fun?
    ensures t.Pattern? ==> u.Pattern?
    decreases s.vars.Keys - vis, t
  {
    match t
    case TVar(n) =>
      if n in s.vars && n !in vis then ResolveFrom(s, s.vars[n], vis + {n}) else t
    case List(e) => List(ResolveFrom(s, e, vis))
    case Pair(a, b) => Pair(ResolveFrom(s, a, vis), ResolveFrom(s, b, vis))
    case Fun(a, b) => Fun(ResolveFrom(s, a, vis), ResolveFrom(s, b, vis))
    case Pattern(p) => Pattern(ResolveFrom(s, p, vis))
    case _ => t
  }

  function Resolve(s: Store, t: Type): Type {
    ResolveFrom(s, t, {})
  }

  /** The store only grows: bindings stay, and a known CONSTRUCT id keeps its
      value. */
  ghost predicate Extends(s: Store, s': Store) {
    (forall n :: n in s.vars ==> n in s'.vars && s'.vars[n] == s.vars[n]) &&
    (forall c :: Known(s, c) ==> Known(s', c) && s'.ids[c] == s.ids[c])
  }

  lemma ExtendsRefl(s: Store)
    ensures Extends(s, s)
  {
  }

  lemma ExtendsTrans(s1: Store, s2: Store, s3: Store)
    requires Extends(s1, s2) && Extends(s2, s3)
    ensures Extends(s1, s3)
  {
  }

  /** Two resolved expressions denote the same type: equal structure, equal
      variable names, and CONSTRUCT cells that are the same cell or carry the
      same known id. */
  predicate Agree(s: Store, a: Type, b: Type) {
    if !SameLabel(a, b) then false
    else
      match a
      case List(e) => Agree(s, e, b.elem)
      case Pair(x, y) => Agree(s, x, b.first) && Agree(s, y, b.second)
      case Fun(x, y) => Agree(s, x, b.arg) && Agree(s, y, b.ret)
      case Pattern(p) => Agree(s, p, b.pattExpr)
      case Construct(c) =>
        c == b.cell || (Known(s, c) && Known(s, b.cell) && s.ids[c] == s.ids[b.cell])
      case TVar(n) => n == b.name
      case _ => true
  }

  /** `a` and `b` are made equal by the substitution of `s`. */
  ghost predicate Unified(s: Store, a: Type, b: Type) {
    Agree(s, Resolve(s, a), Resolve(s, b))
  }

  // ---------------------------------------------------------------------
  // The visited set is irrelevant on a ranked store.
  // ---------------------------------------------------------------------

  lemma {:induction false} DerefFromVis(s: Store, r: map<string, nat>, t: Type, vis: set<string>)
    requires Ranked(s, r) && Below(r, vis, t)
    ensures DerefFrom(s, t, vis) == Deref(s, t)
    decreases Height(r, t)
  {
    if t.TVar? && t.name in s.vars {
      BelowStep(s, r, vis, t.name);
      BoundHeight(s, r, t.name);
      assert {} + {t.name} == {t.name};
      DerefFromVis(s, r, s.vars[t.name], vis + {t.name});
      DerefFromVis(s, r, s.vars[t.name], {t.name});
    }
  }

  lemma {:induction false} DeepDerefFromVis(s: Store, r: map<string, nat>, t: Type, vis: set<string>)
    requires Ranked(s, r) && Below(r, vis, t)
    ensures DeepDerefFrom(s, t, vis) == DeepDeref(s, t)
    decreases Height(r, t), t
  {
    match t
    case TVar(n) =>
      if n in s.vars {
        BelowStep(s, r, vis, n);
        BoundHeight(s, r, n);
        assert {} + {n} == {n};
        DeepDerefFromVis(s, r, s.vars[n], vis + {n});
        DeepDerefFromVis(s, r, s.vars[n], {n});
      }
    case List(e) =>
      DeepDerefFromVis(s, r, e, vis);
    case Pair(a, b) =>
      DeepDerefFromVis(s, r, a, vis);
      DeepDerefFromVis(s, r, b, vis);
    case Fun(a, b) =>
      DeepDerefFromVis(s, r, a, vis);
      DeepDerefFromVis(s, r, b, vis);
    case _ =>
  }

  lemma {:induction false} ResolveFromVis(s: Store, r: map<string, nat>, t: Type, vis: set<string>)
    requires Ranked(s, r) && Below(r, vis, t)
    ensures ResolveFrom(s, t, vis) == Resolve(s, t)
    decreases Height(r, t), t
  {
    match t
    case TVar(n) =>
      if n in s.vars {
        BelowStep(s, r, vis, n);
        BoundHeight(s, r, n);
        assert {} + {n} == {n};
        ResolveFromVis(s, r, s.vars[n], vis + {n});
        ResolveFromVis(s, r, s.vars[n], {n});
      }
    case List(e) =>
      ResolveFromVis(s, r, e, vis);
    case Pair(a, b) =>
      ResolveFromVis(s, r, a, vis);
      ResolveFromVis(s, r, b, vis);
    case Fun(a, b) =>
      ResolveFromVis(s, r, a, vis);
      ResolveFromVis(s, r, b, vis);
    case Pattern(p) =>
      ResolveFromVis(s, r, p, vis);
    case _ =>
  }

  // ---------------------------------------------------------------------
  // deref and deepDeref
  // ---------------------------------------------------------------------

  /** `deref` of a bound variable is `deref` of its value. */
  lemma DerefUnfold(s: Store, r: map<string, nat>, n: string)
    requires Ranked(s, r) && n in s.vars
    ensures Deref(s, TVar(n)) == Deref(s, s.vars[n])
  {
    BelowStep(s, r, {}, n);
    assert {} + {n} == {n};
    DerefFromVis(s, r, s.vars[n], {n});
  }

  /** The result of `deref` is never a bound variable. */
  lemma {:induction false} DerefNotBound(s: Store, r: map<string, nat>, t: Type)
    requires Ranked(s, r)
    ensures var d := Deref(s, t); !(d.TVar? && d.name in s.vars)
    decreases Height(r, t)
  {
    if t.TVar? && t.name in s.vars {
      DerefUnfold(s, r, t.name);
      BoundHeight(s, r, t.name);
      DerefNotBound(s, r, s.vars[t.name]);
    }
  }

  /** `deref` does not change what an expression denotes, and a second
      `deref` changes nothing. */
  lemma {:induction false} DerefResolve(s: Store, r: map<string, nat>, t: Type)
    requires Ranked(s, r)
    ensures Resolve(s, Deref(s, t)) == Resolve(s, t)
    ensures Deref(s, Deref(s, t)) == Deref(s, t)
    decreases Height(r, t)
  {
    if t.TVar? && t.name in s.vars {
      DerefUnfold(s, r, t.name);
      ResolveUnfold(s, r, t.name);
      BoundHeight(s, r, t.name);
      DerefResolve(s, r, s.vars[t.name]);
    }
  }

  /** Once an expression dereferences to a function type, later bindings
      do not change what it dereferences to. */
  lemma {:induction false} DerefMono(s: Store, s': Store, r: map<string, nat>, r': map<string, nat>, t: Type)
    requires Ranked(s, r) && Ranked(s', r') && Extends(s, s')
    requires Deref(s, t).Fun?
    ensures Deref(s', t) == Deref(s, t)
    decreases Height(r, t)
  {
    if t.TVar? && t.name in s.vars {
      DerefUnfold(s, r, t.name);
      DerefUnfold(s', r', t.name);
      BoundHeight(s, r, t.name);
      DerefMono(s, s', r, r', s.vars[t.name]);
    }
  }

  /** `deepDeref` of a bound variable is `deepDeref` of its value. */
  lemma DeepDerefUnfold(s: Store, r: map<string, nat>, n: string)
    requires Ranked(s, r) && n in s.vars
    ensures DeepDeref(s, TVar(n)) == DeepDeref(s, s.vars[n])
  {
    BelowStep(s, r, {}, n);
    assert {} + {n} == {n};
    DeepDerefFromVis(s, r, s.vars[n], {n});
  }

  /** No bound variable is left in the walked part of a `deepDeref` result. */
  lemma {:induction false} DeepDerefNoBound(s: Store, r: map<string, nat>, t: Type)
    requires Ranked(s, r)
    ensures NoBoundVar(s, DeepDeref(s, t))
    decreases Height(r, t), t
  {
    match t
    case TVar(n) =>
      if n in s.vars {
        DeepDerefUnfold(s, r, n);
        BoundHeight(s, r, n);
        DeepDerefNoBound(s, r, s.vars[n]);
      }
    case List(e) =>
      DeepDerefNoBound(s, r, e);
    case Pair(a, b) =>
      DeepDerefNoBound(s, r, a);
      DeepDerefNoBound(s, r, b);
    case Fun(a, b) =>
      DeepDerefNoBound(s, r, a);
      DeepDerefNoBound(s, r, b);
    case _ =>
  }

  /** An expression with no bound variable in its walked part is its own
      `deepDeref`. */
  lemma {:induction false} DeepDerefFixed(s: Store, t: Type)
    requires NoBoundVar(s, t)
    ensures DeepDeref(s, t) == t
  {
    match t
    case List(e) =>
      DeepDerefFixed(s, e);
    case Pair(a, b) =>
      DeepDerefFixed(s, a);
      DeepDerefFixed(s, b);
    case Fun(a, b) =>
      DeepDerefFixed(s, a);
      DeepDerefFixed(s, b);
    case _ =>
  }

  /** `deepDeref` is idempotent. */
  lemma DeepDerefIdempotent(s: Store, r: map<string, nat>, t: Type)
    requires Ranked(s, r)
    ensures DeepDeref(s, DeepDeref(s, t)) == DeepDeref(s, t)
  {
    DeepDerefNoBound(s, r, t);
    DeepDerefFixed(s, DeepDeref(s, t));
  }

  /** `deepDeref` does not change what an expression denotes. */
  lemma {:induction false} DeepDerefResolve(s: Store, r: map<string, nat>, t: Type)
    requires Ranked(s, r)
    ensures Resolve(s, DeepDeref(s, t)) == Resolve(s, t)
    decreases Height(r, t), t
  {
    match t
    case TVar(n) =>
      if n in s.vars {
        DeepDerefUnfold(s, r, n);
        ResolveUnfold(s, r, n);
        BoundHeight(s, r, n);
        DeepDerefResolve(s, r, s.vars[n]);
      }
    case List(e) =>
      DeepDerefResolve(s, r, e);
    case Pair(a, b) =>
      DeepDerefResolve(s, r, a);
      DeepDerefResolve(s, r, b);
    case Fun(a, b) =>
      DeepDerefResolve(s, r, a);
      DeepDerefResolve(s, r, b);
    case _ =>
  }

  // ---------------------------------------------------------------------
  // The substitution
  // ---------------------------------------------------------------------

  /** A bound variable denotes what its value denotes. */
  lemma ResolveUnfold(s: Store, r: map<string, nat>, n: string)
    requires Ranked(s, r) && n in s.vars
    ensures Resolve(s, TVar(n)) == Resolve(s, s.vars[n])
  {
    BelowStep(s, r, {}, n);
    assert {} + {n} == {n};
    ResolveFromVis(s, r, s.vars[n], {n});
  }

  /** Resolving in a smaller store first and then in a larger one is the same
      as resolving in the larger one. */
  lemma {:induction false} ResolveCompose(s: Store, s': Store, r: map<string, nat>, r': map<string, nat>, t: Type)
    requires Ranked(s, r) && Ranked(s', r') && Extends(s, s')
    ensures Resolve(s', Resolve(s, t)) == Resolve(s', t)
    decreases Height(r, t), t
  {
    match t
    case TVar(n) =>
      if n in s.vars {
        ResolveUnfold(s, r, n);
        ResolveUnfold(s', r', n);
        BoundHeight(s, r, n);
        ResolveCompose(s, s', r, r', s.vars[n]);
      }
    case List(e) =>
      ResolveCompose(s, s', r, r', e);
    case Pair(a, b) =>
      ResolveCompose(s, s', r, r', a);
      ResolveCompose(s, s', r, r', b);
    case Fun(a, b) =>
      ResolveCompose(s, s', r, r', a);
      ResolveCompose(s, s', r, r', b);
    case Pattern(p) =>
      ResolveCompose(s, s', r, r', p);
    case _ =>
  }

  /** Resolving twice is resolving once. */
  lemma ResolveIdempotent(s: Store, r: map<string, nat>, t: Type)
    requires Ranked(s, r)
    ensures Resolve(s, Resolve(s, t)) == Resolve(s, t)
  {
    ResolveCompose(s, s, r, r, t);
  }

  // ---------------------------------------------------------------------
  // Agreement
  // ---------------------------------------------------------------------

  lemma AgreeRefl(s: Store, a: Type)
    ensures Agree(s, a, a)
  {
  }

  lemma AgreeSym(s: Store, a: Type, b: Type)
    requires Agree(s, a, b)
    ensures Agree(s, b, a)
  {
  }

  lemma {:induction false} AgreeTrans(s: Store, a: Type, b: Type, c: Type)
    requires Agree(s, a, b) && Agree(s, b, c)
    ensures Agree(s, a, c)
  {
    match a
    case List(e) => AgreeTrans(s, e, b.elem, c.elem);
    case Pair(x, y) =>
      AgreeTrans(s, x, b.first, c.first);
      AgreeTrans(s, y, b.second, c.second);
    case Fun(x, y) =>
      AgreeTrans(s, x, b.arg, c.arg);
      AgreeTrans(s, y, b.ret, c.ret);
    case Pattern(p) => AgreeTrans(s, p, b.pattExpr, c.pattExpr);
    case _ =>
  }

  /** Agreement survives a growing store. */
  lemma AgreeMono(s: Store, s': Store, a: Type, b: Type)
    requires Extends(s, s') && Agree(s, a, b)
    ensures Agree(s', a, b)
  {
  }

  /** Agreeing expressions still agree after substitution. */
  lemma {:induction false} AgreeResolve(s: Store, r: map<string, nat>, a: Type, b: Type)
    requires Ranked(s, r) && Agree(s, a, b)
    ensures Agree(s, Resolve(s, a), Resolve(s, b))
    decreases a
  {
    match a
    case TVar(n) => AgreeRefl(s, Resolve(s, a));
    case List(e) => AgreeResolve(s, r, e, b.elem);
    case Pair(x, y) =>
      AgreeResolve(s, r, x, b.first);
      AgreeResolve(s, r, y, b.second);
    case Fun(x, y) =>
      AgreeResolve(s, r, x, b.arg);
      AgreeResolve(s, r, y, b.ret);
    case Pattern(p) => AgreeResolve(s, r, p, b.pattExpr);
    case _ =>
  }

  lemma UnifiedRefl(s: Store, a: Type)
    ensures Unified(s, a, a)
  {
    AgreeRefl(s, Resolve(s, a));
  }

  lemma UnifiedSym(s: Store, a: Type, b: Type)
    requires Unified(s, a, b)
    ensures Unified(s, b, a)
  {
    AgreeSym(s, Resolve(s, a), Resolve(s, b));
  }

  lemma UnifiedTrans(s: Store, a: Type, b: Type, c: Type)
    requires Unified(s, a, b) && Unified(s, b, c)
    ensures Unified(s, a, c)
  {
    AgreeTrans(s, Resolve(s, a), Resolve(s, b), Resolve(s, c));
  }

  /** What a store has unified stays unified when the store grows
      acyclically. */
  lemma UnifiedMono(s: Store, s': Store, r: map<string, nat>, r': map<string, nat>, a: Type, b: Type)
    requires Ranked(s, r) && Ranked(s', r') && Extends(s, s') && Unified(s, a, b)
    ensures Unified(s', a, b)
  {
    AgreeMono(s, s', Resolve(s, a), Resolve(s, b));
    AgreeResolve(s', r', Resolve(s, a), Resolve(s, b));
    ResolveCompose(s, s', r, r', a);
    ResolveCompose(s, s', r, r', b);
  }

  /** Two expressions that are `equals` denote the same type in every
      store. */
  lemma {:induction false} EqualsAgree(s: Store, a: Type, b: Type)
    requires Equals(s, a, b)
    ensures Agree(s, a, b)
  {
    match a
    case List(e) => EqualsAgree(s, e, b.elem);
    case Pair(x, y) =>
      EqualsAgree(s, x, b.first);
      EqualsAgree(s, y, b.second);
    case Fun(x, y) =>
      EqualsAgree(s, x, b.arg);
      EqualsAgree(s, y, b.ret);
    case Pattern(p) => EqualsAgree(s, p, b.pattExpr);
    case _ =>
  }

  /** Two expressions that are `equals` are unified by every ranked store. */
  lemma EqualsUnified(s: Store, r: map<string, nat>, a: Type, b: Type)
    requires Ranked(s, r) && Equals(s, a, b)
    ensures Unified(s, a, b)
  {
    EqualsAgree(s, a, b);
    AgreeResolve(s, r, a, b);
  }
}

=== FILE: type_unify.dfy ===
/** Destructive unification with an occurs check (`TypeExpr.unify`,
    `TypeExpr.occur`, `TypeExpr.ableToUnify` of core/type_expr.js).

    The source keeps a stack of pairs and pops the last one pushed; for a
    pair of composites it pushes the children left to right, so the right
    children are unified first.  The model is the equivalent recursion.  The
    source terminates only on an acyclic store; the model takes a `fuel`
    bound and reports `OutOfFuel` when it runs out.  A failed `goog.asserts`
    is a `Failure`; the bindings made before the failure are not kept. */
module TypeUnify {
  import opened Wrappers
  import opened TypeExpr
  import opened TypeSubst

  datatype UnifyError =
    | TypeCtorOrPattern     // a type constructor or pattern against anything else
    | Occurrence            // the variable occurs in the other side
    | LabelMismatch         // different labels
    | ConstructMismatch     // two known constructor ids differ
    | UndefinedConstructor  // neither constructor id is known
    | OutOfFuel

  /** `occur` from the variables not yet passed: does the variable `v` appear
      in `t`, following bound variables?  The source walks `getChildren`,
      which a PATTERN does not override, so it never looks inside a pattern;
      `intoPatterns` selects that behaviour (false) or the corrected one. */
  function OccursFrom(s: Store, t: Type, v: string, vis: set<string>, intoPatterns: bool): (r: bool)
    ensures intoPatterns && v in Vars(t) ==> r
    decreases s.vars.Keys - vis, t
  {
    match t
    case TVar(n) =>
      n == v || (n in s.vars && n !in vis && OccursFrom(s, s.vars[n], v, vis + {n}, intoPatterns))
    case List(e) => OccursFrom(s, e, v, vis, intoPatterns)
    case Pair(a, b) => OccursFrom(s, a, v, vis, intoPatterns) || OccursFrom(s, b, v, vis, intoPatterns)
    case Fun(a, b) => OccursFrom(s, a, v, vis, intoPatterns) || OccursFrom(s, b, v, vis, intoPatterns)
    case Pattern(p) => intoPatterns && OccursFrom(s, p, v, vis, intoPatterns)
    case _ => false
  }

  /** The corrected occurs check: every variable written in `t`, under a
      pattern or not, occurs in it. */
  function Occurs(s: Store, t: Type, v: string): (r: bool)
    ensures v in Vars(t) ==> r
  {
    OccursFrom(s, t, v, {}, true)
  }

  /** `unify`, parameterised by the occurs check it uses. */
  function UnifyWith(s: Store, t1: Type, t2: Type, fuel: nat, intoPatterns: bool): (res: Result<Store, UnifyError>)
    ensures res.Success? ==> Extends(s, res.value)
    decreases fuel, 1
  {
    if fuel == 0 then Failure(OutOfFuel)
    else if t1.TypeCtor? && t2.TypeCtor? then Success(s)
    else if t1.Pattern? && t2.Pattern? then
      UnifyWith(s, t1.pattExpr, t2.pattExpr, fuel - 1, intoPatterns)
    else if t1.TypeCtor? || t2.TypeCtor? || t1.Pattern? || t2.Pattern? then
      Failure(TypeCtorOrPattern)
    else if t1.TVar? || t2.TVar? then
      if VarFirst(s, t1, t2) then UnifyVar(s, t1, t2, fuel, intoPatterns)
      else UnifyVar(s, t2, t1, fuel, intoPatterns)
    else if t1.Construct? && t2.Construct? then
      UnifyConstruct(s, t1.cell, t2.cell)
    else if !SameLabel(t1, t2) then Failure(LabelMismatch)
    else
      match t1
      case List(e) => UnifyWith(s, e, t2.elem, fuel - 1, intoPatterns)
      case Pair(a, b) =>
        var s1 :- UnifyWith(s, b, t2.second, fuel - 1, intoPatterns);
        UnifyWith(s1, a, t2.first, fuel - 1, intoPatterns)
      case Fun(a, b) =>
        var s1 :- UnifyWith(s, b, t2.ret, fuel - 1, intoPatterns);
        UnifyWith(s1, a, t2.arg, fuel - 1, intoPatterns)
      case _ => Success(s)
  }

  /** Which side of a pair with a variable plays the variable: the first
      one, unless both are variables and the first is unbound. */
  predicate VarFirst(s: Store, t1: Type, t2: Type) {
    if t1.TVar? && t2.TVar? then t1.name in s.vars else t1.TVar?
  }

  /** The variable case: a variable with the other side's name is already
      unified; a bound variable's value is unified instead; an unbound one is
      bound to the other side unless it occurs there. */
  function UnifyVar(s: Store, tvar: Type, othr: Type, fuel: nat, intoPatterns: bool): (res: Result<Store, UnifyError>)
    requires fuel > 0 && tvar.TVar?
    ensures res.Success? ==> Extends(s, res.value)
    decreases fuel, 0
  {
    if othr.TVar? && tvar.name == othr.name then Success(s)
    else if tvar.name in s.vars then UnifyWith(s, s.vars[tvar.name], othr, fuel - 1, intoPatterns)
    else if OccursFrom(s, othr, tvar.name, {}, intoPatterns) then Failure(Occurrence)
    else Success(s.(vars := s.vars[tvar.name := othr]))
  }

  /** Two CONSTRUCTs: known ids must be equal, a single known id is copied to
      the other cell, and two unknown ids are an error. */
  function UnifyConstruct(s: Store, c1: nat, c2: nat): (res: Result<Store, UnifyError>)
    ensures res.Success? ==> Extends(s, res.value) && res.value.vars == s.vars
    ensures res.Success? <==> (Known(s, c1) || Known(s, c2)) && (Known(s, c1) && Known(s, c2) ==> s.ids[c1] == s.ids[c2])
    ensures res.Success? ==> Known(res.value, c1) && Known(res.value, c2) && res.value.ids[c1] == res.value.ids[c2]
  {
    if Known(s, c1) && Known(s, c2) then
      if s.ids[c1] == s.ids[c2] then Success(s) else Failure(ConstructMismatch)
    else if Known(s, c2) then Success(s.(ids := s.ids[c1 := s.ids[c2]]))
    else if Known(s, c1) then Success(s.(ids := s.ids[c2 := s.ids[c1]]))
    else Failure(UndefinedConstructor)
  }

  /** `unify` with the source's occurs check, which skips patterns.  A
      success only adds bindings and constructor ids. */
  function UnifyAsWritten(s: Store, t1: Type, t2: Type, fuel: nat): (res: Result<Store, UnifyError>)
    ensures res.Success? ==> Extends(s, res.value)
  {
    UnifyWith(s, t1, t2, fuel, false)
  }

  /** `unify` with the occurs check looking inside patterns too.  A success
      only adds bindings and constructor ids. */
  function Unify(s: Store, t1: Type, t2: Type, fuel: nat): (res: Result<Store, UnifyError>)
    ensures res.Success? ==> Extends(s, res.value)
  {
    UnifyWith(s, t1, t2, fuel, true)
  }

  /** `ableToUnify`: whether the source's unification succeeds; the store is
      left as it is.  Whatever the corrected unification accepts, it
      accepts too. */
  function AbleToUnify(s: Store, t1: Type, t2: Type, fuel: nat): (r: bool)
    ensures Unify(s, t1, t2, fuel).Success? ==> r
  {
    AsWrittenAgrees(s, t1, t2, fuel);
    UnifyAsWritten(s, t1, t2, fuel).Success?
  }

  // ---------------------------------------------------------------------
  // The occurs check
  // ---------------------------------------------------------------------

  lemma {:induction false} OccursFromVis(s: Store, r: map<string, nat>, t: Type, v: string, vis: set<string>)
    requires Ranked(s, r) && Below(r, vis, t)
    ensures OccursFrom(s, t, v, vis, true) == Occurs(s, t, v)
    decreases Height(r, t), t
  {
    match t
    case TVar(n) =>
      if n in s.vars {
        BelowStep(s, r, vis, n);
        BoundHeight(s, r, n);
        assert {} + {n} == {n};
        OccursFromVis(s, r, s.vars[n], v, vis + {n});
        OccursFromVis(s, r, s.vars[n], v, {n});
      }
    case List(e) =>
      OccursFromVis(s, r, e, v, vis);
    case Pair(a, b) =>
      OccursFromVis(s, r, a, v, vis);
      OccursFromVis(s, r, b, v, vis);
    case Fun(a, b) =>
      OccursFromVis(s, r, a, v, vis);
      OccursFromVis(s, r, b, v, vis);
    case Pattern(p) =>
      OccursFromVis(s, r, p, v, vis);
    case _ =>
  }

  /** The occurs check of an unbound variable agrees with the substitution:
      `v` occurs in `t` exactly when it is written in the resolved `t`. */
  lemma {:induction false} OccursResolve(s: Store, r: map<string, nat>, t: Type, v: string)
    requires Ranked(s, r) && v !in s.vars
    ensures Occurs(s, t, v) <==> v in Vars(Resolve(s, t))
    decreases Height(r, t), t
  {
    match t
    case TVar(n) =>
      if n in s.vars {
        BelowStep(s, r, {}, n);
        BoundHeight(s, r, n);
        assert {} + {n} == {n};
        OccursFromVis(s, r, s.vars[n], v, {n});
        ResolveUnfold(s, r, n);
        OccursResolve(s, r, s.vars[n], v);
      }
    case List(e) =>
      OccursResolve(s, r, e, v);
    case Pair(a, b) =>
      OccursResolve(s, r, a, v);
      OccursResolve(s, r, b, v);
    case Fun(a, b) =>
      OccursResolve(s, r, a, v);
      OccursResolve(s, r, b, v);
    case Pattern(p) =>
      OccursResolve(s, r, p, v);
    case _ =>
  }

  /** A variable of `t` that reaches `v` makes `v` occur in `t`. */
  lemma {:induction false} OccursVars(s: Store, t: Type, m: string, v: string)
    requires m in Vars(t) && Occurs(s, TVar(m), v)
    ensures Occurs(s, t, v)
  {
    match t
    case TVar(n) =>
    case List(e) => OccursVars(s, e, m, v);
    case Pair(a, b) =>
      if m in Vars(a) { OccursVars(s, a, m, v); } else { OccursVars(s, b, m, v); }
    case Fun(a, b) =>
      if m in Vars(a) { OccursVars(s, a, m, v); } else { OccursVars(s, b, m, v); }
    case Pattern(p) => OccursVars(s, p, m, v);
  }

  /** A bound variable whose value reaches `v` reaches `v` itself. */
  lemma OccursStep(s: Store, r: map<string, nat>, x: string, m: string, v: string)
    requires Ranked(s, r) && x in s.vars && m in Vars(s.vars[x]) && Occurs(s, TVar(m), v)
    ensures Occurs(s, TVar(x), v)
  {
    if x != v {
      OccursVars(s, s.vars[x], m, v);
      BelowStep(s, r, {}, x);
      assert {} + {x} == {x};
      OccursFromVis(s, r, s.vars[x], v, {x});
    }
  }

  /** The ranks after binding `v` to `othr`: every variable that reaches
      `v` is lifted above everything `othr` mentions. */
  function Lift(s: Store, r: map<string, nat>, v: string, othr: Type): map<string, nat> {
    var k := Height(r, othr);
    map x | x in r.Keys + Vars(othr) + {v} :: Rank(r, x) + (if Occurs(s, TVar(x), v) then k else 0)
  }

  /** After the lift `v` ranks above every variable of `othr`. */
  lemma LiftNewBinding(s: Store, r: map<string, nat>, v: string, othr: Type, m: string)
    requires Ranked(s, r) && v !in s.vars && !Occurs(s, othr, v) && m in Vars(othr)
    ensures m in Lift(s, r, v, othr) && v in Lift(s, r, v, othr)
    ensures Lift(s, r, v, othr)[m] < Lift(s, r, v, othr)[v]
  {
    HeightAbove(r, othr, m);
    if Occurs(s, TVar(m), v) {
      OccursVars(s, othr, m, v);
    }
  }

  /** After the lift every old binding still ranks its variable above the
      variables of its value. */
  lemma LiftOldBinding(s: Store, r: map<string, nat>, v: string, othr: Type, n: string, m: string)
    requires Ranked(s, r) && v !in s.vars && n in s.vars && m in Vars(s.vars[n])
    ensures m in Lift(s, r, v, othr) && n in Lift(s, r, v, othr)
    ensures Lift(s, r, v, othr)[m] < Lift(s, r, v, othr)[n]
  {
    if Occurs(s, TVar(m), v) {
      OccursStep(s, r, n, m, v);
    }
  }

  /** Binding an unbound variable to an expression it does not occur in keeps
      the store acyclic. */
  lemma BindRanked(s: Store, r: map<string, nat>, v: string, othr: Type) returns (r': map<string, nat>)
    requires Ranked(s, r) && v !in s.vars && !Occurs(s, othr, v)
    ensures Ranked(s.(vars := s.vars[v := othr]), r')
  {
    r' := Lift(s, r, v, othr);
    var s' := s.(vars := s.vars[v := othr]);
    forall n, m | n in s'.vars && m in Vars(s'.vars[n])
      ensures m in r' && n in r' && r'[m] < r'[n]
    {
      if n == v {
        LiftNewBinding(s, r, v, othr, m);
      } else {
        LiftOldBinding(s, r, v, othr, n, m);
      }
    }
    forall n | n in s'.vars
      ensures n in r'
    {
    }
  }

  // ---------------------------------------------------------------------
  // Soundness
  // ---------------------------------------------------------------------

  /** A successful unification of an acyclic store yields an acyclic store
      that extends it and makes the two expressions denote the same type. */
  lemma {:induction false} UnifySound(s: Store, r: map<string, nat>, t1: Type, t2: Type, fuel: nat)
    returns (r': map<string, nat>)
    requires Ranked(s, r) && Unify(s, t1, t2, fuel).Success?
    ensures Ranked(Unify(s, t1, t2, fuel).value, r')
    ensures Unified(Unify(s, t1, t2, fuel).value, t1, t2)
    decreases fuel, 2
  {
    var s' := Unify(s, t1, t2, fuel).value;
    if t1.TypeCtor? && t2.TypeCtor? {
      r' := r;
    } else if t1.Pattern? && t2.Pattern? {
      r' := UnifySound(s, r, t1.pattExpr, t2.pattExpr, fuel - 1);
    } else if t1.TVar? || t2.TVar? {
      if VarFirst(s, t1, t2) {
        r' := UnifyVarSound(s, r, t1, t2, fuel);
      } else {
        r' := UnifyVarSound(s, r, t2, t1, fuel);
        UnifiedSym(s', t2, t1);
      }
    } else if t1.Construct? && t2.Construct? {
      r' := r;
    } else {
      r' := UnifyStructuralSound(s, r, t1, t2, fuel);
    }
  }

  /** The structural case of `UnifySound`: equal labels, children unified
      pairwise. */
  lemma {:induction false} UnifyStructuralSound(s: Store, r: map<string, nat>, t1: Type, t2: Type, fuel: nat)
    returns (r': map<string, nat>)
    requires !t1.TypeCtor? && !t2.TypeCtor? && !t1.Pattern? && !t2.Pattern? && !t1.TVar? && !t2.TVar?
    requires !(t1.Construct? && t2.Construct?)
    requires Ranked(s, r) && Unify(s, t1, t2, fuel).Success?
    ensures Ranked(Unify(s, t1, t2, fuel).value, r')
    ensures Unified(Unify(s, t1, t2, fuel).value, t1, t2)
    decreases fuel, 1
  {
    match t1
    case List(e) =>
      r' := UnifyListSound(s, r, e, t2.elem, fuel);
    case Pair(a, b) =>
      r' := UnifyPairSound(s, r, a, b, t2.first, t2.second, fuel);
    case Fun(a, b) =>
      r' := UnifyFunSound(s, r, a, b, t2.arg, t2.ret, fuel);
    case _ =>
      r' := r;
  }

  /** The list case of `UnifySound`. */
  lemma {:induction false} UnifyListSound(s: Store, r: map<string, nat>, e1: Type, e2: Type, fuel: nat)
    returns (r': map<string, nat>)
    requires Ranked(s, r) && Unify(s, List(e1), List(e2), fuel).Success?
    ensures Ranked(Unify(s, List(e1), List(e2), fuel).value, r')
    ensures Unified(Unify(s, List(e1), List(e2), fuel).value, List(e1), List(e2))
    decreases fuel, 0
  {
    r' := UnifySound(s, r, e1, e2, fuel - 1);
  }

  /** The pair case of `UnifySound`. */
  lemma {:induction false} UnifyPairSound(s: Store, r: map<string, nat>, a1: Type, b1: Type, a2: Type, b2: Type, fuel: nat)
    returns (r': map<string, nat>)
    requires Ranked(s, r) && Unify(s, Pair(a1, b1), Pair(a2, b2), fuel).Success?
    ensures Ranked(Unify(s, Pair(a1, b1), Pair(a2, b2), fuel).value, r')
    ensures Unified(Unify(s, Pair(a1, b1), Pair(a2, b2), fuel).value, Pair(a1, b1), Pair(a2, b2))
    decreases fuel, 0
  {
    PairUnfold(s, a1, b1, a2, b2, fuel);
    r' := UnifyChildrenSound(s, r, a1, b1, a2, b2, fuel - 1);
    UnifiedPair(Unify(s, Pair(a1, b1), Pair(a2, b2), fuel).value, a1, b1, a2, b2);
  }

  /** Pairs whose components are unified are unified. */
  lemma UnifiedPair(s: Store, a1: Type, b1: Type, a2: Type, b2: Type)
    requires Unified(s, a1, a2) && Unified(s, b1, b2)
    ensures Unified(s, Pair(a1, b1), Pair(a2, b2))
  {
    assert Resolve(s, Pair(a1, b1)) == Pair(Resolve(s, a1), Resolve(s, b1));
    assert Resolve(s, Pair(a2, b2)) == Pair(Resolve(s, a2), Resolve(s, b2));
  }

  /** Function types whose arguments and results are unified are unified. */
  lemma UnifiedFun(s: Store, a1: Type, b1: Type, a2: Type, b2: Type)
    requires Unified(s, a1, a2) && Unified(s, b1, b2)
    ensures Unified(s, Fun(a1, b1), Fun(a2, b2))
  {
    assert Resolve(s, Fun(a1, b1)) == Fun(Resolve(s, a1), Resolve(s, b1));
    assert Resolve(s, Fun(a2, b2)) == Fun(Resolve(s, a2), Resolve(s, b2));
  }

  /** A successful unification of two pairs unifies the second components
      and then the first ones. */
  lemma PairUnfold(s: Store, a1: Type, b1: Type, a2: Type, b2: Type, fuel: nat)
    requires Unify(s, Pair(a1, b1), Pair(a2, b2), fuel).Success?
    ensures fuel > 0 && Unify(s, b1, b2, fuel - 1).Success?
    ensures Unify(s, Pair(a1, b1), Pair(a2, b2), fuel) == Unify(Unify(s, b1, b2, fuel - 1).value, a1, a2, fuel - 1)
  {
  }

  /** A successful unification of two function types unifies the results
      and then the arguments. */
  lemma FunUnfold(s: Store, a1: Type, b1: Type, a2: Type, b2: Type, fuel: nat)
    requires Unify(s, Fun(a1, b1), Fun(a2, b2), fuel).Success?
    ensures fuel > 0 && Unify(s, b1, b2, fuel - 1).Success?
    ensures Unify(s, Fun(a1, b1), Fun(a2, b2), fuel) == Unify(Unify(s, b1, b2, fuel - 1).value, a1, a2, fuel - 1)
  {
  }

  /** The function case of `UnifySound`. */
  lemma {:induction false} UnifyFunSound(s: Store, r: map<string, nat>, a1: Type, b1: Type, a2: Type, b2: Type, fuel: nat)
    returns (r': map<string, nat>)
    requires Ranked(s, r) && Unify(s, Fun(a1, b1), Fun(a2, b2), fuel).Success?
    ensures Ranked(Unify(s, Fun(a1, b1), Fun(a2, b2), fuel).value, r')
    ensures Unified(Unify(s, Fun(a1, b1), Fun(a2, b2), fuel).value, Fun(a1, b1), Fun(a2, b2))
    decreases fuel, 0
  {
    FunUnfold(s, a1, b1, a2, b2, fuel);
    r' := UnifyChildrenSound(s, r, a1, b1, a2, b2, fuel - 1);
    UnifiedFun(Unify(s, Fun(a1, b1), Fun(a2, b2), fuel).value, a1, b1, a2, b2);
  }

  /** The variable case of `UnifySound`. */
  lemma {:induction false} UnifyVarSound(s: Store, r: map<string, nat>, tvar: Type, othr: Type, fuel: nat)
    returns (r': map<string, nat>)
    requires fuel > 0 && tvar.TVar? && Ranked(s, r)
    requires UnifyVar(s, tvar, othr, fuel, true).Success?
    ensures Ranked(UnifyVar(s, tvar, othr, fuel, true).value, r')
    ensures Unified(UnifyVar(s, tvar, othr, fuel, true).value, tvar, othr)
    decreases fuel, 0
  {
    var s' := UnifyVar(s, tvar, othr, fuel, true).value;
    if othr.TVar? && tvar.name == othr.name {
      r' := r;
      UnifiedRefl(s', tvar);
    } else {
      if tvar.name in s.vars {
        r' := UnifySound(s, r, s.vars[tvar.name], othr, fuel - 1);
      } else {
        r' := BindRanked(s, r, tvar.name, othr);
        UnifiedRefl(s', othr);
      }
      ResolveUnfold(s', r', tvar.name);
    }
  }

  /** Two children unified right first: the right pair stays unified while
      the left pair is unified. */
  lemma {:induction false} UnifyChildrenSound(s: Store, r: map<string, nat>, a1: Type, b1: Type, a2: Type, b2: Type, fuel: nat)
    returns (r': map<string, nat>)
    requires Ranked(s, r) && Unify(s, b1, b2, fuel).Success?
    requires Unify(Unify(s, b1, b2, fuel).value, a1, a2, fuel).Success?
    ensures var s' := Unify(Unify(s, b1, b2, fuel).value, a1, a2, fuel).value;
      Ranked(s', r') && Unified(s', a1, a2) && Unified(s', b1, b2)
    decreases fuel, 3
  {
    var s1 := Unify(s, b1, b2, fuel).value;
    var s' := Unify(s1, a1, a2, fuel).value;
    var r1 := UnifySound(s, r, b1, b2, fuel);
    r' := UnifySound(s1, r1, a1, a2, fuel);
    UnifiedMono(s1, s', r1, r', b1, b2);
  }

  /** `ableToUnify` holds only when some acyclic extension of the store
      makes the two expressions denote the same type, or when the corrected
      occurs check finds the variable under a pattern. */
  lemma AbleToUnifySound(s: Store, r: map<string, nat>, t1: Type, t2: Type, fuel: nat)
    requires Ranked(s, r) && AbleToUnify(s, t1, t2, fuel)
    ensures Unify(s, t1, t2, fuel) == Failure(Occurrence) ||
            exists s', r' :: Ranked(s', r') && Extends(s, s') && Unified(s', t1, t2)
  {
    AsWrittenOrOccurrence(s, t1, t2, fuel);
    if Unify(s, t1, t2, fuel).Success? {
      var r' := UnifySound(s, r, t1, t2, fuel);
    }
  }

  // ---------------------------------------------------------------------
  // Particular cases
  // ---------------------------------------------------------------------

  /** Two variables of the same name are already unified. */
  lemma UnifySameName(s: Store, n: string, fuel: nat)
    requires fuel > 0
    ensures Unify(s, TVar(n), TVar(n), fuel) == Success(s)
  {
    assert UnifyVar(s, TVar(n), TVar(n), fuel, true) == Success(s);
  }

  /** Of two unbound variables, the second is bound to the first. */
  lemma UnifyTwoUnbound(s: Store, a: string, b: string, fuel: nat)
    requires fuel > 0 && a != b && a !in s.vars && b !in s.vars
    ensures Unify(s, TVar(a), TVar(b), fuel) == Success(s.(vars := s.vars[b := TVar(a)]))
  {
    assert !VarFirst(s, TVar(a), TVar(b));
    assert !OccursFrom(s, TVar(a), b, {}, true);
    assert UnifyVar(s, TVar(b), TVar(a), fuel, true) == Success(s.(vars := s.vars[b := TVar(a)]));
  }

  /** An unbound variable against an expression that is not a variable, type
      constructor or pattern: bound to it, unless it occurs in it; whichever
      side the variable is on. */
  lemma UnifyUnbound(s: Store, v: string, t: Type, fuel: nat)
    requires fuel > 0 && v !in s.vars && !t.TVar? && !t.TypeCtor? && !t.Pattern?
    ensures Unify(s, TVar(v), t, fuel) == Unify(s, t, TVar(v), fuel)
    ensures Occurs(s, t, v) ==> Unify(s, TVar(v), t, fuel) == Failure(Occurrence)
    ensures !Occurs(s, t, v) ==> Unify(s, TVar(v), t, fuel) == Success(s.(vars := s.vars[v := t]))
  {
    assert VarFirst(s, TVar(v), t) && !VarFirst(s, t, TVar(v));
    assert Unify(s, TVar(v), t, fuel) == UnifyVar(s, TVar(v), t, fuel, true);
    assert Unify(s, t, TVar(v), fuel) == UnifyVar(s, TVar(v), t, fuel, true);
  }

  /** The error cases that do not depend on the store's bindings. */
  lemma UnifyRejects(s: Store, t1: Type, t2: Type, fuel: nat)
    requires fuel > 0
    ensures (t1.TypeCtor? || t1.Pattern?) && !SameLabel(t1, t2) ==>
      Unify(s, t1, t2, fuel) == Failure(TypeCtorOrPattern)
    ensures (t2.TypeCtor? || t2.Pattern?) && !SameLabel(t1, t2) ==>
      Unify(s, t1, t2, fuel) == Failure(TypeCtorOrPattern)
    ensures t1.Construct? && t2.Construct? && !Known(s, t1.cell) && !Known(s, t2.cell) ==>
      Unify(s, t1, t2, fuel) == Failure(UndefinedConstructor)
    ensures t1.Construct? && t2.Construct? && Known(s, t1.cell) && Known(s, t2.cell) ==>
      (Unify(s, t1, t2, fuel).Success? <==> s.ids[t1.cell] == s.ids[t2.cell])
    ensures !t1.TVar? && !t2.TVar? && !SameLabel(t1, t2) ==> Unify(s, t1, t2, fuel).Failure?
  {
  }

  /** Nesting depth: enough fuel to walk an expression. */
  function Depth(t: Type): nat {
    match t
    case List(e) => Depth(e) + 1
    case Pair(a, b) => Max(Depth(a), Depth(b)) + 1
    case Fun(a, b) => Max(Depth(a), Depth(b)) + 1
    case Pattern(p) => Depth(p) + 1
    case _ => 1
  }

  /** Two expressions that are `equals` unify without touching the store. */
  lemma {:induction false} EqualsUnifyNoOp(s: Store, a: Type, b: Type, fuel: nat)
    requires Equals(s, a, b) && fuel >= Depth(a)
    ensures Unify(s, a, b, fuel) == Success(s)
    decreases a, 1
  {
    match a
    case List(_) => EqualsUnifyNested(s, a, b, fuel);
    case Pair(x, y) => EqualsUnifyPair(s, x, y, b.first, b.second, fuel);
    case Fun(x, y) => EqualsUnifyFun(s, x, y, b.arg, b.ret, fuel);
    case Pattern(_) => EqualsUnifyNested(s, a, b, fuel);
    case TVar(n) =>
      if VarFirst(s, a, b) {
        assert UnifyVar(s, a, b, fuel, true) == Success(s);
      } else {
        assert UnifyVar(s, b, a, fuel, true) == Success(s);
      }
    case Construct(c) =>
      assert Unify(s, a, b, fuel) == UnifyConstruct(s, c, b.cell);
    case _ =>
  }

  /** `EqualsUnifyNoOp` for a type with children. */
  lemma {:induction false} EqualsUnifyNested(s: Store, a: Type, b: Type, fuel: nat)
    requires Equals(s, a, b) && fuel >= Depth(a)
    requires a.List? || a.Pattern?
    ensures Unify(s, a, b, fuel) == Success(s)
    decreases a, 0
  {
    match a
    case List(e) =>
      EqualsUnifyNoOp(s, e, b.elem, fuel - 1);
      assert Unify(s, a, b, fuel) == Unify(s, e, b.elem, fuel - 1);
    case Pattern(p) =>
      EqualsUnifyNoOp(s, p, b.pattExpr, fuel - 1);
      assert Unify(s, a, b, fuel) == Unify(s, p, b.pattExpr, fuel - 1);
  }

  /** `EqualsUnifyNoOp` for a pair type. */
  lemma {:induction false} EqualsUnifyPair(s: Store, x1: Type, y1: Type, x2: Type, y2: Type, fuel: nat)
    requires Equals(s, x1, x2) && Equals(s, y1, y2) && fuel > Depth(x1) && fuel > Depth(y1)
    ensures Unify(s, Pair(x1, y1), Pair(x2, y2), fuel) == Success(s)
    decreases Pair(x1, y1), 0
  {
    EqualsUnifyNoOp(s, y1, y2, fuel - 1);
    EqualsUnifyNoOp(s, x1, x2, fuel - 1);
    ChildrenNoOp(s, x1, y1, x2, y2, fuel - 1);
    UnifyPairStep(s, Pair(x1, y1), Pair(x2, y2), fuel);
  }

  /** A pair unifies its second components, then its first. */
  lemma UnifyPairStep(s: Store, a: Type, b: Type, fuel: nat)
    requires fuel > 0 && a.Pair? && b.Pair?
    ensures Unify(s, a, b, fuel) == UnifyChildren(s, a.first, a.second, b.first, b.second, fuel - 1, true)
  {
  }

  /** A function type unifies its results, then its arguments. */
  lemma UnifyFunStep(s: Store, a: Type, b: Type, fuel: nat)
    requires fuel > 0 && a.Fun? && b.Fun?
    ensures Unify(s, a, b, fuel) == UnifyChildren(s, a.arg, a.ret, b.arg, b.ret, fuel - 1, true)
  {
  }

  /** Children that each unify without change unify together without
      change. */
  lemma ChildrenNoOp(s: Store, a1: Type, b1: Type, a2: Type, b2: Type, fuel: nat)
    requires Unify(s, b1, b2, fuel) == Success(s) && Unify(s, a1, a2, fuel) == Success(s)
    ensures UnifyChildren(s, a1, b1, a2, b2, fuel, true) == Success(s)
  {
  }

  /** `EqualsUnifyNoOp` for a function type. */
  lemma {:induction false} EqualsUnifyFun(s: Store, x1: Type, y1: Type, x2: Type, y2: Type, fuel: nat)
    requires Equals(s, x1, x2) && Equals(s, y1, y2) && fuel > Depth(x1) && fuel > Depth(y1)
    ensures Unify(s, Fun(x1, y1), Fun(x2, y2), fuel) == Success(s)
    decreases Fun(x1, y1), 0
  {
    EqualsUnifyNoOp(s, y1, y2, fuel - 1);
    EqualsUnifyNoOp(s, x1, x2, fuel - 1);
    ChildrenNoOp(s, x1, y1, x2, y2, fuel - 1);
    UnifyFunStep(s, Fun(x1, y1), Fun(x2, y2), fuel);
  }

  /** `clear` undoes the binding that unification gives an unbound
      variable. */
  lemma ClearUndoesBind(s: Store, v: string, t: Type, fuel: nat)
    requires fuel > 0 && v !in s.vars && !t.TVar? && !t.TypeCtor? && !t.Pattern? && !Occurs(s, t, v)
    ensures Unify(s, TVar(v), t, fuel).Success?
    ensures Clear(Unify(s, TVar(v), t, fuel).value, TVar(v)) == s
  {
    UnifyUnbound(s, v, t, fuel);
    assert s.vars[v := t] - {v} == s.vars;
  }

  /** `disconnect` undoes the link that unification makes between two unbound
      variables. */
  lemma DisconnectUndoesUnify(s: Store, a: string, b: string, fuel: nat)
    requires fuel > 0 && a != b && a !in s.vars && b !in s.vars
    ensures Unify(s, TVar(a), TVar(b), fuel).Success?
    ensures Disconnect(Unify(s, TVar(a), TVar(b), fuel).value, TVar(a), TVar(b)) == s
  {
    UnifyTwoUnbound(s, a, b, fuel);
    var s' := s.(vars := s.vars[b := TVar(a)]);
    assert DisconnectImpl(s', TVar(a), TVar(b)) == s';
    assert DisconnectImpl(s', TVar(b), TVar(a)) == s'.(vars := s'.vars - {b});
    assert s'.vars - {b} == s.vars;
  }

  // ---------------------------------------------------------------------
  // The occurs check as written
  // ---------------------------------------------------------------------

  /** A ranked store never binds a variable to an expression that mentions
      it. */
  lemma RankedNoSelf(s: Store, r: map<string, nat>, n: string)
    requires Ranked(s, r) && n in s.vars
    ensures n !in Vars(s.vars[n])
  {
  }

  /** The source's occurs check finds no more than the corrected one. */
  lemma {:induction false} OccursAsWrittenImplies(s: Store, t: Type, v: string, vis: set<string>)
    ensures OccursFrom(s, t, v, vis, false) ==> OccursFrom(s, t, v, vis, true)
    decreases s.vars.Keys - vis, t
  {
    match t
    case TVar(n) =>
      if n in s.vars && n !in vis { OccursAsWrittenImplies(s, s.vars[n], v, vis + {n}); }
    case List(e) => OccursAsWrittenImplies(s, e, v, vis);
    case Pair(a, b) => OccursAsWrittenImplies(s, a, v, vis); OccursAsWrittenImplies(s, b, v, vis);
    case Fun(a, b) => OccursAsWrittenImplies(s, a, v, vis); OccursAsWrittenImplies(s, b, v, vis);
    case _ =>
  }

  /** Where the corrected unification succeeds, the source's gives the same
      store. */
  lemma {:induction false} AsWrittenAgrees(s: Store, t1: Type, t2: Type, fuel: nat)
    ensures Unify(s, t1, t2, fuel).Success? ==> UnifyAsWritten(s, t1, t2, fuel) == Unify(s, t1, t2, fuel)
    decreases fuel, 2
  {
    if fuel == 0 || (t1.TypeCtor? && t2.TypeCtor?) {
      assert UnifyAsWritten(s, t1, t2, fuel) == Unify(s, t1, t2, fuel);
    } else if t1.Pattern? && t2.Pattern? {
      AsWrittenAgrees(s, t1.pattExpr, t2.pattExpr, fuel - 1);
      assert Unify(s, t1, t2, fuel) == Unify(s, t1.pattExpr, t2.pattExpr, fuel - 1);
      assert UnifyAsWritten(s, t1, t2, fuel) == UnifyAsWritten(s, t1.pattExpr, t2.pattExpr, fuel - 1);
    } else if t1.TypeCtor? || t2.TypeCtor? || t1.Pattern? || t2.Pattern? {
      assert UnifyAsWritten(s, t1, t2, fuel) == Unify(s, t1, t2, fuel);
    } else if t1.TVar? || t2.TVar? {
      var (tv, ot) := if VarFirst(s, t1, t2) then (t1, t2) else (t2, t1);
      assert Unify(s, t1, t2, fuel) == UnifyVar(s, tv, ot, fuel, true);
      assert UnifyAsWritten(s, t1, t2, fuel) == UnifyVar(s, tv, ot, fuel, false);
      AsWrittenAgreesVar(s, tv, ot, fuel);
    } else if (t1.Construct? && t2.Construct?) || !SameLabel(t1, t2) {
      assert UnifyAsWritten(s, t1, t2, fuel) == Unify(s, t1, t2, fuel);
    } else {
      match t1
      case List(e) =>
        AsWrittenAgrees(s, e, t2.elem, fuel - 1);
        assert Unify(s, t1, t2, fuel) == Unify(s, e, t2.elem, fuel - 1);
        assert UnifyAsWritten(s, t1, t2, fuel) == UnifyAsWritten(s, e, t2.elem, fuel - 1);
      case Pair(a, b) =>
        assert Unify(s, t1, t2, fuel) == UnifyChildren(s, a, b, t2.first, t2.second, fuel - 1, true);
        assert UnifyAsWritten(s, t1, t2, fuel) == UnifyChildren(s, a, b, t2.first, t2.second, fuel - 1, false);
        AsWrittenAgreesChildren(s, a, b, t2.first, t2.second, fuel);
      case Fun(a, b) =>
        assert Unify(s, t1, t2, fuel) == UnifyChildren(s, a, b, t2.arg, t2.ret, fuel - 1, true);
        assert UnifyAsWritten(s, t1, t2, fuel) == UnifyChildren(s, a, b, t2.arg, t2.ret, fuel - 1, false);
        AsWrittenAgreesChildren(s, a, b, t2.arg, t2.ret, fuel);
      case _ =>
    }
  }

  /** `AsWrittenAgrees` for a variable against the other side. */
  lemma {:induction false} AsWrittenAgreesVar(s: Store, tvar: Type, othr: Type, fuel: nat)
    requires fuel > 0 && tvar.TVar?
    ensures UnifyVar(s, tvar, othr, fuel, true).Success? ==>
      UnifyVar(s, tvar, othr, fuel, false) == UnifyVar(s, tvar, othr, fuel, true)
    decreases fuel, 1
  {
    if othr.TVar? && tvar.name == othr.name {
    } else if tvar.name in s.vars {
      AsWrittenAgrees(s, s.vars[tvar.name], othr, fuel - 1);
    } else {
      OccursAsWrittenImplies(s, othr, tvar.name, {});
    }
  }

  /** Two children unified right to left, with either occurs check. */
  function UnifyChildren(s: Store, a1: Type, b1: Type, a2: Type, b2: Type, fuel: nat, intoPatterns: bool): (res: Result<Store, UnifyError>)
    ensures res.Success? ==> Extends(s, res.value)
  {
    var s1 :- UnifyWith(s, b1, b2, fuel, intoPatterns);
    UnifyWith(s1, a1, a2, fuel, intoPatterns)
  }

  /** `AsWrittenAgrees` for the two children of a pair or a function. */
  lemma {:induction false} AsWrittenAgreesChildren(s: Store, a1: Type, b1: Type, a2: Type, b2: Type, fuel: nat)
    requires fuel > 0
    ensures UnifyChildren(s, a1, b1, a2, b2, fuel - 1, true).Success? ==>
      UnifyChildren(s, a1, b1, a2, b2, fuel - 1, false) == UnifyChildren(s, a1, b1, a2, b2, fuel - 1, true)
    decreases fuel, 1
  {
    AsWrittenAgrees(s, b1, b2, fuel - 1);
    if Unify(s, b1, b2, fuel - 1).Success? {
      AsWrittenAgrees(Unify(s, b1, b2, fuel - 1).value, a1, a2, fuel - 1);
    }
  }

  /** Where the source's unification succeeds, the corrected one gives the
      same store or reports the occurrence the source missed. */
  lemma {:induction false} AsWrittenOrOccurrence(s: Store, t1: Type, t2: Type, fuel: nat)
    requires UnifyAsWritten(s, t1, t2, fuel).Success?
    ensures Unify(s, t1, t2, fuel) == UnifyAsWritten(s, t1, t2, fuel) || Unify(s, t1, t2, fuel) == Failure(Occurrence)
    decreases fuel
  {
    if fuel == 0 || (t1.TypeCtor? && t2.TypeCtor?) {
    } else if t1.Pattern? && t2.Pattern? {
      AsWrittenOrOccurrence(s, t1.pattExpr, t2.pattExpr, fuel - 1);
    } else if t1.TypeCtor? || t2.TypeCtor? || t1.Pattern? || t2.Pattern? {
    } else if t1.TVar? || t2.TVar? {
      var (tv, ot) := if VarFirst(s, t1, t2) then (t1, t2) else (t2, t1);
      assert Unify(s, t1, t2, fuel) == UnifyVar(s, tv, ot, fuel, true);
      assert UnifyAsWritten(s, t1, t2, fuel) == UnifyVar(s, tv, ot, fuel, false);
      if ot.TVar? && tv.name == ot.name {
      } else if tv.name in s.vars {
        AsWrittenOrOccurrence(s, s.vars[tv.name], ot, fuel - 1);
      }
    } else if (t1.Construct? && t2.Construct?) || !SameLabel(t1, t2) {
    } else {
      match t1
      case List(e) => AsWrittenOrOccurrence(s, e, t2.elem, fuel - 1);
      case Pair(a, b) =>
        AsWrittenOrOccurrence(s, b, t2.second, fuel - 1);
        if Unify(s, b, t2.second, fuel - 1).Success? {
          AsWrittenOrOccurrence(UnifyAsWritten(s, b, t2.second, fuel - 1).value, a, t2.first, fuel - 1);
        }
      case Fun(a, b) =>
        AsWrittenOrOccurrence(s, b, t2.ret, fuel - 1);
        if Unify(s, b, t2.ret, fuel - 1).Success? {
          AsWrittenOrOccurrence(UnifyAsWritten(s, b, t2.ret, fuel - 1).value, a, t2.arg, fuel - 1);
        }
      case _ =>
    }
  }

  /** With the source's occurs check, a variable unifies with a list of
      patterns of itself and the store gets a cycle; the corrected check
      refuses it. */
  lemma OccursSkipsPatterns()
    ensures var t := List(Pattern(TVar("A")));
      var s' := Store(map["A" := t], map[]);
      UnifyAsWritten(EmptyStore, TVar("A"), t, 1) == Success(s') &&
      (forall r :: !Ranked(s', r)) &&
      Unify(EmptyStore, TVar("A"), t, 1) == Failure(Occurrence)
  {
  }
}

=== FILE: type_var_names.dfy ===
/** Names of fresh type variables (`ExcelColumn`, `generateTypeVarName_` and
    `generateTypeVar` of core/type_expr.js): the counter value written in
    bijective base 26 with the digits A..Z, as spreadsheet columns are. */
module TypeVarNames {
  import opened TypeExpr

  /** `gen_counter` starts at 1. */
  const FirstCounter: nat := 1

  predicate IsLetter(c: char) {
    'A' <= c <= 'Z'
  }

  predicate IsColumnName(w: string) {
    forall i :: 0 <= i < |w| ==> IsLetter(w[i])
  }

  function Letter(d: nat): (c: char)
    requires d < 26
    ensures IsLetter(c)
  {
    ('A' as int + d) as char
  }

  /** `ExcelColumn(n)`: 0 is the empty name, 1..26 are "A".."Z", 27 is
      "AA". */
  function ExcelColumn(n: nat): (w: string)
    ensures IsColumnName(w)
    ensures |w| == 0 <==> n == 0
  {
    if n == 0 then "" else ExcelColumn((n - 1) / 26) + [Letter((n - 1) % 26)]
  }

  /** The number a column name stands for. */
  function ColumnValue(w: string): nat
    requires IsColumnName(w)
  {
    if |w| == 0 then 0
    else 26 * ColumnValue(w[..|w| - 1]) + (w[|w| - 1] as int - 'A' as int + 1)
  }

  /** Reading back a column name gives the counter it was made from. */
  lemma {:induction false} ColumnValueOfExcelColumn(n: nat)
    ensures ColumnValue(ExcelColumn(n)) == n
  {
    if n > 0 {
      var w := ExcelColumn(n);
      ColumnValueOfExcelColumn((n - 1) / 26);
      assert w[..|w| - 1] == ExcelColumn((n - 1) / 26);
    }
  }

  /** Every column name is the name of its value. */
  lemma {:induction false} ExcelColumnOfColumnValue(w: string)
    requires IsColumnName(w)
    ensures ExcelColumn(ColumnValue(w)) == w
    decreases |w|
  {
    if |w| > 0 {
      var init := w[..|w| - 1];
      var d := w[|w| - 1] as int - 'A' as int;
      ExcelColumnOfColumnValue(init);
      var n := ColumnValue(w);
      assert n == 26 * ColumnValue(init) + d + 1;
      assert (n - 1) / 26 == ColumnValue(init) && (n - 1) % 26 == d;
      assert w == init + [w[|w| - 1]];
    }
  }

  /** Different counters give different names. */
  lemma ExcelColumnInjective(m: nat, n: nat)
    requires ExcelColumn(m) == ExcelColumn(n)
    ensures m == n
  {
    ColumnValueOfExcelColumn(m);
    ColumnValueOfExcelColumn(n);
  }

  function Reverse(w: string): (v: string)
    ensures |v| == |w|
    ensures forall i :: 0 <= i < |w| ==> v[i] == w[|w| - 1 - i]
  {
    if |w| == 0 then [] else Reverse(w[1..]) + [w[0]]
  }

  /** `ExcelColumn` as the source writes it: collect the digits least
      significant first, then copy them out in reverse. */
  method ExcelColumnLoop(n0: nat) returns (result: string)
    ensures result == ExcelColumn(n0)
  {
    var r := "";
    var n := n0;
    while 0 < n
      invariant ExcelColumn(n0) == ExcelColumn(n) + Reverse(r)
      decreases n
    {
      var m := n - 1;
      r := r + [Letter(m % 26)];
      n := m / 26;
      assert Reverse(r) == [r[|r| - 1]] + Reverse(r[..|r| - 1]);
      assert r[..|r| - 1] + [r[|r| - 1]] == r;
    }
    result := "";
    var i := |r| - 1;
    while 0 <= i
      invariant -1 <= i < |r|
      invariant result == Reverse(r)[..|r| - 1 - i]
      decreases i + 1
    {
      result := result + [r[i]];
      i := i - 1;
    }
    assert Reverse(r)[..|r|] == Reverse(r);
  }

  /** `generateTypeVar`: an unbound variable named after the counter, and the
      advanced counter. */
  function GenerateTypeVar(counter: nat): (res: (Type, nat))
    ensures res.0 == TVar(ExcelColumn(counter)) && res.1 == counter + 1
  {
    (TVar(ExcelColumn(counter)), counter + 1)
  }

  /** Names drawn from the counter are pairwise distinct and never empty. */
  lemma GeneratedNamesDistinct(c1: nat, c2: nat)
    requires FirstCounter <= c1 < c2
    ensures GenerateTypeVar(c1).0 != GenerateTypeVar(c2).0
    ensures GenerateTypeVar(c1).0.name != ""
  {
    if ExcelColumn(c1) == ExcelColumn(c2) {
      ExcelColumnInjective(c1, c2);
    }
  }

  /** The column names of the first counters. */
  lemma ExcelColumnExamples()
    ensures ExcelColumn(0) == ""
    ensures ExcelColumn(1) == "A"
    ensures ExcelColumn(26) == "Z"
    ensures ExcelColumn(27) == "AA"
    ensures ExcelColumn(52) == "AZ"
    ensures ExcelColumn(703) == "AAA"
  {
    assert ExcelColumn(1) == "A";
    assert ExcelColumn(26) == "Z";
    assert ExcelColumn(27) == ExcelColumn(1) + "A";
    assert ExcelColumn(52) == ExcelColumn(1) + "Z";
    assert ExcelColumn(703) == ExcelColumn(27) + "A";
  }
}

=== FILE: typed_blocks.dfy ===
/** The typing rules of the typed blocks (the `init` type shapes and the
    `infer` and `getVisibleVariables` methods of blocks/typed_blocks.js).

    A tree of connected blocks is an `Expr`; an empty input is `None`.  Each
    node carries the type variables its block created in `init`, so that the
    rule can refer to them.  `Infer` threads the store of bindings through
    the children in the order the source visits them, unifies where the
    source unifies, and returns the block's output type (`None` for a
    statement).  A type scheme (`Blockly.Scheme`) is not part of this model:
    a monomorphic scheme unifies its own type, and a polymorphic one unifies
    the instance that the context's `inst` gives. */
module TypedBlocks {
  import opened Wrappers
  import opened TypeExpr
  import opened TypeSubst
  import opened TypeUnify

  datatype Scheme = Mono(t: Type) | Poly(t: Type)

  /** The inference context: the environment of schemes, whether references
      with no binding in it are unified with their value's scheme
      (`canUnifyOrphan`), and the instantiation of polymorphic schemes. */
  datatype Ctx = Ctx(env: map<string, Scheme>, unifyOrphan: bool, inst: Type -> Type)

  /** The type a scheme is unified through. */
  function Instance(ctx: Ctx, sc: Scheme): Type {
    match sc
    case Mono(t) => t
    case Poly(t) => ctx.inst(t)
  }

  /** Blocks with two operands of one fixed type: `logic_operator_typed`,
      `int_arithmetic_typed`, `float_arithmetic_typed` and
      `concat_string_typed`. */
  datatype BinKind = LogicOperator | IntArithmetic | FloatArithmetic | ConcatString

  function Operand(k: BinKind): Type {
    match k
    case LogicOperator => Bool
    case IntArithmetic => Int
    case FloatArithmetic => Float
    case ConcatString => Str
  }

  /** Blocks with one operand: `not_operator_typed` and
      `string_of_int_typed`. */
  datatype UnaryKind = NotOperator | StringOfInt

  function UnaryOperand(k: UnaryKind): Type {
    match k
    case NotOperator => Bool
    case StringOfInt => Int
  }

  function UnaryResult(k: UnaryKind): Type {
    match k
    case NotOperator => Bool
    case StringOfInt => Str
  }

  datatype Arm = Arm(pattern: Option<Expr>, output: Option<Expr>)

  datatype Param = Param(name: string, t: Type)

  datatype Expr =
      /** A block without `infer`: its output type is all there is. */
    | Leaf(out: Type)
    | BinOp(kind: BinKind, a: Option<Expr>, b: Option<Expr>)
    | Unary(ukind: UnaryKind, arg: Option<Expr>)
      /** `logic_compare_typed`: inputs A and B share `elemT`. */
    | Compare(elemT: Type, a: Option<Expr>, b: Option<Expr>)
      /** `logic_ternary_typed`: THEN, ELSE and the output share `outT`. */
    | Ternary(outT: Type, cond: Option<Expr>, thenE: Option<Expr>, elseE: Option<Expr>)
      /** `lists_create_with_typed`: every ADDi has type `elemT`. */
    | ListCreate(elemT: Type, items: seq<Option<Expr>>)
      /** `list_cons_typed`: FIRST has type `elemT`, CONS and the output
          LIST(`elemT`). */
    | Cons(elemT: Type, first: Option<Expr>, rest: Option<Expr>)
    | PairCreate(firstT: Type, secondT: Type, first: Option<Expr>, second: Option<Expr>)
    | Fst(firstT: Type, secondT: Type, pair: Option<Expr>)
    | Snd(firstT: Type, secondT: Type, pair: Option<Expr>)
      /** `lambda_typed`: output FUN(`argT`, `retT`). */
    | Lambda(argT: Type, retT: Type, name: string, body: Option<Expr>)
      /** `lambda_app_typed`: FUN input FUN(`argT`, `retT`), ARG `argT`,
          output `retT`. */
    | App(argT: Type, retT: Type, fn: Option<Expr>, arg: Option<Expr>)
      /** `match_typed`: INPUT `inT`, every PATTERNi PATTERN(`inT`), every
          OUTPUTi and the output `outT`. */
    | Match(inT: Type, outT: Type, input: Option<Expr>, arms: seq<Arm>)
      /** `variables_get_typed`; `orphan` is the scheme the bound value
          would give when the name is not in the environment. */
    | Var(t: Type, name: string, orphan: Option<Scheme>)
      /** `let_typed`, `letrec_typed` and `letstatement_typed`; for a
          statement, `e2` is the next block. */
    | Let(varT: Type, exp1T: Type, exp2T: Type, name: string, isRec: bool,
          args: seq<Param>, e1: Option<Expr>, e2: Option<Expr>, isStatement: bool)

  /** The type a block's `infer` returns: always one the block made in
      `init` (or a fresh primitive), never a child's. */
  function OutType(e: Expr): Option<Type> {
    match e
    case Leaf(out) => Some(out)
    case BinOp(k, _, _) => Some(Operand(k))
    case Unary(k, _) => Some(UnaryResult(k))
    case Compare(_, _, _) => Some(Bool)
    case Ternary(outT, _, _, _) => Some(outT)
    case ListCreate(elemT, _) => Some(List(elemT))
    case Cons(elemT, _, _) => Some(List(elemT))
    case PairCreate(a, b, _, _) => Some(Pair(a, b))
    case Fst(a, _, _) => Some(a)
    case Snd(_, b, _) => Some(b)
    case Lambda(a, b, _, _) => Some(Fun(a, b))
    case App(_, b, _, _) => Some(b)
    case Match(_, b, _, _) => Some(b)
    case Var(t, _, _) => Some(t)
    case Let(_, _, exp2T, _, _, _, _, _, isStatement) => if isStatement then None else Some(exp2T)
  }

  /** `callInfer`: an empty input gives no type. */
  function OptOut(c: Option<Expr>): Option<Type> {
    if c.None? then None else OutType(c.value)
  }

  function ParamTypes(args: seq<Param>): (ts: seq<Type>)
    ensures |ts| == |args|
    ensures forall i :: 0 <= i < |args| ==> ts[i] == args[i].t
  {
    if |args| == 0 then [] else [args[0].t] + ParamTypes(args[1..])
  }

  /** The environment of EXP1: the caller's, then the bound name when the
      block is recursive, then every argument, later ones winning. */
  function Exp1Env(env: map<string, Scheme>, varT: Type, name: string, isRec: bool, args: seq<Param>): map<string, Scheme> {
    AddParams(if isRec then env[name := Mono(varT)] else env, args)
  }

  function AddParams(env: map<string, Scheme>, args: seq<Param>): map<string, Scheme>
    decreases |args|
  {
    if |args| == 0 then env
    else AddParams(env[args[0].name := Mono(args[0].t)], args[1..])
  }

  /** The scheme EXP2 sees: polymorphic only when the bound type
      dereferences to a function. */
  function LetScheme(s: Store, varT: Type): Scheme {
    if Deref(s, varT).Fun? then Poly(varT) else Mono(varT)
  }

  /** `if (t) t.unify(expected)`. */
  function UnifyOpt(s: Store, t: Option<Type>, expected: Type, fuel: nat): (res: Result<Store, UnifyError>)
    ensures res.Success? ==> TypeSubst.Extends(s, res.value)
  {
    if t.None? then Success(s) else Unify(s, t.value, expected, fuel)
  }

  /** `if (t) expected.unify(t)`. */
  function ExpectOpt(s: Store, expected: Type, t: Option<Type>, fuel: nat): (res: Result<Store, UnifyError>)
    ensures res.Success? ==> TypeSubst.Extends(s, res.value)
  {
    if t.None? then Success(s) else Unify(s, expected, t.value, fuel)
  }

  /** `callInfer` on an input. */
  function InferOpt(ctx: Ctx, s: Store, c: Option<Expr>, fuel: nat): (res: Result<(Store, Option<Type>), UnifyError>)
    ensures res.Success? ==> res.value.1 == OptOut(c) && TypeSubst.Extends(s, res.value.0)
    decreases c, 3
  {
    if c.None? then Success((s, None)) else Infer(ctx, s, c.value, fuel)
  }

  /** `infer` of one block. */
  function Infer(ctx: Ctx, s: Store, e: Expr, fuel: nat): (res: Result<(Store, Option<Type>), UnifyError>)
    ensures res.Success? ==> res.value.1 == OutType(e) && TypeSubst.Extends(s, res.value.0)
    decreases e, 2
  {
    match e
    case Leaf(out) => Success((s, Some(out)))
    case BinOp(_, _, _) => InferBinOp(ctx, s, e, fuel)
    case Unary(_, _) => InferUnary(ctx, s, e, fuel)
    case Compare(_, _, _) => InferCompare(ctx, s, e, fuel)
    case Ternary(_, _, _, _) => InferTernary(ctx, s, e, fuel)
    case ListCreate(elemT, _) =>
      var s1 :- InferItems(ctx, s, e, 0, fuel);
      Success((s1, Some(List(elemT))))
    case Cons(_, _, _) => InferCons(ctx, s, e, fuel)
    case PairCreate(_, _, _, _) => InferPairCreate(ctx, s, e, fuel)
    case Fst(_, _, _) => InferProjection(ctx, s, e, fuel)
    case Snd(_, _, _) => InferProjection(ctx, s, e, fuel)
    case Lambda(_, _, _, _) => InferLambda(ctx, s, e, fuel)
    case App(_, _, _, _) => InferApp(ctx, s, e, fuel)
    case Match(_, _, _, _) => InferMatch(ctx, s, e, fuel)
    case Var(_, _, _) => InferVar(ctx, s, e, fuel)
    case Let(_, _, _, _, _, _, _, _, _) => InferLet(ctx, s, e, fuel)
  }

  function InferBinOp(ctx: Ctx, s: Store, e: Expr, fuel: nat): (res: Result<(Store, Option<Type>), UnifyError>)
    requires e.BinOp?
    ensures res.Success? ==> res.value.1 == OutType(e) && TypeSubst.Extends(s, res.value.0)
    decreases e, 1
  {
    var pa :- InferOpt(ctx, s, e.a, fuel);
    var pb :- InferOpt(ctx, pa.0, e.b, fuel);
    var s1 :- UnifyOpt(pb.0, pa.1, Operand(e.kind), fuel);
    var s2 :- UnifyOpt(s1, pb.1, Operand(e.kind), fuel);
    Success((s2, Some(Operand(e.kind))))
  }

  function InferUnary(ctx: Ctx, s: Store, e: Expr, fuel: nat): (res: Result<(Store, Option<Type>), UnifyError>)
    requires e.Unary?
    ensures res.Success? ==> res.value.1 == OutType(e) && TypeSubst.Extends(s, res.value.0)
    decreases e, 1
  {
    var pa :- InferOpt(ctx, s, e.arg, fuel);
    var s1 :- UnifyOpt(pa.0, pa.1, UnaryOperand(e.ukind), fuel);
    Success((s1, Some(UnaryResult(e.ukind))))
  }

  function InferCompare(ctx: Ctx, s: Store, e: Expr, fuel: nat): (res: Result<(Store, Option<Type>), UnifyError>)
    requires e.Compare?
    ensures res.Success? ==> res.value.1 == OutType(e) && TypeSubst.Extends(s, res.value.0)
    decreases e, 1
  {
    var pa :- InferOpt(ctx, s, e.a, fuel);
    var pb :- InferOpt(ctx, pa.0, e.b, fuel);
    var s1 :- UnifyOpt(pb.0, pa.1, e.elemT, fuel);
    var s2 :- UnifyOpt(s1, pb.1, e.elemT, fuel);
    Success((s2, Some(Bool)))
  }

  function InferTernary(ctx: Ctx, s: Store, e: Expr, fuel: nat): (res: Result<(Store, Option<Type>), UnifyError>)
    requires e.Ternary?
    ensures res.Success? ==> res.value.1 == OutType(e) && TypeSubst.Extends(s, res.value.0)
    decreases e, 1
  {
    var pc :- InferOpt(ctx, s, e.cond, fuel);
    var s1 :- UnifyOpt(pc.0, pc.1, Bool, fuel);
    var pt :- InferOpt(ctx, s1, e.thenE, fuel);
    var pe :- InferOpt(ctx, pt.0, e.elseE, fuel);
    var s2 :- UnifyOpt(pe.0, pt.1, e.outT, fuel);
    var s3 :- UnifyOpt(s2, pe.1, e.outT, fuel);
    Success((s3, Some(e.outT)))
  }

  function InferCons(ctx: Ctx, s: Store, e: Expr, fuel: nat): (res: Result<(Store, Option<Type>), UnifyError>)
    requires e.Cons?
    ensures res.Success? ==> res.value.1 == OutType(e) && TypeSubst.Extends(s, res.value.0)
    decreases e, 1
  {
    var pr :- InferOpt(ctx, s, e.rest, fuel);
    var pf :- InferOpt(ctx, pr.0, e.first, fuel);
    var s1 :- ExpectOpt(pf.0, List(e.elemT), pr.1, fuel);
    var s2 :- ExpectOpt(s1, e.elemT, pf.1, fuel);
    Success((s2, Some(List(e.elemT))))
  }

  function InferPairCreate(ctx: Ctx, s: Store, e: Expr, fuel: nat): (res: Result<(Store, Option<Type>), UnifyError>)
    requires e.PairCreate?
    ensures res.Success? ==> res.value.1 == OutType(e) && TypeSubst.Extends(s, res.value.0)
    decreases e, 1
  {
    var pf :- InferOpt(ctx, s, e.first, fuel);
    var ps :- InferOpt(ctx, pf.0, e.second, fuel);
    var s1 :- UnifyOpt(ps.0, pf.1, e.firstT, fuel);
    var s2 :- UnifyOpt(s1, ps.1, e.secondT, fuel);
    Success((s2, Some(Pair(e.firstT, e.secondT))))
  }

  /** `pair_first_typed` and `pair_second_typed`. */
  function InferProjection(ctx: Ctx, s: Store, e: Expr, fuel: nat): (res: Result<(Store, Option<Type>), UnifyError>)
    requires e.Fst? || e.Snd?
    ensures res.Success? ==> res.value.1 == OutType(e) && TypeSubst.Extends(s, res.value.0)
    decreases e, 1
  {
    var pp :- InferOpt(ctx, s, e.pair, fuel);
    var s1 :- UnifyOpt(pp.0, pp.1, Pair(e.firstT, e.secondT), fuel);
    Success((s1, Some(if e.Fst? then e.firstT else e.secondT)))
  }

  function InferLambda(ctx: Ctx, s: Store, e: Expr, fuel: nat): (res: Result<(Store, Option<Type>), UnifyError>)
    requires e.Lambda?
    ensures res.Success? ==> res.value.1 == OutType(e) && TypeSubst.Extends(s, res.value.0)
    decreases e, 1
  {
    var pb :- InferOpt(ctx.(env := ctx.env[e.name := Mono(e.argT)]), s, e.body, fuel);
    var s1 :- UnifyOpt(pb.0, pb.1, e.retT, fuel);
    Success((s1, Some(Fun(e.argT, e.retT))))
  }

  function InferApp(ctx: Ctx, s: Store, e: Expr, fuel: nat): (res: Result<(Store, Option<Type>), UnifyError>)
    requires e.App?
    ensures res.Success? ==> res.value.1 == OutType(e) && TypeSubst.Extends(s, res.value.0)
    decreases e, 1
  {
    var pf :- InferOpt(ctx, s, e.fn, fuel);
    var pa :- InferOpt(ctx, pf.0, e.arg, fuel);
    var s1 :- UnifyOpt(pa.0, pf.1, Fun(e.argT, e.retT), fuel);
    var s2 :- UnifyOpt(s1, pa.1, e.argT, fuel);
    Success((s2, Some(e.retT)))
  }

  function InferMatch(ctx: Ctx, s: Store, e: Expr, fuel: nat): (res: Result<(Store, Option<Type>), UnifyError>)
    requires e.Match?
    ensures res.Success? ==> res.value.1 == OutType(e) && TypeSubst.Extends(s, res.value.0)
    decreases e, 1
  {
    var pi :- InferOpt(ctx, s, e.input, fuel);
    var s1 :- ExpectOpt(pi.0, e.inT, pi.1, fuel);
    var s2 :- InferArms(ctx, s1, e, 0, fuel);
    Success((s2, Some(e.outT)))
  }

  /** The scheme a reference unifies through: the environment's, else the
      bound value's when orphans may be unified, else none. */
  function RefScheme(ctx: Ctx, e: Expr): Option<Scheme>
    requires e.Var?
  {
    if e.name in ctx.env then Some(ctx.env[e.name])
    else if ctx.unifyOrphan then e.orphan
    else None
  }

  function InferVar(ctx: Ctx, s: Store, e: Expr, fuel: nat): (res: Result<(Store, Option<Type>), UnifyError>)
    requires e.Var?
    ensures res.Success? ==> res.value.1 == OutType(e) && TypeSubst.Extends(s, res.value.0)
  {
    var sc := RefScheme(ctx, e);
    if sc.None? then Success((s, Some(e.t)))
    else
      var s1 :- Unify(s, Instance(ctx, sc.value), e.t, fuel);
      Success((s1, Some(e.t)))
  }

  /** The type of the bound name before EXP1 is inferred: EXP1's type when
      there are no arguments, else the curried function type of the
      arguments and EXP1. */
  function LetBound(e: Expr): (r: (Type, Type))
    requires e.Let?
  {
    if |e.args| == 0 then (e.exp1T, e.varT)
    else (e.varT, CreateFunType(ParamTypes(e.args) + [e.exp1T]))
  }

  function InferLet(ctx: Ctx, s: Store, e: Expr, fuel: nat): (res: Result<(Store, Option<Type>), UnifyError>)
    requires e.Let?
    ensures res.Success? ==> res.value.1 == OutType(e) && TypeSubst.Extends(s, res.value.0)
    decreases e, 1
  {
    var s1 :- Unify(s, LetBound(e).0, LetBound(e).1, fuel);
    var p1 :- InferOpt(ctx.(env := Exp1Env(ctx.env, e.varT, e.name, e.isRec, e.args)), s1, e.e1, fuel);
    var s2 :- UnifyOpt(p1.0, p1.1, e.exp1T, fuel);
    var p2 :- InferOpt(ctx.(env := ctx.env[e.name := LetScheme(s2, e.varT)]), s2, e.e2, fuel);
    if e.isStatement then
      Success((p2.0, None))
    else
      var s3 :- UnifyOpt(p2.0, p2.1, e.exp2T, fuel);
      Success((s3, Some(e.exp2T)))
  }

  /** The ADDi loop of `lists_create_with_typed`, from item `i` on: infer an
      item, unify it with the element type, go on. */
  function InferItems(ctx: Ctx, s: Store, e: Expr, i: nat, fuel: nat): (res: Result<Store, UnifyError>)
    requires e.ListCreate? && i <= |e.items|
    ensures res.Success? ==> TypeSubst.Extends(s, res.value)
    decreases e, 0, |e.items| - i
  {
    if i == |e.items| then Success(s)
    else
      var p :- InferOpt(ctx, s, e.items[i], fuel);
      var s1 :- UnifyOpt(p.0, p.1, e.elemT, fuel);
      InferItems(ctx, s1, e, i + 1, fuel)
  }

  /** The arm loop of `match_typed`, from arm `i` on: infer PATTERNi and
      OUTPUTi, then unify PATTERN(`inT`) with the pattern and `outT` with the
      output. */
  function InferArms(ctx: Ctx, s: Store, e: Expr, i: nat, fuel: nat): (res: Result<Store, UnifyError>)
    requires e.Match? && i <= |e.arms|
    ensures res.Success? ==> TypeSubst.Extends(s, res.value)
    decreases e, 0, |e.arms| - i
  {
    if i == |e.arms| then Success(s)
    else
      var pp :- InferOpt(ctx, s, e.arms[i].pattern, fuel);
      var po :- InferOpt(ctx, pp.0, e.arms[i].output, fuel);
      var s1 :- ExpectOpt(po.0, Pattern(e.inT), pp.1, fuel);
      var s2 :- ExpectOpt(s1, e.outT, po.1, fuel);
      InferArms(ctx, s2, e, i + 1, fuel)
  }
}

=== FILE: typed_blocks_sound.dfy ===
/** What a successful inference establishes.

    `Typed` is a typing judgement written independently of `Infer`: it
    states, for every block, which types its inputs must unify with, and
    which scheme each name has in the environment its children see.
    `InferSound` proves that when `Infer` succeeds on an acyclic store it
    leaves an acyclic store in which the whole tree is `Typed`. */
module TypedBlocksSound {
  import opened Wrappers
  import opened TypeExpr
  import opened TypeSubst
  import opened TypeUnify
  import opened TypedBlocks

  /** A type, when there is one, is unified with `expected`. */
  ghost predicate Fits(s: Store, t: Option<Type>, expected: Type) {
    t.Some? ==> Unified(s, t.value, expected)
  }

  /** An input is empty, or holds a typed block whose output fits. */
  ghost predicate ChildTyped(ctx: Ctx, s: Store, c: Option<Expr>, expected: Type)
    decreases c, 0
  {
    c.Some? ==> Typed(ctx, s, c.value) && Fits(s, OutType(c.value), expected)
  }

  /** The body of a `let`: the next block of a statement, or EXP2. */
  ghost predicate BodyTyped(ctx: Ctx, s: Store, c: Option<Expr>, expected: Type, isStatement: bool)
    decreases c, 1
  {
    if isStatement then c.Some? ==> Typed(ctx, s, c.value)
    else ChildTyped(ctx, s, c, expected)
  }

  ghost predicate Typed(ctx: Ctx, s: Store, e: Expr)
    decreases e, 2
  {
    match e
    case Leaf(_) => true
    case BinOp(k, a, b) => ChildTyped(ctx, s, a, Operand(k)) && ChildTyped(ctx, s, b, Operand(k))
    case Unary(k, a) => ChildTyped(ctx, s, a, UnaryOperand(k))
    case Compare(elemT, a, b) => ChildTyped(ctx, s, a, elemT) && ChildTyped(ctx, s, b, elemT)
    case Ternary(outT, cond, thenE, elseE) =>
      ChildTyped(ctx, s, cond, Bool) && ChildTyped(ctx, s, thenE, outT) && ChildTyped(ctx, s, elseE, outT)
    case ListCreate(elemT, items) =>
      forall i :: 0 <= i < |items| ==> ChildTyped(ctx, s, items[i], elemT)
    case Cons(elemT, first, rest) =>
      ChildTyped(ctx, s, first, elemT) && ChildTyped(ctx, s, rest, List(elemT))
    case PairCreate(a, b, first, second) =>
      ChildTyped(ctx, s, first, a) && ChildTyped(ctx, s, second, b)
    case Fst(a, b, pair) => ChildTyped(ctx, s, pair, Pair(a, b))
    case Snd(a, b, pair) => ChildTyped(ctx, s, pair, Pair(a, b))
    case Lambda(argT, retT, name, body) =>
      ChildTyped(ctx.(env := ctx.env[name := Mono(argT)]), s, body, retT)
    case App(argT, retT, fn, arg) =>
      ChildTyped(ctx, s, fn, Fun(argT, retT)) && ChildTyped(ctx, s, arg, argT)
    case Match(inT, outT, input, arms) =>
      ChildTyped(ctx, s, input, inT) &&
      forall i :: 0 <= i < |arms| ==>
        ChildTyped(ctx, s, arms[i].pattern, Pattern(inT)) && ChildTyped(ctx, s, arms[i].output, outT)
    case Var(t, name, orphan) =>
      var sc := RefScheme(ctx, e);
      sc.Some? ==> Unified(s, Instance(ctx, sc.value), t)
    case Let(varT, exp1T, exp2T, name, isRec, args, e1, e2, isStatement) =>
      Unified(s, LetBound(e).0, LetBound(e).1) &&
      ChildTyped(ctx.(env := Exp1Env(ctx.env, varT, name, isRec, args)), s, e1, exp1T) &&
      (BodyTyped(ctx.(env := ctx.env[name := Mono(varT)]), s, e2, exp2T, isStatement) ||
       (Deref(s, varT).Fun? && BodyTyped(ctx.(env := ctx.env[name := Poly(varT)]), s, e2, exp2T, isStatement)))
  }

  // ---------------------------------------------------------------------
  // Typing survives later bindings.
  // ---------------------------------------------------------------------

  lemma FitsMono(s: Store, s': Store, r: map<string, nat>, r': map<string, nat>, t: Option<Type>, expected: Type)
    requires Ranked(s, r) && Ranked(s', r') && Extends(s, s') && Fits(s, t, expected)
    ensures Fits(s', t, expected)
  {
    if t.Some? {
      UnifiedMono(s, s', r, r', t.value, expected);
    }
  }

  lemma {:induction false} ChildTypedMono(ctx: Ctx, s: Store, s': Store, r: map<string, nat>, r': map<string, nat>, c: Option<Expr>, expected: Type)
    requires Ranked(s, r) && Ranked(s', r') && Extends(s, s') && ChildTyped(ctx, s, c, expected)
    ensures ChildTyped(ctx, s', c, expected)
    decreases c, 0
  {
    if c.Some? {
      TypedMono(ctx, s, s', r, r', c.value);
      FitsMono(s, s', r, r', OutType(c.value), expected);
    }
  }

  lemma {:induction false} BodyTypedMono(ctx: Ctx, s: Store, s': Store, r: map<string, nat>, r': map<string, nat>, c: Option<Expr>, expected: Type, isStatement: bool)
    requires Ranked(s, r) && Ranked(s', r') && Extends(s, s') && BodyTyped(ctx, s, c, expected, isStatement)
    ensures BodyTyped(ctx, s', c, expected, isStatement)
    decreases c, 1
  {
    if isStatement {
      if c.Some? {
        TypedMono(ctx, s, s', r, r', c.value);
      }
    } else {
      ChildTypedMono(ctx, s, s', r, r', c, expected);
    }
  }

  /** A typed tree stays typed as the store gains bindings. */
  lemma {:induction false} TypedMono(ctx: Ctx, s: Store, s': Store, r: map<string, nat>, r': map<string, nat>, e: Expr)
    requires Ranked(s, r) && Ranked(s', r') && Extends(s, s') && Typed(ctx, s, e)
    ensures Typed(ctx, s', e)
    decreases e, 2
  {
    match e
    case Leaf(_) =>
    case BinOp(k, a, b) =>
      ChildTypedMono(ctx, s, s', r, r', a, Operand(k));
      ChildTypedMono(ctx, s, s', r, r', b, Operand(k));
    case Unary(k, a) =>
      ChildTypedMono(ctx, s, s', r, r', a, UnaryOperand(k));
    case Compare(elemT, a, b) =>
      ChildTypedMono(ctx, s, s', r, r', a, elemT);
      ChildTypedMono(ctx, s, s', r, r', b, elemT);
    case Ternary(outT, cond, thenE, elseE) =>
      ChildTypedMono(ctx, s, s', r, r', cond, Bool);
      ChildTypedMono(ctx, s, s', r, r', thenE, outT);
      ChildTypedMono(ctx, s, s', r, r', elseE, outT);
    case ListCreate(elemT, items) =>
      forall i | 0 <= i < |items|
        ensures ChildTyped(ctx, s', items[i], elemT)
      {
        ChildTypedMono(ctx, s, s', r, r', items[i], elemT);
      }
    case Cons(elemT, first, rest) =>
      ChildTypedMono(ctx, s, s', r, r', first, elemT);
      ChildTypedMono(ctx, s, s', r, r', rest, List(elemT));
    case PairCreate(a, b, first, second) =>
      ChildTypedMono(ctx, s, s', r, r', first, a);
      ChildTypedMono(ctx, s, s', r, r', second, b);
    case Fst(a, b, pair) =>
      ChildTypedMono(ctx, s, s', r, r', pair, Pair(a, b));
    case Snd(a, b, pair) =>
      ChildTypedMono(ctx, s, s', r, r', pair, Pair(a, b));
    case Lambda(argT, retT, name, body) =>
      ChildTypedMono(ctx.(env := ctx.env[name := Mono(argT)]), s, s', r, r', body, retT);
    case App(argT, retT, fn, arg) =>
      ChildTypedMono(ctx, s, s', r, r', fn, Fun(argT, retT));
      ChildTypedMono(ctx, s, s', r, r', arg, argT);
    case Match(inT, outT, input, arms) =>
      ChildTypedMono(ctx, s, s', r, r', input, inT);
      forall i | 0 <= i < |arms|
        ensures ChildTyped(ctx, s', arms[i].pattern, Pattern(inT))
        ensures ChildTyped(ctx, s', arms[i].output, outT)
      {
        ChildTypedMono(ctx, s, s', r, r', arms[i].pattern, Pattern(inT));
        ChildTypedMono(ctx, s, s', r, r', arms[i].output, outT);
      }
    case Var(t, name, orphan) =>
      var sc := RefScheme(ctx, e);
      if sc.Some? {
        UnifiedMono(s, s', r, r', Instance(ctx, sc.value), t);
      }
    case Let(varT, exp1T, exp2T, name, isRec, args, e1, e2, isStatement) =>
      UnifiedMono(s, s', r, r', LetBound(e).0, LetBound(e).1);
      ChildTypedMono(ctx.(env := Exp1Env(ctx.env, varT, name, isRec, args)), s, s', r, r', e1, exp1T);
      if BodyTyped(ctx.(env := ctx.env[name := Mono(varT)]), s, e2, exp2T, isStatement) {
        BodyTypedMono(ctx.(env := ctx.env[name := Mono(varT)]), s, s', r, r', e2, exp2T, isStatement);
      } else {
        DerefMono(s, s', r, r', varT);
        BodyTypedMono(ctx.(env := ctx.env[name := Poly(varT)]), s, s', r, r', e2, exp2T, isStatement);
      }
  }

  // ---------------------------------------------------------------------
  // Soundness of inference.
  // ---------------------------------------------------------------------

  /** `if (t) t.unify(expected)` leaves `t` unified with `expected`. */
  lemma UnifyOptSound(s: Store, r: map<string, nat>, t: Option<Type>, expected: Type, fuel: nat)
    returns (r': map<string, nat>)
    requires Ranked(s, r) && UnifyOpt(s, t, expected, fuel).Success?
    ensures Ranked(UnifyOpt(s, t, expected, fuel).value, r')
    ensures Fits(UnifyOpt(s, t, expected, fuel).value, t, expected)
  {
    if t.None? {
      r' := r;
    } else {
      r' := UnifySound(s, r, t.value, expected, fuel);
    }
  }

  /** `if (t) expected.unify(t)` leaves `t` unified with `expected`. */
  lemma ExpectOptSound(s: Store, r: map<string, nat>, expected: Type, t: Option<Type>, fuel: nat)
    returns (r': map<string, nat>)
    requires Ranked(s, r) && ExpectOpt(s, expected, t, fuel).Success?
    ensures Ranked(ExpectOpt(s, expected, t, fuel).value, r')
    ensures Fits(ExpectOpt(s, expected, t, fuel).value, t, expected)
  {
    if t.None? {
      r' := r;
    } else {
      r' := UnifySound(s, r, expected, t.value, fuel);
      UnifiedSym(ExpectOpt(s, expected, t, fuel).value, expected, t.value);
    }
  }

  /** A child typed at `sa` whose output was unified at `sb` is a typed
      input at every later store `sc`. */
  lemma ChildLift(ctx: Ctx, sa: Store, ra: map<string, nat>, sb: Store, rb: map<string, nat>,
                  sc: Store, rc: map<string, nat>, c: Option<Expr>, expected: Type)
    requires Ranked(sa, ra) && Ranked(sb, rb) && Ranked(sc, rc)
    requires Extends(sa, sb) && Extends(sb, sc)
    requires c.Some? ==> Typed(ctx, sa, c.value)
    requires Fits(sb, OptOut(c), expected)
    ensures ChildTyped(ctx, sc, c, expected)
  {
    if c.Some? {
      ExtendsTrans(sa, sb, sc);
      TypedMono(ctx, sa, sc, ra, rc, c.value);
      FitsMono(sb, sc, rb, rc, OutType(c.value), expected);
    }
  }

  lemma {:induction false} InferOptSound(ctx: Ctx, s: Store, r: map<string, nat>, c: Option<Expr>, fuel: nat)
    returns (r': map<string, nat>)
    requires Ranked(s, r) && InferOpt(ctx, s, c, fuel).Success?
    ensures Ranked(InferOpt(ctx, s, c, fuel).value.0, r')
    ensures c.Some? ==> Typed(ctx, InferOpt(ctx, s, c, fuel).value.0, c.value)
    decreases c, 3
  {
    if c.None? {
      r' := r;
    } else {
      r' := InferSound(ctx, s, r, c.value, fuel);
    }
  }

  /** Inference that succeeds on an acyclic store leaves an acyclic store in
      which the block and everything below it are typed. */
  lemma {:induction false} InferSound(ctx: Ctx, s: Store, r: map<string, nat>, e: Expr, fuel: nat)
    returns (r': map<string, nat>)
    requires Ranked(s, r) && Infer(ctx, s, e, fuel).Success?
    ensures Ranked(Infer(ctx, s, e, fuel).value.0, r')
    ensures Typed(ctx, Infer(ctx, s, e, fuel).value.0, e)
    decreases e, 2
  {
    match e
    case Leaf(_) => r' := r;
    case BinOp(_, _, _) => r' := InferBinOpSound(ctx, s, r, e, fuel);
    case Unary(_, _) => r' := InferUnarySound(ctx, s, r, e, fuel);
    case Compare(_, _, _) => r' := InferCompareSound(ctx, s, r, e, fuel);
    case Ternary(_, _, _, _) => r' := InferTernarySound(ctx, s, r, e, fuel);
    case ListCreate(_, _) => r' := InferItemsSound(ctx, s, r, e, 0, fuel);
    case Cons(_, _, _) => r' := InferConsSound(ctx, s, r, e, fuel);
    case PairCreate(_, _, _, _) => r' := InferPairCreateSound(ctx, s, r, e, fuel);
    case Fst(_, _, _) => r' := InferProjectionSound(ctx, s, r, e, fuel);
    case Snd(_, _, _) => r' := InferProjectionSound(ctx, s, r, e, fuel);
    case Lambda(_, _, _, _) => r' := InferLambdaSound(ctx, s, r, e, fuel);
    case App(_, _, _, _) => r' := InferAppSound(ctx, s, r, e, fuel);
    case Match(_, _, _, _) => r' := InferMatchSound(ctx, s, r, e, fuel);
    case Var(_, _, _) => r' := InferVarSound(ctx, s, r, e, fuel);
    case Let(_, _, _, _, _, _, _, _, _) => r' := InferLetSound(ctx, s, r, e, fuel);
  }

  lemma {:induction false} InferBinOpSound(ctx: Ctx, s: Store, r: map<string, nat>, e: Expr, fuel: nat)
    returns (r': map<string, nat>)
    requires e.BinOp? && Ranked(s, r) && InferBinOp(ctx, s, e, fuel).Success?
    ensures Ranked(InferBinOp(ctx, s, e, fuel).value.0, r')
    ensures ChildTyped(ctx, InferBinOp(ctx, s, e, fuel).value.0, e.a, Operand(e.kind))
    ensures ChildTyped(ctx, InferBinOp(ctx, s, e, fuel).value.0, e.b, Operand(e.kind))
    decreases e, 1
  {
    var pa := InferOpt(ctx, s, e.a, fuel).value;
    var ra := InferOptSound(ctx, s, r, e.a, fuel);
    var pb := InferOpt(ctx, pa.0, e.b, fuel).value;
    var rb := InferOptSound(ctx, pa.0, ra, e.b, fuel);
    var s1 := UnifyOpt(pb.0, pa.1, Operand(e.kind), fuel).value;
    var r1 := UnifyOptSound(pb.0, rb, pa.1, Operand(e.kind), fuel);
    var s2 := UnifyOpt(s1, pb.1, Operand(e.kind), fuel).value;
    r' := UnifyOptSound(s1, r1, pb.1, Operand(e.kind), fuel);
    ExtendsTrans(pa.0, pb.0, s1);
    ExtendsRefl(s2);
    ChildLift(ctx, pa.0, ra, s1, r1, s2, r', e.a, Operand(e.kind));
    ChildLift(ctx, pb.0, rb, s2, r', s2, r', e.b, Operand(e.kind));
  }

  lemma {:induction false} InferUnarySound(ctx: Ctx, s: Store, r: map<string, nat>, e: Expr, fuel: nat)
    returns (r': map<string, nat>)
    requires e.Unary? && Ranked(s, r) && InferUnary(ctx, s, e, fuel).Success?
    ensures Ranked(InferUnary(ctx, s, e, fuel).value.0, r')
    ensures ChildTyped(ctx, InferUnary(ctx, s, e, fuel).value.0, e.arg, UnaryOperand(e.ukind))
    decreases e, 1
  {
    var pa := InferOpt(ctx, s, e.arg, fuel).value;
    var ra := InferOptSound(ctx, s, r, e.arg, fuel);
    var s1 := UnifyOpt(pa.0, pa.1, UnaryOperand(e.ukind), fuel).value;
    r' := UnifyOptSound(pa.0, ra, pa.1, UnaryOperand(e.ukind), fuel);
    ExtendsRefl(s1);
    ChildLift(ctx, pa.0, ra, s1, r', s1, r', e.arg, UnaryOperand(e.ukind));
  }

  lemma {:induction false} InferCompareSound(ctx: Ctx, s: Store, r: map<string, nat>, e: Expr, fuel: nat)
    returns (r': map<string, nat>)
    requires e.Compare? && Ranked(s, r) && InferCompare(ctx, s, e, fuel).Success?
    ensures Ranked(InferCompare(ctx, s, e, fuel).value.0, r')
    ensures ChildTyped(ctx, InferCompare(ctx, s, e, fuel).value.0, e.a, e.elemT)
    ensures ChildTyped(ctx, InferCompare(ctx, s, e, fuel).value.0, e.b, e.elemT)
    decreases e, 1
  {
    var pa := InferOpt(ctx, s, e.a, fuel).value;
    var ra := InferOptSound(ctx, s, r, e.a, fuel);
    var pb := InferOpt(ctx, pa.0, e.b, fuel).value;
    var rb := InferOptSound(ctx, pa.0, ra, e.b, fuel);
    var s1 := UnifyOpt(pb.0, pa.1, e.elemT, fuel).value;
    var r1 := UnifyOptSound(pb.0, rb, pa.1, e.elemT, fuel);
    var s2 := UnifyOpt(s1, pb.1, e.elemT, fuel).value;
    r' := UnifyOptSound(s1, r1, pb.1, e.elemT, fuel);
    ExtendsTrans(pa.0, pb.0, s1);
    ExtendsRefl(s2);
    ChildLift(ctx, pa.0, ra, s1, r1, s2, r', e.a, e.elemT);
    ChildLift(ctx, pb.0, rb, s2, r', s2, r', e.b, e.elemT);
  }

  lemma {:induction false} InferTernarySound(ctx: Ctx, s: Store, r: map<string, nat>, e: Expr, fuel: nat)
    returns (r': map<string, nat>)
    requires e.Ternary? && Ranked(s, r) && InferTernary(ctx, s, e, fuel).Success?
    ensures Ranked(InferTernary(ctx, s, e, fuel).value.0, r')
    ensures ChildTyped(ctx, InferTernary(ctx, s, e, fuel).value.0, e.cond, Bool)
    ensures ChildTyped(ctx, InferTernary(ctx, s, e, fuel).value.0, e.thenE, e.outT)
    ensures ChildTyped(ctx, InferTernary(ctx, s, e, fuel).value.0, e.elseE, e.outT)
    decreases e, 1
  {
    var pc := InferOpt(ctx, s, e.cond, fuel).value;
    var rc := InferOptSound(ctx, s, r, e.cond, fuel);
    var s1 := UnifyOpt(pc.0, pc.1, Bool, fuel).value;
    var r1 := UnifyOptSound(pc.0, rc, pc.1, Bool, fuel);
    var pt := InferOpt(ctx, s1, e.thenE, fuel).value;
    var rt := InferOptSound(ctx, s1, r1, e.thenE, fuel);
    var pe := InferOpt(ctx, pt.0, e.elseE, fuel).value;
    var re := InferOptSound(ctx, pt.0, rt, e.elseE, fuel);
    var s2 := UnifyOpt(pe.0, pt.1, e.outT, fuel).value;
    var r2 := UnifyOptSound(pe.0, re, pt.1, e.outT, fuel);
    var s3 := UnifyOpt(s2, pe.1, e.outT, fuel).value;
    r' := UnifyOptSound(s2, r2, pe.1, e.outT, fuel);
    ExtendsTrans(pt.0, pe.0, s2);
    ExtendsTrans(s1, pt.0, s2);
    ExtendsTrans(s1, s2, s3);
    ExtendsRefl(s3);
    ChildLift(ctx, pc.0, rc, s1, r1, s3, r', e.cond, Bool);
    ChildLift(ctx, pt.0, rt, s2, r2, s3, r', e.thenE, e.outT);
    ChildLift(ctx, pe.0, re, s3, r', s3, r', e.elseE, e.outT);
  }

  /** The ADDi loop leaves every remaining item typed as an element. */
  lemma {:induction false} InferItemsSound(ctx: Ctx, s: Store, r: map<string, nat>, e: Expr, i: nat, fuel: nat)
    returns (r': map<string, nat>)
    requires e.ListCreate? && i <= |e.items| && Ranked(s, r) && InferItems(ctx, s, e, i, fuel).Success?
    ensures Ranked(InferItems(ctx, s, e, i, fuel).value, r')
    ensures forall j :: i <= j < |e.items| ==> ChildTyped(ctx, InferItems(ctx, s, e, i, fuel).value, e.items[j], e.elemT)
    decreases e, 0, |e.items| - i
  {
    if i == |e.items| {
      r' := r;
    } else {
      var p := InferOpt(ctx, s, e.items[i], fuel).value;
      var rp := InferOptSound(ctx, s, r, e.items[i], fuel);
      var s1 := UnifyOpt(p.0, p.1, e.elemT, fuel).value;
      var r1 := UnifyOptSound(p.0, rp, p.1, e.elemT, fuel);
      var s' := InferItems(ctx, s1, e, i + 1, fuel).value;
      r' := InferItemsSound(ctx, s1, r1, e, i + 1, fuel);
      ChildLift(ctx, p.0, rp, s1, r1, s', r', e.items[i], e.elemT);
    }
  }

  lemma {:induction false} InferConsSound(ctx: Ctx, s: Store, r: map<string, nat>, e: Expr, fuel: nat)
    returns (r': map<string, nat>)
    requires e.Cons? && Ranked(s, r) && InferCons(ctx, s, e, fuel).Success?
    ensures Ranked(InferCons(ctx, s, e, fuel).value.0, r')
    ensures ChildTyped(ctx, InferCons(ctx, s, e, fuel).value.0, e.first, e.elemT)
    ensures ChildTyped(ctx, InferCons(ctx, s, e, fuel).value.0, e.rest, List(e.elemT))
    decreases e, 1
  {
    var pr := InferOpt(ctx, s, e.rest, fuel).value;
    var rr := InferOptSound(ctx, s, r, e.rest, fuel);
    var pf := InferOpt(ctx, pr.0, e.first, fuel).value;
    var rf := InferOptSound(ctx, pr.0, rr, e.first, fuel);
    var s1 := ExpectOpt(pf.0, List(e.elemT), pr.1, fuel).value;
    var r1 := ExpectOptSound(pf.0, rf, List(e.elemT), pr.1, fuel);
    var s2 := ExpectOpt(s1, e.elemT, pf.1, fuel).value;
    r' := ExpectOptSound(s1, r1, e.elemT, pf.1, fuel);
    ExtendsTrans(pr.0, pf.0, s1);
    ExtendsRefl(s2);
    ChildLift(ctx, pr.0, rr, s1, r1, s2, r', e.rest, List(e.elemT));
    ChildLift(ctx, pf.0, rf, s2, r', s2, r', e.first, e.elemT);
  }

  lemma {:induction false} InferPairCreateSound(ctx: Ctx, s: Store, r: map<string, nat>, e: Expr, fuel: nat)
    returns (r': map<string, nat>)
    requires e.PairCreate? && Ranked(s, r) && InferPairCreate(ctx, s, e, fuel).Success?
    ensures Ranked(InferPairCreate(ctx, s, e, fuel).value.0, r')
    ensures ChildTyped(ctx, InferPairCreate(ctx, s, e, fuel).value.0, e.first, e.firstT)
    ensures ChildTyped(ctx, InferPairCreate(ctx, s, e, fuel).value.0, e.second, e.secondT)
    decreases e, 1
  {
    var pf := InferOpt(ctx, s, e.first, fuel).value;
    var rf := InferOptSound(ctx, s, r, e.first, fuel);
    var ps := InferOpt(ctx, pf.0, e.second, fuel).value;
    var rs := InferOptSound(ctx, pf.0, rf, e.second, fuel);
    var s1 := UnifyOpt(ps.0, pf.1, e.firstT, fuel).value;
    var r1 := UnifyOptSound(ps.0, rs, pf.1, e.firstT, fuel);
    var s2 := UnifyOpt(s1, ps.1, e.secondT, fuel).value;
    r' := UnifyOptSound(s1, r1, ps.1, e.secondT, fuel);
    ExtendsTrans(pf.0, ps.0, s1);
    ExtendsRefl(s2);
    ChildLift(ctx, pf.0, rf, s1, r1, s2, r', e.first, e.firstT);
    ChildLift(ctx, ps.0, rs, s2, r', s2, r', e.second, e.secondT);
  }

  lemma {:induction false} InferProjectionSound(ctx: Ctx, s: Store, r: map<string, nat>, e: Expr, fuel: nat)
    returns (r': map<string, nat>)
    requires (e.Fst? || e.Snd?) && Ranked(s, r) && InferProjection(ctx, s, e, fuel).Success?
    ensures Ranked(InferProjection(ctx, s, e, fuel).value.0, r')
    ensures ChildTyped(ctx, InferProjection(ctx, s, e, fuel).value.0, e.pair, Pair(e.firstT, e.secondT))
    decreases e, 1
  {
    var pp := InferOpt(ctx, s, e.pair, fuel).value;
    var rp := InferOptSound(ctx, s, r, e.pair, fuel);
    var s1 := UnifyOpt(pp.0, pp.1, Pair(e.firstT, e.secondT), fuel).value;
    r' := UnifyOptSound(pp.0, rp, pp.1, Pair(e.firstT, e.secondT), fuel);
    ExtendsRefl(s1);
    ChildLift(ctx, pp.0, rp, s1, r', s1, r', e.pair, Pair(e.firstT, e.secondT));
  }

  lemma {:induction false} InferLambdaSound(ctx: Ctx, s: Store, r: map<string, nat>, e: Expr, fuel: nat)
    returns (r': map<string, nat>)
    requires e.Lambda? && Ranked(s, r) && InferLambda(ctx, s, e, fuel).Success?
    ensures Ranked(InferLambda(ctx, s, e, fuel).value.0, r')
    ensures ChildTyped(ctx.(env := ctx.env[e.name := Mono(e.argT)]), InferLambda(ctx, s, e, fuel).value.0, e.body, e.retT)
    decreases e, 1
  {
    var ctx2 := ctx.(env := ctx.env[e.name := Mono(e.argT)]);
    var pb := InferOpt(ctx2, s, e.body, fuel).value;
    var rb := InferOptSound(ctx2, s, r, e.body, fuel);
    var s1 := UnifyOpt(pb.0, pb.1, e.retT, fuel).value;
    r' := UnifyOptSound(pb.0, rb, pb.1, e.retT, fuel);
    ExtendsRefl(s1);
    ChildLift(ctx2, pb.0, rb, s1, r', s1, r', e.body, e.retT);
  }

  lemma {:induction false} InferAppSound(ctx: Ctx, s: Store, r: map<string, nat>, e: Expr, fuel: nat)
    returns (r': map<string, nat>)
    requires e.App? && Ranked(s, r) && InferApp(ctx, s, e, fuel).Success?
    ensures Ranked(InferApp(ctx, s, e, fuel).value.0, r')
    ensures ChildTyped(ctx, InferApp(ctx, s, e, fuel).value.0, e.fn, Fun(e.argT, e.retT))
    ensures ChildTyped(ctx, InferApp(ctx, s, e, fuel).value.0, e.arg, e.argT)
    decreases e, 1
  {
    var pf := InferOpt(ctx, s, e.fn, fuel).value;
    var rf := InferOptSound(ctx, s, r, e.fn, fuel);
    var pa := InferOpt(ctx, pf.0, e.arg, fuel).value;
    var ra := InferOptSound(ctx, pf.0, rf, e.arg, fuel);
    var s1 := UnifyOpt(pa.0, pf.1, Fun(e.argT, e.retT), fuel).value;
    var r1 := UnifyOptSound(pa.0, ra, pf.1, Fun(e.argT, e.retT), fuel);
    var s2 := UnifyOpt(s1, pa.1, e.argT, fuel).value;
    r' := UnifyOptSound(s1, r1, pa.1, e.argT, fuel);
    ExtendsTrans(pf.0, pa.0, s1);
    ExtendsRefl(s2);
    ChildLift(ctx, pf.0, rf, s1, r1, s2, r', e.fn, Fun(e.argT, e.retT));
    ChildLift(ctx, pa.0, ra, s2, r', s2, r', e.arg, e.argT);
  }

  /** The arm loop leaves every remaining PATTERNi typed as PATTERN(`inT`)
      and every remaining OUTPUTi typed as `outT`. */
  lemma {:induction false} InferArmsSound(ctx: Ctx, s: Store, r: map<string, nat>, e: Expr, i: nat, fuel: nat)
    returns (r': map<string, nat>)
    requires e.Match? && i <= |e.arms| && Ranked(s, r) && InferArms(ctx, s, e, i, fuel).Success?
    ensures Ranked(InferArms(ctx, s, e, i, fuel).value, r')
    ensures forall j :: i <= j < |e.arms| ==>
      ChildTyped(ctx, InferArms(ctx, s, e, i, fuel).value, e.arms[j].pattern, Pattern(e.inT)) &&
      ChildTyped(ctx, InferArms(ctx, s, e, i, fuel).value, e.arms[j].output, e.outT)
    decreases e, 0, |e.arms| - i
  {
    if i == |e.arms| {
      r' := r;
    } else {
      var arm := e.arms[i];
      var pp := InferOpt(ctx, s, arm.pattern, fuel).value;
      var rp := InferOptSound(ctx, s, r, arm.pattern, fuel);
      var po := InferOpt(ctx, pp.0, arm.output, fuel).value;
      var ro := InferOptSound(ctx, pp.0, rp, arm.output, fuel);
      var s1 := ExpectOpt(po.0, Pattern(e.inT), pp.1, fuel).value;
      var r1 := ExpectOptSound(po.0, ro, Pattern(e.inT), pp.1, fuel);
      var s2 := ExpectOpt(s1, e.outT, po.1, fuel).value;
      var r2 := ExpectOptSound(s1, r1, e.outT, po.1, fuel);
      var s' := InferArms(ctx, s2, e, i + 1, fuel).value;
      r' := InferArmsSound(ctx, s2, r2, e, i + 1, fuel);
      ExtendsTrans(pp.0, po.0, s1);
      ExtendsTrans(s1, s2, s');
      ChildLift(ctx, pp.0, rp, s1, r1, s', r', arm.pattern, Pattern(e.inT));
      ChildLift(ctx, po.0, ro, s2, r2, s', r', arm.output, e.outT);
    }
  }

  lemma {:induction false} InferMatchSound(ctx: Ctx, s: Store, r: map<string, nat>, e: Expr, fuel: nat)
    returns (r': map<string, nat>)
    requires e.Match? && Ranked(s, r) && InferMatch(ctx, s, e, fuel).Success?
    ensures Ranked(InferMatch(ctx, s, e, fuel).value.0, r')
    ensures Typed(ctx, InferMatch(ctx, s, e, fuel).value.0, e)
    decreases e, 1
  {
    var pi := InferOpt(ctx, s, e.input, fuel).value;
    var ri := InferOptSound(ctx, s, r, e.input, fuel);
    var s1 := ExpectOpt(pi.0, e.inT, pi.1, fuel).value;
    var r1 := ExpectOptSound(pi.0, ri, e.inT, pi.1, fuel);
    var s2 := InferArms(ctx, s1, e, 0, fuel).value;
    r' := InferArmsSound(ctx, s1, r1, e, 0, fuel);
    ChildLift(ctx, pi.0, ri, s1, r1, s2, r', e.input, e.inT);
  }

  lemma InferVarSound(ctx: Ctx, s: Store, r: map<string, nat>, e: Expr, fuel: nat)
    returns (r': map<string, nat>)
    requires e.Var? && Ranked(s, r) && InferVar(ctx, s, e, fuel).Success?
    ensures Ranked(InferVar(ctx, s, e, fuel).value.0, r')
    ensures Typed(ctx, InferVar(ctx, s, e, fuel).value.0, e)
  {
    var sc := RefScheme(ctx, e);
    if sc.None? {
      r' := r;
    } else {
      r' := UnifySound(s, r, Instance(ctx, sc.value), e.t, fuel);
    }
  }

  lemma {:induction false} InferLetSound(ctx: Ctx, s: Store, r: map<string, nat>, e: Expr, fuel: nat)
    returns (r': map<string, nat>)
    requires e.Let? && Ranked(s, r) && InferLet(ctx, s, e, fuel).Success?
    ensures Ranked(InferLet(ctx, s, e, fuel).value.0, r')
    ensures Typed(ctx, InferLet(ctx, s, e, fuel).value.0, e)
    decreases e, 1
  {
    var ctx1 := ctx.(env := Exp1Env(ctx.env, e.varT, e.name, e.isRec, e.args));
    var s1 := Unify(s, LetBound(e).0, LetBound(e).1, fuel).value;
    var r1 := UnifySound(s, r, LetBound(e).0, LetBound(e).1, fuel);
    var p1 := InferOpt(ctx1, s1, e.e1, fuel).value;
    var rp1 := InferOptSound(ctx1, s1, r1, e.e1, fuel);
    var s2 := UnifyOpt(p1.0, p1.1, e.exp1T, fuel).value;
    var r2 := UnifyOptSound(p1.0, rp1, p1.1, e.exp1T, fuel);
    var sc := LetScheme(s2, e.varT);
    var ctx2 := ctx.(env := ctx.env[e.name := sc]);
    var p2 := InferOpt(ctx2, s2, e.e2, fuel).value;
    var rp2 := InferOptSound(ctx2, s2, r2, e.e2, fuel);
    var s' := InferLet(ctx, s, e, fuel).value.0;
    if e.isStatement {
      assert s' == p2.0;
      r' := rp2;
      assert BodyTyped(ctx2, s', e.e2, e.exp2T, true);
    } else {
      var s3 := UnifyOpt(p2.0, p2.1, e.exp2T, fuel).value;
      assert s' == s3;
      r' := UnifyOptSound(p2.0, rp2, p2.1, e.exp2T, fuel);
      ExtendsRefl(s3);
      ChildLift(ctx2, p2.0, rp2, s3, r', s3, r', e.e2, e.exp2T);
    }
    ExtendsTrans(s1, p1.0, s2);
    ExtendsTrans(s2, p2.0, s');
    ExtendsTrans(s1, s2, s');
    UnifiedMono(s1, s', r1, r', LetBound(e).0, LetBound(e).1);
    ChildLift(ctx1, p1.0, rp1, s2, r2, s', r', e.e1, e.exp1T);
    if sc.Poly? {
      DerefMono(s2, s', r2, r', e.varT);
    }
  }
}

=== FILE: typedlang.dfy ===
/** The TypedLang generator's shared helpers (generators/typedlang.js):
    the precedence table, string quoting, the final assembly of the code,
    and index adjustment for the text and list blocks.  Generated code is
    a `string`; the code of a child block is whatever the generator gave
    for it, the empty string standing for a missing child. */
module TypedLang {
  import opened Wrappers
  import opened CodeText

  // ---------------------------------------------------------------------
  // Precedence (the ORDER_* constants).
  // ---------------------------------------------------------------------

  const OrderAtomic: real := 0.0
  const OrderMember: real := 1.2
  const OrderFunctionCall: real := 2.0
  const OrderUnaryNegation: real := 4.3
  const OrderLogicalNot: real := 4.4
  const OrderMultiplication: real := 5.1
  const OrderDivision: real := 5.2
  const OrderSubtraction: real := 6.1
  const OrderAddition: real := 6.2
  const OrderRelational: real := 8.0
  const OrderEquality: real := 9.0
  const OrderLogicalAnd: real := 13.0
  const OrderLogicalOr: real := 14.0
  const OrderConditional: real := 15.0
  const OrderComma: real := 17.0
  const OrderNone: real := 99.0

  /** `x || fallback` on generated code: the empty string is falsy. */
  function OrElse(code: string, fallback: string): (r: string)
    ensures code != "" ==> r == code
    ensures code == "" ==> r == fallback
  {
    if code == "" then fallback else code
  }

  // ---------------------------------------------------------------------
  // quote_
  // ---------------------------------------------------------------------

  /** `s.replace(/c/g, rep)` for a single character `c`. */
  function ReplaceChar(s: string, c: char, rep: string): string {
    if |s| == 0 then ""
    else (if s[0] == c then rep else [s[0]]) + ReplaceChar(s[1..], c, rep)
  }

  lemma {:induction false} ReplaceCharAppend(a: string, b: string, c: char, rep: string)
    ensures ReplaceChar(a + b, c, rep) == ReplaceChar(a, c, rep) + ReplaceChar(b, c, rep)
    decreases |a|
  {
    if |a| == 0 {
      assert a + b == b;
    } else {
      assert (a + b)[1..] == a[1..] + b;
      ReplaceCharAppend(a[1..], b, c, rep);
    }
  }

  /** The escape of one character: a backslash before a backslash, a
      newline or a single quote. */
  function EscapeChar(x: char): string {
    if x == '\\' || x == '\n' || x == '\'' then ['\\', x] else [x]
  }

  /** Escaping every character on its own. */
  function Escape(s: string): string {
    if |s| == 0 then "" else EscapeChar(s[0]) + Escape(s[1..])
  }

  /** The three replacements `quote_` applies in turn. */
  function Replaced(s: string): string {
    ReplaceChar(ReplaceChar(ReplaceChar(s, '\\', "\\\\"), '\n', "\\\n"), '\'', "\\'")
  }

  /** `quote_(s)`: the escaped text between single quotes. */
  function Quote(s: string): (q: string)
    ensures |q| >= 2 && q[0] == '\'' && q[|q| - 1] == '\''
    ensures q == "'" + Escape(s) + "'"
  {
    ReplacedIsEscape(s);
    "'" + Replaced(s) + "'"
  }

  /** Backslashes are doubled first, so the backslashes the later two
      replacements insert are never doubled again: the three passes escape
      each character once. */
  lemma {:induction false} ReplacedIsEscape(s: string)
    ensures Replaced(s) == Escape(s)
    decreases |s|
  {
    if |s| > 0 {
      var head, tail := s[..1], s[1..];
      assert s == head + tail;
      var p1 := ReplaceChar(head, '\\', "\\\\");
      var p2 := ReplaceChar(p1, '\n', "\\\n");
      ReplaceCharAppend(head, tail, '\\', "\\\\");
      ReplaceCharAppend(p1, ReplaceChar(tail, '\\', "\\\\"), '\n', "\\\n");
      ReplaceCharAppend(p2, ReplaceChar(ReplaceChar(tail, '\\', "\\\\"), '\n', "\\\n"), '\'', "\\'");
      ReplacedIsEscape(tail);
      var x := s[0];
      assert ReplaceChar(head, '\\', "\\\\") == (if x == '\\' then "\\\\" else [x]);
      if x == '\\' {
        assert ReplaceChar("\\\\", '\n', "\\\n") == "\\\\";
        assert ReplaceChar("\\\\", '\'', "\\'") == "\\\\";
      } else if x == '\n' {
        assert ReplaceChar([x], '\n', "\\\n") == "\\\n";
        assert ReplaceChar("\\\n", '\'', "\\'") == "\\\n";
      } else if x == '\'' {
        assert ReplaceChar([x], '\n', "\\\n") == [x];
        assert ReplaceChar([x], '\'', "\\'") == "\\'";
      } else {
        assert ReplaceChar([x], '\n', "\\\n") == [x];
        assert ReplaceChar([x], '\'', "\\'") == [x];
      }
    }
  }

  /** Reading escaped text back: a backslash takes the next character as
      it is. */
  function Unescape(s: string): string {
    if |s| == 0 then ""
    else if s[0] == '\\' && |s| >= 2 then [s[1]] + Unescape(s[2..])
    else [s[0]] + Unescape(s[1..])
  }

  lemma {:induction false} UnescapeEscape(s: string)
    ensures Unescape(Escape(s)) == s
    decreases |s|
  {
    if |s| > 0 {
      var e := Escape(s);
      assert e == EscapeChar(s[0]) + Escape(s[1..]);
      UnescapeEscape(s[1..]);
      if s[0] == '\\' || s[0] == '\n' || s[0] == '\'' {
        assert e[2..] == Escape(s[1..]);
      } else {
        assert e[1..] == Escape(s[1..]);
      }
      assert s == [s[0]] + s[1..];
    }
  }

  /** What a quoted literal denotes. */
  function Unquote(q: string): string
    requires |q| >= 2
  {
    Unescape(q[1..|q| - 1])
  }

  /** A quoted string reads back as the original text. */
  lemma QuoteRoundTrip(s: string)
    ensures Unquote(Quote(s)) == s
  {
    var q := Quote(s);
    assert q[1..|q| - 1] == Escape(s);
    UnescapeEscape(s);
  }

  // ---------------------------------------------------------------------
  // scrubNakedValue and finish
  // ---------------------------------------------------------------------

  /** `scrubNakedValue(line)`: the line and exactly one newline. */
  function ScrubNakedValue(line: string): (r: string)
    ensures |r| == |line| + 1 && r[..|line|] == line && r[|line|] == '\n'
  {
    line + "\n"
  }

  /** Scrubbing adds exactly one line break. */
  lemma ScrubAddsOneLine(line: string)
    ensures Count(ScrubNakedValue(line), '\n') == Count(line, '\n') + 1
  {
    assert Count("\n", '\n') == 1;
    CountAppend(line, "\n", '\n');
  }

  /** `Array.prototype.join(sep)`. */
  function Join(xs: seq<string>, sep: string): string {
    if |xs| == 0 then ""
    else if |xs| == 1 then xs[0]
    else Join(xs[..|xs| - 1], sep) + sep + xs[|xs| - 1]
  }

  /** Each child's code, a missing one replaced by `fallback`. */
  function Defaulted(items: seq<string>, fallback: string): (r: seq<string>)
    ensures |r| == |items|
    ensures forall i :: 0 <= i < |items| ==> r[i] == OrElse(items[i], fallback)
  {
    seq(|items|, i requires 0 <= i < |items| => OrElse(items[i], fallback))
  }

  lemma DefaultedSnoc(items: seq<string>, x: string, fallback: string)
    ensures Defaulted(items + [x], fallback) == Defaulted(items, fallback) + [OrElse(x, fallback)]
  {
    var l, r := Defaulted(items + [x], fallback), Defaulted(items, fallback) + [OrElse(x, fallback)];
    assert forall i :: 0 <= i < |items| ==> l[i] == r[i] by {
      forall i | 0 <= i < |items| ensures l[i] == r[i] {
        assert (items + [x])[i] == items[i];
      }
    }
    assert l[|items|] == r[|items|];
  }

  /** Joining one more element puts the separator and the element after
      what was joined before. */
  lemma JoinSnoc(xs: seq<string>, x: string, sep: string)
    requires |xs| > 0
    ensures Join(xs + [x], sep) == Join(xs, sep) + sep + x
  {
    assert (xs + [x])[..|xs|] == xs;
  }

  /** Joining two or three elements. */
  lemma JoinThree(a: string, b: string, c: string, sep: string)
    ensures Join([a, b], sep) == a + sep + b
    ensures Join([a, b, c], sep) == a + sep + b + sep + c
  {
    assert [a, b][..1] == [a];
    assert [a, b, c][..2] == [a, b];
  }

  /** The length of a join: the elements and one separator between each
      two neighbours. */
  function TotalLength(xs: seq<string>): nat {
    if |xs| == 0 then 0 else TotalLength(xs[..|xs| - 1]) + |xs[|xs| - 1]|
  }

  lemma {:induction false} JoinLength(xs: seq<string>, sep: string)
    requires |xs| > 0
    ensures |Join(xs, sep)| == TotalLength(xs) + (|xs| - 1) * |sep|
    decreases |xs|
  {
    if |xs| > 1 {
      JoinLength(xs[..|xs| - 1], sep);
    }
  }

  /** The generator's per-run state: the definitions in the order they
      were added (absent once cleaned up) and the function-name map. */
  datatype GenState = GenState(definitions: Option<seq<string>>, functionNames: Option<map<string, string>>)

  /** `finish(code)`: the definitions joined by blank lines, two more
      blank lines, then the code; the definitions and function names are
      cleared. */
  function Finish(st: GenState, code: string): (r: (string, GenState))
    ensures r.1 == GenState(None, None)
    ensures var defs := st.definitions.GetOr([]);
      var head := |r.0| - |code|;
      && |r.0| >= |code| + 3
      && r.0[head..] == code
      && r.0[head - 3..head] == "\n\n\n"
      && r.0[..head - 3] == Join(defs, "\n\n")
  {
    var defs := st.definitions.GetOr([]);
    var text := Join(defs, "\n\n") + "\n\n\n" + code;
    assert text[..|Join(defs, "\n\n")|] == Join(defs, "\n\n");
    (text, GenState(None, None))
  }

  /** `finish` leaves no definitions behind: finishing again writes only
      the three line breaks before the code. */
  lemma FinishClears(st: GenState, code: string, code2: string)
    ensures Finish(Finish(st, code).1, code2).0 == "\n\n\n" + code2
  {
    var r := Finish(Finish(st, code).1, code2).0;
    assert r[..|r| - |code2| - 3] == Join([], "\n\n") == "";
  }

  // ---------------------------------------------------------------------
  // getAdjusted
  // ---------------------------------------------------------------------

  /** Decimal digits of a natural number, as JavaScript prints it. */
  function NatToString(n: nat): (s: string)
    ensures |s| > 0
    decreases n
  {
    var digit := ["0123456789"[n % 10]];
    if n < 10 then digit else NatToString(n / 10) + digit
  }

  /** What `getAdjusted` returns: a literal index it adjusts as a number
      (`parseFloat(at) + delta`, negated on request), or code. */
  datatype Adjusted = NumberIndex(literal: string, delta: int, negate: bool) | CodeIndex(code: string)

  /** The order `opt_order || ORDER_NONE` gives: an absent order and
      ORDER_ATOMIC, which is 0 and so falsy, both become ORDER_NONE. */
  function OuterOrder(optOrder: Option<real>): (o: real)
    ensures optOrder.None? || optOrder.value == 0.0 ==> o == OrderNone
    ensures optOrder.Some? && optOrder.value != 0.0 ==> o == optOrder.value
  {
    if optOrder.None? || optOrder.value == 0.0 then OrderNone else optOrder.value
  }

  /** The order the index's own code is asked for. */
  function RequestOrder(delta: int, negate: bool, order: real): real {
    if delta > 0 then OrderAddition
    else if delta < 0 then OrderSubtraction
    else if negate then OrderUnaryNegation
    else order
  }

  /** `getAdjusted(block, atId, opt_delta, opt_negate, opt_order)`, given
      the workspace's `oneBasedIndex`, the child's code for each requested
      order, and which code is a number literal. */
  function GetAdjusted(oneBased: bool, valueToCode: real -> string, isNumber: string -> bool,
                       optDelta: int, negate: bool, optOrder: Option<real>): (r: Adjusted)
    ensures var delta := if oneBased then optDelta - 1 else optDelta;
      r.NumberIndex? ==> r.delta == delta && r.negate == negate && r.literal != "" && isNumber(r.literal)
    ensures var delta := if oneBased then optDelta - 1 else optDelta;
      r.CodeIndex? ==> exists at :: at != "" && !isNumber(at) && r.code == AdjustCode(at, delta, negate, OuterOrder(optOrder))
    ensures var delta := if oneBased then optDelta - 1 else optDelta;
      valueToCode(RequestOrder(delta, negate, OuterOrder(optOrder))) == "" && r.NumberIndex? ==>
        r.literal == if oneBased then "1" else "0"
  {
    var delta := if oneBased then optDelta - 1 else optDelta;
    var order := OuterOrder(optOrder);
    var defaultAt := if oneBased then "1" else "0";
    var at := OrElse(valueToCode(RequestOrder(delta, negate, order)), defaultAt);
    if isNumber(at) then NumberIndex(at, delta, negate)
    else
      var code := AdjustCode(at, delta, negate, order);
      assert at != "" && !isNumber(at) && code == AdjustCode(at, delta, negate, OuterOrder(optOrder));
      CodeIndex(code)
  }

  /** The index with the offset written out. */
  function OffsetCode(at: string, delta: int): (o: string)
    ensures delta == 0 ==> o == at
    ensures |o| >= |at| && o[..|at|] == at
  {
    if delta > 0 then at + " + " + NatToString(delta)
    else if delta < 0 then at + " - " + NatToString(-delta)
    else at
  }

  /** The offset index negated on request, in parentheses when there is
      an offset. */
  function SignedCode(offset: string, delta: int, negate: bool): (s: string)
    ensures !negate ==> s == offset
    ensures negate ==> |s| >= 1 && s[0] == '-'
    ensures var k := if negate && delta != 0 then 2 else if negate then 1 else 0;
      |s| >= k + |offset| && s[k..k + |offset|] == offset
  {
    if negate then (if delta != 0 then "-(" + offset + ")" else "-" + offset) else offset
  }

  /** Whether `getAdjusted` parenthesises the adjusted index: the outer
      order binds at least as tightly as the last operator added (both
      orders rounded down). */
  predicate Parenthesised(delta: int, negate: bool, order: real) {
    var inner: Option<real> := if negate then Some(OrderUnaryNegation)
                               else if delta > 0 then Some(OrderAddition)
                               else if delta < 0 then Some(OrderSubtraction)
                               else None;
    inner.Some? && inner.value.Floor != 0 && order.Floor >= inner.value.Floor
  }

  /** The code in parentheses on request. */
  function Wrap(s: string, paren: bool): (r: string)
    ensures !paren ==> r == s
    ensures paren ==> |r| == |s| + 2 && r[0] == '(' && r[|s| + 1] == ')' && r[1..|s| + 1] == s
  {
    if paren then "(" + s + ")" else s
  }

  /** Where the child's code starts inside the adjusted index: after an
      opening parenthesis, a minus sign and the parenthesis around an
      offset, each when present. */
  function IndexStart(delta: int, negate: bool, order: real): nat {
    (if Parenthesised(delta, negate, order) then 1 else 0)
    + (if negate && delta != 0 then 2 else if negate then 1 else 0)
  }

  /** A piece found inside a piece found inside `a` is found in `a`. */
  lemma {:induction false} SliceInSlice(a: string, b: string, c: string, i: nat, j: nat)
    requires i + |b| <= |a| && a[i..i + |b|] == b
    requires j + |c| <= |b| && b[j..j + |c|] == c
    ensures i + j + |c| <= |a| && a[i + j..i + j + |c|] == c
  {
    forall n | 0 <= n < |c|
      ensures a[i + j..i + j + |c|][n] == c[n]
    {
      assert a[i + j..i + j + |c|][n] == a[i + j + n] == a[i..i + |b|][j + n] == b[j + n];
      assert b[j + n] == b[j..j + |c|][n];
    }
  }

  /** The string branch of `getAdjusted`: the offset written out, then the
      negation, then parentheses when `Parenthesised` says so. */
  function AdjustCode(at: string, delta: int, negate: bool, order: real): (r: string)
    ensures delta == 0 && !negate ==> r == at
    ensures var k := IndexStart(delta, negate, order);
      k + |at| <= |r| && r[k..k + |at|] == at
  {
    var offset := OffsetCode(at, delta);
    var signed := SignedCode(offset, delta, negate);
    var paren := Parenthesised(delta, negate, order);
    var k := if negate && delta != 0 then 2 else if negate then 1 else 0;
    WrapKeepsPieces(at, offset, signed, paren, k, negate);
    Wrap(signed, paren)
  }

  /** Wrapping keeps the child's code and the minus sign, one place later
      when parentheses are added. */
  lemma {:induction false} WrapKeepsPieces(at: string, offset: string, signed: string, paren: bool, k: nat, negate: bool)
    requires |offset| >= |at| && offset[..|at|] == at
    requires |signed| >= k + |offset| && signed[k..k + |offset|] == offset
    requires negate ==> |signed| >= 1 && signed[0] == '-'
    ensures var r := Wrap(signed, paren); var p := if paren then 1 else 0;
      && p + k + |at| <= |r| && r[p + k..p + k + |at|] == at
      && (negate ==> p < |r| && r[p] == '-')
  {
    var r := Wrap(signed, paren);
    var p := if paren then 1 else 0;
    assert r[p..p + |signed|] == signed;
    assert offset[0..|at|] == at;
    SliceInSlice(signed, offset, at, k, 0);
    SliceInSlice(r, signed, at, p, k);
    assert negate ==> r[p] == signed[0];
  }

  /** The index expression `getAdjusted` writes, as a tree. */
  datatype IndexExpr =
    | Code(text: string)
    | Plus(e: IndexExpr, n: nat)
    | Minus(e: IndexExpr, n: nat)
    | Negative(e: IndexExpr)
    | Paren(e: IndexExpr)

  function Render(e: IndexExpr): string {
    match e
    case Code(t) => t
    case Plus(a, n) => Render(a) + " + " + NatToString(n)
    case Minus(a, n) => Render(a) + " - " + NatToString(n)
    case Negative(a) => "-" + Render(a)
    case Paren(a) => "(" + Render(a) + ")"
  }

  /** The value of an index expression when the code denotes `x`. */
  function Eval(e: IndexExpr, x: int): int {
    match e
    case Code(_) => x
    case Plus(a, n) => Eval(a, x) + n
    case Minus(a, n) => Eval(a, x) - n
    case Negative(a) => -Eval(a, x)
    case Paren(a) => Eval(a, x)
  }

  /** The tree of the index with the offset. */
  function OffsetTree(at: string, delta: int): IndexExpr {
    if delta > 0 then Plus(Code(at), delta) else if delta < 0 then Minus(Code(at), -delta) else Code(at)
  }

  /** The tree of the offset index negated on request. */
  function SignedTree(offset: IndexExpr, delta: int, negate: bool): IndexExpr {
    if negate then (if delta != 0 then Negative(Paren(offset)) else Negative(offset)) else offset
  }

  /** The tree of the adjusted index. */
  function AdjustTree(at: string, delta: int, negate: bool, order: real): IndexExpr {
    var signed := SignedTree(OffsetTree(at, delta), delta, negate);
    var innerFloor := if negate then 4 else if delta > 0 then 6 else if delta < 0 then 6 else 0;
    if innerFloor != 0 && order.Floor >= innerFloor then Paren(signed) else signed
  }

  /** The offset tree renders as the offset code and adds `delta`. */
  lemma OffsetTreeMeaning(at: string, delta: int, x: int)
    ensures Render(OffsetTree(at, delta)) == OffsetCode(at, delta)
    ensures Eval(OffsetTree(at, delta), x) == x + delta
  {
  }

  /** The signed tree renders as the signed code and negates on request. */
  lemma SignedTreeMeaning(offset: IndexExpr, delta: int, negate: bool, x: int)
    ensures Render(SignedTree(offset, delta, negate)) == SignedCode(Render(offset), delta, negate)
    ensures Eval(SignedTree(offset, delta, negate), x) == if negate then -Eval(offset, x) else Eval(offset, x)
  {
    assert "-" + ("(" + Render(offset) + ")") == "-(" + Render(offset) + ")";
  }

  /** The code `getAdjusted` writes is the rendered tree, and the tree
      computes the index plus `delta`, negated on request. */
  lemma AdjustCodeMeaning(at: string, delta: int, negate: bool, order: real, x: int)
    ensures AdjustCode(at, delta, negate, order) == Render(AdjustTree(at, delta, negate, order))
    ensures Eval(AdjustTree(at, delta, negate, order), x) == if negate then -(x + delta) else x + delta
  {
    assert OrderUnaryNegation.Floor == 4;
    assert OrderAddition.Floor == 6;
    assert OrderSubtraction.Floor == 6;
    OffsetTreeMeaning(at, delta, x);
    SignedTreeMeaning(OffsetTree(at, delta), delta, negate, x);
  }

  /** With no offset and no negation the code is the child's code as it
      is; otherwise it is parenthesised exactly when the rounded outer
      order is at least the rounded order of the last operator. */
  lemma AdjustCodeParens(at: string, delta: int, negate: bool, order: real)
    ensures delta == 0 && !negate ==> AdjustCode(at, delta, negate, order) == at
    ensures negate ==> (AdjustTree(at, delta, negate, order).Paren? <==> order.Floor >= 4)
    ensures !negate && delta != 0 ==> (AdjustTree(at, delta, negate, order).Paren? <==> order.Floor >= 6)
  {
    assert OrderUnaryNegation.Floor == 4;
    assert OrderAddition.Floor == 6;
    assert OrderSubtraction.Floor == 6;
  }

  /** A one-based workspace is a zero-based one with `delta` one less,
      whenever the child gives code. */
  lemma OneBasedShifts(valueToCode: real -> string, isNumber: string -> bool, optDelta: int, negate: bool, optOrder: Option<real>)
    requires valueToCode(RequestOrder(optDelta - 1, negate, OuterOrder(optOrder))) != ""
    ensures GetAdjusted(true, valueToCode, isNumber, optDelta, negate, optOrder) ==
            GetAdjusted(false, valueToCode, isNumber, optDelta - 1, negate, optOrder)
  {
  }
}

=== FILE: typedlang_blocks.dfy ===
/** The OCaml-style generators (generators/typedlang/blocks.js). */
module TypedLangBlocks {
  import opened TypedLang
  import opened CodeText

  /** `logic_boolean_typed`. */
  function BooleanCode(field: string): (r: (string, real))
    ensures r.0 == "true" <==> field == "TRUE"
    ensures r.0 == "true" || r.0 == "false"
    ensures r.1 == OrderAtomic
  {
    (if field == "TRUE" then "true" else "false", OrderAtomic)
  }

  /** The field reads back from the code: `true` for TRUE, `false` for
      FALSE. */
  lemma BooleanCodeInverse(field: string)
    requires field == "TRUE" || field == "FALSE"
    ensures (if BooleanCode(field).0 == "true" then "TRUE" else "FALSE") == field
  {
  }

  datatype CompareOp = EQ | NEQ | LT | LTE | GT | GTE

  /** The OCaml comparison operators. */
  function CompareSymbol(op: CompareOp): string {
    match op
    case EQ => "="
    case NEQ => "<>"
    case LT => "<"
    case LTE => "<="
    case GT => ">"
    case GTE => ">="
  }

  /** `logic_compare_typed`: the operands around the operator, in
      parentheses. */
  function CompareCode(a: string, op: CompareOp, b: string): (r: (string, real))
    ensures r.1 == OrderAtomic
    ensures var s := CompareSymbol(op);
      && |r.0| == |a| + |s| + |b| + 4
      && r.0[0] == '(' && r.0[|r.0| - 1] == ')'
      && r.0[1..|a| + 1] == a
      && r.0[|a| + 1..|a| + |s| + 3] == " " + s + " "
      && r.0[|a| + |s| + 3..|r.0| - 1] == b
  {
    var code := "(" + a + " " + CompareSymbol(op) + " " + b + ")";
    (code, OrderAtomic)
  }

  /** Different comparisons of the same operands give different code. */
  lemma CompareCodeInjective(a: string, op1: CompareOp, op2: CompareOp, b: string)
    requires CompareCode(a, op1, b) == CompareCode(a, op2, b)
    ensures op1 == op2
  {
    var r1, r2 := CompareCode(a, op1, b).0, CompareCode(a, op2, b).0;
    var s1, s2 := CompareSymbol(op1), CompareSymbol(op2);
    assert |s1| == |s2|;
    assert r1[|a| + 1..|a| + |s1| + 3] == " " + s1 + " ";
    assert r2[|a| + 1..|a| + |s2| + 3] == " " + s2 + " ";
    assert s1 == (" " + s1 + " ")[1..|s1| + 1];
    assert s2 == (" " + s2 + " ")[1..|s2| + 1];
  }

  /** `logic_ternary_typed`: an OCaml conditional expression, the
      condition after `if`, the then-branch after `then` and the
      else-branch after `else`. */
  function TernaryCode(c: string, t: string, e: string): (r: (string, real))
    ensures r.1 == OrderAtomic
    ensures |r.0| == |c| + |t| + |e| + 15
    ensures r.0[..3] == "if " && r.0[3..3 + |c|] == c
    ensures r.0[3 + |c|..9 + |c|] == " then " && r.0[9 + |c|..9 + |c| + |t|] == t
    ensures r.0[9 + |c| + |t|..15 + |c| + |t|] == " else " && r.0[15 + |c| + |t|..] == e
  {
    ("if " + c + " then " + t + " else " + e, OrderAtomic)
  }

  /** The conditional's code gives back its three children once the
      lengths of the condition and the then-branch are known. */
  lemma TernaryCodeInjective(c: string, t: string, e: string, c': string, t': string, e': string)
    requires TernaryCode(c, t, e) == TernaryCode(c', t', e')
    requires |c| == |c'| && |t| == |t'|
    ensures c == c' && t == t' && e == e'
  {
    var r := TernaryCode(c, t, e).0;
    assert c == r[3..3 + |c|] == c';
    assert t == r[9 + |c|..9 + |c| + |t|] == t';
    assert e == r[15 + |c| + |t|..] == e';
  }

  datatype ArithOp = Add | Minus | Multiply | Divide

  function IntSymbol(op: ArithOp): string {
    match op
    case Add => " + "
    case Minus => " - "
    case Multiply => " * "
    case Divide => " / "
  }

  function FloatSymbol(op: ArithOp): string {
    match op
    case Add => " +. "
    case Minus => " -. "
    case Multiply => " *. "
    case Divide => " /. "
  }

  function ArithOrder(op: ArithOp): real {
    match op
    case Add => OrderAddition
    case Minus => OrderSubtraction
    case Multiply => OrderMultiplication
    case Divide => OrderDivision
  }

  /** `int_arithmetic_typed`: always parenthesised, so always atomic. */
  function IntArithmeticCode(op: ArithOp, a: string, b: string): (r: (string, real))
    ensures r.1 == OrderAtomic
    ensures |r.0| == |a| + |b| + 5
    ensures r.0[0] == '(' && r.0[|r.0| - 1] == ')'
    ensures r.0[1..|r.0| - 1] == a + IntSymbol(op) + b
  {
    ("(" + a + IntSymbol(op) + b + ")", OrderAtomic)
  }

  /** `float_arithmetic_typed`: parenthesised too, but reporting the
      operator's own order. */
  function FloatArithmeticCode(op: ArithOp, a: string, b: string): (r: (string, real))
    ensures r.1 == ArithOrder(op) && r.1 != OrderAtomic
    ensures |r.0| == |a| + |b| + 6
    ensures r.0[0] == '(' && r.0[|r.0| - 1] == ')'
    ensures r.0[1..|r.0| - 1] == a + FloatSymbol(op) + b
  {
    ("(" + a + FloatSymbol(op) + b + ")", ArithOrder(op))
  }

  /** Each float operator is the int operator with a dot after the
      symbol, and the int table is injective. */
  lemma FloatSymbolIsDotted(op: ArithOp, op2: ArithOp)
    ensures FloatSymbol(op) == IntSymbol(op)[..2] + "." + IntSymbol(op)[2..]
    ensures IntSymbol(op) == IntSymbol(op2) ==> op == op2
  {
  }

  /** `lists_create_with_typed` of this file: the items' code joined by
      commas, a missing item left empty. */
  function ListCode(items: seq<string>): (r: (string, real))
    ensures r.1 == OrderAtomic
    ensures |r.0| >= 2 && r.0[0] == '[' && r.0[|r.0| - 1] == ']'
    ensures r.0[1..|r.0| - 1] == Join(items, ", ")
  {
    ("[" + Join(items, ", ") + "]", OrderAtomic)
  }

  /** One more item adds a comma and that item before the bracket. */
  lemma ListCodeSnoc(items: seq<string>, x: string)
    requires |items| > 0
    ensures var before := ListCode(items).0;
      ListCode(items + [x]).0 == before[..|before| - 1] + ", " + x + "]"
  {
    JoinSnoc(items, x, ", ");
    var before := ListCode(items).0;
    assert before[..|before| - 1] == "[" + Join(items, ", ");
  }

  /** `pair_create_typed`. */
  function PairCode(fst: string, snd: string): (r: (string, real))
    ensures r.1 == OrderAtomic
    ensures |r.0| == |fst| + |snd| + 4
    ensures r.0[0] == '(' && r.0[|r.0| - 1] == ')'
    ensures r.0[1..|r.0| - 1] == Join([fst, snd], ", ")
  {
    ("(" + fst + ", " + snd + ")", OrderAtomic)
  }

  /** A pair's code is the code of the two-element list with parentheses
      for brackets. */
  lemma PairCodeIsTwoElementList(fst: string, snd: string)
    ensures var p, l := PairCode(fst, snd).0, ListCode([fst, snd]).0;
      |p| == |l| && p[1..|p| - 1] == l[1..|l| - 1] && p[0] == '(' && l[0] == '['
  {
  }

  /** `pair_first_typed` and `pair_second_typed`. */
  function PairFirstCode(arg: string): (r: (string, real))
    ensures r.1 == OrderAtomic
    ensures |r.0| == |arg| + 6
    ensures r.0[..5] == "fst (" && r.0[5..|r.0| - 1] == arg && r.0[|r.0| - 1] == ')'
  {
    ("fst (" + arg + ")", OrderAtomic)
  }

  function PairSecondCode(arg: string): (r: (string, real))
    ensures r.1 == OrderAtomic
    ensures |r.0| == |arg| + 6
    ensures r.0[..5] == "snd (" && r.0[5..|r.0| - 1] == arg && r.0[|r.0| - 1] == ')'
  {
    ("snd (" + arg + ")", OrderAtomic)
  }

  /** The two projections of the same argument differ only in the
      function name. */
  lemma PairProjections(arg: string)
    ensures var f, g := PairFirstCode(arg).0, PairSecondCode(arg).0;
      f[..3] == "fst" && g[..3] == "snd" && f[3..] == g[3..]
  {
  }

  /** `lambda_typed`. */
  function LambdaCode(varName: string, body: string): (r: (string, real))
    ensures r.1 == OrderAtomic
    ensures |r.0| == |varName| + |body| + 8
    ensures r.0[..4] == "fun " && r.0[4..4 + |varName|] == varName
    ensures r.0[4 + |varName|..4 + |varName| + 4] == " -> " && r.0[|varName| + 8..] == body
  {
    ("fun " + varName + " -> " + body, OrderAtomic)
  }

  /** A function's code gives back the parameter and the body once the
      parameter's length is known. */
  lemma LambdaCodeInjective(v: string, body: string, v': string, body': string)
    requires LambdaCode(v, body) == LambdaCode(v', body') && |v| == |v'|
    ensures v == v' && body == body'
  {
    var r := LambdaCode(v, body).0;
    assert v == r[4..4 + |v|] == v';
    assert body == r[|v| + 8..] == body';
  }

  /** `lambda_app_typed`. */
  function AppCode(fun: string, arg: string): (r: (string, real))
    ensures r.1 == OrderAtomic
    ensures |r.0| == |fun| + |arg| + 3
    ensures r.0[0] == '(' && r.0[|r.0| - 1] == ')'
    ensures r.0[1..|r.0| - 1] == Join([fun, arg], " ")
  {
    ("(" + fun + " " + arg + ")", OrderAtomic)
  }

  /** An application's code gives back the function and the argument once
      the function's length is known. */
  lemma AppCodeInjective(fun: string, arg: string, fun': string, arg': string)
    requires AppCode(fun, arg) == AppCode(fun', arg') && |fun| == |fun'|
    ensures fun == fun' && arg == arg'
  {
    var r := AppCode(fun, arg).0;
    JoinThree(fun, arg, "", " ");
    JoinThree(fun', arg', "", " ");
    assert r[1..|r| - 1] == fun + " " + arg == fun' + " " + arg';
    assert fun == (fun + " " + arg)[..|fun|] == fun';
    assert arg == (fun + " " + arg)[|fun| + 1..] == arg';
  }

  /** The first line of a match: `match <input> with`. */
  function MatchHeader(input: string): (r: string)
    ensures |r| == |input| + 12
    ensures r[..6] == "match " && r[6..6 + |input|] == input && r[6 + |input|..] == " with\n"
  {
    "match " + input + " with\n"
  }

  /** One arm of a match: `  | <pattern> -> <output>` on a line. */
  function MatchArm(pattern: string, output: string): (r: string)
    ensures |r| == |pattern| + |output| + 9
    ensures r[..4] == "  | " && r[4..4 + |pattern|] == pattern
    ensures r[4 + |pattern|..8 + |pattern|] == " -> " && r[8 + |pattern|..|r| - 1] == output
    ensures r[|r| - 1] == '\n'
  {
    "  | " + pattern + " -> " + output + "\n"
  }

  /** `match_typed`: the header with the input, then exactly two arms, the
      first with PATTERN1 and OUTPUT1 and the second with PATTERN2 and
      OUTPUT2, whatever the number of pattern inputs the block shows. */
  function MatchCode(input: string, pattern1: string, output1: string, pattern2: string, output2: string): (r: (string, real))
    ensures r.1 == OrderAtomic
    ensures var h := |MatchHeader(input)|;
      var a1 := |MatchArm(pattern1, output1)|;
      && |r.0| == h + a1 + |MatchArm(pattern2, output2)|
      && r.0[..h] == MatchHeader(input)
      && r.0[h..h + a1] == MatchArm(pattern1, output1)
      && r.0[h + a1..] == MatchArm(pattern2, output2)
  {
    var header, arm1, arm2 := MatchHeader(input), MatchArm(pattern1, output1), MatchArm(pattern2, output2);
    assert (header + arm1 + arm2)[..|header|] == header;
    assert (header + arm1 + arm2)[|header|..|header| + |arm1|] == arm1;
    assert (header + arm1 + arm2)[|header| + |arm1|..] == arm2;
    (header + arm1 + arm2, OrderAtomic)
  }

  /** One arm of a match: a single line. */
  lemma ArmIsOneLine(pattern: string, output: string)
    requires Count(pattern, '\n') == 0 && Count(output, '\n') == 0
    ensures Count(MatchArm(pattern, output), '\n') == 1
  {
    assert Count("  | ", '\n') == 0;
    assert Count(" -> ", '\n') == 0;
    assert Count("\n", '\n') == 1;
    CountAppend("  | ", pattern, '\n');
    CountAppend("  | " + pattern, " -> ", '\n');
    CountAppend("  | " + pattern + " -> ", output, '\n');
    CountAppend("  | " + pattern + " -> " + output, "\n", '\n');
  }

  /** The header of a match: a single line. */
  lemma HeaderIsOneLine(input: string)
    requires Count(input, '\n') == 0
    ensures Count(MatchHeader(input), '\n') == 1
  {
    assert Count("match ", '\n') == 0;
    assert Count(" with\n", '\n') == 1;
    CountAppend("match ", input, '\n');
    CountAppend("match " + input, " with\n", '\n');
  }

  /** With children free of line breaks the match has three lines: the
      header and two arms. */
  lemma MatchHasTwoArms(input: string, pattern1: string, output1: string, pattern2: string, output2: string)
    requires Count(input, '\n') == 0 && Count(pattern1, '\n') == 0 && Count(output1, '\n') == 0
    requires Count(pattern2, '\n') == 0 && Count(output2, '\n') == 0
    ensures Count(MatchCode(input, pattern1, output1, pattern2, output2).0, '\n') == 3
  {
    var header := MatchHeader(input);
    var arm1 := MatchArm(pattern1, output1);
    HeaderIsOneLine(input);
    ArmIsOneLine(pattern1, output1);
    ArmIsOneLine(pattern2, output2);
    CountAppend(header, arm1, '\n');
    CountAppend(header + arm1, MatchArm(pattern2, output2), '\n');
  }

  /** The keywords opening a binding: `let `, then `rec ` when it is
      recursive. */
  function LetHead(recursive: bool): (r: string)
    ensures r == if recursive then "let rec " else "let "
  {
    "let " + (if recursive then "rec " else "")
  }

  /** The arguments of a binding as written after its name: nothing, or
      a space and the names joined by spaces. */
  function LetArgs(args: seq<string>): (r: string)
    ensures |args| == 0 <==> r == ""
    ensures |args| > 0 ==> r[0] == ' ' && r[1..] == Join(args, " ")
  {
    if |args| == 0 then "" else " " + Join(args, " ")
  }

  /** What follows the arguments: ` = `, the bound expression, ` in `,
      the body. */
  function LetBody(exp1: string, exp2: string): (r: string)
    ensures |r| == |exp1| + |exp2| + 7
    ensures r[..3] == " = " && r[3..3 + |exp1|] == exp1
    ensures r[3 + |exp1|..7 + |exp1|] == " in " && r[7 + |exp1|..] == exp2
  {
    " = " + exp1 + " in " + exp2
  }

  /** What follows a binding's name. */
  function LetRest(args: seq<string>, exp1: string, exp2: string): (r: string)
    ensures |r| == |LetArgs(args)| + |LetBody(exp1, exp2)|
    ensures r[..|LetArgs(args)|] == LetArgs(args) && r[|LetArgs(args)|..] == LetBody(exp1, exp2)
  {
    LetArgs(args) + LetBody(exp1, exp2)
  }

  /** `let_typed` (and `letrec_typed`, which calls it): `let`, `rec`
      exactly for a recursive binding, the name, the arguments, then
      `= EXP1 in EXP2`. */
  function LetCode(recursive: bool, varName: string, args: seq<string>, exp1: string, exp2: string): (r: (string, real))
    ensures r.1 == OrderAtomic
    ensures var h := if recursive then 8 else 4;
      var k := h + |varName| + |LetArgs(args)|;
      && |r.0| == k + |LetBody(exp1, exp2)|
      && r.0[..h] == (if recursive then "let rec " else "let ")
      && r.0[h..h + |varName|] == varName
      && r.0[h + |varName|..k] == LetArgs(args)
      && r.0[k..] == LetBody(exp1, exp2)
  {
    var head := LetHead(recursive);
    var rest := LetRest(args, exp1, exp2);
    var code := head + varName + rest;
    assert code[..|head|] == head;
    assert code[|head|..|head| + |varName|] == varName;
    assert code[|head| + |varName|..] == rest;
    (code, OrderAtomic)
  }

  /** The name is always followed by a space: the argument list's, or the
      one before `=` when there are no arguments. */
  lemma LetNameEnds(recursive: bool, varName: string, args: seq<string>, exp1: string, exp2: string)
    ensures var h := if recursive then 8 else 4;
      var code := LetCode(recursive, varName, args, exp1, exp2).0;
      && |code| > h + |varName| + 3 && code[h + |varName|] == ' '
      && (|args| == 0 ==> code[h + |varName|..h + |varName| + 3] == " = ")
  {
    var h := if recursive then 8 else 4;
    var code := LetCode(recursive, varName, args, exp1, exp2).0;
    var k := h + |varName| + |LetArgs(args)|;
    if |args| == 0 {
      assert code[k..][..3] == " = ";
    } else {
      assert code[h + |varName|..k][0] == ' ';
    }
  }

  /** A binding's name has no space and is not itself `rec`, so the
      keyword appears exactly when the block is recursive. */
  lemma {:induction false} LetRecIffRecursive(recursive: bool, varName: string, args: seq<string>, exp1: string, exp2: string)
    requires forall i :: 0 <= i < |varName| ==> varName[i] != ' '
    requires varName != "rec"
    ensures var code := LetCode(recursive, varName, args, exp1, exp2).0;
      |code| >= 8 && (code[4..8] == "rec " <==> recursive)
  {
    var code := LetCode(recursive, varName, args, exp1, exp2).0;
    LetNameEnds(recursive, varName, args, exp1, exp2);
    if !recursive {
      var n := |varName|;
      assert code[4..4 + n] == varName && code[4 + n] == ' ';
      if n >= 4 {
        assert code[4..8][3] == varName[3] != ' ';
      } else if n < 3 {
        assert code[4..8][n] == ' ' != "rec "[n];
      } else {
        assert code[4..8][..3] == varName != "rec";
      }
    }
  }
}

=== FILE: typedlang_lists.dfy ===
/** The list generator (generators/typedlang/lists.js); every other
    generator of that file is commented out. */
module TypedLangLists {
  import opened TypedLang
  import TypedLangBlocks

  /** `lists_create_with_typed` of this file: one element per input, in
      order, a missing one written `null`. */
  function ListsCreateWithCode(items: seq<string>): (r: (string, real))
    ensures r.1 == OrderAtomic
    ensures |r.0| >= 2 && r.0[0] == '[' && r.0[|r.0| - 1] == ']'
    ensures var elements := Defaulted(items, "null");
      && |elements| == |items|
      && (forall i :: 0 <= i < |items| ==> (elements[i] == items[i] || (items[i] == "" && elements[i] == "null")))
      && r.0[1..|r.0| - 1] == Join(elements, ", ")
  {
    ("[" + Join(Defaulted(items, "null"), ", ") + "]", OrderAtomic)
  }

  /** When every input is connected the two files' list generators write
      the same code; with a missing input they differ. */
  lemma ListGeneratorsAgree(items: seq<string>)
    ensures (forall i :: 0 <= i < |items| ==> items[i] != "") ==>
      ListsCreateWithCode(items) == TypedLangBlocks.ListCode(items)
    ensures ListsCreateWithCode([""]) != TypedLangBlocks.ListCode([""])
  {
    if forall i :: 0 <= i < |items| ==> items[i] != "" {
      assert Defaulted(items, "null") == items;
    }
    assert ListsCreateWithCode([""]).0 == "[null]";
    assert TypedLangBlocks.ListCode([""]).0 == "[]";
  }
}

=== FILE: typedlang_logic.dfy ===
/** The JavaScript-style logic generators (generators/typedlang/logic.js). */
module TypedLangLogic {
  import opened Wrappers
  import opened TypedLang
  import TypedLangBlocks

  /** `controls_if`: each condition (`false` when missing) with its
      branch, joined by ` else `, an optional final `else` block, and a
      line break. */
  function IfCode(conditions: seq<string>, branches: seq<string>, elseBranch: Option<string>): (r: string)
    requires |conditions| >= 1 && |branches| == |conditions|
    ensures var clauses := IfClauses(conditions, branches);
      var tail := if elseBranch.Some? then ElseTail(elseBranch.value) else "\n";
      && |r| == |clauses| + |tail| && r[..|clauses|] == clauses && r[|clauses|..] == tail
    ensures |r| > 4 && r[..4] == "if (" && r[|r| - 1] == '\n'
  {
    var clauses := IfClauses(conditions, branches);
    var tail := if elseBranch.Some? then ElseTail(elseBranch.value) else "\n";
    var r := clauses + tail;
    assert r[..|clauses|] == clauses;
    assert r[..4] == clauses[..4];
    r
  }

  /** The final `else` block and the line break. */
  function ElseTail(e: string): (r: string)
    ensures |r| == |e| + 10
    ensures r[..8] == " else {\n" && r[8..|r| - 2] == e && r[|r| - 2..] == "}\n"
  {
    " else {\n" + e + "}\n"
  }

  /** One `if` clause: the condition, `false` when missing, in
      parentheses, then the branch in braces. */
  function IfClause(condition: string, branch: string): (r: string)
    ensures var c := OrElse(condition, "false");
      && |r| == |c| + |branch| + 9
      && r[..4] == "if (" && r[4..4 + |c|] == c && r[4 + |c|..8 + |c|] == ") {\n"
      && r[8 + |c|..|r| - 1] == branch && r[|r| - 1] == '}'
  {
    "if (" + OrElse(condition, "false") + ") {\n" + branch + "}"
  }

  /** The clauses of the `do`-`while` loop, in order: the code opens with
      the first clause. */
  function IfClauses(conditions: seq<string>, branches: seq<string>): (r: string)
    requires |conditions| >= 1 && |branches| == |conditions|
    ensures |r| > 4 && r[..4] == "if ("
    ensures var first := IfClause(conditions[0], branches[0]);
      |r| >= |first| && r[..|first|] == first
    decreases |conditions|
  {
    var n := |conditions| - 1;
    var last := IfClause(conditions[n], branches[n]);
    if n == 0 then last
    else
      var before := IfClauses(conditions[..n], branches[..n]);
      var first := IfClause(conditions[0], branches[0]);
      assert conditions[..n][0] == conditions[0] && branches[..n][0] == branches[0];
      ElseKeepsPrefix(before, last, first);
      before + " else " + last
  }

  /** Appending an `else` clause keeps what the code opens with. */
  lemma {:induction false} ElseKeepsPrefix(before: string, last: string, first: string)
    requires |before| > 4 && before[..4] == "if ("
    requires |before| >= |first| && before[..|first|] == first
    ensures var r := before + " else " + last;
      |r| > 4 && r[..4] == "if (" && |r| >= |first| && r[..|first|] == first
  {
    var r := before + " else " + last;
    assert r[0..|before|] == before;
    SliceInSlice(r, before, first, 0, 0);
    SliceInSlice(r, before, "if (", 0, 0);
  }

  /** A final `else` block is the code without it, its line break moved
      after the block. */
  lemma IfElseIsTail(conditions: seq<string>, branches: seq<string>, e: string)
    requires |conditions| >= 1 && |branches| == |conditions|
    ensures var without := IfCode(conditions, branches, None);
      IfCode(conditions, branches, Some(e)) == without[..|without| - 1] + ElseTail(e)
  {
    var clauses := IfClauses(conditions, branches);
    var without := IfCode(conditions, branches, None);
    assert without[..|without| - 1] == clauses;
  }

  /** An `else if` added at the end extends the code just before the
      final `else` and line break. */
  lemma IfCodeSnoc(conditions: seq<string>, branches: seq<string>, c: string, b: string)
    requires |conditions| >= 1 && |branches| == |conditions|
    ensures var before := IfClauses(conditions, branches);
      IfCode(conditions + [c], branches + [b], None) == before + " else " + IfClause(c, b) + "\n"
  {
    assert (conditions + [c])[..|conditions|] == conditions;
    assert (branches + [b])[..|branches|] == branches;
    var code := IfCode(conditions + [c], branches + [b], None);
    var clauses := IfClauses(conditions + [c], branches + [b]);
    assert code == clauses + "\n";
  }

  /** A single clause with a missing condition tests `false`. */
  lemma IfMissingCondition(branch: string)
    ensures IfCode([""], [branch], None) == "if (false) {\n" + branch + "}\n"
  {
  }

  function CompareSymbol(op: TypedLangBlocks.CompareOp): string {
    match op
    case EQ => "=="
    case NEQ => "!="
    case LT => "<"
    case LTE => "<="
    case GT => ">"
    case GTE => ">="
  }

  /** `logic_compare_typed` of this file: operands defaulting to `0`,
      equality at EQUALITY order, the rest at RELATIONAL order. */
  function CompareCode(a: string, op: TypedLangBlocks.CompareOp, b: string): (r: (string, real))
    ensures r.1 == (if op.EQ? || op.NEQ? then OrderEquality else OrderRelational)
    ensures r.0 == Join([OrElse(a, "0"), CompareSymbol(op), OrElse(b, "0")], " ")
  {
    var order := if CompareSymbol(op) == "==" || CompareSymbol(op) == "!=" then OrderEquality else OrderRelational;
    var x, y := OrElse(a, "0"), OrElse(b, "0");
    JoinThree(x, CompareSymbol(op), y, " ");
    (x + " " + CompareSymbol(op) + " " + y, order)
  }

  /** The two files' comparison tables agree on the orderings and differ
      on equality and inequality. */
  lemma CompareTablesAgree(op: TypedLangBlocks.CompareOp)
    ensures CompareSymbol(op) == TypedLangBlocks.CompareSymbol(op) <==> !(op.EQ? || op.NEQ?)
  {
  }

  /** The truth value of `x op y` for `&&` or `||`. */
  function Apply(isAnd: bool, x: bool, y: bool): bool {
    if isAnd then x && y else x || y
  }

  /** The code of a boolean literal. */
  function Literal(x: bool): string {
    if x then "true" else "false"
  }

  /** `logic_operation`: both operands missing gives `false op false`;
      one missing gives the operator's neutral value in its place. */
  function OperationCode(op: string, a: string, b: string): (r: (string, real))
    ensures r.1 == if op == "AND" then OrderLogicalAnd else OrderLogicalOr
    ensures a == "" && b == "" ==> r.0 == Join(["false", if op == "AND" then "&&" else "||", "false"], " ")
    ensures a != "" && b != "" ==> r.0 == Join([a, if op == "AND" then "&&" else "||", b], " ")
  {
    var isAnd := op == "AND";
    var operator := if isAnd then "&&" else "||";
    var order := if isAnd then OrderLogicalAnd else OrderLogicalOr;
    var defaultArgument := if isAnd then "true" else "false";
    var x := if a == "" && b == "" then "false" else OrElse(a, defaultArgument);
    var y := if a == "" && b == "" then "false" else OrElse(b, defaultArgument);
    JoinThree(x, operator, y, " ");
    (x + " " + operator + " " + y, order)
  }

  /** A single missing operand does not change the value: the literal put
      in its place is the operator's neutral element. */
  lemma OperationMissingIsNeutral(op: string, v: bool, known: string)
    requires known != ""
    ensures var isAnd := op == "AND";
      var operator := if isAnd then "&&" else "||";
      && OperationCode(op, known, "").0 == known + " " + operator + " " + Literal(isAnd)
      && OperationCode(op, "", known).0 == Literal(isAnd) + " " + operator + " " + known
      && Apply(isAnd, v, isAnd) == v && Apply(isAnd, isAnd, v) == v
  {
  }

  /** `logic_negate`. */
  function NegateCode(arg: string): (r: (string, real))
    ensures r.1 == OrderLogicalNot
    ensures |r.0| > 1 && r.0[0] == '!' && r.0[1..] == OrElse(arg, "true")
  {
    ("!" + OrElse(arg, "true"), OrderLogicalNot)
  }

  /** Two operands negate to the same code exactly when their codes, with
      `true` for a missing one, are the same: a missing operand negates to
      `!true`, the code of the literal. */
  lemma NegateCodeInverse(a: string, b: string)
    ensures NegateCode(a) == NegateCode(b) <==> OrElse(a, "true") == OrElse(b, "true")
    ensures NegateCode("") == NegateCode("true") && NegateCode("").0 == "!true"
  {
    var x, y := NegateCode(a).0, NegateCode(b).0;
    if x == y {
      assert OrElse(a, "true") == x[1..] == OrElse(b, "true");
    }
  }

  /** `logic_ternary_typed` of this file: JavaScript's conditional, the
      condition (`false` when missing) before `?`, the then-branch (`null`
      when missing) between `?` and `:`, the else-branch (`null` when
      missing) after `:`. */
  function TernaryCode(c: string, t: string, e: string): (r: (string, real))
    ensures r.1 == OrderConditional
    ensures var x, y, z := OrElse(c, "false"), OrElse(t, "null"), OrElse(e, "null");
      && |r.0| == |x| + |y| + |z| + 6
      && r.0[..|x|] == x && r.0[|x|..|x| + 3] == " ? "
      && r.0[|x| + 3..|x| + 3 + |y|] == y && r.0[|x| + 3 + |y|..|x| + 6 + |y|] == " : "
      && r.0[|x| + 6 + |y|..] == z
  {
    var x, y, z := OrElse(c, "false"), OrElse(t, "null"), OrElse(e, "null");
    var code := x + " ? " + y + " : " + z;
    assert code[..|x|] == x;
    (code, OrderConditional)
  }

  /** Each missing operand gives the same code as its default literal, and
      a block with nothing plugged in is `false ? null : null`. */
  lemma TernaryMissingIsLiteral(c: string, t: string, e: string)
    ensures TernaryCode("", t, e) == TernaryCode("false", t, e)
    ensures TernaryCode(c, "", e) == TernaryCode(c, "null", e)
    ensures TernaryCode(c, t, "") == TernaryCode(c, t, "null")
    ensures TernaryCode("", "", "").0 == "false ? null : null"
  {
    assert OrElse("", "false") == OrElse("false", "false") == "false";
    assert OrElse("", "null") == OrElse("null", "null") == "null";
    assert "false" + " ? " + "null" + " : " + "null" == "false ? null : null";
  }
}

=== FILE: typedlang_text.dfy ===
/** The text generators (generators/typedlang/text.js). */
module TypedLangText {
  import opened TypedLang

  /** `text`: the field's text as a quoted literal. */
  function TextCode(field: string): (r: (string, real))
    ensures r.1 == OrderAtomic
    ensures |r.0| >= 2 && Unquote(r.0) == field
  {
    QuoteRoundTrip(field);
    (Quote(field), OrderAtomic)
  }

  /** `String(<x>)`. */
  function StringCall(x: string): (r: string)
    ensures |r| == |x| + 8
    ensures r[..7] == "String(" && r[7..|r| - 1] == x && r[|r| - 1] == ')'
  {
    "String(" + x + ")"
  }

  /** `text_join`, by the number of inputs; a missing input is the empty
      string literal.  One input is converted with `String`, two are
      converted and added, and from three on the inputs are the elements,
      in order, of an array literal joined with the empty separator. */
  function TextJoinCode(items: seq<string>): (r: (string, real))
    ensures |items| == 0 ==> r == ("''", OrderAtomic)
    ensures |items| == 1 ==> r == (StringCall(OrElse(items[0], "''")), OrderFunctionCall)
    ensures |items| == 2 ==>
      var a, b := StringCall(OrElse(items[0], "''")), StringCall(OrElse(items[1], "''"));
      && r.1 == OrderAddition && |r.0| == |a| + |b| + 3
      && r.0[..|a|] == a && r.0[|a|..|a| + 3] == " + " && r.0[|a| + 3..] == b
    ensures |items| >= 3 ==>
      var elements := Defaulted(items, "''");
      && r.1 == OrderFunctionCall && |r.0| >= 11
      && r.0[0] == '[' && r.0[1..|r.0| - 10] == Join(elements, ",") && r.0[|r.0| - 10..] == "].join('')"
  {
    if |items| == 0 then ("''", OrderAtomic)
    else if |items| == 1 then (StringCall(OrElse(items[0], "''")), OrderFunctionCall)
    else if |items| == 2 then
      var a, b := StringCall(OrElse(items[0], "''")), StringCall(OrElse(items[1], "''"));
      var code := a + " + " + b;
      assert code[..|a|] == a;
      (code, OrderAddition)
    else
      var code := "[" + Join(Defaulted(items, "''"), ",") + "].join('')";
      (code, OrderFunctionCall)
  }

  /** From three inputs on, one more input adds a comma and its code
      inside the array literal. */
  lemma TextJoinSnoc(items: seq<string>, x: string)
    requires |items| >= 3
    ensures var before := TextJoinCode(items).0;
      var after := TextJoinCode(items + [x]).0;
      |before| >= 11 && after == before[..|before| - 10] + "," + OrElse(x, "''") + "].join('')"
  {
    var ys, y := Defaulted(items, "''"), OrElse(x, "''");
    DefaultedSnoc(items, x, "''");
    JoinSnoc(ys, y, ",");
    var head := "[" + Join(ys, ",");
    var before := TextJoinCode(items).0;
    assert before == head + "].join('')";
    assert before[..|before| - 10] == head;
    var after := TextJoinCode(items + [x]).0;
    assert after == "[" + Join(ys + [y], ",") + "].join('')";
    assert after == head + "," + y + "].join('')";
  }

  /** Every element of a long join is non-empty: missing inputs become
      the empty string literal, never nothing. */
  lemma TextJoinElements(items: seq<string>)
    ensures forall i :: 0 <= i < |items| ==> |Defaulted(items, "''")[i]| > 0
  {
  }

  datatype Where = First | FromStart | FromEnd | Last

  /** `getIndex_`: a zero-based index expression into a string; the code
      is the rendering of the term `IndexTree` gives for `where`. */
  function GetIndex(stringName: string, where: Where, at: string): (r: string)
    ensures r == RenderIndex(IndexTree(stringName, where, at))
  {
    GetIndexRendersTree(stringName, where, at);
    match where
    case First => "0"
    case FromEnd => stringName + ".length - 1 - " + at
    case Last => stringName + ".length - 1"
    case FromStart => at
  }

  lemma GetIndexRendersTree(stringName: string, where: Where, at: string)
    ensures RenderIndex(IndexTree(stringName, where, at)) ==
      match where
      case First => "0"
      case FromEnd => stringName + ".length - 1 - " + at
      case Last => stringName + ".length - 1"
      case FromStart => at
  {
    var len1 := Sub(Length(stringName), One);
    assert RenderIndex(len1) == RenderIndex(Length(stringName)) + " - " + RenderIndex(One);
    assert RenderIndex(Sub(len1, Offset(at))) == RenderIndex(len1) + " - " + at;
  }

  /** The index expressions `getIndex_` writes: the literals 0 and 1, the
      string's length, the offset's code, and subtraction. */
  datatype IndexTerm = Zero | One | Length(name: string) | Offset(code: string) | Sub(a: IndexTerm, b: IndexTerm)

  function RenderIndex(e: IndexTerm): string {
    match e
    case Zero => "0"
    case One => "1"
    case Length(n) => n + ".length"
    case Offset(c) => c
    case Sub(a, b) => RenderIndex(a) + " - " + RenderIndex(b)
  }

  /** The value of an index expression for a string of length `len` and
      an offset whose code denotes `at`. */
  function EvalIndex(e: IndexTerm, len: int, at: int): int {
    match e
    case Zero => 0
    case One => 1
    case Length(_) => len
    case Offset(_) => at
    case Sub(a, b) => EvalIndex(a, len, at) - EvalIndex(b, len, at)
  }

  /** The index each choice of `where` stands for, as a term. */
  function IndexTree(stringName: string, where: Where, at: string): IndexTerm {
    match where
    case First => Zero
    case FromStart => Offset(at)
    case FromEnd => Sub(Sub(Length(stringName), One), Offset(at))
    case Last => Sub(Length(stringName), One)
  }

  /** The code `getIndex_` writes is the rendered term, and the term is
      the zero-based position: 0 for the first character, `at` counting
      from the start, `at` places before the last counting from the end,
      and `len - 1` for the last. */
  lemma GetIndexMeaning(stringName: string, where: Where, at: string, len: int, x: int)
    ensures GetIndex(stringName, where, at) == RenderIndex(IndexTree(stringName, where, at))
    ensures EvalIndex(IndexTree(stringName, where, at), len, x) ==
      match where
      case First => 0
      case FromStart => x
      case FromEnd => len - 1 - x
      case Last => len - 1
  {
    assert EvalIndex(Sub(Length(stringName), One), len, x) == len - 1;
  }

  /** `text_getSubstring` from the first to the last character: the text
      itself, no call at all. */
  function WholeSubstringCode(text: string): (r: (string, real))
    ensures r.1 == OrderFunctionCall
    ensures text != "" ==> r.0 == text
    ensures text == "" ==> |r.0| == 2 && Unquote(r.0) == ""
  {
    (OrElse(text, "''"), OrderFunctionCall)
  }

  /** Two texts give the same whole substring exactly when they are the
      same text, a missing one counting as the empty literal. */
  lemma WholeSubstringInverse(a: string, b: string)
    ensures WholeSubstringCode(a) == WholeSubstringCode(b) <==> OrElse(a, "''") == OrElse(b, "''")
    ensures WholeSubstringCode("") == WholeSubstringCode("''")
  {
    if a == "" {
      assert WholeSubstringCode(a).0 == "''";
    }
    if b == "" {
      assert WholeSubstringCode(b).0 == "''";
    }
  }

  datatype Case = Uppercase | Lowercase | Titlecase

  /** The method call of the built-in cases; title case has none. */
  function CaseSuffix(c: Case): string {
    match c
    case Uppercase => ".toUpperCase()"
    case Lowercase => ".toLowerCase()"
    case Titlecase => ""
  }

  /** `text_changeCase`: the text (the empty literal when missing)
      followed by the built-in method for upper and lower case; title
      case passes it to the helper function whose name is given. */
  function ChangeCaseCode(c: Case, text: string, titleFunctionName: string): (r: (string, real))
    ensures r.1 == OrderFunctionCall
    ensures var t := OrElse(text, "''");
      !c.Titlecase? ==>
        |r.0| == |t| + |CaseSuffix(c)| && r.0[..|t|] == t && r.0[|t|..] == CaseSuffix(c)
    ensures var t, n := OrElse(text, "''"), titleFunctionName;
      c.Titlecase? ==>
        |r.0| == |n| + |t| + 2 && r.0[..|n|] == n && r.0[|n|] == '(' && r.0[|n| + 1..|r.0| - 1] == t && r.0[|r.0| - 1] == ')'
  {
    var t := OrElse(text, "''");
    match c
    case Uppercase => (t + CaseSuffix(c), OrderFunctionCall)
    case Lowercase => (t + CaseSuffix(c), OrderFunctionCall)
    case Titlecase => (titleFunctionName + "(" + t + ")", OrderFunctionCall)
  }

  /** Upper and lower case of the same text give different code, and a
      missing text gives the code of the empty literal. */
  lemma ChangeCaseDistinct(text: string, name: string)
    ensures ChangeCaseCode(Uppercase, text, name) != ChangeCaseCode(Lowercase, text, name)
    ensures forall c :: ChangeCaseCode(c, "", name) == ChangeCaseCode(c, "''", name)
  {
    var t := OrElse(text, "''");
    var up, low := ChangeCaseCode(Uppercase, text, name).0, ChangeCaseCode(Lowercase, text, name).0;
    assert up[|t|..] == ".toUpperCase()" && low[|t|..] == ".toLowerCase()";
    assert up[|t|..][3] != low[|t|..][3];
    assert OrElse("", "''") == OrElse("''", "''");
  }

  /** The order the text input is generated at: member access for the
      built-in methods, none for the helper call. */
  function ChangeCaseTextOrder(c: Case): (o: real)
    ensures o == OrderMember <==> !c.Titlecase?
  {
    if c.Titlecase? then OrderNone else OrderMember
  }

  datatype TrimMode = Left | Right | Both

  function TrimSuffix(mode: TrimMode): string {
    match mode
    case Left => ".replace(/^[\\s\\xa0]+/, '')"
    case Right => ".replace(/[\\s\\xa0]+$/, '')"
    case Both => ".trim()"
  }

  /** `text_trim`: the text and the mode's fixed suffix. */
  function TrimCode(mode: TrimMode, text: string): (r: (string, real))
    ensures r.1 == OrderFunctionCall
    ensures |r.0| == |OrElse(text, "''")| + |TrimSuffix(mode)|
    ensures r.0[..|OrElse(text, "''")|] == OrElse(text, "''")
    ensures r.0[|OrElse(text, "''")|..] == TrimSuffix(mode)
  {
    (OrElse(text, "''") + TrimSuffix(mode), OrderFunctionCall)
  }

  /** The three trim suffixes are distinct. */
  lemma TrimSuffixInjective(m1: TrimMode, m2: TrimMode)
    ensures TrimSuffix(m1) == TrimSuffix(m2) ==> m1 == m2
  {
    assert TrimSuffix(Left)[10] != TrimSuffix(Right)[10];
  }

  /** The method chain `text_reverse` appends. */
  const ReverseSuffix: string := ".split('').reverse().join('')"

  /** `text_reverse`: the text (the empty literal when missing) followed
      by the split, reverse and join chain. */
  function ReverseCode(text: string): (r: (string, real))
    ensures r.1 == OrderMember
    ensures var t := OrElse(text, "''");
      |r.0| == |t| + |ReverseSuffix| && r.0[..|t|] == t && r.0[|t|..] == ReverseSuffix
  {
    var t := OrElse(text, "''");
    assert (t + ReverseSuffix)[..|t|] == t;
    (t + ReverseSuffix, OrderMember)
  }

  /** The code gives back the text's code, and a missing text gives the
      code of the empty literal. */
  lemma ReverseCodeInverse(a: string, b: string)
    ensures ReverseCode(a) == ReverseCode(b) <==> OrElse(a, "''") == OrElse(b, "''")
    ensures ReverseCode("") == ReverseCode("''")
  {
    var x, y := ReverseCode(a).0, ReverseCode(b).0;
    if x == y {
      assert OrElse(a, "''") == x[..|x| - |ReverseSuffix|] == OrElse(b, "''");
    }
  }
}

=== FILE: update_docs.dfy ===
/** The source-path normalisation of the documentation updater
    (update_docs.py): a map from each file's name in the documentation
    directory to the path it is copied from, where a path that names only
    a directory stands for the file of the same name in that directory. */
module UpdateDocs {

  /** `os.path.basename`: what follows the last `/`. */
  function Basename(path: string): (b: string)
    ensures |b| <= |path|
    ensures '/' !in b
    decreases |path|
  {
    if |path| == 0 || path[|path| - 1] == '/' then ""
    else Basename(path[..|path| - 1]) + [path[|path| - 1]]
  }

  /** The base name is the longest slash-free suffix: a suffix without a
      slash, preceded by a slash unless it is the whole path. */
  lemma {:induction false} BasenameIsLastSegment(path: string)
    ensures var b := Basename(path);
      && |b| <= |path| && b == path[|path| - |b|..]
      && (forall i :: 0 <= i < |b| ==> b[i] != '/')
      && (|b| < |path| ==> path[|path| - |b| - 1] == '/')
    decreases |path|
  {
    if |path| > 0 && path[|path| - 1] != '/' {
      var init := path[..|path| - 1];
      BasenameIsLastSegment(init);
      var b0 := Basename(init);
      assert path[|path| - |b0| - 1..] == init[|init| - |b0|..] + [path[|path| - 1]];
    }
  }

  /** A path has an empty base name exactly when it is empty or ends in
      a slash. */
  lemma BasenameEmpty(path: string)
    ensures Basename(path) == "" <==> (path == "" || path[|path| - 1] == '/')
  {
  }

  /** `verify_sourcepath`: an entry whose source path has an empty base
      name gets its own file name appended; every other entry stays. */
  function VerifySourcePath(sourceMap: map<string, string>): (r: map<string, string>)
    ensures r.Keys == sourceMap.Keys
    ensures forall name :: name in sourceMap ==>
      r[name] == (if Basename(sourceMap[name]) == "" then sourceMap[name] + name else sourceMap[name])
  {
    map name | name in sourceMap :: if Basename(sourceMap[name]) == "" then sourceMap[name] + name else sourceMap[name]
  }

  /** A file name usable as a base name: non-empty and not ending in a
      slash. */
  predicate PlainName(name: string) {
    name != "" && name[|name| - 1] != '/'
  }

  /** With plain file names, every source path has a non-empty base name
      after one pass, so a second pass changes nothing. */
  lemma VerifySourcePathIdempotent(sourceMap: map<string, string>)
    requires forall name :: name in sourceMap ==> PlainName(name)
    ensures forall name :: name in sourceMap ==> Basename(VerifySourcePath(sourceMap)[name]) != ""
    ensures VerifySourcePath(VerifySourcePath(sourceMap)) == VerifySourcePath(sourceMap)
  {
    var once := VerifySourcePath(sourceMap);
    forall name | name in sourceMap
      ensures Basename(once[name]) != ""
    {
      EntryStable(sourceMap[name], name);
    }
    var twice := VerifySourcePath(once);
    assert forall name :: name in twice ==> twice[name] == once[name];
  }

  /** The normalised path of one entry has a non-empty base name. */
  lemma EntryStable(path: string, name: string)
    requires PlainName(name)
    ensures Basename(if Basename(path) == "" then path + name else path) != ""
  {
    var p := if Basename(path) == "" then path + name else path;
    BasenameEmpty(path);
    BasenameEmpty(p);
    if Basename(path) == "" {
      assert p[|p| - 1] == name[|name| - 1];
    }
  }

  /** A directory entry becomes the file of that name in the directory,
      whatever else the map holds. */
  lemma DirectoryEntry(sourceMap: map<string, string>, name: string, dir: string)
    requires name in sourceMap && sourceMap[name] == dir + "/"
    ensures VerifySourcePath(sourceMap)[name] == dir + "/" + name
  {
    BasenameEmpty(dir + "/");
  }

  /** The updater's map as written. */
  const SourceMap: map<string, string> := map[
    "block_of_ocaml_utils.js" := "block_of_ocaml/utils.js",
    "converter.js" := "block_of_ocaml/",
    "blockly_compressed.js" := "./",
    "blocks_compressed.js" := "./",
    "typedlang_compressed.js" := "./",
    "en.js" := "msg/js/",
    "index.html" := "demos/typed/dev.html",
    "style.css" := "demos/typed/",
    "typed.js" := "demos/typed/"
  ]

  /** The updater's own map after normalisation: directory entries gain
      their file name, the others stay. */
  lemma SourceMapNormalised()
    ensures VerifySourcePath(SourceMap)["converter.js"] == "block_of_ocaml/converter.js"
    ensures VerifySourcePath(SourceMap)["en.js"] == "msg/js/en.js"
    ensures VerifySourcePath(SourceMap)["index.html"] == "demos/typed/dev.html"
  {
    var converter := SourceMap["converter.js"];
    assert converter == "block_of_ocaml/";
    BasenameEmpty(converter);
    assert "block_of_ocaml/" + "converter.js" == "block_of_ocaml/converter.js";
    var en := SourceMap["en.js"];
    assert en == "msg/js/";
    BasenameEmpty(en);
    assert "msg/js/" + "en.js" == "msg/js/en.js";
    BasenameEmpty(SourceMap["index.html"]);
  }
}

=== FILE: workbenches.dfy ===
/** The two special workbenches of the typed workspace: the pattern
    workbench (core/pattern_workbench.js), which holds pattern blocks, and
    the type workbench (core/type_workbench.js), which holds type
    constructors.  Each decides which blocks it accepts, offers no
    variables, and fills its flyout with a fixed list of blocks. */
module Workbenches {
  import opened Wrappers
  import opened TypeExpr

  /** The two kinds of workbench. */
  datatype Bench = PatternBench | TypeBench

  /** What `acceptBlock` reports to the error collector on a refusal. */
  datatype Refusal = PatternWorkbenchRefuse | TypeWorkbenchRefuse

  /** The kind of type a workbench holds, read off the type expression as
      it stands: `acceptBlock` does not dereference. */
  predicate HoldsKind(bench: Bench, t: Type) {
    match bench
    case PatternBench => t.Pattern?
    case TypeBench => t.TypeCtor?
  }

  /** `acceptBlock(block, opt_collector)` of a block whose output type is
      `out` (`None` for a block without an output connection or without a
      type).  The refusal is reported only when a collector is given. */
  function AcceptBlock(bench: Bench, out: Option<Type>, collect: bool): (r: (bool, seq<Refusal>))
    ensures r.0 <==> out.Some? && HoldsKind(bench, out.value)
    ensures r.0 ==> r.1 == []
    ensures !r.0 ==> (r.1 == [] <==> !collect)
    ensures forall i :: 0 <= i < |r.1| ==> r.1[i] == (if bench.PatternBench? then PatternWorkbenchRefuse else TypeWorkbenchRefuse)
  {
    if out.Some? && HoldsKind(bench, out.value) then (true, [])
    else if collect then (false, [if bench.PatternBench? then PatternWorkbenchRefuse else TypeWorkbenchRefuse])
    else (false, [])
  }

  /** An accepted block's type is already of the workbench's kind after
      dereferencing, since a pattern or a type constructor is no variable. */
  lemma AcceptedKindSurvivesDeref(s: Store, bench: Bench, t: Type, collect: bool)
    requires AcceptBlock(bench, Some(t), collect).0
    ensures Deref(s, t) == t && HoldsKind(bench, Deref(s, t))
  {
  }

  /** A type variable bound to a pattern is refused by the pattern
      workbench, although it dereferences to a pattern. */
  lemma BoundVariableRefused(s: Store, name: string, collect: bool)
    requires name in s.vars && s.vars[name].Pattern?
    ensures !AcceptBlock(PatternBench, Some(TVar(name)), collect).0
    ensures Deref(s, TVar(name)).Pattern?
  {
    assert DerefFrom(s, s.vars[name], {name}) == s.vars[name];
  }

  /** `getContext` and `getBlockContext`: neither workbench offers any
      variable to the blocks inside it. */
  function BenchContext<V>(bench: Bench): (ctx: map<string, V>)
    ensures forall name :: name !in ctx
  {
    map[]
  }

  // ---------------------------------------------------------------------
  // The pattern workbench's flyout (`getContentsMap_`).
  // ---------------------------------------------------------------------

  /** A record value visible at the workbench block's parent connection. */
  datatype RecordValue = RecordValue(name: string, variableKind: nat, id: string, workspaceId: string)

  /** The XML of one flyout block: its type, and for a record pattern the
      RECORD field that refers to the record value. */
  datatype BlockXml = BlockXml(blockType: string, record: Option<RecordValue>)

  /** A category of the flyout: its label and its blocks, in order. */
  datatype Category = Category(name: string, blocks: seq<BlockXml>)

  /** The `record_pattern_typed` block of each record value, in order. */
  function RecordPatterns(records: seq<RecordValue>): (xs: seq<BlockXml>)
    ensures |xs| == |records|
    ensures forall i :: 0 <= i < |xs| ==> xs[i] == BlockXml("record_pattern_typed", Some(records[i]))
  {
    if |records| == 0 then []
    else [BlockXml("record_pattern_typed", Some(records[0]))] + RecordPatterns(records[1..])
  }

  /** The blocks of a plain category, one XML per block type. */
  function PlainBlocks(types: seq<string>): (xs: seq<BlockXml>)
    ensures |xs| == |types|
    ensures forall i :: 0 <= i < |xs| ==> xs[i] == BlockXml(types[i], None)
  {
    if |types| == 0 then [] else [BlockXml(types[0], None)] + PlainBlocks(types[1..])
  }

  /** `getContentsMap_` in key order.  `parentConnected` says whether the
      workbench's block is plugged into a parent; `records` are the record
      values visible at that connection. */
  function ContentsMap(parentConnected: bool, records: seq<RecordValue>): (cs: seq<Category>)
    ensures |cs| == (if parentConnected && |records| > 0 then 3 else 2)
    ensures cs[0] == Category("list", [BlockXml("empty_construct_pattern_typed", None), BlockXml("cons_construct_pattern_typed", None)])
    ensures cs[1] == Category("pair", [BlockXml("pair_pattern_typed", None)])
    ensures |cs| == 3 ==> (cs[2].name == "record" && |cs[2].blocks| == |records| &&
      forall i :: 0 <= i < |records| ==> cs[2].blocks[i] == BlockXml("record_pattern_typed", Some(records[i])))
  {
    var fixed := [Category("list", PlainBlocks(["empty_construct_pattern_typed", "cons_construct_pattern_typed"])),
                  Category("pair", PlainBlocks(["pair_pattern_typed"]))];
    if !parentConnected || |records| == 0 then fixed
    else fixed + [Category("record", RecordPatterns(records))]
  }

  /** A block type naming a pattern block: it ends in "pattern_typed". */
  predicate PatternType(ty: string) {
    |ty| >= 13 && ty[|ty| - 13..] == "pattern_typed"
  }

  /** The four block types the pattern workbench offers are pattern types. */
  lemma PatternLiterals()
    ensures PatternType("empty_construct_pattern_typed")
    ensures PatternType("cons_construct_pattern_typed")
    ensures PatternType("pair_pattern_typed")
    ensures PatternType("record_pattern_typed")
  {
  }

  /** The type of every block offered by the pattern workbench ends in
      "pattern_typed", so each of them is a pattern block. */
  lemma ContentsArePatterns(parentConnected: bool, records: seq<RecordValue>)
    ensures var cs := ContentsMap(parentConnected, records);
      forall i, j :: 0 <= i < |cs| && 0 <= j < |cs[i].blocks| ==> PatternType(cs[i].blocks[j].blockType)
  {
    var cs := ContentsMap(parentConnected, records);
    PatternLiterals();
    forall i, j | 0 <= i < |cs| && 0 <= j < |cs[i].blocks|
      ensures PatternType(cs[i].blocks[j].blockType)
    {
      if i == 0 && j == 0 {
        assert cs[i].blocks[j].blockType == "empty_construct_pattern_typed";
      } else if i == 0 {
        assert cs[i].blocks[j].blockType == "cons_construct_pattern_typed";
      } else if i == 1 {
        assert cs[i].blocks[j].blockType == "pair_pattern_typed";
      } else {
        assert cs[i].blocks[j].blockType == "record_pattern_typed";
      }
    }
  }

  // ---------------------------------------------------------------------
  // The type workbench's flyout (`blocksForFlyout_`).
  // ---------------------------------------------------------------------

  /** A block created for the flyout, and whether `initSvg` was called on
      it. */
  datatype FlyoutBlock = FlyoutBlock(blockType: string, initialised: bool)

  /** The block types of the type workbench's flyout, in order. */
  const TypeFlyoutTypes: seq<string> :=
    ["int_type_typed", "float_type_typed", "bool_type_typed", "string_type_typed", "pair_type_constructor_typed"]

  /** `initSvg` on each created block that defines it (`hasInitSvg`). */
  function InitAll(types: seq<string>, hasInitSvg: string -> bool): (bs: seq<FlyoutBlock>)
    ensures |bs| == |types|
    ensures forall i :: 0 <= i < |bs| ==> bs[i].blockType == types[i] && (bs[i].initialised <==> hasInitSvg(types[i]))
  {
    if |types| == 0 then [] else [FlyoutBlock(types[0], hasInitSvg(types[0]))] + InitAll(types[1..], hasInitSvg)
  }

  /** `blocksForFlyout_` of the type workbench: five blocks, int, float,
      bool, string and the pair type constructor, each initialised exactly
      when it defines `initSvg`. */
  function TypeFlyout(hasInitSvg: string -> bool): (bs: seq<FlyoutBlock>)
    ensures |bs| == 5
    ensures bs[0].blockType == "int_type_typed" && bs[1].blockType == "float_type_typed" &&
      bs[2].blockType == "bool_type_typed" && bs[3].blockType == "string_type_typed" &&
      bs[4].blockType == "pair_type_constructor_typed"
    ensures forall i :: 0 <= i < 5 ==> (bs[i].initialised <==> hasInitSvg(bs[i].blockType))
  {
    InitAll(TypeFlyoutTypes, hasInitSvg)
  }

  /** Initialising two lists of block types one after the other is
      initialising their concatenation: each block is created and set up on
      its own. */
  lemma {:induction false} InitAllAppend(a: seq<string>, b: seq<string>, hasInitSvg: string -> bool)
    ensures InitAll(a + b, hasInitSvg) == InitAll(a, hasInitSvg) + InitAll(b, hasInitSvg)
  {
    if |a| > 0 {
      assert (a + b)[1..] == a[1..] + b;
      InitAllAppend(a[1..], b, hasInitSvg);
    } else {
      assert a + b == b;
    }
  }
}

=== FILE: workspace.dfy ===
/** The workspace state this model keeps (core/workspace.js): the list of
    top blocks, the undo and redo stacks with their group-wise moves, the
    chain of parent workspaces, option updates and the per-label variable
    databases.  Stacks are sequences whose top is the last element.
    Running an event and notifying listeners are outside the model. */
module Workspaces {
  import opened Wrappers
  import Blocks
  import Lists

  // ---------------------------------------------------------------------
  // Top blocks.
  // ---------------------------------------------------------------------

  /** What `removeTopBlock` throws. */
  datatype TopBlockError = BlockNotPresent

  /** `addTopBlock(block)`: appends. */
  function AddTopBlock(xs: seq<nat>, b: nat): (r: seq<nat>)
    ensures |r| == |xs| + 1 && r[..|xs|] == xs && r[|xs|] == b
  {
    xs + [b]
  }

  /** `removeTopBlock(block)`: removes the first occurrence, and throws
      when there is none. */
  function RemoveTopBlock(xs: seq<nat>, b: nat): (r: Result<seq<nat>, TopBlockError>)
    ensures r.Failure? <==> b !in xs
    ensures r.Success? ==> exists i :: 0 <= i < |xs| && xs[i] == b && b !in xs[..i] && r.value == xs[..i] + xs[i + 1..]
    ensures r.Success? ==> multiset(r.value) == multiset(xs) - multiset{b}
  {
    if b !in xs then Failure(BlockNotPresent) else Success(Lists.RemoveFirst(xs, b))
  }

  /** Adding a block that is not yet a top block and removing it again
      gives the list back. */
  lemma AddThenRemoveTopBlock(xs: seq<nat>, b: nat)
    requires b !in xs
    ensures RemoveTopBlock(AddTopBlock(xs, b), b) == Success(xs)
  {
    Lists.RemoveAppended(xs, b);
  }

  // ---------------------------------------------------------------------
  // Undo and redo.
  // ---------------------------------------------------------------------

  /** An event on a stack: its group (the empty string for none) and an
      identity standing for the rest of it. */
  datatype Event = Event(group: string, id: nat)

  /** The two stacks. */
  datatype Stacks = Stacks(undo: seq<Event>, redo: seq<Event>)

  /** `Workspace.prototype.MAX_UNDO`. */
  const MaxUndo: nat := 1024

  function Reverse<T>(s: seq<T>): (r: seq<T>)
    ensures |r| == |s|
  {
    if |s| == 0 then [] else Reverse(s[1..]) + [s[0]]
  }

  lemma {:induction false} ReverseSnoc<T>(s: seq<T>, x: T)
    ensures Reverse(s + [x]) == [x] + Reverse(s)
    decreases |s|
  {
    if |s| == 0 {
      assert Reverse([x]) == Reverse([x][1..]) + [x];
    } else {
      assert (s + [x])[1..] == s[1..] + [x];
      ReverseSnoc(s[1..], x);
    }
  }

  /** The pops of the loop in `undo`: while the stack is not empty, the
      group is not empty, and the top has that group, pop it.  Gives the
      popped events in popping order and what is left. */
  function PopRun(input: seq<Event>, g: string): (r: (seq<Event>, seq<Event>))
    ensures input == r.1 + Reverse(r.0)
    ensures forall k :: 0 <= k < |r.0| ==> r.0[k].group == g
    ensures g == "" ==> r.0 == []
    ensures r.1 == [] || g == "" || r.1[|r.1| - 1].group != g
    decreases |input|
  {
    if |input| > 0 && g != "" && input[|input| - 1].group == g then
      var (moved, rest) := PopRun(input[..|input| - 1], g);
      assert input == input[..|input| - 1] + [input[|input| - 1]];
      ([input[|input| - 1]] + moved, rest)
    else ([], input)
  }

  /** One move of `undo`: pop the top event of `input` and every event
      under it with the same non-empty group, and push them in popping
      order onto `output`.  Gives the new input and output stacks. */
  function Move(input: seq<Event>, output: seq<Event>): (r: (seq<Event>, seq<Event>))
    requires input != []
    ensures |r.0| + |r.1| == |input| + |output|
    ensures |output| < |r.1| && r.1[..|output|] == output
    ensures var top := input[|input| - 1];
      var moved := r.1[|output|..];
      && input == r.0 + Reverse(moved)
      && moved[0] == top
      && (forall k :: 0 <= k < |moved| ==> moved[k].group == top.group)
      && (top.group == "" ==> |moved| == 1)
      && (r.0 == [] || top.group == "" || r.0[|r.0| - 1].group != top.group)
  {
    var top := input[|input| - 1];
    var (moved, rest) := PopRun(input[..|input| - 1], top.group);
    var events := [top] + moved;
    assert input == input[..|input| - 1] + [top];
    assert Reverse(events) == Reverse(moved) + [top];
    var output' := output + events;
    assert output'[|output|..] == events;
    Pops(input, output)
  }

  /** The pops and pushes of a move, without their properties. */
  function Pops(input: seq<Event>, output: seq<Event>): (seq<Event>, seq<Event>)
    requires input != []
  {
    var top := input[|input| - 1];
    var pr := PopRun(input[..|input| - 1], top.group);
    (pr.1, output + ([top] + pr.0))
  }

  /** `undo(redo)`: a move from the undo stack to the redo stack, or back
      for a redo; nothing happens when the stack to pop is empty. */
  function Undo(st: Stacks, redo: bool): (r: Stacks)
    ensures |r.undo| + |r.redo| == |st.undo| + |st.redo|
    ensures !redo && st.undo != [] ==> (r.undo, r.redo) == Move(st.undo, st.redo)
    ensures redo && st.redo != [] ==> (r.redo, r.undo) == Move(st.redo, st.undo)
    ensures (if redo then st.redo else st.undo) == [] ==> r == st
  {
    var input := if redo then st.redo else st.undo;
    var output := if redo then st.undo else st.redo;
    if input == [] then st
    else
      var (input', output') := Move(input, output);
      if redo then Stacks(output', input') else Stacks(input', output')
  }

  /** Popping a run of group `g` that was pushed on top of a stack whose
      top has another group takes exactly that run. */
  lemma {:induction false} PopRunOfPushed(xs: seq<Event>, ys: seq<Event>, g: string)
    requires g != ""
    requires forall k :: 0 <= k < |ys| ==> ys[k].group == g
    requires xs == [] || xs[|xs| - 1].group != g
    ensures PopRun(xs + ys, g) == (Reverse(ys), xs)
    decreases |ys|
  {
    if |ys| == 0 {
      assert xs + ys == xs;
    } else {
      var init := ys[..|ys| - 1];
      var last := ys[|ys| - 1];
      assert ys == init + [last];
      assert (xs + ys)[..|xs + ys| - 1] == xs + init;
      PopRunOfPushed(xs, init, g);
      ReverseSnoc(init, last);
    }
  }

  lemma SplitLast<T>(xs: seq<T>, ys: seq<T>)
    requires ys != []
    ensures ys == ys[..|ys| - 1] + [ys[|ys| - 1]]
    ensures xs + ys == (xs + ys[..|ys| - 1]) + [ys[|ys| - 1]]
  {
  }

  /** A move from a stack `pre + [top]`. */
  lemma PopsOf(input: seq<Event>, output: seq<Event>, pre: seq<Event>, top: Event)
    requires input == pre + [top]
    ensures Pops(input, output) == (PopRun(pre, top.group).1, output + ([top] + PopRun(pre, top.group).0))
  {
    assert input[..|input| - 1] == pre;
  }

  /** Popping a run of group `g` pushed on a stack whose top has another
      group takes exactly that run. */
  lemma PopsPushed(xs: seq<Event>, ys: seq<Event>, rest: seq<Event>, g: string)
    requires ys != [] && g != ""
    requires forall k :: 0 <= k < |ys| ==> ys[k].group == g
    requires xs == [] || xs[|xs| - 1].group != g
    ensures Pops(xs + ys, rest) == (xs, rest + ([ys[|ys| - 1]] + Reverse(ys[..|ys| - 1])))
  {
    var m := |ys| - 1;
    var init := ys[..m];
    SplitLast(xs, ys);
    PopsOf(xs + ys, rest, xs + init, ys[m]);
    PopRunOfPushed(xs, init, g);
  }

  /** The input of a move is what stays followed by the reversed run. */
  lemma PopsSplit(input: seq<Event>, output: seq<Event>)
    requires input != []
    ensures var top := input[|input| - 1];
      var pr := PopRun(input[..|input| - 1], top.group);
      && Pops(input, output) == (pr.1, output + ([top] + pr.0))
      && input == pr.1 + Reverse([top] + pr.0)
      && (forall k :: 0 <= k < |pr.0| ==> pr.0[k].group == top.group)
      && (top.group == "" ==> pr.0 == [])
  {
    var top := input[|input| - 1];
    assert input == input[..|input| - 1] + [top];
  }

  /** Popping a single ungrouped event back. */
  lemma PopsBackSingle(output: seq<Event>, rest: seq<Event>, top: Event)
    requires top.group == ""
    ensures Pops(output + [top], rest) == (output, rest + [top])
  {
    assert (output + [top])[..|output|] == output;
    assert (output + [top])[|output|] == top;
    var pr := PopRun(output, "");
    assert pr.0 == [] && Reverse(pr.0) == [];
    assert pr.1 == output;
    assert [top] + pr.0 == [top];
  }

  /** Moving a run over and straight back gives both stacks back, unless
      the top of the output stack already had the run's group. */
  lemma MoveBack(input: seq<Event>, output: seq<Event>)
    requires input != []
    requires var g := input[|input| - 1].group; output == [] || g == "" || output[|output| - 1].group != g
    ensures var r := Move(input, output); Move(r.1, r.0) == (output, input)
  {
    var top := input[|input| - 1];
    var pr := PopRun(input[..|input| - 1], top.group);
    PopsSplit(input, output);
    assert Move(input, output) == (pr.1, output + ([top] + pr.0));
    if top.group == "" {
      assert [top] + pr.0 == [top];
      PopsBackSingle(output, pr.1, top);
      assert Reverse([top]) == [top];
    } else {
      var events := [top] + pr.0;
      PopsPushed(output, events, pr.1, top.group);
      SplitLast(output, events);
      ReverseSnoc(events[..|events| - 1], events[|events| - 1]);
    }
    assert Move(output + ([top] + pr.0), pr.1) == Pops(output + ([top] + pr.0), pr.1);
  }

  /** Undoing and then redoing gives both stacks back, unless the top of
      the redo stack already had the group of the events undone. */
  lemma UndoThenRedo(st: Stacks)
    requires st.undo != []
    requires var g := st.undo[|st.undo| - 1].group; st.redo == [] || g == "" || st.redo[|st.redo| - 1].group != g
    ensures Undo(Undo(st, false), true) == st
  {
    MoveBack(st.undo, st.redo);
  }

  /** `fireChangeListener(event)` on the stacks, as written: an undoable
      event is pushed and empties the redo stack; the overflow branch calls
      `unshift()` without arguments, which adds and removes nothing. */
  function FireAsWritten(st: Stacks, e: Event, recordUndo: bool): (r: Stacks)
    ensures recordUndo ==> r.undo == st.undo + [e] && r.redo == []
    ensures !recordUndo ==> r == st
  {
    if recordUndo then
      Stacks(st.undo + [e], [])
    else st
  }

  /** The undo stack grows past `MAX_UNDO`. */
  lemma FireAsWrittenOverflows(st: Stacks, e: Event)
    requires |st.undo| == MaxUndo
    ensures |FireAsWritten(st, e, true).undo| == MaxUndo + 1
  {
  }

  /** `fireChangeListener(event)` on the stacks with the oldest event
      dropped (`shift()`) when the stack outgrows `MAX_UNDO`. */
  function Fire(st: Stacks, e: Event, recordUndo: bool): (r: Stacks)
    ensures recordUndo ==> r.redo == [] && |r.undo| > 0 && r.undo[|r.undo| - 1] == e
    ensures recordUndo ==> (st.undo + [e] == r.undo || (|st.undo| > 0 && st.undo + [e] == [st.undo[0]] + r.undo))
    ensures recordUndo && |st.undo| <= MaxUndo ==> |r.undo| <= MaxUndo
    ensures !recordUndo ==> r == st
  {
    if recordUndo then
      var undo := st.undo + [e];
      Stacks(if |undo| > MaxUndo then undo[1..] else undo, [])
    else st
  }

  /** Firing keeps the undo stack within `MAX_UNDO` forever. */
  lemma FireBounded(st: Stacks, es: seq<Event>, recordUndo: bool)
    requires |st.undo| <= MaxUndo
    ensures |FireAll(st, es, recordUndo).undo| <= MaxUndo
    decreases |es|
  {
    if |es| > 0 {
      FireBounded(Fire(st, es[0], recordUndo), es[1..], recordUndo);
    }
  }

  /** Fire each event in turn. */
  function FireAll(st: Stacks, es: seq<Event>, recordUndo: bool): Stacks
    decreases |es|
  {
    if |es| == 0 then st else FireAll(Fire(st, es[0], recordUndo), es[1..], recordUndo)
  }

  /** `removeLatestEvents(group)`: drop the longest run at the top of the
      undo stack whose events have the non-empty group `group`. */
  function RemoveLatestEvents(undo: seq<Event>, group: string): (r: seq<Event>)
    ensures |r| <= |undo| && undo[..|r|] == r
    ensures forall k :: |r| <= k < |undo| ==> undo[k].group == group && group != ""
    ensures r == [] || group == "" || r[|r| - 1].group != group
    decreases |undo|
  {
    if |undo| > 0 && undo[|undo| - 1].group != "" && undo[|undo| - 1].group == group then
      var r := RemoveLatestEvents(undo[..|undo| - 1], group);
      assert undo[..|undo| - 1][..|r|] == undo[..|r|];
      r
    else undo
  }

  /** It leaves what `undo`'s group pop leaves. */
  lemma {:induction false} RemoveLatestEventsIsPopRun(undo: seq<Event>, group: string)
    ensures RemoveLatestEvents(undo, group) == PopRun(undo, group).1
    decreases |undo|
  {
    if |undo| > 0 && group != "" && undo[|undo| - 1].group == group {
      RemoveLatestEventsIsPopRun(undo[..|undo| - 1], group);
    }
  }

  /** `clearUndo()`. */
  function ClearUndo(st: Stacks): (r: Stacks)
    ensures |r.undo| == 0 && |r.redo| == 0
  {
    Stacks([], [])
  }

  /** After `clearUndo`, neither undo nor redo does anything. */
  lemma ClearUndoStops(st: Stacks, redo: bool)
    ensures Undo(ClearUndo(st), redo) == ClearUndo(st)
  {
  }

  // ---------------------------------------------------------------------
  // The main workspace and options.
  // ---------------------------------------------------------------------

  /** `getMainWorkspace()` over the `options.parentWorkspace` links,
      given as a map from workspace to parent.  The source loops forever on
      a cycle, so the links must be acyclic. */
  function MainWorkspace(parent: map<nat, nat>, w: nat, ghost rank: map<nat, nat>): (r: nat)
    requires Blocks.Acyclic(parent, rank)
    ensures r !in parent
    ensures exists n: nat :: Blocks.AncestorIn(parent, w, r, n)
    ensures w !in parent ==> r == w
  {
    Blocks.RootBlockSpec(parent, rank, w);
    Blocks.RootBlock(parent, w)
  }

  /** An option value as the model sees it. */
  datatype OptValue = OBool(b: bool) | ONumber(n: int) | OString(s: string)

  /** JavaScript truthiness of a possibly missing option. */
  predicate Truthy(v: Option<OptValue>) {
    match v
    case None => false
    case Some(OBool(b)) => b
    case Some(ONumber(n)) => n != 0
    case Some(OString(s)) => s != ""
  }

  /** What `updateOptions` throws. */
  datatype OptionsError = NewOptionNotSupported

  /** The layout fields `updateOptions` writes. */
  datatype Layout = Layout(rtl: bool, horizontalLayout: bool, toolboxPosition: Option<OptValue>)

  /** Look a name up among the new options. */
  function Get(values: map<string, OptValue>, key: string): Option<OptValue> {
    if key in values then Some(values[key]) else None
  }

  /** The keys the loop of `updateOptions` looks at: it stops at the first
      falsy key, the empty string. */
  function ScannedKeys(keys: seq<string>): (r: seq<string>)
    ensures |r| <= |keys| && r == keys[..|r|]
    ensures "" !in r && (|r| < |keys| ==> keys[|r|] == "")
  {
    if |keys| == 0 || keys[0] == "" then []
    else
      var r := [keys[0]] + ScannedKeys(keys[1..]);
      assert r == keys[..|r|];
      r
  }

  /** Every name in `keys` is among `known`. */
  predicate AllKnown(keys: seq<string>, known: set<string>) {
    forall i :: 0 <= i < |keys| ==> keys[i] in known
  }

  /** `updateOptions(options)` of a workspace whose options have the names
      `known`: the new options have the names `keys` in their
      `Object.keys` order and the values `values`.  It throws when a
      scanned name is not known; otherwise it sets the three layout fields
      and leaves the options themselves alone. */
  function UpdateOptions(known: set<string>, keys: seq<string>, values: map<string, OptValue>): (r: Result<Layout, OptionsError>)
    ensures r.Failure? <==> !AllKnown(ScannedKeys(keys), known)
    ensures r.Success? ==>
      r.value == Layout(Truthy(Get(values, "RTL")), Truthy(Get(values, "horizontalLayout")), Get(values, "toolboxPosition"))
  {
    var scanned := ScannedKeys(keys);
    if !AllKnown(scanned, known) then Failure(NewOptionNotSupported)
    else Success(Layout(Truthy(Get(values, "RTL")), Truthy(Get(values, "horizontalLayout")), Get(values, "toolboxPosition")))
  }

  /** Every name being known is enough for `updateOptions` to succeed, and
      an unknown non-empty name before any empty one makes it throw. */
  lemma UpdateOptionsKnown(known: set<string>, keys: seq<string>, values: map<string, OptValue>)
    ensures AllKnown(keys, known) ==> UpdateOptions(known, keys, values).Success?
    ensures (exists i :: 0 <= i < |keys| && keys[i] != "" && keys[i] !in known && "" !in keys[..i]) ==>
      UpdateOptions(known, keys, values).Failure?
  {
    var scanned := ScannedKeys(keys);
    if AllKnown(keys, known) {
      forall i | 0 <= i < |scanned| ensures scanned[i] in known {
        assert scanned[i] == keys[i];
      }
    }
    if exists i :: 0 <= i < |keys| && keys[i] != "" && keys[i] !in known && "" !in keys[..i] {
      var i :| 0 <= i < |keys| && keys[i] != "" && keys[i] !in known && "" !in keys[..i];
      assert scanned[i] == keys[i];
    }
  }

  // ---------------------------------------------------------------------
  // Variable databases by label.
  // ---------------------------------------------------------------------

  /** What `getValueDB` and `getReferenceDB` throw. */
  datatype DbMissing = DatabaseDoesNotExist

  /** `getValueDB(label)` and `getReferenceDB(label)`: the database stored
      under the label, or a throw when there is none. */
  function GetDb<L, V>(dbs: map<L, V>, key: L): (r: Result<V, DbMissing>)
    ensures r.Failure? <==> key !in dbs
    ensures r.Success? ==> r.value == dbs[key]
  {
    if key in dbs then Success(dbs[key]) else Failure(DatabaseDoesNotExist)
  }

  /** Storing a database under a label makes it retrievable, and leaves
      every other label's answer as it was. */
  lemma GetDbAfterStore<L, V>(dbs: map<L, V>, key: L, db: V, other: L)
    ensures GetDb(dbs[key := db], key) == Success(db)
    ensures other != key ==> GetDb(dbs[key := db], other) == GetDb(dbs, other)
  {
  }
}

=== FILE: workspace_tree.dfy ===
/** The tree of workspaces (core/workspace_tree.js): a root node without a
    workspace, and under every node its child nodes keyed by workspace id.

    A node's `children` object is a sequence of entries in the order
    `Object.keys` lists them, which for the generated ids is the order of
    insertion.  Nodes are never shared, so the tree is a value, and the
    node `find` returns is named by its location: the path of child
    indices to its parent and its index there. */
module WorkspaceTree {
  import opened Wrappers

  datatype Tree = Tree(workspace: Option<string>, children: seq<Entry>)
  datatype Entry = Entry(id: string, node: Tree)

  /** `WorkspaceTree.Root`: no workspace, no children. */
  const Root: Tree := Tree(None, [])

  /** The node `add` creates for workspace `w`. */
  function Fresh(w: string): Tree {
    Tree(Some(w), [])
  }

  /** Where key `id` is among the children, if it is. */
  function KeyIndex(cs: seq<Entry>, id: string): (r: Option<nat>)
    ensures r.Some? ==> r.value < |cs| && cs[r.value].id == id
    ensures r.None? <==> forall i :: 0 <= i < |cs| ==> cs[i].id != id
    ensures r.Some? ==> forall i :: 0 <= i < r.value ==> cs[i].id != id
  {
    if |cs| == 0 then None
    else if cs[0].id == id then Some(0)
    else match KeyIndex(cs[1..], id)
      case None => None
      case Some(i) => Some(i + 1)
  }

  /** The entries the loops of `find` and `remove` push: those before the
      first empty, hence falsy, key. */
  function VisibleCount(cs: seq<Entry>): (n: nat)
    ensures n <= |cs|
    ensures forall i :: 0 <= i < n ==> cs[i].id != ""
    ensures n < |cs| ==> cs[n].id == ""
  {
    if |cs| == 0 || cs[0].id == "" then 0 else 1 + VisibleCount(cs[1..])
  }

  lemma {:induction false} KeyIndexFirst(cs: seq<Entry>, i: nat, id: string)
    requires i < |cs| && cs[i].id == id
    requires forall j :: 0 <= j < i ==> cs[j].id != id
    ensures KeyIndex(cs, id) == Some(i)
  {
    if i > 0 {
      KeyIndexFirst(cs[1..], i - 1, id);
    }
  }

  /** Some node at or below `t`'s children is stored under key `id`. */
  predicate OccursBelow(t: Tree, id: string)
    decreases t
  {
    exists i :: 0 <= i < |t.children| && (t.children[i].id == id || OccursBelow(t.children[i].node, id))
  }

  /** No key anywhere in the tree is the empty string. */
  predicate NoEmptyKeys(t: Tree)
    decreases t
  {
    forall i :: 0 <= i < |t.children| ==> t.children[i].id != "" && NoEmptyKeys(t.children[i].node)
  }

  /** The node reached from `t` by following child indices. */
  function NodeAt(t: Tree, path: seq<nat>): Option<Tree>
    decreases |path|
  {
    if |path| == 0 then Some(t)
    else if path[0] < |t.children| then NodeAt(t.children[path[0]].node, path[1..])
    else None
  }

  lemma {:induction false} NodeAtSnoc(t: Tree, p: seq<nat>, i: nat)
    requires NodeAt(t, p).Some? && i < |NodeAt(t, p).value.children|
    ensures NodeAt(t, p + [i]) == Some(NodeAt(t, p).value.children[i].node)
    decreases |p|
  {
    if |p| > 0 {
      assert (p + [i])[1..] == p[1..] + [i];
      NodeAtSnoc(t.children[p[0]].node, p[1..], i);
    }
  }

  /** A key found at a location occurs below the root. */
  lemma {:induction false} KeyAtOccurs(t: Tree, p: seq<nat>, k: nat, id: string)
    requires NodeAt(t, p).Some? && k < |NodeAt(t, p).value.children| && NodeAt(t, p).value.children[k].id == id
    ensures OccursBelow(t, id)
    decreases |p|
  {
    if |p| > 0 {
      KeyAtOccurs(t.children[p[0]].node, p[1..], k, id);
    }
  }

  // ---------------------------------------------------------------------
  // The stack walk of `find`.
  // ---------------------------------------------------------------------

  function Size(t: Tree): (n: nat)
    ensures n >= 1
    decreases t, 1
  {
    1 + SizeUpTo(t.children, |t.children|)
  }

  function SizeUpTo(cs: seq<Entry>, n: nat): nat
    requires n <= |cs|
    decreases cs, n
  {
    if n == 0 then 0 else SizeUpTo(cs, n - 1) + Size(cs[n - 1].node)
  }

  lemma {:induction false} SizeUpToMono(cs: seq<Entry>, m: nat, n: nat)
    requires m <= n <= |cs|
    ensures SizeUpTo(cs, m) <= SizeUpTo(cs, n)
    decreases n - m
  {
    if m < n {
      SizeUpToMono(cs, m, n - 1);
    }
  }

  /** A node on the stack, with its location. */
  datatype Frame = Frame(path: seq<nat>, node: Tree)

  function StackSize(st: seq<Frame>): nat {
    if |st| == 0 then 0 else StackSize(st[..|st| - 1]) + Size(st[|st| - 1].node)
  }

  lemma {:induction false} StackSizeAppend(a: seq<Frame>, b: seq<Frame>)
    ensures StackSize(a + b) == StackSize(a) + StackSize(b)
    decreases |b|
  {
    if |b| == 0 {
      assert a + b == a;
    } else {
      assert (a + b)[..|a + b| - 1] == a + b[..|b| - 1];
      StackSizeAppend(a, b[..|b| - 1]);
    }
  }

  /** The first `n` children of a node at `path`, pushed in key order. */
  function Frames(path: seq<nat>, cs: seq<Entry>, n: nat): (r: seq<Frame>)
    requires n <= |cs|
    ensures |r| == n && StackSize(r) == SizeUpTo(cs, n)
    ensures forall i :: 0 <= i < n ==> r[i] == Frame(path + [i], cs[i].node)
  {
    if n == 0 then []
    else
      var r := Frames(path, cs, n - 1) + [Frame(path + [n - 1], cs[n - 1].node)];
      assert r[..n - 1] == Frames(path, cs, n - 1);
      r
  }

  /** One step of the loop of `find` that finds nothing on top: pop the
      top node and push its visible children. */
  function NextStack(stack: seq<Frame>): seq<Frame>
    requires |stack| > 0
  {
    var top := stack[|stack| - 1];
    stack[..|stack| - 1] + Frames(top.path, top.node.children, VisibleCount(top.node.children))
  }

  /** Popping a node and pushing its visible children shrinks the stack. */
  lemma StepSmaller(stack: seq<Frame>)
    requires |stack| > 0
    ensures StackSize(NextStack(stack)) < StackSize(stack)
  {
    var top := stack[|stack| - 1];
    var cs := top.node.children;
    StackSizeAppend(stack[..|stack| - 1], Frames(top.path, cs, VisibleCount(cs)));
    SizeUpToMono(cs, VisibleCount(cs), |cs|);
  }

  /** The loop of `find` on stack `stack`: pop a node; if it has a child
      under `id`, that child is the answer; otherwise push its children.
      The answer is given as its parent's location and its index there. */
  function FindIn(stack: seq<Frame>, id: string): Option<(seq<nat>, nat)>
    decreases StackSize(stack)
  {
    if |stack| == 0 then None
    else
      var top := stack[|stack| - 1];
      match KeyIndex(top.node.children, id)
      case Some(k) => Some((top.path, k))
      case None =>
        StepSmaller(stack);
        FindIn(NextStack(stack), id)
  }

  /** Every frame holds the node at its location. */
  predicate FramesIn(root: Tree, stack: seq<Frame>) {
    forall i :: 0 <= i < |stack| ==> NodeAt(root, stack[i].path) == Some(stack[i].node)
  }

  /** What the walk answers is a child stored under `id`. */
  lemma {:induction false} FindInSound(root: Tree, stack: seq<Frame>, id: string)
    requires FramesIn(root, stack)
    ensures var r := FindIn(stack, id);
      r.Some? ==> NodeAt(root, r.value.0).Some? && r.value.1 < |NodeAt(root, r.value.0).value.children| &&
                  NodeAt(root, r.value.0).value.children[r.value.1].id == id
    decreases StackSize(stack)
  {
    if |stack| > 0 {
      var top := stack[|stack| - 1];
      var rest := stack[..|stack| - 1];
      if KeyIndex(top.node.children, id).None? {
        var n := VisibleCount(top.node.children);
        var pushed := Frames(top.path, top.node.children, n);
        StackSizeAppend(rest, pushed);
        SizeUpToMono(top.node.children, n, |top.node.children|);
        var st := rest + pushed;
        forall i | 0 <= i < |st| ensures NodeAt(root, st[i].path) == Some(st[i].node) {
          if i < |rest| {
            assert st[i] == stack[i];
          } else {
            assert st[i] == Frame(top.path + [i - |rest|], top.node.children[i - |rest|].node);
            NodeAtSnoc(root, top.path, i - |rest|);
          }
        }
        FindInSound(root, st, id);
      }
    }
  }

  /** The frames below the top stay where they are after a step. */
  lemma NextStackKeeps(stack: seq<Frame>, j: nat)
    requires j < |stack| - 1
    ensures j < |NextStack(stack)| && NextStack(stack)[j] == stack[j]
  {
  }

  /** A node without the key among its children, but with it further
      down, has a pushed child below which the key occurs. */
  lemma ChildToSearch(t: Tree, id: string) returns (i: nat)
    requires OccursBelow(t, id) && NoEmptyKeys(t) && KeyIndex(t.children, id).None?
    ensures i < VisibleCount(t.children) && OccursBelow(t.children[i].node, id) && NoEmptyKeys(t.children[i].node)
  {
    var cs := t.children;
    i :| 0 <= i < |cs| && (cs[i].id == id || OccursBelow(cs[i].node, id));
    assert VisibleCount(cs) == |cs|;
  }

  /** The top node's search continues in one of the frames a step pushes. */
  lemma PushedChild(stack: seq<Frame>, id: string) returns (k: nat)
    requires |stack| > 0
    requires var t := stack[|stack| - 1].node;
      OccursBelow(t, id) && NoEmptyKeys(t) && KeyIndex(t.children, id).None?
    ensures k < |NextStack(stack)|
    ensures OccursBelow(NextStack(stack)[k].node, id) && NoEmptyKeys(NextStack(stack)[k].node)
  {
    var top := stack[|stack| - 1];
    var i := ChildToSearch(top.node, id);
    var rest := stack[..|stack| - 1];
    var pushed := Frames(top.path, top.node.children, VisibleCount(top.node.children));
    assert NextStack(stack)[|rest| + i] == pushed[i];
    k := |rest| + i;
  }

  /** Without empty keys the walk finds `id` when it occurs below any
      node on the stack. */
  lemma {:induction false} FindInComplete(stack: seq<Frame>, id: string, j: nat)
    requires j < |stack| && OccursBelow(stack[j].node, id) && NoEmptyKeys(stack[j].node)
    ensures FindIn(stack, id).Some?
    decreases StackSize(stack)
  {
    if KeyIndex(stack[|stack| - 1].node.children, id).None? {
      StepSmaller(stack);
      var k: nat;
      if j < |stack| - 1 {
        NextStackKeeps(stack, j);
        k := j;
      } else {
        k := PushedChild(stack, id);
      }
      FindInComplete(NextStack(stack), id, k);
    }
  }

  /** `find(id)` as a location: the walk from the root. */
  function FindLoc(root: Tree, id: string): (r: Option<(seq<nat>, nat)>)
    ensures r.Some? ==>
      NodeAt(root, r.value.0).Some? && r.value.1 < |NodeAt(root, r.value.0).value.children| &&
      NodeAt(root, r.value.0).value.children[r.value.1].id == id
    ensures r.Some? ==> OccursBelow(root, id)
    ensures NoEmptyKeys(root) && OccursBelow(root, id) ==> r.Some?
  {
    var stack := [Frame([], root)];
    var r := FindIn(stack, id);
    assert FramesIn(root, stack);
    FindInSound(root, stack, id);
    assert r.Some? ==> OccursBelow(root, id) by {
      if r.Some? {
        KeyAtOccurs(root, r.value.0, r.value.1, id);
      }
    }
    assert NoEmptyKeys(root) && OccursBelow(root, id) ==> r.Some? by {
      if NoEmptyKeys(root) && OccursBelow(root, id) {
        FindInComplete(stack, id, 0);
      }
    }
    r
  }

  /** `find(id)`: the node stored under `id` somewhere below the root, or
      null.  Without empty keys it answers exactly when one exists. */
  function Find(root: Tree, id: string): (r: Option<Tree>)
    ensures r.Some? ==> exists p: seq<nat>, k: nat ::
      NodeAt(root, p).Some? && k < |NodeAt(root, p).value.children| && NodeAt(root, p).value.children[k] == Entry(id, r.value)
    ensures NoEmptyKeys(root) ==> (r.Some? <==> OccursBelow(root, id))
  {
    match FindLoc(root, id)
    case None => None
    case Some((p, k)) => Some(NodeAt(root, p).value.children[k].node)
  }

  // ---------------------------------------------------------------------
  // Adding.
  // ---------------------------------------------------------------------

  /** `node.children[w] = newNode`: an existing key keeps its place and
      gets the fresh node, a new key goes last. */
  function Put(t: Tree, w: string): (r: Tree)
    ensures r.workspace == t.workspace
    ensures KeyIndex(r.children, w).Some? && r.children[KeyIndex(r.children, w).value].node == Fresh(w)
    ensures |r.children| == |t.children| + (if KeyIndex(t.children, w).Some? then 0 else 1)
    ensures forall i :: 0 <= i < |t.children| && t.children[i].id != w ==> r.children[i] == t.children[i]
  {
    match KeyIndex(t.children, w)
    case Some(i) =>
      var cs := t.children[i := Entry(w, Fresh(w))];
      KeyIndexFirst(cs, i, w);
      Tree(t.workspace, cs)
    case None =>
      var cs := t.children + [Entry(w, Fresh(w))];
      KeyIndexFirst(cs, |t.children|, w);
      Tree(t.workspace, cs)
  }

  /** `Put` on the node at `path`. */
  function PutAt(t: Tree, path: seq<nat>, w: string): (r: Tree)
    ensures r.workspace == t.workspace
    decreases |path|
  {
    if |path| == 0 then Put(t, w)
    else if path[0] < |t.children| then
      var e := t.children[path[0]];
      Tree(t.workspace, t.children[path[0] := Entry(e.id, PutAt(e.node, path[1..], w))])
    else t
  }

  lemma {:induction false} PutAtNode(t: Tree, path: seq<nat>, w: string)
    requires NodeAt(t, path).Some?
    ensures NodeAt(PutAt(t, path, w), path) == Some(Put(NodeAt(t, path).value, w))
    decreases |path|
  {
    if |path| > 0 {
      PutAtNode(t.children[path[0]].node, path[1..], w);
    }
  }

  /** What `add` throws: `find` gave null for the parent. */
  datatype TreeError = ParentNotFound

  /** `add(workspace)` for workspace `w` with parent workspace `parent`:
      under the root when there is no parent, otherwise under the node
      `find` gives for the parent, and a throw when it gives null.  The
      root keeps its null workspace. */
  function Add(root: Tree, w: string, parent: Option<string>): (r: Result<Tree, TreeError>)
    ensures parent.None? ==> r == Success(Put(root, w))
    ensures parent.Some? ==> (r.Failure? <==> FindLoc(root, parent.value).None?)
    ensures parent.Some? && r.Success? ==>
      var loc := FindLoc(root, parent.value).value;
      var p := loc.0 + [loc.1];
      && NodeAt(root, p).Some?
      && NodeAt(r.value, p) == Some(Put(NodeAt(root, p).value, w))
    ensures r.Success? ==> r.value.workspace == root.workspace
  {
    match parent
    case None => Success(Put(root, w))
    case Some(pid) =>
      match FindLoc(root, pid)
      case None => Failure(ParentNotFound)
      case Some((pp, k)) =>
        var p := pp + [k];
        NodeAtSnoc(root, pp, k);
        PutAtNode(root, p, w);
        Success(PutAt(root, p, w))
  }

  /** A workspace added without a parent is found at once, as a fresh
      node: the root's own children are looked at first. */
  lemma AddThenFind(root: Tree, w: string)
    ensures Add(root, w, None).Success?
    ensures Find(Add(root, w, None).value, w) == Some(Fresh(w))
  {
    var r := Put(root, w);
    var k := KeyIndex(r.children, w).value;
    assert FindIn([Frame([], r)], w) == Some(([], k));
  }

  // ---------------------------------------------------------------------
  // Removing.
  // ---------------------------------------------------------------------

  /** `remove(workspace)` below node `t`: delete the child under `id`,
      then do the same in every remaining child before the first empty
      key. */
  function RemoveFrom(t: Tree, id: string): (r: Tree)
    ensures r.workspace == t.workspace
    decreases t, 1
  {
    Tree(t.workspace, RemoveEntries(t.children, id, false))
  }

  /** The children after `remove` has deleted `id` from them and walked
      into those it pushes; `seenEmpty` says an empty key came earlier. */
  function RemoveEntries(cs: seq<Entry>, id: string, seenEmpty: bool): (r: seq<Entry>)
    ensures forall i :: 0 <= i < |r| ==> r[i].id != id
    decreases cs, 0
  {
    if |cs| == 0 then []
    else if cs[0].id == id then RemoveEntries(cs[1..], id, seenEmpty)
    else if seenEmpty || cs[0].id == "" then [cs[0]] + RemoveEntries(cs[1..], id, true)
    else [Entry(cs[0].id, RemoveFrom(cs[0].node, id))] + RemoveEntries(cs[1..], id, false)
  }

  /** Without empty keys, no node under `id` is left anywhere. */
  lemma {:induction false} RemoveFromRemoves(t: Tree, id: string)
    requires NoEmptyKeys(t)
    ensures !OccursBelow(RemoveFrom(t, id), id)
    decreases t, 1
  {
    assert RemoveFrom(t, id).children == RemoveEntries(t.children, id, false);
    RemoveEntriesRemove(t.children, id);
  }

  lemma {:induction false} RemoveEntriesRemove(cs: seq<Entry>, id: string)
    requires forall i :: 0 <= i < |cs| ==> cs[i].id != "" && NoEmptyKeys(cs[i].node)
    ensures var r := RemoveEntries(cs, id, false);
      forall i :: 0 <= i < |r| ==> r[i].id != id && !OccursBelow(r[i].node, id)
    decreases cs, 0
  {
    if |cs| > 0 {
      RemoveEntriesRemove(cs[1..], id);
      assert forall i :: 0 <= i < |RemoveEntries(cs[1..], id, false)| ==> !OccursBelow(RemoveEntries(cs[1..], id, false)[i].node, id);
      if cs[0].id != id {
        var rest := RemoveEntries(cs[1..], id, false);
        RemoveFromRemoves(cs[0].node, id);
        var r := RemoveEntries(cs, id, false);
        assert r == [Entry(cs[0].id, RemoveFrom(cs[0].node, id))] + rest;
        forall i | 0 <= i < |r| ensures r[i].id != id && !OccursBelow(r[i].node, id) {
          if i > 0 {
            assert r[i] == rest[i - 1];
          }
        }
      } else {
        assert RemoveEntries(cs, id, false) == RemoveEntries(cs[1..], id, false);
      }
    }
  }

  /** Removing an id that occurs nowhere changes nothing. */
  lemma {:induction false} RemoveAbsent(t: Tree, id: string)
    requires !OccursBelow(t, id)
    ensures RemoveFrom(t, id) == t
    decreases t, 1
  {
    RemoveEntriesAbsent(t.children, id, false);
  }

  lemma {:induction false} RemoveEntriesAbsent(cs: seq<Entry>, id: string, seenEmpty: bool)
    requires forall i :: 0 <= i < |cs| ==> cs[i].id != id && !OccursBelow(cs[i].node, id)
    ensures RemoveEntries(cs, id, seenEmpty) == cs
    decreases cs, 0
  {
    if |cs| > 0 {
      RemoveEntriesAbsent(cs[1..], id, seenEmpty || cs[0].id == "");
      if !seenEmpty && cs[0].id != "" {
        RemoveAbsent(cs[0].node, id);
      }
      assert cs == [cs[0]] + cs[1..];
    }
  }

  /** The entry under `id` appended last is deleted and nothing else. */
  lemma {:induction false} RemoveEntriesLast(cs: seq<Entry>, e: Entry, seenEmpty: bool)
    ensures RemoveEntries(cs + [e], e.id, seenEmpty) == RemoveEntries(cs, e.id, seenEmpty)
    decreases |cs|
  {
    if |cs| == 0 {
      assert [e][1..] == [];
    } else {
      assert (cs + [e])[1..] == cs[1..] + [e];
      RemoveEntriesLast(cs[1..], e, seenEmpty || cs[0].id == "");
      RemoveEntriesLast(cs[1..], e, seenEmpty);
    }
  }

  /** Adding a new workspace under the root and removing it gives the tree
      back. */
  lemma AddThenRemove(root: Tree, w: string)
    requires !OccursBelow(root, w)
    ensures Add(root, w, None).Success? && RemoveFrom(Add(root, w, None).value, w) == root
  {
    assert KeyIndex(root.children, w).None?;
    RemoveEntriesLast(root.children, Entry(w, Fresh(w)), false);
    RemoveEntriesAbsent(root.children, w, false);
  }
}

=== FILE: wrappers.dfy ===
/** Failure-compatible wrappers shared by every module of the model: `Option`
    stands for the source's `null`-or-object results and `Result` for an
    operation that either returns a value or throws. */
module Wrappers {

  /** A value that may be absent (the source's `null`). */
  datatype Option<+T> = None | Some(value: T) {

    predicate IsFailure() {
      None?
    }

    function PropagateFailure<U>(): Option<U>
      requires None?
    {
      None
    }

    function Extract(): T
      requires Some?
    {
      value
    }

    /** The value, or `default` when absent. */
    function GetOr(default: T): T {
      match this
      case Some(v) => v
      case None => default
    }
  }

  /** Either a value or the error the source would have thrown. */
  datatype Result<+R, +E> = Success(value: R) | Failure(error: E) {

    predicate IsFailure() {
      Failure?
    }

    function PropagateFailure<U>(): Result<U, E>
      requires Failure?
    {
      Failure(error)
    }

    function Extract(): R
      requires Success?
    {
      value
    }
  }
}
